=== FILE: README.md ===
# Codeforces student tracker — a Dafny model of its core

The tracker keeps a list of students with their Codeforces handles and
mirrors each student's Codeforces activity into a stored record:
- current and maximum rating;
- contest history;
- the most recent submissions;
- derived statistics: distinct problems solved, per-tag solved and attempted counts with a success rate, a rating histogram, an average per day.

A nightly cron job and several HTTP routes refresh those records. A
recommendation handler builds three buckets of unsolved catalog problems
behind a cached copy of the Codeforces problem set. Proxy routes validate the
Codeforces API envelope for the browser. The React client derives colours,
titles, windows, heat maps, comparison tables and a CSV export from the
stored data.

This project models that core as pure Dafny functions over immutable
datatypes:

- **Server, submission aggregation.** Aggregation comes in three variants
  that really differ, and each is modelled on its own.
  - `RouteAggregate` is the route-level sync, `syncCodeforcesData`. It counts
    every acceptance toward tags and the histogram, and its recent window is
    the first ten submissions.
  - `ServiceAggregate` is `fetchCodeforcesData`. It counts only a problem's
    first acceptance and keeps every submission.
  - `ComparisonFetch` is the client's `fetchUserData`.
- **Server, sync orchestration.**
  - `RouteSync` covers sync, the profile view that repeats it, create, sync
    by id or handle, and sync-all.
  - `ServiceSync` covers the service-level sync with its inactivity reminder.
  - `CronSync` and `CfUtils` cover the nightly `syncStudentData` loop and its
    helpers.
  - `CronService` covers the schedule holder and its update guard.
  - `CfRoutes` covers the `/api/codeforces` routes.
  - `StudentController` covers the rating-ordered listing.
- **Server, recommendations.** `Recommend` builds the three buckets and
  `CatalogCache` is the TTL cache in front of the catalog (24 hours in the
  router, 1 hour in the controller).
- **Server, response validation.** `Proxy` models the lenient and the strict
  proxy routes and their failure envelope. `Rates` models the stored
  `successRate` string and the weak-tag test that reads it back.
- **Record shape.** `StudentSchema` holds the record shape, defaults, the
  e-mail pattern and the uniqueness rules.
- **Client.** Each component has its own module: `ProfileView`, `ListPage`,
  `StudentTable`, `RecommendationsView`, `Heatmap`, `AddStudent` and
  `ComparisonView`.
- **Shared helpers.** `Histogram`, `TagTable`, `Sorting` (a stable sort),
  `Seqs`, `Text`, `Bands` (threshold chains), `Calendar` (UTC day numbers
  and Gregorian dates), `Arith` (multiplication and division facts),
  `Mapping`, `Occurrences`, `Upstream` and `Wrappers`.

Inputs stand in for what the code cannot decide itself:
- network answers, as a raised call or a returned body;
- "now";
- the result of sending an e-mail;
- the schedules `cron.validate` accepts;
- `Math.random()`.

Five places where the code does something other than its names or comments
suggest; the model follows the code:
- **Unstored fields.** The route-level `averagePerDay` and the cron sync's
  `submissions` are computed but are not schema paths. Mongoose in strict
  mode drops them, so the stored record never holds them.
- **Notification flag.** The service reads `emailNotifications.enabled`, but
  the schema declares `emailNotifications` as a Boolean. Under the declared
  schema the flag is `undefined`, so no reminder is sent. The flag is an
  input to `ServiceSync.Fetch`, and `ServiceSync.NoReminderUnderSchema`
  states the consequence.
- **Success-rate strings.** The route-level sync stores success rates as
  `"33.3%"`. The weak-tag test `successRate < 50` turns such a string into
  NaN, so a route-stored tag is never weak. Only service-stored rates
  (`"33.3"`) can be weak.
- **Strict proxy.** The strict proxy's empty-list branches for ratings and
  submissions cannot be reached (see "## Findings").
- **Comparison on the profile page.** The profile page passes its student
  under a prop name the comparison view does not read, so the view never
  compares against the profile (see "## Findings").

## Model

| member | source | states |
|---|---|---|
| StudentSchema.FindById | server/src/routes/studentRoutes.js:387-388 | the position of the student with that `_id`, and no position exactly when no stored student has it |
| StudentSchema.LookupId | server/src/routes/studentRoutes.js:387 | `findById` on a request's id throws a `CastError` with its message exactly when the id is not 24 hexadecimal digits; otherwise it finds the student with that `_id`, or no one exactly when none has it |
| StudentSchema.FindByHandle | server/src/routes/studentRoutes.js:400-401 | the position of the student with that handle, and no position exactly when no stored student has it |
| StudentSchema.Create | server/src/models/Student.js:3-50 | an insertion is refused exactly when a validator fails or the e-mail or handle is already stored (validator failures reported together); otherwise one record is appended with the given id, the trimmed name, a matching e-mail and a non-empty handle; each optional scalar path (ratings, solved count, last update, notifications, reminder count, last submission) takes the body's value when given and its schema default otherwise; the histories start empty |
| StudentSchema.CreateDefaults | server/src/models/Student.js:23-50 | a body with only name, e-mail and handle gets every default: ratings, solved and reminder counts 0, notifications on, the creation time as last update, no last-submission date, empty histories and solving data |
| StudentSchema.CreateKeepsUnique | server/src/models/Student.js:9-22 | insertion keeps e-mails and handles unique across the store |
| Proxy.ValidateLenient | server/src/routes/api.js:6-11 | a body is accepted exactly when present with status `'OK'`, and is returned unchanged (an empty list included); otherwise the error is the upstream comment or "Invalid response from Codeforces API" |
| Proxy.ValidateStrict | server/routes/api.js:9-20 | a missing body fails with "No response from Codeforces API", a non-`'OK'` one with its comment or the default, a missing or empty result with "No data found for the given handle"; a body passing all three is returned unchanged |
| Proxy.FailureReply | server/routes/api.js:31-37 | the failure envelope: `FAILED`, the upstream HTTP status or 500, and a comment taken from the upstream body, else the error message, else the route's default |
| Proxy.Lenient | server/src/routes/api.js:14-66 | a route of the mounted proxy forwards exactly the bodies the lenient validator accepts with 200, answers a validator error with 500 and a raised call with the failure envelope |
| Proxy.Strict | server/routes/api.js:23-93 | a route of the strict proxy forwards exactly the bodies the strict validator accepts with 200, and answers everything else with the failure envelope |
| Proxy.StrictRefusesEmptyList | server/routes/api.js:47-55 | as written, a strict list route never forwards an empty list: an `'OK'` body with `result: []` is a 500 with "No data found for the given handle" |
| Proxy.StrictIntended | server/routes/api.js:74-82 | the strict proxy with the empty-list branch reachable; the user route is unchanged |
| Proxy.StrictIntendedAnswersEmptyList | server/routes/api.js:49-54 | with the branch reachable, a list route answers an `'OK'` body with no entries by `{status: 'OK', result: []}` and otherwise answers as written |
| Proxy.StrictAcceptsLess | server/src/routes/api.js:6-11 | whatever the strict proxy forwards, and every raised call, the mounted proxy answers identically |
| RouteSync.Sync | server/src/routes/studentRoutes.js:430-539 | a raised call fails with its message; a non-`'OK'` or empty `user.info` fails with "Invalid Codeforces handle"; otherwise the ratings come from the first entry (0 when falsy), each later stage overwrites its own fields only when its answer is `'OK'` with an array, and no identity field changes; a usable submission list stores the route aggregation's solving data (its histogram and tag statistics), its distinct solved count as `problemsSolved` and its recent submissions; a usable rating list replaces the contest history wholesale |
| RouteSync.ProfileRefresh | server/src/routes/studentRoutes.js:67-199 | the profile view never fails: any raised call leaves the stored record as it was, and no identity field changes |
| RouteSync.ProfileRefreshAgreesWithSync | server/src/routes/studentRoutes.js:84-191 | whenever the sync succeeds the profile view stores the same record; when the sync rejects the handle the view still applies the submission and rating stages |
| RouteSync.SyncAt | server/src/routes/studentRoutes.js:389-394 | a successful sync replaces that one record and answers it; a failed one leaves the store and answers 500 with the thrown message |
| RouteSync.SyncById | server/src/routes/studentRoutes.js:385-395 | an id that is not an ObjectId answers the `catch`'s 500 "Error syncing student" with the cast message and changes nothing; 404 exactly when the id is well formed and no student has it, with the store untouched; no other student's record changes; a known id is synced and answered exactly as `SyncAt` does at its position, with "Error syncing student" on failure |
| RouteSync.SyncByHandle | server/src/routes/studentRoutes.js:398-408 | 404 exactly when no student has the handle, with the store untouched; no other student's record changes; a known handle is synced and answered exactly as `SyncAt` does at the first matching position, with "Error syncing student by handle" on failure |
| RouteSync.ViewProfile | server/src/routes/studentRoutes.js:67-72 | an id that is not an ObjectId answers the `catch`'s 500 "Error fetching student" with the cast message and changes nothing; 404 exactly for a well-formed unknown id; otherwise the record at that position is replaced by its profile refresh, which is answered with 200, and the store keeps its length |
| RouteSync.CreateAndSync | server/src/routes/studentRoutes.js:44-64 | a refused insertion answers 500 and stores nothing; otherwise the new student is appended and answered with 201, with a warning exactly when the first sync failed; after a successful sync the stored and answered record is the one the sync produced, and after a failed one the record stays as created and the warning is the sync's message, or "Failed to fetch Codeforces data" when that is empty |
| RouteSync.SyncAll | server/src/routes/studentRoutes.js:411-427 | one outcome per student in store order with its id, handle and name; an outcome carries an error exactly when that student's sync threw, and the loop goes on: a failed student keeps its record, a synced one gets the sync's record |
| RouteAggregate.AggregateSolved | server/src/routes/studentRoutes.js:453-462 | the solved set is exactly the distinct `contestId-index` keys of accepted submissions, so a repeated acceptance adds nothing |
| RouteAggregate.AggregateTags | server/src/routes/studentRoutes.js:463-479 | a tag's `solved` counts its occurrences over accepted submissions and its `attempted` over every submission with a tag array: once per submission, not per distinct problem |
| RouteAggregate.StepTagsCounts | server/src/routes/studentRoutes.js:463-479 | one submission raises `solved` by the tag's occurrences when accepted and `attempted` by its occurrences always |
| RouteAggregate.AggregateTagKeys | server/src/routes/studentRoutes.js:454 | the tag table lists each tag once, and exactly the tags some submission's problem carries |
| RouteAggregate.AggregateRatings | server/src/routes/studentRoutes.js:469-472 | the histogram count of a rating is the number of accepted submissions of problems with that truthy rating |
| RouteAggregate.AggregateRatingRows | server/src/routes/studentRoutes.js:469-472 | the histogram has one row per rating and no empty row |
| RouteAggregate.AggregateRecent | server/src/routes/studentRoutes.js:480-496 | the stored window is the submissions at positions 0 to 9 that have a problem, in list order and whatever their verdict, so at most ten |
| RouteAggregate.AggregateEarliest | server/src/routes/studentRoutes.js:497-501 | the pass keeps the smallest truthy submission time, absent exactly when no submission has one |
| RouteAggregate.AggregateLatest | server/src/routes/studentRoutes.js:497-501 | the pass keeps the largest truthy submission time, absent exactly when no submission has one |
| RouteAggregate.SolvedOccAtMostAttemptOcc | server/src/routes/studentRoutes.js:463-479 | a tag is solved at most as often as it is attempted |
| RouteAggregate.TagStats | server/src/routes/studentRoutes.js:505-514 | one stored statistic per table entry, in first-touch order |
| RouteAggregate.StoredHistogram | server/src/routes/studentRoutes.js:504 | the stored histogram lists each rating once in strictly ascending order (integer keys of a plain object), each row counting the accepted submissions of that rating, and every such rating has a row |
| RouteAggregate.TagStatsWellFormed | server/src/routes/studentRoutes.js:505-514 | every stored tag statistic carries the counts of the whole list, has `1 <= attempted` and `solved <= attempted`, so the `'0.0%'` branch is unreachable, and its rate is the percentage with a `'%'` suffix |
| RouteAggregate.TagStatsCoverTags | server/src/routes/studentRoutes.js:505 | the stored tag list names each carried tag exactly once |
| RouteAggregate.TotalSolvedIsDistinct | server/src/routes/studentRoutes.js:503-521 | `totalSolved` (and so `problemsSolved`) is the number of distinct solved keys |
| RouteAggregate.AveragePerDay | server/src/routes/studentRoutes.js:515-519 | the average is zero exactly without a solved problem or a timestamp, and otherwise multiplies back to the solved count over `max(1, ceil(span / day))` days |
| RouteAggregate.AggregateHasSpan | server/src/routes/studentRoutes.js:497-501 | earliest and latest are absent exactly when no submission has a truthy time |
| RouteAggregate.AveragePerDayZero | server/src/routes/studentRoutes.js:516 | over a whole list, the average is zero exactly when nothing is solved or no submission has a time |
| RouteAggregate.AveragePerDayValue | server/src/routes/studentRoutes.js:516-518 | otherwise the average times the days between earliest and latest is the distinct solved count |
| ServiceAggregate.AggregateSolved | server/src/services/codeforcesService.js:36-42 | the solved set is exactly the distinct `contestId``index` keys with an `'OK'` submission |
| ServiceAggregate.StepTagsCounts | server/src/services/codeforcesService.js:49-69 | one submission raises `solved` by the tag's occurrences only on a problem's first acceptance, and `attempted` by its occurrences always |
| ServiceAggregate.AggregateTags | server/src/services/codeforcesService.js:49-69 | a tag's `solved` counts its occurrences over first acceptances only, its `attempted` over every submission |
| ServiceAggregate.AggregateTagKeys | server/src/services/codeforcesService.js:50-68 | the tag map lists each tag once, and exactly the tags some submission's problem carries |
| ServiceAggregate.AggregateRatings | server/src/services/codeforcesService.js:41-47 | the histogram count of a rating is the number of first acceptances of problems with that truthy rating |
| ServiceAggregate.AggregateRatingRows | server/src/services/codeforcesService.js:41-47 | the histogram has one row per rating, no empty row, and totals at most the number of distinct solved problems |
| ServiceAggregate.FirstSolvedAtMostAttempted | server/src/services/codeforcesService.js:49-69 | a tag is solved at most as often as it is attempted |
| ServiceAggregate.SolvedWithTagIsSolved | server/src/services/codeforcesService.js:41-56 | the problems a tag's `solved` count stands for are solved problems |
| ServiceAggregate.FirstSolvedIsDistinct | server/src/services/codeforcesService.js:41-56 | when no tag array repeats a tag, a tag's `solved` is the number of distinct solved problems carrying it, so at most the solved count |
| ServiceAggregate.AggregateAllAttempted | server/src/services/codeforcesService.js:61-69 | every listed tag has been attempted, so the unguarded division in the rate never divides by zero |
| ServiceAggregate.TagStats | server/src/services/codeforcesService.js:108-113 | one stored statistic per map entry, in insertion order |
| ServiceAggregate.StoredSolvingData | server/src/services/codeforcesService.js:102-114 | `totalSolved` is the number of distinct solved keys; the histogram lists each rating once with its first-acceptance count and totals at most `totalSolved`; every tag row has the list's counts, `1 <= attempted`, `solved <= attempted` and a rate with no `'%'` |
| ServiceSync.StoredAll | server/src/services/codeforcesService.js:89-99 | every submission is kept, in order, with its `contestId-index` id, verdict, date in milliseconds, a rating exactly when truthy, and tags defaulting to `[]` |
| ServiceSync.Blocker | server/src/services/codeforcesService.js:7-31 | the first failure the code meets, in its order: a raised call, a missing user list, "Student not found" (exactly when every call answered and no student has the handle), then a missing submission list, a submission without a problem, an empty user list, a missing rating list |
| ServiceSync.Fetch | server/src/services/codeforcesService.js:7-137 | an error before the save leaves everything as it was and is rethrown; otherwise only the handle's record is replaced by the refreshed one, and the reminder bookkeeping advances (last sent now, count + 1) exactly when the newest submission is a week old, notifications are on and the send succeeded; a failed send fails the call after the save |
| ServiceSync.NoReminderUnderSchema | server/src/services/codeforcesService.js:124 | with the flag `emailNotifications.enabled` undefined, as under the declared schema, no reminder is ever counted and the call fails only before the save |
| ServiceSync.RefreshedRecord | server/src/services/codeforcesService.js:72-114 | the saved record has ratings defaulting to 0, `problemsSolved == totalSolved ==` the distinct solved count, `lastUpdated` now, the rating list mapped one-to-one into the contest history, every submission kept, and no identity field changed |
| CronSync.LastSubmissionDate | server/cron/syncData.js:33-35 | the last submission date is absent exactly when the list is empty, and is otherwise the first listed submission's time in milliseconds |
| CronSync.SyncStudent | server/cron/syncData.js:13-57 | a failed step leaves the record as it was and sends nothing; otherwise ratings default to 0, the contest history is the processed rating list, the reminder goes out exactly when notifications are on and the last submission is more than seven days old, the count rises only when it was delivered, and no other field changes |
| CronSync.SyncIdempotentWithoutReminders | server/cron/syncData.js:13-57 | with notifications off, syncing again on the same answers at the same moment changes nothing more |
| CronSync.AgreesWithServiceSync | server/cron/syncData.js:28-32 | the nightly sync and the service-level sync store the same ratings, contest history and update time; neither writes what only the other writes |
| CronSync.ReminderCountStep | server/cron/syncData.js:41-50 | a sync raises the reminder count by at most one, and by one exactly when the sync succeeded, notifications are on, the reminder was due and it was delivered |
| CronSync.SyncAll | server/cron/syncData.js:59-71 | every student of the snapshot ends as its own sync leaves it, in order and with its identifier; the model's added tally (not a value of the job) counts the students a reminder was sent to |
| CronSync.RemindedStep | server/cron/syncData.js:65-67 | visiting the next student adds its position to the reminded set exactly when its sync sent a reminder |
| CfUtils.ProcessContestData | server/utils/codeforces.js:38-47 | one entry per rating change, in order, every field copied and the date in milliseconds |
| CfUtils.ProcessSubmissionData | server/utils/codeforces.js:49-57 | one entry per submission, in order, keyed `contestId + index`; the rating is 0 exactly when the problem's rating is falsy and is that rating otherwise |
| CfUtils.FirstFailFinds | server/utils/codeforces.js:63-70 | the first non-accepted submission of a key is found exactly when one exists, and no earlier one is a non-accepted submission of that key |
| CfUtils.PassCollects | server/utils/codeforces.js:60-70 | the pass collects exactly the accepted keys, and lists every key with a non-accepted submission once, ordered by first failure |
| CfUtils.UnsolvedProblems | server/utils/codeforces.js:59-73 | the unsolved list holds exactly the keys with a non-accepted submission and no accepted one, each once, in order of first failure |
| CronService.Initial | server/src/services/cronService.js:5-6 | the schedule starts as 2 AM daily and no task is registered |
| CronService.Stop | server/src/services/cronService.js:34-36 | every registered task stops and none is removed; the schedule is kept |
| CronService.Start | server/src/services/cronService.js:8-13 | every earlier task stops and one running task on the current schedule is appended |
| CronService.UpdateSchedule | server/src/services/cronService.js:38-44 | an expression the validator refuses fails with "Invalid cron schedule" and changes nothing; an accepted one becomes the schedule and restarts the job on it |
| CronService.StartRunsOne | server/src/services/cronService.js:8-13 | after a start exactly one task runs, the newest, on the current schedule |
| CronService.UpdatesKeepOneRunning | server/src/services/cronService.js:38-44 | any series of schedule updates, valid or not, keeps at most one running task, and that task uses the current schedule |
| CronService.Failure | server/src/services/cronService.js:19-24 | a student's failure is logged exactly when that student's sync fails, with its error |
| CronService.RunJob | server/src/services/cronService.js:13-31 | the job syncs the snapshot's students in order, each on the store the earlier ones left, and records for each student whether its sync failed |
| CronService.JobSyncsEachAlone | server/src/services/cronService.js:16-25 | with unique handles, each visited student ends as its own sync alone would leave it, the students not yet visited are untouched, and no handle changes |
| CronService.SyncAlone | server/src/services/cronService.js:20 | in a store of unique handles, syncing one student's handle changes that record alone |
| CfRoutes.ParseInt | server/src/routes/codeforces.js:50 | `parseInt` is NaN exactly when, after leading white space and one optional sign, no digit of the applicable base follows: hexadecimal after a `0x` or `0X` prefix, decimal otherwise; a negative result needs a minus sign |
| CfRoutes.Magnitude | server/src/routes/codeforces.js:50 | the unsigned value is missing exactly when the digit run of its base is empty |
| CfRoutes.ParseHex | server/src/routes/codeforces.js:50 | `0x` followed by hexadecimal digits reads as their base-16 value, and with a leading minus as its negation |
| CfRoutes.HexExample | server/src/routes/codeforces.js:50 | `"0x10"` reads as 16 |
| CfRoutes.NegativeHexExample | server/src/routes/codeforces.js:50 | `"-0x1A"` reads as -26 |
| CfRoutes.BarePrefixIsNaN | server/src/routes/codeforces.js:50 | `"0x"` with no hexadecimal digit is NaN, so every contest is filtered out |
| CfRoutes.TrailingTextIgnored | server/src/routes/codeforces.js:50 | `"7days"` reads as 7: text after the digit run is ignored |
| CfRoutes.ParseIntRoundTrip | server/src/routes/codeforces.js:50 | `parseInt` reads back every integer written in decimal |
| CfRoutes.ManualSync | server/src/routes/codeforces.js:8-20 | an unknown handle is a 404 and fetches nothing; otherwise the store and the reply are the service-level sync's, 200 when it succeeds and 500 with its error when it throws (never "Student not found") |
| CfRoutes.UpdateScheduleRoute | server/src/routes/codeforces.js:23-35 | a missing or empty schedule is a 400 "Schedule is required" that leaves the job alone; a refused one is a 400 with the service's message; an accepted one restarts the job on it |
| CfRoutes.SinceDays | server/src/routes/codeforces.js:48-52 | with a parsed `days` whose cutoff is a valid `Date` the answer keeps exactly the contests dated no earlier than `days` days before now; a NaN `days`, or a cutoff beyond the ±8.64e15 ms range of `Date`, is an invalid date and keeps none |
| CfRoutes.HugeWindowKeepsNothing | server/src/routes/codeforces.js:48-52 | `?days=200000000` moves the cutoff out of the `Date` range, so nothing is kept |
| CfRoutes.Contests | server/src/routes/codeforces.js:38-58 | an unknown handle is a 404; a missing or empty `days` answers the whole stored history, any other the history filtered by `SinceDays`, which is empty when the cutoff is an invalid date |
| CfRoutes.SinceDaysMonotone | server/src/routes/codeforces.js:48-52 | a longer window keeps every contest a shorter one keeps, while the longer window's cutoff is a valid date |
| StudentController.AverageProblemsPerDay | server/src/controllers/studentController.js:22-36 | the average is 0 exactly when there is no recent submission or nothing is solved; otherwise, multiplied by the days between the oldest and newest recent submission (at least one), it gives back the solved count, so it never exceeds that count |
| StudentController.ListOne | server/src/controllers/studentController.js:19-44 | a listed student keeps its identifier, name, handle, current and maximum rating, solved count, solving data and recent submissions, and carries its average |
| StudentController.ByRating | server/src/controllers/studentController.js:14-16 | the query returns a permutation of the store |
| StudentController.ListingOrdered | server/src/controllers/studentController.js:14-16 | current ratings never rise down the listing |
| StudentController.ListedIsStored | server/src/controllers/studentController.js:14-19 | every listed entry lists a stored student |
| StudentController.StoredIsListed | server/src/controllers/studentController.js:14-19 | every stored student is listed |
| CatalogCache.Empty | server/src/routes/studentRoutes.js:7-10 | at load there is neither a cached catalog nor a timestamp |
| CatalogCache.Downloaded | server/src/routes/studentRoutes.js:238-287 | a download yields a catalog exactly when it answered with status `'OK'` and a problem list, and then it is that list |
| CatalogCache.Lookup | server/src/routes/studentRoutes.js:233-300 | a fresh cache is served without a download; a stale one is replaced by a successful download and its time; a failed download serves the old catalog, or fails with the download's error when nothing is cached |
| CatalogCache.FreshForTtl | server/src/routes/studentRoutes.js:235 | after a refresh at a non-zero time the cache is served without a download exactly while no more than the duration has passed |
| CatalogCache.CatalogNeverLost | server/src/routes/studentRoutes.js:288-299 | in the router's cache, once a catalog is cached a lookup never fails, and it serves the catalog it keeps, which is the old one or a new download stamped now |
| CatalogCache.ControllerLookup | server/src/controllers/studentController.js:91-120 | the controller's cache agrees with the router's lookup except on an `'OK'` answer without a problem list: there it stores the missing list and the current time before the failing read, so the cached catalog is lost and the request fails |
| CatalogCache.ControllerLosesCatalog | server/src/controllers/studentController.js:97-116 | a stale cached catalog and an `'OK'` answer without problems: the controller drops the catalog and fails, where the router would serve the old catalog |
| Recommend.SolvedAreAttempted | server/src/routes/studentRoutes.js:209-220 | every solved key is an attempted key |
| Recommend.WeakTags | server/src/routes/studentRoutes.js:222-226 | a tag is weak exactly when some stored statistic for it has a success rate that compares below 50 |
| Recommend.Window | server/src/routes/studentRoutes.js:228-231 | the progression window runs from `max(r - 100, 800)` to `min(r + 200, 2000)`, the weak-areas window from `max(r - 100, 800)` to `r + 100`, the practice window from `r - 100` to `r + 100` |
| Recommend.BucketContents | server/src/routes/studentRoutes.js:302-365 | a bucket holds at most five problems, ascending by rating, each from the catalog, rated, inside its window, never submitted before and (for weak areas) carrying a weak tag; every qualifying problem rated below the last kept one is kept; and when fewer than five qualify, all of them are there |
| Recommend.PickContents | server/src/routes/studentRoutes.js:308-315 | filter, stable sort by rating and `slice(0, 5)` keep at most five filtered problems in rating order, drop none rated below the last kept, and keep all when fewer than five pass |
| Recommend.ProgressionEmpty | server/src/routes/studentRoutes.js:229-231 | the progression window is empty exactly when the current rating is below 600 or above 2100, and then that bucket is empty whatever the catalog |
| Recommend.Buckets | server/src/controllers/studentController.js:122-164 | the answer has three buckets |
| Recommend.DifficultyColorIsBand | server/src/routes/studentRoutes.js:12-21 | the colour is the palette entry of the band among 1200, 1400, 1600, 1900, 2200, 2400 that the rating falls in |
| Recommend.ColorAt | server/src/routes/studentRoutes.js:12-21 | a rating between the `n`-th boundary and the next gets the `n`-th colour |
| Recommend.ColorsRise | server/src/routes/studentRoutes.js:12-21 | a harder problem never falls in an easier colour band |
| Recommend.Decorate | server/src/routes/studentRoutes.js:316-322 | a decorated problem keeps the problem and carries the colour of its rating |
| Recommend.DecoratedBuckets | server/src/routes/studentRoutes.js:303-365 | the router answers the same buckets with the same titles and problems, in the same order, only decorated |
| Recommend.DecorateAll | server/src/routes/studentRoutes.js:316-322 | decorating keeps every bucket's title and its problems, position by position |
| Recommend.RouteRecommend | server/src/routes/studentRoutes.js:202-382 | an id that is not an ObjectId answers the `catch`'s 500 "Error getting recommendations" with the cast message, and a well-formed unknown id a 404, both leaving the cache alone; otherwise the 24-hour cache is consulted, and its failure is a 500 with the error while its catalog gives the decorated buckets of the stored student |
| Recommend.ControllerRecommend | server/src/controllers/studentController.js:53-176 | without a student on the request the answer is 404; otherwise the controller's one-hour cache is consulted (including its loss of the catalog on an `'OK'` answer without problems), and its failure is a 500 while its catalog gives the plain buckets |
| RecommendationsView.Initial | client/src/components/ProblemRecommendations.js:30-32 | the panel starts loading, with no buckets and no error |
| RecommendationsView.Settle | client/src/components/ProblemRecommendations.js:36-52 | without a student identifier nothing is asked and the panel keeps loading; an answer shows its buckets; a failure shows "Failed to load recommendations" and no buckets |
| RecommendationsView.DifficultyColor | client/src/components/ProblemRecommendations.js:54-60 | the grey shade exactly for a missing or zero rating |
| RecommendationsView.DifficultyLabel | client/src/components/ProblemRecommendations.js:62-68 | "Unrated" exactly for a missing or zero rating |
| RecommendationsView.ColorMatchesLabel | client/src/components/ProblemRecommendations.js:54-68 | the colour is the title's shade, and two ratings share a colour exactly when they share a title |
| RecommendationsView.Draw | client/src/components/ProblemRecommendations.js:72 | `floor(u * width) + low` lies in `[low, low + width)` for every `u` in `[0, 1)` |
| RecommendationsView.EstimatedSolveCount | client/src/components/ProblemRecommendations.js:70-78 | the count lies in its band's range (5000-10000 below 1200 down to 50-250 from 2000), a missing rating taking the last band |
| RecommendationsView.EstimatedSuccessRate | client/src/components/ProblemRecommendations.js:80-88 | the percentage lies in its band's twenty-point range, from 60-80 below 1200 down to 10-30 from 2000 |
| RecommendationsView.EstimatesFallWithRating | client/src/components/ProblemRecommendations.js:70-88 | for the same draw a higher rating never shows more solvers or a higher success rate |
| RecommendationsView.BookmarkKey | client/src/components/ProblemRecommendations.js:143 | a bookmark names a problem by the same key the server's exclusion uses |
| RecommendationsView.Toggle | client/src/components/ProblemRecommendations.js:90-95 | toggling flips that problem's bookmark state and leaves every other entry as it was |
| RecommendationsView.ToggleTwice | client/src/components/ProblemRecommendations.js:90-95 | toggling twice restores every problem's bookmark state |
| RecommendationsView.ToggleCommutes | client/src/components/ProblemRecommendations.js:90-95 | toggles of different problems commute |
| StudentTable.Change | client/src/components/student/StudentList.js:108-113 | editing a field sets that field and leaves the others as they were |
| StudentTable.Close | client/src/components/student/StudentList.js:98-106 | closing the dialog clears every field and keeps the error line |
| StudentTable.CloseForgetsEdits | client/src/components/student/StudentList.js:98-113 | an edit followed by a close leaves the same dialog as the close alone |
| StudentTable.Submit | client/src/components/student/StudentList.js:115-127 | the list is fetched again exactly when the post succeeded and, if a handle was typed, so did its sync; then the dialog closes, otherwise it stays open with the add error |
| StudentTable.Delete | client/src/components/student/StudentList.js:129-139 | nothing happens without confirmation; a confirmed delete refetches on success and shows the delete error on failure |
| StudentTable.Cells | client/src/components/student/StudentList.js:143-150 | one cell per header, and the phone cell is always empty because no stored record has a phone number |
| StudentTable.Lines | client/src/components/student/StudentList.js:152-155 | the export has the header line first, then one line per listed student in list order |
| StudentTable.RowRoundTrip | client/src/components/student/StudentList.js:154 | splitting a student's line at commas gives back its six cells when no text field holds a comma |
| StudentTable.CsvRoundTrip | client/src/components/student/StudentList.js:141-155 | splitting the export at newlines gives back the header line and one line per student, in order, when no text field holds a newline |
| StudentTable.CellsAvoid | client/src/components/student/StudentList.js:143-150 | a cell holds a character other than a digit or minus sign only if one of the student's text fields does |
| ListPage.RatingColor | client/src/components/StudentList.js:55-64 | a missing or zero rating gets the theme's grey |
| ListPage.RatingLabel | client/src/components/StudentList.js:66-77 | a missing or zero rating is "Unrated" |
| ListPage.SameAsProfile | client/src/components/StudentList.js:55-77 | the list page colours and titles every rating exactly as the profile page does |
| ListPage.DeleteClick | client/src/components/StudentList.js:79-82 | a click remembers the student and opens the dialog, the list unchanged |
| ListPage.Without | client/src/components/StudentList.js:88 | the filtered list holds exactly the listed students with another identifier |
| ListPage.DeleteConfirm | client/src/components/StudentList.js:84-96 | with no student selected nothing changes; otherwise the dialog closes and forgets the selection whatever the outcome, and only a successful delete drops the students with that identifier |
| ListPage.DeleteCancel | client/src/components/StudentList.js:98-101 | cancelling closes the dialog and forgets the selection, the list unchanged |
| ListPage.DeleteRemovesExactlyOne | client/src/components/StudentList.js:79-96 | with unique identifiers, confirming the delete of the student at position `k` removes exactly that entry and keeps the rest in order |
| ListPage.CancelUndoesClick | client/src/components/StudentList.js:79-101 | a click followed by a cancel restores a page with no dialog open |
| ProfileView.RatingColor | client/src/components/StudentProfile.js:128-137 | a missing or zero rating gets the theme's grey |
| ProfileView.RatingColorAgreesWithServer | client/src/components/StudentProfile.js:128-137 | a rated student gets exactly the colour the server gives a recommended problem of that rating |
| ProfileView.RatingLabel | client/src/components/StudentProfile.js:139-150 | the title is "Unrated" exactly for a missing or zero rating |
| ProfileView.RatingLabelIsBand | client/src/components/StudentProfile.js:139-150 | a rated student's title is the title of the band among 1200, 1400, 1600, 1900, 2200, 2400, 2600, 3000 its rating reaches |
| ProfileView.TitleAt | client/src/components/StudentProfile.js:139-150 | a rating between the `n`-th boundary and the next gets the `n`-th title |
| ProfileView.TitlesRise | client/src/components/StudentProfile.js:139-150 | a higher rating never earns a lower title |
| ProfileView.SameTitleSameColor | client/src/components/StudentProfile.js:128-150 | two ratings with the same title have the same colour |
| ProfileView.TopTags | client/src/components/StudentProfile.js:118-126 | the top tags are eight of the stored statistics, or all of them when fewer |
| ProfileView.TopTagsOrdered | client/src/components/StudentProfile.js:123-125 | the top tags run from most to fewest solved, and no tag left out has solved more than the last one shown |
| ProfileView.RecentContests | client/src/components/StudentProfile.js:173-175 | the contest window keeps exactly the stored contests dated no earlier than the chosen number of days before now |
| ProfileView.RecentSubmissions | client/src/components/StudentProfile.js:177-179 | the submission window keeps exactly the stored submissions dated no earlier than the chosen number of days before now |
| ProfileView.WiderWindowKeeps | client/src/components/StudentProfile.js:173-179 | a wider window shows everything a narrower one shows |
| ProfileView.SolvedWithRating | client/src/components/StudentProfile.js:190 | exactly the accepted submissions in the window with a truthy rating |
| ProfileView.RoundedMean | client/src/components/StudentProfile.js:192 | the integer nearest the mean, within half a unit, a tie going away from zero |
| ProfileView.AverageRating | client/src/components/StudentProfile.js:189-193 | "N/A" exactly when no rated problem was solved in the window; otherwise the integer nearest the mean rating of those problems, within half a rating of it |
| ProfileView.AverageRatingBetween | client/src/components/StudentProfile.js:189-193 | the shown average lies between the lowest and the highest rating it averages |
| ProfileView.SumBetween | client/src/components/StudentProfile.js:192 | ratings between `lo` and `hi` sum to between `lo` and `hi` times their number |
| ProfileView.RoundedBetween | client/src/components/StudentProfile.js:192 | rounding a mean between two integers stays between them |
| ProfileView.MostDifficult | client/src/components/StudentProfile.js:200-203 | none exactly when no rated problem was solved; otherwise the first solved problem with the highest rating: every earlier one is rated strictly lower, no later one higher |
| ProfileView.RecentPanel | client/src/components/StudentProfile.js:371 | the panel shows the first ten stored submissions, or all when there are fewer |
| Heatmap.CellOf | client/src/components/SubmissionHeatMap.js:36-45 | a square carries its day and that day's count, a weekday in 0..6 and a month in 0..11 |
| Heatmap.Cells | client/src/components/SubmissionHeatMap.js:34-47 | 365 squares, the `k`-th for the day `364 - k` days before today |
| Heatmap.Laid | client/src/components/SubmissionHeatMap.js:34-47 | `n` squares of consecutive days ending today, oldest first |
| Heatmap.Generate | client/src/components/SubmissionHeatMap.js:29-47 | the walk back from today lays out exactly the calendar's squares, and collects each month shown exactly once, today's month first |
| Heatmap.Walk | client/src/components/charts/SubmissionHeatmap.js:21-39 | for any way of building a square, the `unshift` walk yields the squares oldest first and the set of their months, each once, today's month first |
| Heatmap.MonthSetIsMonthsOf | client/src/components/SubmissionHeatMap.js:46 | the months the `Set` receives are exactly the months of the days, each once, the last day's month first |
| Heatmap.AddMonth | client/src/components/SubmissionHeatMap.js:40-46 | putting a day in front and adding its month to the set keeps the set exactly the months of the days |
| Heatmap.WalkedBackCells | client/src/components/SubmissionHeatMap.js:35-47 | 365 steps of `unshift` lay out exactly the calendar's squares |
| Heatmap.SubmissionCount | client/src/components/SubmissionHeatMap.js:7-11 | a day's count is positive exactly when a stored submission was made on it, and never exceeds the number of submissions |
| Heatmap.DataCount | client/src/components/charts/SubmissionHeatmap.js:31 | a day's count is the recorded entry when non-zero, and 0 when missing or zero |
| Heatmap.ProfileCellsLit | client/src/components/SubmissionHeatMap.js:7-47 | a square of the profile calendar is lit exactly when a stored submission was made on its day |
| Heatmap.Level | client/src/components/charts/SubmissionHeatmap.js:5-11 | five intensity bands, the lowest exactly for no submissions |
| Heatmap.ColorsFollowLevel | client/src/components/SubmissionHeatMap.js:13-19 | both colourings pick by the same bands; the chart tells five and seven submissions apart and the theme does not |
| Heatmap.SameChartColorSameShade | client/src/components/charts/SubmissionHeatmap.js:5-11 | squares of equal chart colour have equal theme colour |
| Heatmap.GroupConcat | client/src/components/SubmissionHeatMap.js:49-61 | the weeks laid end to end give back every day once, in order |
| Heatmap.GroupWellFormed | client/src/components/SubmissionHeatMap.js:49-61 | grouping days of consecutive weekdays gives weeks of one to seven squares, a Saturday only as a week's last square, every week but the last ending on Saturday |
| Heatmap.CellsConsecutive | client/src/components/SubmissionHeatMap.js:35-45 | the calendar's squares have consecutive weekdays |
| Heatmap.WeeksOfCalendar | client/src/components/charts/SubmissionHeatmap.js:41-53 | the calendar's weeks hold every day once and in order, at most seven to a column, each column but the last ending on a Saturday |
| Heatmap.SortedMonths | client/src/components/SubmissionHeatMap.js:63 | the sorted labels are a permutation of the months of the window |
| Heatmap.SortedMonthsAscending | client/src/components/SubmissionHeatMap.js:63 | the profile labels each month of the window once, in ascending order |
| AddStudent.Start | client/src/components/AddStudent.js:35-43 | the wizard opens on the first step with an unchecked handle |
| AddStudent.Change | client/src/components/AddStudent.js:47-56 | an edit sets the named field only; editing the handle forgets any earlier check, editing another field keeps it |
| AddStudent.CheckHandle | client/src/components/AddStudent.js:58-77 | an empty handle is not checked; otherwise the handle is valid exactly when the lookup answered `'OK'`, which clears the error, and anything else, a raised call included, marks it invalid with "Invalid Codeforces handle" |
| AddStudent.HandleNext | client/src/components/AddStudent.js:96-102 | on the handle step an unverified handle stops the wizard with "Please verify your Codeforces handle first"; every other press advances one step |
| AddStudent.HandleBack | client/src/components/AddStudent.js:104-106 | Back moves one step back and changes nothing else |
| AddStudent.HandleSubmit | client/src/components/AddStudent.js:79-94 | success clears the error and leaves the wizard; a failure shows the server's message, or "Error adding student" when there is none, and never an empty error |
| AddStudent.Press | client/src/components/AddStudent.js:141-247 | an action whose control is absent or disabled changes nothing |
| AddStudent.PressKeepsConsistent | client/src/components/AddStudent.js:96-247 | every action keeps the wizard on one of its three steps, past the first only with ready basics, and on the last only with a handle checked valid |
| AddStudent.RunConsistent | client/src/components/AddStudent.js:79-247 | whatever the user does from the start, a student is created only from the last step, with basics that passed the first step's check and a handle the last check found valid |
| AddStudent.ValidHandleStaysValid | client/src/components/AddStudent.js:168-180 | once the handle is valid the check button is replaced by a check mark, so no check can change the wizard until the handle is edited |
| AddStudent.HandleNextPassesLastStep | client/src/components/AddStudent.js:96-102 | the handler alone would move past the last step; only the missing Next button there stops it |
| AddStudent.SchemaEmailLooksLikeEmail | client/src/components/AddStudent.js:142 | every address the schema's pattern accepts passes the first step's check |
| AddStudent.LooseEmailRefusedBySchema | client/src/components/AddStudent.js:142 | the first step's check is weaker than the schema's: `a@b.c` passes it and the server refuses it |
| ComparisonFetch.BodyData | client/src/components/StudentComparison.js:113-122 | a forwarded body is read as the upstream envelope; a proxy failure reads as a non-`'OK'` envelope carrying the proxy's comment |
| ComparisonFetch.CallData | client/src/components/StudentComparison.js:112-116 | a call yields its body exactly when it got a 2xx reply; otherwise it throws a non-empty message, the body's comment whenever there is one |
| ComparisonFetch.CollectSolved | client/src/components/StudentComparison.js:152-165 | the solved set is exactly the distinct `contestId``index` keys of accepted submissions |
| ComparisonFetch.CollectTags | client/src/components/StudentComparison.js:155-160 | a tag's `solved` counts its occurrences over accepted submissions and its `total` over all submissions |
| ComparisonFetch.CollectTagKeys | client/src/components/StudentComparison.js:150-160 | the tag table lists each tag once, and exactly the tags of the submissions |
| ComparisonFetch.OkOccAtMostAttemptOcc | client/src/components/StudentComparison.js:155-160 | a tag is solved at most as often as it is attempted |
| ComparisonFetch.ToTagRow | client/src/components/StudentComparison.js:174-179 | a row carries its tag, the solved count and the total, and a rate exactly when the total is positive |
| ComparisonFetch.TagRows | client/src/components/StudentComparison.js:173-180 | one row per tag of the table |
| ComparisonFetch.Unsorted | client/src/components/StudentComparison.js:173-179 | before the sort the rows follow the map's first-touch order, each with its tag's counts |
| ComparisonFetch.TagRowsSorted | client/src/components/StudentComparison.js:180 | the tag rows run from most to fewest solved |
| ComparisonFetch.ToHistoryRow | client/src/components/StudentComparison.js:190-198 | a history row's change is the new rating minus the old, both copied |
| ComparisonFetch.DaysSinceFirst | client/src/components/StudentComparison.js:168-170 | the divisor is at least one day |
| ComparisonFetch.Build | client/src/components/StudentComparison.js:137-199 | the solved count is the number of distinct solved keys, the average is that count over the days since the first submission and is zero exactly when nothing is solved, ratings default to 0 and the rank to "unrated", and each rating change gives one history row in order |
| ComparisonFetch.Process | client/src/components/StudentComparison.js:124-199 | the data resolve exactly when `user.info` is `'OK'` with a first entry, the other two are `'OK'` with lists and every submission has a problem with tags; a bad `user.info` throws its comment or "Invalid user handle" |
| ComparisonFetch.FetchUser | client/src/components/StudentComparison.js:109-207 | a failed `user.info` call rejects with that call's error; when several calls fail the model takes them in argument order, where `Promise.all` takes the first to fail in time |
| ComparisonFetch.FetchUserAccepts | client/src/components/StudentComparison.js:109-207 | a handle is accepted exactly when all three calls answered 2xx and the bodies pass the three checks and the pass |
| ComparisonFetch.ProxyFailureRejected | client/src/components/StudentComparison.js:124-127 | a proxy failure on `user.info` never passes: when the other calls answered, its comment is the thrown message, whatever the status code |
| ComparisonFetch.FetchedTagCounts | client/src/components/StudentComparison.js:173-180 | every tag row of an accepted handle carries its tag's whole-list counts, attempted at least once and solved at most as often, so its rate is defined |
| ComparisonFetch.FetchedTagsCover | client/src/components/StudentComparison.js:150-180 | every tag some submission carries has a row |
| ComparisonFetch.FetchedTagsFromList | client/src/components/StudentComparison.js:150-180 | every row names a tag some submission carries |
| ComparisonView.AddHandle | client/src/components/StudentComparison.js:209-238 | an empty trimmed input shows "Please enter a handle"; a handle equal, ignoring case, to a listed one (or to the `student` prop's handle, a prop the profile page never sets) shows "This handle is already added for comparison"; otherwise a successful fetch appends the trimmed handle and clears the input and error, and a failed one keeps list and input and shows a non-empty error |
| ComparisonView.ErrorText | client/src/components/StudentComparison.js:233-235 | a failed fetch shows its message whenever it has one, and never an empty error |
| ComparisonView.RemoveHandle | client/src/components/StudentComparison.js:240-242 | removal keeps exactly the handles that differ from the given one ignoring case |
| ComparisonView.AddKeepsDistinct | client/src/components/StudentComparison.js:209-238 | adding keeps the list free of case-insensitive duplicates and of the student's own handle |
| ComparisonView.RemoveUndoesAdd | client/src/components/StudentComparison.js:209-242 | removing the handle just added gives back the list as it was |
| ComparisonView.Handles | client/src/components/StudentComparison.js:59-61 | the comparison handles, preceded by the `student` prop's handle when that prop has a non-empty one; as the profile page mounts the view the prop is absent (see "## Findings") |
| ComparisonView.FetchedHandles | client/src/components/StudentComparison.js:57-62 | nothing is fetched exactly when the handle list is empty, which needs no comparison handle and no student handle; otherwise the list is fetched |
| ComparisonView.RemovingLastFetchesNothing | client/src/components/StudentComparison.js:57-62 | without a student, removing the last comparison handle triggers no fetch, so the earlier comparison is not replaced |
| ComparisonView.MountedIgnoresProfile | client/src/components/StudentProfile.js:609 | as mounted, the view sees no student: the profile's handle is not fetched, no difference is taken, and the profile's own handle is added as a comparison |
| ComparisonView.IntendedComparesAgainstProfile | client/src/components/StudentComparison.js:46-81 | with the profile's handle passed as `student`, it is fetched first, differences are taken against its user, and typing it is refused |
| ComparisonView.Rows | client/src/components/StudentComparison.js:71-81 | one row per fetched user, in order, with the user's handle and solved count; with a `student` prop the differences are taken against the first user (so the first row's are 0), without one, as on the profile page, they are 0 |
| ComparisonView.LoadAll | client/src/components/StudentComparison.js:99-101 | all users load exactly when every fetch succeeded, in handle order; any failure shows "Failed to fetch comparison data" |
| ComparisonView.Combined | client/src/components/StudentComparison.js:84-96 | the combined history is a permutation of every user's points |
| ComparisonView.CombinedOrdered | client/src/components/StudentComparison.js:96 | the combined history runs ascending by day, and the points of one day keep the order in which they were collected |
| ComparisonView.FlattenPoints | client/src/components/StudentComparison.js:84-95 | the collected points are one per history entry of each user, each tagged with that user's handle |
| Rates.RoundTenths | server/src/services/codeforcesService.js:112 | the percentage `solved / attempted * 100` in tenths, rounded half up: within half a tenth of the exact value |
| Rates.RoundTenthsAtMostHundred | server/src/services/codeforcesService.js:112 | a ratio of at most one renders as at most 100.0 |
| Rates.PercentRate | server/src/routes/studentRoutes.js:512 | the route-level rate always carries `'%'`; it is `'0.0%'` without attempts and the rounded percentage otherwise |
| Rates.BareRate | server/src/services/codeforcesService.js:112 | the service-level rate is the rounded percentage with no suffix |
| Rates.NatToStringValue | server/src/routes/studentRoutes.js:512 | the decimal digits written for a number read back as that number |
| Rates.DottedValue | server/src/routes/studentRoutes.js:225 | `w.f` with digits on both sides converts to its decimal value |
| Rates.DottedNaN | server/src/routes/studentRoutes.js:225 | a string with a non-digit after the dot converts to NaN |
| Rates.RenderValue | server/src/routes/studentRoutes.js:225 | a stored rate converts to a number exactly when it has no `'%'`, and then to the percentage it was rendered from |
| Rates.WeakIffBareBelowFifty | server/src/routes/studentRoutes.js:225 | the weak-tag test holds exactly for a rate stored without `'%'` below 50.0, so a rate the route-level sync stored is never weak |
| Histogram.Inc | server/src/services/codeforcesService.js:44-47 | recording one more problem of a rating raises that rating's count by one and no other, raises the total by one, and adds the rating to the set of rated rows |
| Histogram.IncKeepsShape | server/src/services/codeforcesService.js:44-47 | existing rows keep their places (a new rating is appended, as a Map lists first insertion), the length grows exactly when the rating is new, and one row per rating is kept |
| Histogram.CountIsRow | server/src/services/codeforcesService.js:104-107 | in a histogram with one row per rating, each listed `{rating, count}` row carries that rating's count, and every counted rating has its row |
| Histogram.Ascending | server/src/routes/studentRoutes.js:504 | the rows as `Object.entries` lists integer keys: a rearrangement of the same rows, ascending by rating |
| Histogram.AscendingKeepsCounts | server/src/routes/studentRoutes.js:504 | listing by rating keeps one row per rating, makes ratings strictly ascending and changes no count |
| TagTable.Bump | server/src/services/codeforcesService.js:52-55 | touching a tag creates it with zero counts at the end of the listing order if new, raises the chosen counter by one, and leaves every other tag and the other counter unchanged; on a valid table the order gains exactly the new tag |
| TagTable.BumpAll | server/src/services/codeforcesService.js:50-56 | a pass over a tag list creates exactly the tags in the list, keeps the earlier listing order as a prefix and keeps one entry per tag |
| TagTable.BumpAllCounts | server/src/services/codeforcesService.js:49-69 | after a pass over a tag list the chosen counter of each tag has risen by the number of times the list holds it, and the other counter is unchanged |
| TagTable.Entries | server/src/services/codeforcesService.js:108-113 | of a valid table, every counted tag is listed exactly once, with its own stored counters, in the table's order |
| TagTable.EntriesAfterBumpAll | server/src/services/codeforcesService.js:50-113 | after a pass over a tag list the entries list the earlier tags in their places, then the new tags in the order of their first occurrence in the list |
| TagTable.EntryCountsAfterBumpAll | server/src/services/codeforcesService.js:50-113 | after a pass each listed entry's chosen counter has risen by the number of times the list holds its tag, and the other counter is unchanged |
| TagTable.BumpAllOrder | server/src/services/codeforcesService.js:50-56 | a pass appends to the order exactly the tags not yet listed, each once, in the order they first occur |
| Sorting.Insert | server/src/routes/studentRoutes.js:314 | inserting into a sorted list adds exactly that element |
| Sorting.SortBy | server/src/routes/studentRoutes.js:314 | the sort is a permutation of its input |
| Sorting.SortBySorted | server/src/routes/studentRoutes.js:314 | the sort orders its input ascending by the comparator's key |
| Sorting.SortByStable | client/src/components/StudentComparison.js:180 | the sort is stable: elements with equal keys keep their input order |
| Sorting.Take | server/src/routes/studentRoutes.js:315 | `slice(0, n)` keeps the first `min(n, length)` elements unchanged |
| Sorting.SortTake | server/src/routes/studentRoutes.js:314-315 | sorting then slicing gives at most `n` elements of the input, ascending, and no element left out has a smaller key than the last one kept |
| Seqs.Filter | client/src/components/StudentList.js:88 | a filter keeps exactly the elements that pass, and is empty when none does |
| Seqs.FilterAppend | client/src/components/StudentProfile.js:173-179 | filtering a concatenation filters each part |
| Seqs.FilterIncreasing | client/src/components/StudentProfile.js:173-179 | a filter keeps the relative order of what it keeps |
| Seqs.FilterKeepsAll | client/src/components/StudentList.js:88 | a filter every element passes changes nothing |
| Seqs.FilterRemovesOne | client/src/components/StudentList.js:88 | a filter that only one element fails removes exactly that element and keeps the rest in order |
| Text.NatToString | server/src/routes/studentRoutes.js:461 | a number renders as a non-empty string of decimal digits |
| Text.IntToString | server/src/routes/studentRoutes.js:461 | an integer renders as a non-empty string of digits and a sign |
| Text.Trim | client/src/components/StudentComparison.js:211 | `trim` answers a middle slice of its input that neither starts nor ends with white space, and everything it cut off is white space |
| Text.Lower | client/src/components/StudentComparison.js:219 | the lower-cased string keeps the length and maps each ASCII capital to its small letter, leaving every other character alone |
| Text.Split | client/src/components/SubmissionHeatMap.js:38 | `split` always answers at least one field |
| Text.SplitJoin | client/src/components/student/StudentList.js:152-155 | splitting a `join` at its separator gives back the parts exactly when no part holds the separator |
| Text.JoinAvoids | client/src/components/student/StudentList.js:152-155 | a join of parts and a separator free of a character is free of it |
| Bands.BandOf | server/src/routes/studentRoutes.js:12-21 | a rating's band is one of the table's entries |
| Bands.BandMonotone | server/src/routes/studentRoutes.js:12-21 | a higher rating never falls in a lower band |
| Bands.BandIsPrefix | server/src/routes/studentRoutes.js:12-21 | on ascending boundaries, band `n` means the first `n` boundaries are reached and no later one |
| Bands.BandIs | server/src/routes/studentRoutes.js:12-21 | conversely, a rating between the `n`-th boundary and the next is in band `n` |
| Bands.BandBetween | server/src/routes/studentRoutes.js:12-21 | a rating lies between its band's boundary and the next |
| Calendar.DaysSpanned | server/src/routes/studentRoutes.js:517 | `Math.max(1, Math.ceil(ms / day))` is the least positive whole number of days that covers the span |
| Calendar.PerDay | server/src/routes/studentRoutes.js:518 | a count spread over the days is non-negative, zero exactly for a zero count, at most the count, and multiplies back to it |
| Calendar.DayOf | client/src/components/SubmissionHeatMap.js:38 | a time falls within its UTC day |
| Calendar.Weekday | client/src/components/SubmissionHeatMap.js:43 | `getDay()` lies in 0..6 |
| Calendar.WeekdayNext | client/src/components/SubmissionHeatMap.js:43 | the next day's weekday follows on, Saturday wrapping to Sunday |
| Calendar.LeapPeriodic | client/src/components/SubmissionHeatMap.js:44 | the Gregorian leap rule repeats every 400 years |
| Calendar.YearAndDay | client/src/components/SubmissionHeatMap.js:44 | a day offset lands in a year at or after the start year, on a day within that year's length |
| Calendar.MonthOf | client/src/components/SubmissionHeatMap.js:44 | `getMonth()` lies in 0..11 |
| Calendar.Civil | client/src/components/SubmissionHeatMap.js:44 | a day number has a month in 0..11 and a day within that month's length in its year |
| Calendar.CivilNext | client/src/components/SubmissionHeatMap.js:44 | the next day is the next day of the same month, or after the month's last day the first of the next month, December giving way to January of the next year |
| Calendar.MonthNext | client/src/components/SubmissionHeatMap.js:44 | the month of the next day is the same month, or exactly after the month's last day the next one, December wrapping to January |
| Calendar.MonthFromNext | client/src/components/SubmissionHeatMap.js:44 | within a year the day of the month advances by one, or the next month starts after the last day |
| Calendar.MonthFromLast | client/src/components/SubmissionHeatMap.js:44 | the last day of the year is 31 December |
| Calendar.MonthsFillYear | client/src/components/SubmissionHeatMap.js:44 | the twelve months hold 365 days, or 366 in a leap year |
| Calendar.YearAndDayNext | client/src/components/SubmissionHeatMap.js:44 | the next day is the next day of the year, or the first day of the next year after the last |
| Calendar.YearsLengthCount | client/src/components/SubmissionHeatMap.js:44 | a run of years holds 365 days per year plus one per leap year |
| Calendar.CycleLength | client/src/components/SubmissionHeatMap.js:44 | any 400 consecutive years hold 146097 days, so reducing a day modulo the cycle is sound wherever the cycle starts |
| Calendar.CycleLast | client/src/components/SubmissionHeatMap.js:44 | the last day of a 400-year cycle is the last day of its final year |
| Calendar.MonthExamples | client/src/components/SubmissionHeatMap.js:43-44 | 1 January 1970 is a Thursday; the January/February and February/March boundaries of 1970 fall on days 31 and 59 |
| Calendar.YearEndExamples | client/src/components/SubmissionHeatMap.js:44 | day 364 is in December 1970 and day 365 in January 1971 |
| Mapping.RatingOrNull | server/src/services/codeforcesService.js:92 | the `rating or null` fallback stores a rating exactly when it is present and non-zero, and then unchanged |
| Mapping.ContestEntryRoundTrip | server/src/services/codeforcesService.js:79-86 | a stored contest entry reads back as the rating change it was made from |
| Mapping.ToContestHistory | server/src/services/codeforcesService.js:79-86 | the contest history has one entry per rating change, in order, each reading back as its change, dated in milliseconds |
| Occurrences.AllTagsSnoc | server/src/routes/studentRoutes.js:474-479 | the tags over a list are those over all but the last submission together with the last one's |
| Occurrences.AttemptOccOfTag | server/src/routes/studentRoutes.js:474-479 | every tag some submission carries is attempted at least once |
| Upstream.OrZero | server/src/services/codeforcesService.js:73-74 | the `x or 0` fallback is non-zero exactly when `x` is truthy, and then is `x` |
| Upstream.TextOr | server/src/routes/studentRoutes.js:448 | the `s or fallback` fallback is `s` when it is a non-empty string, the fallback otherwise; so it is always one of the two, it is empty only when the fallback is empty and `s` is not truthy, and a non-empty fallback never yields an empty string (the fact behind every "never an empty error" clause) |

## Left out

- I/O is not modelled. HTTP calls (axios), Mongoose `find`/`save`/`deleteOne` and nodemailer appear only through their outcomes, which are inputs. Logging (`console.*`) has no effect in the model.
- Concurrency is not modelled. `Promise.all` fan-out, overlapping requests, and races between the handle check and later edits in `AddStudent.js` are out. Every handler runs to completion on its own.
- ComparisonFetch.FetchUser: when several of the three calls fail, `Promise.all` rejects with the one that fails first in time; the model, having no timing, rejects with the first in argument order.
- node-cron internals (`schedule`, `validate`, `getTasks`) are not modelled. Its registry of scheduled jobs is a list, and validation is a predicate passed in.
- Rates.RoundTenths: rounds the exact rational half up. `toFixed(1)` rounds the nearest double, and the two can differ at ties that a double cannot represent exactly.
- RouteAggregate.AveragePerDay: `toFixed(2)` is not modelled, so the average is the exact rational.
- StudentController.AverageProblemsPerDay: `toFixed(2)` is not modelled, so the listed average is the exact rational rather than a two-decimal string, and the model's 0 stands for the string `"0.00"`.
- StudentSchema.IsObjectId: older releases of the MongoDB driver also cast any 12-character string to an ObjectId; the model follows the 24-hexadecimal-digit form only. StudentSchema.CastMessage writes the id between plain quotes, where Mongoose escapes quotes and backslashes in it.
- CfRoutes.SinceDays: the cutoff is computed in UTC, so the edge of the `Date` range is off by the local time-zone offset, and `parseInt`'s double (Infinity for a very long digit string) is the exact integer.
- Calendar.DayOf: days are UTC day numbers, and a `YYYY-MM-DD` key is the day it names. Local time zones, `setDate` across daylight-saving changes and ISO-string formatting are not modelled.
- The random placeholder statistics of the catalog download (server/src/routes/studentRoutes.js:240-281) are left out. The model's catalog is the problem list as downloaded.
- The solve-count and success-rate estimates of the recommendations panel are modelled with the random draw as an input `u`.
- `p.tags.sort()` in the router's decoration sorts the cached catalog's tag arrays in place. This in-place sort is not modelled, and the decorated entry keeps the tags as stored.
- The `PUT /:id` and `DELETE /:id` routes (server/src/routes/studentRoutes.js:541-567) are left out. They hand the request body straight to Mongoose.
- server/src/routes/students.js is left out. Its handlers delegate to express-validator and Mongoose.
- The `/:handle/problems` route (server/src/routes/codeforces.js:61-91) is left out. It reads `problemSolvingData.submissions`, which the schema does not define.
- ComparisonView.FetchedHandles: the effect's guards (client/src/components/StudentComparison.js:58-62) are modelled as "no fetch", but the view's on-screen state is not. So the model does not state that after the last comparison handle is removed the earlier `comparisonData` and `ratingHistory` stay on screen.
- Rendering and theming are left out: JSX bodies, theme palette values (kept as names), the chart components, `App.js`, `Navbar.js` and the common components.
- The CSV Blob download (client/src/components/student/StudentList.js:157-163) is left out. The model stops at the file's text.
- Wiring and scripts are left out: server/src/server.js, server/src/index.js, the authentication stubs, server/scripts/resyncData.js and server/sync_one_off.js. They connect to the database around the loops that are modelled.
- The e-mail senders themselves (server/src/services/emailService.js, server/utils/email.js) are not part of this model. Their outcome is an input: a throw for the service, a Boolean for the cron helper.
- StudentSchema.Create: of the optional paths a create body may carry, only the scalar ones are inputs. Array and sub-document paths (`contestHistory`, `recentSubmissions`, `problemSolvingData`) always start empty, and a value of the wrong type, which Mongoose would cast or refuse, is not modelled. Solved and reminder counts from the body are non-negative.
- Text.Lower: maps only the ASCII capitals. JavaScript's `toLowerCase` also lowers other letters, such as `Ä`, and can change the length, as with `İ`. So the model agrees with the source only on strings whose capitals are ASCII.
- CfRoutes.ParseInt: the value is an exact integer. `parseInt` returns a double, which loses precision above 2^53.
- StudentController.ByRating: states only that the listing is a rearrangement of the store. The descending order is proved by StudentController.ListingOrdered. The model breaks ties in store order, while Mongo's order among equal ratings is unspecified.

## Findings

| source | as written | input that shows it | evidently intended | confidence | as-written member | corrected member |
|---|---|---|---|---|---|---|
| client/src/components/StudentProfile.js:609 | the profile page renders `<StudentComparison currentStudent={student} />` (also at line 621) while the view reads `({ student })` (StudentComparison.js:46), so the view never has a student: the profile's handle is not fetched, no difference is taken against it, and its own-handle duplicate check never fires | any student profile: the comparison tab shows only the added handles, with every difference 0, and accepts the profile's own handle | the view receives the profile's student, fetches its handle first, takes the differences against it and refuses its handle | not executed | ComparisonView.MountedIgnoresProfile | ComparisonView.IntendedComparesAgainstProfile |
| server/routes/api.js:16-18 | the strict validator rejects an `OK` envelope whose `result` is an empty array before the rating and submissions routes reach their "return an empty array instead of error" branches (lines 49-55 and 76-82), so those branches are dead and an empty list answers 500 `FAILED` | `GET /codeforces/rating/:handle` for a handle with no rated contests: upstream `{status: 'OK', result: []}` | an empty history or submission list answers `{status: 'OK', result: []}` | not executed | Proxy.StrictRefusesEmptyList | Proxy.StrictIntendedAnswersEmptyList |

=== FILE: add_student.dfy ===
/** The three-step add-student wizard, client/src/components/AddStudent.js:
    basic information, a checked Codeforces handle, confirmation.

    What the handle check and the create request answered are inputs. The
    wizard's buttons are the only way to call its handlers, so `Press`
    applies an event only when its button is shown and enabled.
 */
module AddStudent {
  import opened Wrappers
  import opened StudentSchema
  import Text
  import Upstream

  const Steps: seq<string> := ["Basic Information", "Codeforces Handle", "Confirmation"]

  /** `handleStatus`: `null`, `'valid'` or `'invalid'`. */
  datatype Status = Unchecked | Valid | Invalid

  datatype Wizard = Wizard(step: int, form: NewStudent, error: string, status: Status, done: bool)

  function Start(): (w: Wizard)
    ensures w.step == 0 && w.status == Unchecked && !w.done
  {
    Wizard(0, NewStudent("", "", ""), "", Unchecked, false)
  }

  /** The text fields, by their `name` attribute. */
  datatype Field = NameField | EmailField | HandleField

  /** `handleChange`: the named field takes the value; editing the handle
      forgets the result of any earlier check. */
  function Change(w: Wizard, f: Field, value: string): (r: Wizard)
    ensures r.step == w.step && r.error == w.error && r.done == w.done
    ensures f == HandleField ==>
      r.form.codeforcesHandle == value && r.status == Unchecked && r.form.name == w.form.name && r.form.email == w.form.email
    ensures f != HandleField ==> r.status == w.status && r.form.codeforcesHandle == w.form.codeforcesHandle
    ensures f == NameField ==> r.form.name == value && r.form.email == w.form.email
    ensures f == EmailField ==> r.form.email == value && r.form.name == w.form.name
  {
    match f
    case NameField => w.(form := w.form.(name := value))
    case EmailField => w.(form := w.form.(email := value))
    case HandleField => w.(form := w.form.(codeforcesHandle := value), status := Unchecked)
  }

  /** What `axios.get('.../user.info?handles=...')` did. */
  datatype CheckAnswer = CheckRaised | CheckAnswered(status: string)

  const InvalidHandle: string := "Invalid Codeforces handle"

  /** `checkHandle`: an empty handle is not checked; otherwise an answer
      with status `OK` marks the handle valid and clears the error, and
      anything else marks it invalid. */
  function CheckHandle(w: Wizard, answer: CheckAnswer): (r: Wizard)
    ensures w.form.codeforcesHandle == "" ==> r == w
    ensures w.form.codeforcesHandle != "" ==>
      && r.step == w.step && r.form == w.form && r.done == w.done
      && (r.status == Valid <==> answer == CheckAnswered("OK"))
      && (r.status == Valid ==> r.error == "")
      && (r.status != Valid ==> r.status == Invalid && r.error == InvalidHandle)
  {
    if w.form.codeforcesHandle == "" then w
    else if answer == CheckAnswered("OK") then w.(status := Valid, error := "")
    else w.(status := Invalid, error := InvalidHandle)
  }

  const VerifyFirst: string := "Please verify your Codeforces handle first"

  /** `handleNext` as written: it refuses only on the handle step with an
      unverified handle; elsewhere it always advances. */
  function HandleNext(w: Wizard): (r: Wizard)
    ensures w.step == 1 && w.status != Valid ==> r == w.(error := VerifyFirst)
    ensures !(w.step == 1 && w.status != Valid) ==> r == w.(step := w.step + 1)
  {
    if w.step == 1 && w.status != Valid then w.(error := VerifyFirst)
    else w.(step := w.step + 1)
  }

  /** `handleBack`. */
  function HandleBack(w: Wizard): (r: Wizard)
    ensures r == w.(step := w.step - 1)
  {
    w.(step := w.step - 1)
  }

  /** `/^\S+@\S+\.\S+$/`: no white space, and some `@` and some later `.`
      with at least one character before, between and after them. */
  predicate LooksLikeEmail(s: string) {
    && Text.NoSpace(s)
    && exists i, j | 0 < i && i + 1 < j < |s| - 1 :: s[i] == '@' && s[j] == '.'
  }

  /** The first step's Next button is enabled. */
  predicate BasicsReady(form: NewStudent) {
    form.name != "" && form.email != "" && LooksLikeEmail(form.email)
  }

  /** What the create request and the sync after it did: both succeeded,
      or the first to fail answered with this optional message. */
  datatype SubmitOutcome = Created | Failed(message: Option<string>)

  const AddError: string := "Error adding student"

  /** `handleSubmit`: success navigates back to the list; a failure shows
      the server's message, or the generic one when there is none. */
  function HandleSubmit(w: Wizard, outcome: SubmitOutcome): (r: Wizard)
    ensures outcome.Created? ==> r == w.(error := "", done := true)
    ensures outcome.Failed? ==>
      r == w.(error := Upstream.TextOr(outcome.message, AddError)) && r.error != ""
  {
    match outcome
    case Created => w.(error := "", done := true)
    case Failed(m) => w.(error := Upstream.TextOr(m, AddError))
  }

  /** What the user can do. */
  datatype Event =
    | Edit(field: Field, value: string)
    | Check(answer: CheckAnswer)
    | Next
    | Back
    | Submit(outcome: SubmitOutcome)

  /** The event's control is on screen and enabled: the name and e-mail
      fields and a Next gated on them on the first step; the handle field,
      a Check button (needing a handle, and replaced by a check mark once
      the handle is valid), Back and a Next gated on a valid handle on the
      second; Back and Add Student on the last. Once the
      student is created the wizard has navigated away. */
  predicate Enabled(w: Wizard, e: Event) {
    !w.done &&
    match e
    case Edit(f, _) => (w.step == 0 && f != HandleField) || (w.step == 1 && f == HandleField)
    case Check(_) => w.step == 1 && w.form.codeforcesHandle != "" && w.status != Valid
    case Next => (w.step == 0 && BasicsReady(w.form)) || (w.step == 1 && w.status == Valid)
    case Back => w.step == 1 || w.step == 2
    case Submit(_) => w.step == 2
  }

  /** One user action: the handler runs when its control is enabled, and
      nothing happens otherwise. */
  function Press(w: Wizard, e: Event): (r: Wizard)
    ensures !Enabled(w, e) ==> r == w
  {
    if !Enabled(w, e) then w
    else match e
      case Edit(f, v) => Change(w, f, v)
      case Check(a) => CheckHandle(w, a)
      case Next => HandleNext(w)
      case Back => HandleBack(w)
      case Submit(o) => HandleSubmit(w, o)
  }

  /** What always holds on screen: a step that exists, a first step
      passed only with ready basics, and the confirmation step reached
      only with a handle checked valid. */
  ghost predicate Consistent(w: Wizard) {
    && 0 <= w.step < |Steps|
    && (w.step >= 1 ==> BasicsReady(w.form))
    && (w.status == Valid ==> w.form.codeforcesHandle != "")
    && (w.step == 2 ==> w.status == Valid)
    && (w.done ==> w.step == 2)
  }

  /** Every action keeps the wizard consistent. */
  lemma PressKeepsConsistent(w: Wizard, e: Event)
    requires Consistent(w)
    ensures Consistent(Press(w, e))
  {
  }

  /** The wizard as it stands after a run of actions from the start. */
  function Run(events: seq<Event>): (w: Wizard)
    decreases |events|
  {
    if events == [] then Start() else Press(Run(events[..|events| - 1]), events[|events| - 1])
  }

  /** Whatever the user does, the student is created only from the last
      step, with basics that passed the first step's check and a handle
      that the last check found valid. */
  lemma {:induction false} RunConsistent(events: seq<Event>)
    ensures Consistent(Run(events))
    ensures Run(events).done ==> BasicsReady(Run(events).form) && Run(events).status == Valid
    decreases |events|
  {
    if events != [] {
      var before := Run(events[..|events| - 1]);
      RunConsistent(events[..|events| - 1]);
      PressKeepsConsistent(before, events[|events| - 1]);
    }
  }

  /** The handler alone does not stop at the last step: only the absent
      button keeps the wizard from a fourth step. */
  lemma HandleNextPassesLastStep(w: Wizard)
    requires w.step == 2
    ensures HandleNext(w).step == 3
    ensures Press(w, Next) == w
  {
  }

  /** A valid handle cannot be checked again: the button is gone, so no
      answer can turn it invalid until the handle is edited. */
  lemma ValidHandleStaysValid(w: Wizard, a: CheckAnswer)
    requires w.status == Valid
    ensures Press(w, Check(a)) == w
  {
  }

  /** Characters the schema pattern admits are not white space. */
  lemma PatternCharNotSpace(c: char)
    requires IsWordChar(c) || IsSeparator(c) || c == '@'
    ensures !Text.IsSpace(c)
  {
  }

  /** Every address the schema accepts passes the first step's check. */
  lemma SchemaEmailLooksLikeEmail(s: string)
    requires EmailMatches(s)
    ensures LooksLikeEmail(s)
  {
    var i :| 0 <= i < |s| && s[i] == '@' && DottedWord(s[..i]) && DomainPart(s[i + 1..]);
    var d := s[i + 1..];
    var j :| 0 < j < |d| && d[j] == '.' && DottedWord(d[..j]) && 2 <= |d| - j - 1 <= 3
      && (forall k | j < k < |d| :: IsWordChar(d[k]));
    MatchedLooks(s, d, i, j);
  }

  /** The witnesses of the schema pattern give those of the first step's
      check: the `@`, and the domain's last `.` past a non-empty label. */
  lemma MatchedLooks(s: string, d: string, i: nat, j: nat)
    requires i < |s| && s[i] == '@' && DottedWord(s[..i]) && d == s[i + 1..]
    requires 0 < j < |d| && d[j] == '.' && DottedWord(d[..j]) && 2 <= |d| - j - 1
    requires forall k | j < k < |d| :: IsWordChar(d[k])
    ensures LooksLikeEmail(s)
  {
    DottedNoSpace(s[..i]);
    DottedNoSpace(d[..j]);
    TailNoSpace(d, j);
    PiecesNoSpace(s, i, j);
    assert s[i + 1 + j] == '.';
    Looks(s, i, i + 1 + j);
  }

  /** Word characters after position `j` hold no white space. */
  lemma TailNoSpace(d: string, j: nat)
    requires j < |d| && forall k | j < k < |d| :: IsWordChar(d[k])
    ensures Text.NoSpace(d[j + 1..])
  {
    var tail := d[j + 1..];
    forall k | 0 <= k < |tail| ensures !Text.IsSpace(tail[k]) {
      assert tail[k] == d[j + 1 + k];
      PatternCharNotSpace(tail[k]);
    }
  }

  lemma Looks(s: string, i: int, k: int)
    requires Text.NoSpace(s) && 0 < i && i + 1 < k < |s| - 1 && s[i] == '@' && s[k] == '.'
    ensures LooksLikeEmail(s)
  {
  }

  /** An address is free of white space when the parts around its `@` and
      its last `.` are. */
  lemma PiecesNoSpace(s: string, i: nat, j: nat)
    requires i < |s| && s[i] == '@' && j < |s[i + 1..]| && s[i + 1..][j] == '.'
    requires Text.NoSpace(s[..i]) && Text.NoSpace(s[i + 1..][..j]) && Text.NoSpace(s[i + 1..][j + 1..])
    ensures Text.NoSpace(s)
  {
    PatternCharNotSpace('@');
    PatternCharNotSpace('.');
    forall k | 0 <= k < |s| ensures !Text.IsSpace(s[k]) {
      if k < i {
        assert s[k] == s[..i][k];
      } else if i < k < i + 1 + j {
        assert s[k] == s[i + 1..][..j][k - i - 1];
      } else if k > i + 1 + j {
        assert s[k] == s[i + 1..][j + 1..][k - i - j - 2];
      }
    }
  }

  lemma DottedNoSpace(w: string)
    requires DottedWord(w)
    ensures Text.NoSpace(w)
  {
    forall k | 0 <= k < |w| ensures !Text.IsSpace(w[k]) {
      PatternCharNotSpace(w[k]);
    }
  }

  lemma NoSpaceConcat(a: string, b: string)
    requires Text.NoSpace(a) && Text.NoSpace(b)
    ensures Text.NoSpace(a + b)
  {
    forall k | 0 <= k < |a + b| ensures !Text.IsSpace((a + b)[k]) {
      if k >= |a| {
        assert (a + b)[k] == b[k - |a|];
      }
    }
  }

  /** A domain of at most three characters cannot hold a label, a dot and
      a final label of two or more. */
  lemma ShortIsNoDomain(d: string)
    requires |d| <= 3
    ensures !DomainPart(d)
  {
  }

  /** The first step's check is weaker than the schema: `a@b.c` passes it
      and is refused by the server (the last label is one character). */
  lemma LooseEmailRefusedBySchema()
    ensures LooksLikeEmail("a@b.c") && !EmailMatches("a@b.c")
  {
    var s := "a@b.c";
    assert s[1] == '@' && s[3] == '.';
    assert forall i | 0 <= i < |s| && s[i] == '@' :: i == 1;
    ShortIsNoDomain(s[2..]);
  }
}

=== FILE: arith.dfy ===
/** Facts about multiplication that the solver's linear arithmetic does not
    find on its own. */
module Arith {
  /** Multiplying by a non-negative factor keeps the order. */
  lemma MulMono(a: int, b: int, c: nat)
    requires a <= b
    ensures a * c <= b * c
  {
  }

  /** A product below `(b + 1) * c` has a factor of at most `b`. */
  lemma MulCancel(a: int, b: int, c: nat)
    requires 0 < c && a * c < (b + 1) * c
    ensures a <= b
  {
  }

  /** One more copy of `a`. */
  lemma MulSucc(a: int, n: nat)
    ensures a * (n + 1) == a * n + a
  {
  }

  /** Division is determined by any quotient and remainder in range. */
  lemma DivUnique(n: int, k: int, q: int, r: int)
    requires 0 < k && 0 <= r < k && n == q * k + r
    ensures n / k == q && n % k == r
  {
    var q', r' := n / k, n % k;
    assert n == q' * k + r';
    if q' > q {
      MulMono(1, q' - q, k);
    } else if q' < q {
      MulMono(1, q - q', k);
    }
  }

  /** One more `k` adds one to the quotient of `x + k - 1` exactly when `k`
      divides `x`. */
  lemma DivStep(x: int, k: int)
    requires 0 < k
    ensures (x + k) / k == (x + k - 1) / k + (if x % k == 0 then 1 else 0)
  {
    var q, r := x / k, x % k;
    DivUnique(x + k, k, q + 1, r);
    if r == 0 {
      DivUnique(x + k - 1, k, q, k - 1);
    } else {
      DivUnique(x + k - 1, k, q + 1, r - 1);
    }
  }

  /** Adding `n` copies of `k` adds `n` to the quotient. */
  lemma DivShift(x: int, k: int, n: int)
    requires 0 < k
    ensures (x + n * k) / k == x / k + n
  {
    DivUnique(x + n * k, k, x / k + n, x % k);
  }
}

=== FILE: bands.dfy ===
/** Rating bands: a rating's band is the number of ascending boundaries it
    has reached. The colour and label helpers of the server and the client
    are all `if rating < b1 ... else if rating < b2 ...` chains, which pick
    the entry of a table indexed by this band.
 */
module Bands {

  /** The boundaries are strictly ascending. */
  ghost predicate Ascending(bounds: seq<int>) {
    forall i, j | 0 <= i < j < |bounds| :: bounds[i] < bounds[j]
  }

  /** How many boundaries `rating` has reached. */
  function BandOf(bounds: seq<int>, rating: int): (n: nat)
    ensures n <= |bounds|
    decreases |bounds|
  {
    if bounds == [] then 0
    else (if bounds[0] <= rating then 1 else 0) + BandOf(bounds[1..], rating)
  }

  /** A higher rating never falls in a lower band. */
  lemma {:induction false} BandMonotone(bounds: seq<int>, rating: int, higher: int)
    requires rating <= higher
    ensures BandOf(bounds, rating) <= BandOf(bounds, higher)
    decreases |bounds|
  {
    if bounds != [] {
      BandMonotone(bounds[1..], rating, higher);
    }
  }

  /** On ascending boundaries the band is the number of boundaries at or
      below the rating, which are a prefix: band `n` means the rating has
      reached the first `n` boundaries and not the next. */
  lemma {:induction false} BandIsPrefix(bounds: seq<int>, rating: int)
    requires Ascending(bounds)
    ensures var n := BandOf(bounds, rating);
      && (forall i | 0 <= i < n :: bounds[i] <= rating)
      && (forall i | n <= i < |bounds| :: rating < bounds[i])
    decreases |bounds|
  {
    if bounds != [] {
      BandIsPrefix(bounds[1..], rating);
      if rating < bounds[0] {
        assert BandOf(bounds[1..], rating) == 0 by {
          NoneReached(bounds[1..], rating);
        }
      }
    }
  }

  /** Below the first of ascending boundaries nothing is reached. */
  lemma {:induction false} NoneReached(bounds: seq<int>, rating: int)
    requires forall i | 0 <= i < |bounds| :: rating < bounds[i]
    ensures BandOf(bounds, rating) == 0
    decreases |bounds|
  {
    if bounds != [] {
      NoneReached(bounds[1..], rating);
    }
  }

  /** On ascending boundaries, a rating that has reached the first `n`
      boundaries and not the next is in band `n`. */
  lemma BandIs(bounds: seq<int>, rating: int, n: nat)
    requires Ascending(bounds) && n <= |bounds|
    requires n > 0 ==> bounds[n - 1] <= rating
    requires n < |bounds| ==> rating < bounds[n]
    ensures BandOf(bounds, rating) == n
  {
    BandIsPrefix(bounds, rating);
  }

  /** On ascending boundaries, band `n` lies between the `n`-th boundary
      (reached) and the next (not reached). */
  lemma BandBetween(bounds: seq<int>, rating: int)
    requires Ascending(bounds)
    ensures var n := BandOf(bounds, rating);
      && (n > 0 ==> bounds[n - 1] <= rating)
      && (n < |bounds| ==> rating < bounds[n])
  {
    BandIsPrefix(bounds, rating);
  }

  /** Boundaries that rise from each one to the next are ascending. */
  lemma {:induction false} StepsAscending(bounds: seq<int>)
    requires forall i | 0 <= i < |bounds| - 1 :: bounds[i] < bounds[i + 1]
    ensures Ascending(bounds)
    decreases |bounds|
  {
    if |bounds| > 1 {
      var tail := bounds[1..];
      assert forall i | 0 <= i < |tail| - 1 :: tail[i] < tail[i + 1];
      StepsAscending(tail);
      forall i, j | 0 <= i < j < |bounds| ensures bounds[i] < bounds[j] {
        if i > 0 {
          assert bounds[i] == tail[i - 1] && bounds[j] == tail[j - 1];
        } else if j > 1 {
          assert bounds[1] == tail[0] && bounds[j] == tail[j - 1];
        }
      }
    }
  }
}

=== FILE: calendar.dfy ===
/** Time as the core counts it: milliseconds since the epoch, whole days of
    `1000 * 60 * 60 * 24` milliseconds, and UTC day numbers (day 0 is
    Thursday 1 January 1970) with their weekday and Gregorian month.
 */
module Calendar {
  import Arith

  /** Milliseconds in one day. */
  const DayMs: int := 86_400_000

  /** The largest distance from the epoch a `Date` can hold (section
      21.4.1.31, TimeClip, of ECMA-262); beyond it a `Date` is invalid. */
  const MaxTimeMs: int := 8_640_000_000_000_000

  /** A time value a `Date` can hold. */
  predicate IsTimeValue(t: int) {
    0 - MaxTimeMs <= t <= MaxTimeMs
  }

  /** `Math.max(1, Math.ceil(diffMs / DayMs))`: the number of days a span
      covers, at least one. */
  function DaysSpanned(diffMs: int): (d: nat)
    ensures d >= 1
    ensures diffMs <= d * DayMs
    ensures d == 1 || (d - 1) * DayMs < diffMs
  {
    if diffMs <= DayMs then 1
    else
      var q := (diffMs + DayMs - 1) / DayMs;
      assert diffMs + DayMs - 1 == q * DayMs + (diffMs + DayMs - 1) % DayMs;
      q
  }

  /** A count spread over a positive number of days: never negative, zero
      exactly for a zero count, at most the count, and it multiplies back. */
  lemma PerDay(n: nat, d: nat)
    requires d >= 1
    ensures n as real / d as real >= 0.0
    ensures n as real / d as real == 0.0 <==> n == 0
    ensures n as real / d as real <= n as real
    ensures (n as real / d as real) * d as real == n as real
  {
    var q := n as real / d as real;
    assert q * d as real == n as real;
    assert n as real <= n as real * d as real;
  }

  /** The UTC day a time falls on. */
  function DayOf(ms: int): (d: int)
    ensures d * DayMs <= ms < (d + 1) * DayMs
  {
    ms / DayMs
  }

  /** `getDay()`: 0 for Sunday up to 6 for Saturday. */
  function Weekday(day: int): (w: int)
    ensures 0 <= w < 7
  {
    (day + 4) % 7
  }

  /** The next day's weekday follows on, Saturday wrapping to Sunday. */
  lemma WeekdayNext(day: int)
    ensures Weekday(day + 1) == (Weekday(day) + 1) % 7
  {
  }

  predicate Leap(year: int) {
    year % 4 == 0 && (year % 100 != 0 || year % 400 == 0)
  }

  function YearLength(year: int): (n: int)
    ensures n == 365 || n == 366
  {
    if Leap(year) then 366 else 365
  }

  /** The leap-year rule repeats every 400 years, which is what lets a
      day number be reduced modulo the days of 400 years. */
  lemma LeapPeriodic(year: int)
    ensures Leap(year + 400) == Leap(year)
  {
  }

  /** Days in 400 Gregorian years (97 of them leap). */
  const CycleDays: int := 146097

  /** The year, counted from `year`, that `offset` days later falls in, and
      the day of that year. */
  function YearAndDay(offset: nat, year: int): (r: (int, nat))
    ensures year <= r.0 && r.1 < YearLength(r.0)
    decreases offset
  {
    if offset < YearLength(year) then (year, offset)
    else YearAndDay(offset - YearLength(year), year + 1)
  }

  /** Days in month `m` (0 for January); February has 29 in a leap year. */
  function MonthLength(m: int, leap: bool): (n: nat)
    ensures 28 <= n <= 31
  {
    if m == 1 then (if leap then 29 else 28)
    else if m == 3 || m == 5 || m == 8 || m == 10 then 30
    else 31
  }

  /** The month, from `m` on, that day `doy` of the year falls in, and the
      day of that month (0 for the first). */
  function MonthFrom(doy: int, m: nat, leap: bool): (r: (nat, int))
    requires m < 12
    ensures m <= r.0 < 12
    ensures 0 <= doy ==> 0 <= r.1 <= doy
    decreases 11 - m
  {
    if m == 11 || doy < MonthLength(m, leap) then (m, doy)
    else MonthFrom(doy - MonthLength(m, leap), m + 1, leap)
  }

  /** The year, month and day of the month of day `doy` of `year`. */
  function InYear(year: int, doy: nat): (r: (int, nat, nat))
    requires doy < YearLength(year)
    ensures r.0 == year && r.1 < 12 && r.2 < MonthLength(r.1, Leap(r.0))
  {
    var md := MonthFrom(doy, 0, Leap(year));
    MonthsFillYear(Leap(year));
    MonthFromInYear(doy, 0, Leap(year));
    (year, md.0, md.1 as nat)
  }

  /** The UTC year, month (`getUTCMonth()`, 0 for January) and day of the
      month (`getUTCDate() - 1`) of a day number. The day is first reduced
      modulo the 400-year cycle, counted from 1970. */
  function Civil(day: int): (r: (int, nat, nat))
    ensures r.1 < 12 && r.2 < MonthLength(r.1, Leap(r.0))
  {
    var yd := YearAndDay(day % CycleDays, 1970 + 400 * (day / CycleDays));
    InYear(yd.0, yd.1)
  }

  /** `getUTCMonth()` of a UTC day: 0 for January up to 11 for December. */
  function MonthOf(day: int): (m: nat)
    ensures m < 12
  {
    Civil(day).1
  }

  /** The days of the months from `m` to December: the days to the end of
      a common year, and one more from January or February of a leap year. */
  function DaysFrom(m: nat, leap: bool): (n: nat)
    requires m < 12
    ensures n >= 31
  {
    (if leap && m <= 1 then 1 else 0)
    + if m < 6 then
        (if m == 0 then 365 else if m == 1 then 334 else if m == 2 then 306
         else if m == 3 then 275 else if m == 4 then 245 else 214)
      else
        (if m == 6 then 184 else if m == 7 then 153 else if m == 8 then 122
         else if m == 9 then 92 else if m == 10 then 61 else 31)
  }

  /** The days from a month on are that month's and those from the next
      month on, and December has 31: the table of days to the year's end
      sums the month lengths. */
  lemma DaysFromStep(m: nat, leap: bool)
    requires m < 12
    ensures m < 11 ==> DaysFrom(m, leap) == MonthLength(m, leap) + DaysFrom(m + 1, leap)
    ensures m == 11 ==> DaysFrom(m, leap) == MonthLength(m, leap) == 31
  {
  }

  /** The twelve months fill the year. */
  lemma MonthsFillYear(leap: bool)
    ensures DaysFrom(0, leap) == (if leap then 366 else 365)
  {
  }

  /** A day inside the months from `m` on lands in a month it fits, December
      included. */
  lemma {:induction false} MonthFromInYear(doy: int, m: nat, leap: bool)
    requires m < 12 && doy < DaysFrom(m, leap)
    ensures MonthFrom(doy, m, leap).1 < MonthLength(MonthFrom(doy, m, leap).0, leap)
    decreases 11 - m
  {
    if m == 11 || doy < MonthLength(m, leap) {
      DaysFromStep(m, leap);
      MonthFromStays(doy, m, leap);
    } else {
      DaysFromStep(m, leap);
      MonthFromSkips(doy, m, leap);
      MonthFromInYear(doy - MonthLength(m, leap), m + 1, leap);
    }
  }

  /** `n` is the month and day after `c`: the next day of the same month,
      or the first of the next month when the month has ended. */
  predicate MonthStep(c: (nat, int), n: (nat, int), leap: bool) {
    if c.1 + 1 < MonthLength(c.0, leap) then n == (c.0, c.1 + 1) else n == (c.0 + 1, 0)
  }

  /** A day that fits in month `m` (any day, in December) stays in it. */
  lemma MonthFromStays(doy: int, m: nat, leap: bool)
    requires m < 12 && (m == 11 || doy < MonthLength(m, leap))
    ensures MonthFrom(doy, m, leap) == (m, doy)
  {
  }

  /** A day past the end of month `m` is looked up in the next month. */
  lemma MonthFromSkips(doy: int, m: nat, leap: bool)
    requires m < 11 && MonthLength(m, leap) <= doy
    ensures MonthFrom(doy, m, leap) == MonthFrom(doy - MonthLength(m, leap), m + 1, leap)
  {
  }

  /** Inside a month, the next day is in the same month. */
  lemma MonthFromNextWithin(doy: nat, m: nat, leap: bool)
    requires m < 12 && doy + 1 < MonthLength(m, leap)
    ensures MonthStep(MonthFrom(doy, m, leap), MonthFrom(doy + 1, m, leap), leap)
  {
    MonthFromStays(doy, m, leap);
    MonthFromStays(doy + 1, m, leap);
  }

  /** After the last day of a month other than December, the next month
      begins. */
  lemma MonthFromNextTurn(doy: nat, m: nat, leap: bool)
    requires m < 11 && doy + 1 == MonthLength(m, leap)
    ensures MonthStep(MonthFrom(doy, m, leap), MonthFrom(doy + 1, m, leap), leap)
  {
    MonthFromStays(doy, m, leap);
    MonthFromSkips(doy + 1, m, leap);
    MonthFromStays(0, m + 1, leap);
  }

  /** The next day of the year is the next day of the same month, or the
      first of the next month when the month has ended. */
  lemma {:induction false} MonthFromNext(doy: nat, m: nat, leap: bool)
    requires m < 12 && doy + 1 < DaysFrom(m, leap)
    ensures MonthStep(MonthFrom(doy, m, leap), MonthFrom(doy + 1, m, leap), leap)
    decreases 11 - m
  {
    var len := MonthLength(m, leap);
    if m == 11 {
      DaysFromStep(m, leap);
      MonthFromNextWithin(doy, m, leap);
    } else if doy + 1 < len {
      MonthFromNextWithin(doy, m, leap);
    } else if doy + 1 == len {
      MonthFromNextTurn(doy, m, leap);
    } else {
      DaysFromStep(m, leap);
      MonthFromSkips(doy, m, leap);
      MonthFromSkips(doy + 1, m, leap);
      MonthFromNext(doy - len, m + 1, leap);
    }
  }

  /** The last day of the months from `m` on is 31 December. */
  lemma {:induction false} MonthFromLast(m: nat, leap: bool)
    requires m < 12
    ensures MonthFrom(DaysFrom(m, leap) - 1, m, leap) == (11, 30)
    decreases 11 - m
  {
    if m == 11 {
      DaysFromStep(m, leap);
      MonthFromStays(30, m, leap);
    } else {
      MonthFromLastSkips(m, leap);
      MonthFromLast(m + 1, leap);
    }
  }

  /** The last day from month `m` on is the last day from the next month on. */
  lemma MonthFromLastSkips(m: nat, leap: bool)
    requires m < 11
    ensures MonthFrom(DaysFrom(m, leap) - 1, m, leap) == MonthFrom(DaysFrom(m + 1, leap) - 1, m + 1, leap)
  {
    DaysFromStep(m, leap);
    MonthFromSkips(DaysFrom(m, leap) - 1, m, leap);
  }

  /** The day after a day of the year is the next day of that year, or the
      first day of the next year. */
  lemma {:induction false} YearAndDayNext(offset: nat, year: int)
    ensures var r, s := YearAndDay(offset, year), YearAndDay(offset + 1, year);
      if r.1 + 1 < YearLength(r.0) then s == (r.0, r.1 + 1) else s == (r.0 + 1, 0)
    decreases offset
  {
    if offset >= YearLength(year) {
      YearAndDayNext(offset - YearLength(year), year + 1);
    }
  }

  /** Leap years before `year`, counted from year 0 (negative below it). */
  function LeapsBefore(year: int): int {
    (year + 3) / 4 - (year + 99) / 100 + (year + 399) / 400
  }

  lemma LeapsStep(year: int)
    ensures LeapsBefore(year + 1) == LeapsBefore(year) + (if Leap(year) then 1 else 0)
  {
    Arith.DivStep(year, 4);
    Arith.DivStep(year, 100);
    Arith.DivStep(year, 400);
    if year % 400 == 0 {
      Arith.DivUnique(year, 100, 4 * (year / 400), 0);
    }
    if year % 100 == 0 {
      Arith.DivUnique(year, 4, 25 * (year / 100), 0);
    }
  }

  /** The days of `n` years from `year` on. */
  function YearsLength(year: int, n: nat): (d: nat)
    decreases n
  {
    if n == 0 then 0 else YearLength(year) + YearsLength(year + 1, n - 1)
  }

  /** `n` years hold `365 * n` days and one more per leap year. */
  lemma {:induction false} YearsLengthCount(year: int, n: nat)
    ensures YearsLength(year, n) == 365 * n + LeapsBefore(year + n) - LeapsBefore(year)
    decreases n
  {
    if n > 0 {
      YearsLengthCount(year + 1, n - 1);
      LeapsStep(year);
    }
  }

  /** Any 400 consecutive years, wherever they start, hold one cycle of days. */
  lemma CycleLength(year: int)
    ensures YearsLength(year, 399) + YearLength(year + 399) == CycleDays
  {
    YearsLengthCount(year, 399);
    LeapsStep(year + 399);
    LeapsCycle(year);
  }

  /** Every 400 years hold 97 leap years. */
  lemma LeapsCycle(year: int)
    ensures LeapsBefore(year + 400) == LeapsBefore(year) + 97
  {
    Arith.DivShift(year + 3, 4, 100);
    Arith.DivShift(year + 99, 100, 4);
    Arith.DivShift(year + 399, 400, 1);
  }

  /** Skipping whole years moves the starting year. */
  lemma {:induction false} SkipYears(year: int, n: nat, rest: nat)
    ensures YearAndDay(YearsLength(year, n) + rest, year) == YearAndDay(rest, year + n)
    decreases n
  {
    if n > 0 {
      SkipYears(year + 1, n - 1, rest);
    }
  }

  /** The last day of a cycle is the last day of its 400th year. */
  lemma CycleLast(year: int)
    ensures YearAndDay(CycleDays - 1, year) == (year + 399, YearLength(year + 399) - 1)
  {
    CycleLength(year);
    SkipYears(year, 399, YearLength(year + 399) - 1);
  }

  /** One calendar step, from a date to the next day's date. */
  predicate Follows(c: (int, nat, nat), n: (int, nat, nat)) {
    if c.2 + 1 < MonthLength(c.1, Leap(c.0)) then n == (c.0, c.1, c.2 + 1)
    else if c.1 < 11 then n == (c.0, c.1 + 1, 0)
    else n == (c.0 + 1, 0, 0)
  }

  /** The step from a day of a year to the next day of the year, or to the
      first day of the next year after the last. */
  lemma InYearNext(year: int, doy: nat)
    requires doy < YearLength(year)
    ensures doy + 1 < YearLength(year) ==> Follows(InYear(year, doy), InYear(year, doy + 1))
    ensures doy + 1 == YearLength(year) ==> Follows(InYear(year, doy), InYear(year + 1, 0))
  {
    var leap := Leap(year);
    MonthsFillYear(leap);
    if doy + 1 < YearLength(year) {
      MonthFromNext(doy, 0, leap);
    } else {
      MonthFromLast(0, leap);
    }
  }

  /** The day after a day of the cycle, in year-and-day terms. */
  lemma CycleNext(day: int)
    ensures var r, s := YearAndDay(day % CycleDays, 1970 + 400 * (day / CycleDays)),
                        YearAndDay((day + 1) % CycleDays, 1970 + 400 * ((day + 1) / CycleDays));
      if r.1 + 1 < YearLength(r.0) then s == (r.0, r.1 + 1) else s == (r.0 + 1, 0)
  {
    var q, o := day / CycleDays, day % CycleDays;
    var base := 1970 + 400 * q;
    if o + 1 < CycleDays {
      Arith.DivUnique(day + 1, CycleDays, q, o + 1);
      YearAndDayNext(o, base);
    } else {
      Arith.DivUnique(day + 1, CycleDays, q + 1, 0);
      CycleLast(base);
    }
  }

  /** The calendar moves on by one day: the day of the month advances
      within the month, and after the month's last day the next month
      begins on its first day, December giving way to January of the next
      year. */
  lemma CivilNext(day: int)
    ensures Follows(Civil(day), Civil(day + 1))
  {
    var r := YearAndDay(day % CycleDays, 1970 + 400 * (day / CycleDays));
    CycleNext(day);
    InYearNext(r.0, r.1);
  }

  /** The month stays or moves on to the next, December wrapping to
      January, and it moves exactly after the month's last day. */
  lemma MonthNext(day: int)
    ensures var c := Civil(day);
      MonthOf(day + 1) == (if c.2 + 1 < MonthLength(c.1, Leap(c.0)) then MonthOf(day) else (MonthOf(day) + 1) % 12)
  {
    CivilNext(day);
    FollowsMonth(Civil(day), Civil(day + 1));
  }

  /** The month part of one calendar step. */
  lemma FollowsMonth(c: (int, nat, nat), n: (int, nat, nat))
    requires c.1 < 12 && Follows(c, n)
    ensures n.1 == (if c.2 + 1 < MonthLength(c.1, Leap(c.0)) then c.1 else (c.1 + 1) % 12)
  {
  }

  /** January and February 1970, worked by hand (day 0 is a Thursday). */
  lemma MonthExamples()
    ensures MonthOf(0) == 0 && MonthOf(30) == 0 && MonthOf(31) == 1
    ensures MonthOf(58) == 1 && MonthOf(59) == 2
    ensures Weekday(0) == 4
  {
  }

  /** The turn of 1970 into 1971. */
  lemma YearEndExamples()
    ensures MonthOf(364) == 11 && MonthOf(365) == 0
  {
    CivilNext(364);
  }
}

=== FILE: catalog_cache.dfy ===
/** The problem-catalog cache in front of `problemset.problems`, as the
    recommendation handlers keep it in two module-level variables
    (`problemsCache`, `lastCacheUpdate`). There are two instances: the
    student router's, kept 24 hours (server/src/routes/studentRoutes.js),
    and the controller's, kept one hour
    (server/src/controllers/studentController.js).

    "Now" and what the download did are inputs. There is no single-flight
    guard: every request that finds the cache stale downloads on its own.
 */
module CatalogCache {
  import opened Wrappers
  import Upstream

  /** `CACHE_DURATION` of the student router: 24 hours. */
  const RouteTtlMs: int := 24 * 60 * 60 * 1000

  /** `CACHE_DURATION` of the controller: one hour. */
  const ControllerTtlMs: int := 1000 * 60 * 60

  /** The cached catalog and the time it was stored. */
  datatype Cache<T> = Cache(catalog: Option<seq<T>>, lastUpdate: Option<int>)

  /** The state at module load. */
  function Empty<T>(): (c: Cache<T>)
    ensures c.catalog.None? && c.lastUpdate.None?
  {
    Cache(None, None)
  }

  /** The `result` of an answered download: missing, present without a
      `problems` list, or carrying the list. */
  datatype Body<T> = NoResult | NoProblems | Problems(list: seq<T>)

  /** What `axios.get('.../problemset.problems')` did: it raised, or it
      returned a body with a status and a `result`. */
  datatype Download<T> = Raised(message: string) | Answered(status: string, result: Body<T>)

  /** Why a refresh failed. */
  datatype RefreshError =
    | CallFailed(message: string)   // the download raised
    | ErrorStatus                   // 'Codeforces API returned error status'
    | NoResultField                 // `result.problems` on a missing `result`
    | NoProblemList                 // a missing `problems` list used as an array

  /** `!problemsCache || !lastCacheUpdate || Date.now() - lastCacheUpdate > CACHE_DURATION`:
      a timestamp of 0 counts as missing, and an age of exactly the duration
      is still fresh. */
  predicate NeedsRefresh<T>(c: Cache<T>, nowMs: int, ttlMs: int) {
    c.catalog.None? || !Upstream.Truthy(c.lastUpdate) || nowMs - c.lastUpdate.value > ttlMs
  }

  /** The catalog a download yields, or why it yields none. */
  function Downloaded<T>(d: Download<T>): (r: Result<seq<T>, RefreshError>)
    ensures r.Ok? <==> d.Answered? && d.status == "OK" && d.result.Problems?
    ensures r.Ok? ==> r.value == d.result.list
    ensures d.Answered? && d.status == "OK" && d.result.NoProblems? ==> r == Err(NoProblemList)
  {
    match d
    case Raised(m) => Err(CallFailed(m))
    case Answered(status, result) =>
      if status != "OK" then Err(ErrorStatus)
      else match result
        case NoResult => Err(NoResultField)
        case NoProblems => Err(NoProblemList)
        case Problems(list) => Ok(list)
  }

  /** One request's use of the router's cache
      (server/src/routes/studentRoutes.js): a fresh cache is served without a
      download; otherwise a successful download (passed through `prepare`,
      which the router uses to attach statistics) replaces the catalog and
      the timestamp, and a failed one serves the old catalog stale, or
      fails when there is none. */
  function Lookup<T, U>(c: Cache<U>, nowMs: int, ttlMs: int, d: Download<T>, prepare: seq<T> -> seq<U>)
    : (out: (Cache<U>, Result<seq<U>, RefreshError>))
    ensures !NeedsRefresh(c, nowMs, ttlMs) ==> out == (c, Ok(c.catalog.value))
    ensures NeedsRefresh(c, nowMs, ttlMs) && Downloaded(d).Ok? ==>
      var loaded := prepare(Downloaded(d).value);
      out == (Cache(Some(loaded), Some(nowMs)), Ok(loaded))
    ensures NeedsRefresh(c, nowMs, ttlMs) && Downloaded(d).Err? ==>
      && out.0 == c
      && (c.catalog.Some? ==> out.1 == Ok(c.catalog.value))
      && (c.catalog.None? ==> out.1 == Err(Downloaded(d).error))
  {
    if !NeedsRefresh(c, nowMs, ttlMs) then (c, Ok(c.catalog.value))
    else match Downloaded(d)
      case Ok(problems) =>
        var loaded := prepare(problems);
        (Cache(Some(loaded), Some(nowMs)), Ok(loaded))
      case Err(e) =>
        if c.catalog.Some? then (c, Ok(c.catalog.value)) else (c, Err(e))
  }

  /** After a successful refresh at a non-zero time the cache is served
      without a download for exactly the next `ttl` milliseconds. */
  lemma FreshForTtl<T, U>(c: Cache<U>, nowMs: int, ttlMs: int, d: Download<T>, prepare: seq<T> -> seq<U>, laterMs: int)
    requires NeedsRefresh(c, nowMs, ttlMs) && Downloaded(d).Ok? && nowMs != 0
    ensures var next := Lookup(c, nowMs, ttlMs, d, prepare).0;
      !NeedsRefresh(next, laterMs, ttlMs) <==> laterMs - nowMs <= ttlMs
  {
  }

  /** In the router, once a catalog is cached, a request never fails and
      the cache never loses it: the catalog served is the cached one or a
      new download. (The controller's cache can lose it; see
      `ControllerLosesCatalog`.) */
  lemma CatalogNeverLost<T, U>(c: Cache<U>, nowMs: int, ttlMs: int, d: Download<T>, prepare: seq<T> -> seq<U>)
    requires c.catalog.Some?
    ensures var out := Lookup(c, nowMs, ttlMs, d, prepare);
      && out.1.Ok? && out.0.catalog.Some?
      && out.1.value == out.0.catalog.value
      && (out.0 == c || out.0.lastUpdate == Some(nowMs))
  {
  }

  /** One request's use of the controller's cache
      (server/src/controllers/studentController.js). It differs from the
      router's in one case: the controller stores `result.problems` into the
      cache, and stamps the time, before it first uses the list as an array.
      An `'OK'` answer whose `result` has no `problems` list therefore
      empties the cache and, with no catalog left to fall back on, fails. */
  function ControllerLookup<T>(c: Cache<T>, nowMs: int, d: Download<T>)
    : (out: (Cache<T>, Result<seq<T>, RefreshError>))
    ensures !NeedsRefresh(c, nowMs, ControllerTtlMs) ==> out == (c, Ok(c.catalog.value))
    ensures d != Answered("OK", NoProblems) ==> out == Lookup(c, nowMs, ControllerTtlMs, d, ps => ps)
    ensures NeedsRefresh(c, nowMs, ControllerTtlMs) && d == Answered("OK", NoProblems) ==>
      out == (Cache(None, Some(nowMs)), Err(NoProblemList))
  {
    if !NeedsRefresh(c, nowMs, ControllerTtlMs) then (c, Ok(c.catalog.value))
    else if d == Answered("OK", NoProblems) then (Cache(None, Some(nowMs)), Err(NoProblemList))
    else match Downloaded(d)
      case Ok(problems) => (Cache(Some(problems), Some(nowMs)), Ok(problems))
      case Err(e) =>
        if c.catalog.Some? then (c, Ok(c.catalog.value)) else (c, Err(e))
  }

  /** The controller's cache can lose a stale catalog: an `'OK'` answer
      without a problem list wipes it and the request fails, where the
      router serves the stale catalog. */
  lemma ControllerLosesCatalog<T>(c: Cache<T>, nowMs: int)
    requires c.catalog.Some? && NeedsRefresh(c, nowMs, ControllerTtlMs)
    ensures var out := ControllerLookup(c, nowMs, Answered("OK", NoProblems));
      out.0.catalog.None? && out.1.Err?
    ensures var out := Lookup(c, nowMs, ControllerTtlMs, Answered("OK", NoProblems), ps => ps);
      out == (c, Ok(c.catalog.value))
  {
  }
}

=== FILE: cf_routes.dfy ===
/** The routes of server/src/routes/codeforces.js (mounted at
    `/api/codeforces`): manual sync by handle, the schedule update, and the
    contest view with its `days` filter.

    "Now" and which schedules `cron.validate` accepts are inputs. The
    `days` query parameter is the raw string, read with `parseInt`.
 */
module CfRoutes {
  import opened Wrappers
  import opened StudentSchema
  import Upstream
  import Text
  import Rates
  import Seqs
  import Calendar
  import ServiceSync
  import CronService

  /** A JSON `{message}` answer or a payload (status 200). */
  datatype Reply<T> = Message(code: int, message: string) | Payload(value: T)

  const NotFound: string := "Student not found"

  // ---- parseInt ----

  /** The length of the run of decimal digits at the start of `s`. */
  function DigitRun(s: string): (n: nat)
    ensures n <= |s|
    ensures Rates.AllDigits(s[..n])
    ensures n < |s| ==> !Rates.IsDigit(s[n])
    decreases |s|
  {
    if s != [] && Rates.IsDigit(s[0]) then
      var n := 1 + DigitRun(s[1..]);
      assert s[..n] == [s[0]] + s[1..][..n - 1];
      n
    else 0
  }

  /** The value of one hexadecimal digit. */
  function HexDigitValue(c: char): (v: nat)
    requires Rates.IsHexDigit(c)
    ensures v < 16
  {
    if Rates.IsDigit(c) then c as int - '0' as int
    else if 'a' <= c <= 'f' then c as int - 'a' as int + 10
    else c as int - 'A' as int + 10
  }

  /** The length of the run of hexadecimal digits at the start of `s`. */
  function HexRun(s: string): (n: nat)
    ensures n <= |s|
    ensures forall i | 0 <= i < n :: Rates.IsHexDigit(s[i])
    ensures n < |s| ==> !Rates.IsHexDigit(s[n])
    decreases |s|
  {
    if s != [] && Rates.IsHexDigit(s[0]) then 1 + HexRun(s[1..]) else 0
  }

  /** The value of a string of hexadecimal digits. */
  function HexValue(s: string): nat
    requires forall i | 0 <= i < |s| :: Rates.IsHexDigit(s[i])
    decreases |s|
  {
    if s == [] then 0
    else HexValue(s[..|s| - 1]) * 16 + HexDigitValue(s[|s| - 1])
  }

  /** `s` after its leading white space and an optional sign. */
  function Unsigned(s: string): (u: string)
    ensures |u| <= |s|
  {
    var t := Text.TrimStart(s);
    if t != [] && (t[0] == '-' || t[0] == '+') then t[1..] else t
  }

  /** The first non-space character of `s` is a minus sign. */
  predicate Negative(s: string) {
    var t := Text.TrimStart(s);
    t != [] && t[0] == '-'
  }

  /** Without a radix, `parseInt` reads `0x` or `0X` after the sign as the
      prefix of a base-16 number. */
  predicate HexPrefixed(u: string) {
    |u| >= 2 && u[0] == '0' && (u[1] == 'x' || u[1] == 'X')
  }

  /** The number the digits after the sign spell: base 16 behind a `0x`
      prefix, base 10 otherwise; `None` when the run of digits is empty. */
  function Magnitude(u: string): (m: Option<nat>)
    ensures m.None? <==> if HexPrefixed(u) then HexRun(u[2..]) == 0 else DigitRun(u) == 0
  {
    if HexPrefixed(u) then
      var h := u[2..];
      var n := HexRun(h);
      if n == 0 then None else Some(HexValue(h[..n]))
    else
      var n := DigitRun(u);
      if n == 0 then None else Some(Rates.DigitsValue(u[..n]))
  }

  /** `parseInt(s)` with no radix: leading white space, an optional sign,
      then either `0x`/`0X` and the longest run of hexadecimal digits, or
      the longest run of decimal digits; `None` (NaN) when that run is
      empty. (A negative zero is the number 0 here.) */
  function ParseInt(s: string): (r: Option<int>)
    ensures var u := Unsigned(s);
      r.None? <==> if HexPrefixed(u) then HexRun(u[2..]) == 0 else DigitRun(u) == 0
    ensures r.Some? && r.value < 0 ==> Negative(s)
  {
    match Magnitude(Unsigned(s))
    case None => None
    case Some(v) => Some(if Negative(s) then 0 - v as int else v as int)
  }

  /** A string that starts with neither white space nor a sign is its own
      unsigned part; behind a minus sign it is the unsigned part of a
      negative number. */
  lemma SignOf(body: string)
    requires body != [] && !Text.IsSpace(body[0]) && body[0] != '-' && body[0] != '+'
    ensures Unsigned(body) == body && !Negative(body)
    ensures Unsigned("-" + body) == body && Negative("-" + body)
  {
    NoLeadingSpace(body);
    var m := "-" + body;
    NoLeadingSpace(m);
    assert m[1..] == body;
  }

  /** Trimming a string that starts with a non-space character changes
      nothing. */
  lemma NoLeadingSpace(s: string)
    requires s != [] && !Text.IsSpace(s[0])
    ensures Text.TrimStart(s) == s
  {
  }

  /** Hexadecimal digits behind `0x` parse to their base-16 value, and with
      a minus sign in front to its negation. */
  lemma ParseHex(digits: string)
    requires |digits| >= 1 && forall i | 0 <= i < |digits| :: Rates.IsHexDigit(digits[i])
    ensures var s := "0x" + digits;
      && ParseInt(s) == Some(HexValue(digits))
      && ParseInt("-" + s) == Some(0 - HexValue(digits))
  {
    var s := "0x" + digits;
    assert s[0] == '0';
    HexMagnitude(digits);
    SignedParse(s, HexValue(digits));
  }

  /** A string that starts with neither white space nor a sign parses to
      the number its digits spell, and behind a minus sign to its
      negation. */
  lemma SignedParse(body: string, v: nat)
    requires body != [] && !Text.IsSpace(body[0]) && body[0] != '-' && body[0] != '+'
    requires Magnitude(body) == Some(v)
    ensures ParseInt(body) == Some(v as int)
    ensures ParseInt("-" + body) == Some(0 - v as int)
  {
    SignOf(body);
  }

  /** `0x` and hexadecimal digits spell the digits' base-16 value. */
  lemma HexMagnitude(digits: string)
    requires |digits| >= 1 && forall i | 0 <= i < |digits| :: Rates.IsHexDigit(digits[i])
    ensures Magnitude("0x" + digits) == Some(HexValue(digits))
  {
    var s := "0x" + digits;
    assert HexPrefixed(s) && s[2..] == digits;
    AllHexRun(digits);
    assert digits[..|digits|] == digits;
  }

  /** On a string of hexadecimal digits the run is the whole string. */
  lemma {:induction false} AllHexRun(s: string)
    requires forall i | 0 <= i < |s| :: Rates.IsHexDigit(s[i])
    ensures HexRun(s) == |s|
    decreases |s|
  {
    if s != [] {
      AllHexRun(s[1..]);
    }
  }

  /** With a `0x` prefix the digits are read in base 16: `"0x10"` is 16. */
  lemma HexExample()
    ensures ParseInt("0x10") == Some(16)
  {
    var s := "0x10";
    assert s[0] == '0';
    HexMagnitude("10");
    assert "0x" + "10" == s;
    assert HexValue("10") == 16 by {
      assert "10"[..1] == "1";
    }
    SignedParse(s, 16);
  }

  /** Behind a minus sign as well: `"-0x1A"` is -26. */
  lemma NegativeHexExample(t: string)
    requires t == "-0x1A"
    ensures ParseInt(t) == Some(-26)
  {
    var s := t[1..];
    assert t == "-" + s;
    HexDigitsOneA(s[2..]);
    HexMagnitude(s[2..]);
    assert "0x" + s[2..] == s;
    SignedParse(s, 26);
  }

  /** `"1A"` is a run of hexadecimal digits worth 26. */
  lemma HexDigitsOneA(d: string)
    requires d == "1A"
    ensures forall i | 0 <= i < |d| :: Rates.IsHexDigit(d[i])
    ensures HexValue(d) == 26
  {
    var one := d[..1];
    assert one[..0] == [] && HexValue(one) == 1;
    assert HexValue(d) == HexValue(one) * 16 + 10;
  }

  /** A bare `0x` prefix is NaN, not 0. */
  lemma BarePrefixIsNaN()
    ensures ParseInt("0x") == None
  {
    SignOf("0x");
    assert HexRun("0x"[2..]) == 0;
  }

  /** A decimal run stops at the first other character. */
  lemma TrailingTextIgnored()
    ensures ParseInt("7days") == Some(7)
  {
    var d := "7days";
    assert !HexPrefixed(d);
    assert DigitRun(d[1..]) == 0;
    assert d[..1] == "7";
    assert Rates.DigitsValue("7") == 7 by {
      assert "7"[..0] == [];
    }
    SignedParse(d, 7);
  }

  /** `parseInt` reads back every integer `String` writes. */
  lemma ParseIntRoundTrip(n: int)
    ensures ParseInt(Text.IntToString(n)) == Some(n)
  {
    var m: nat := if n < 0 then -n else n;
    var d := Text.NatToString(m);
    NatMagnitude(m);
    SignedParse(d, m);
  }

  /** The decimal rendering of a number starts with a digit and spells it. */
  lemma NatMagnitude(m: nat)
    ensures var d := Text.NatToString(m);
      && !Text.IsSpace(d[0]) && d[0] != '-' && d[0] != '+'
      && Magnitude(d) == Some(m)
  {
    var d := Text.NatToString(m);
    assert Rates.IsDigit(d[0]);
    Rates.NatToStringValue(m);
    DigitsMagnitude(d);
  }

  /** A string of digits is not `0x`-prefixed and spells its value. */
  lemma DigitsMagnitude(digits: string)
    requires |digits| >= 1 && Rates.AllDigits(digits)
    ensures Magnitude(digits) == Some(Rates.DigitsValue(digits))
  {
    assert !HexPrefixed(digits) by {
      if |digits| >= 2 {
        assert Rates.IsDigit(digits[1]);
      }
    }
    AllDigitsRun(digits);
    assert digits[..|digits|] == digits;
  }

  /** On a string of digits the run is the whole string. */
  lemma {:induction false} AllDigitsRun(s: string)
    requires Rates.AllDigits(s)
    ensures DigitRun(s) == |s|
    decreases |s|
  {
    if s != [] {
      AllDigitsRun(s[1..]);
    }
  }

  // ---- POST /sync/:handle ----

  /** The answer to a manual sync. */
  datatype SyncReply = SyncNotFound | SyncDone | SyncFailed(error: ServiceSync.ServiceError)

  /** `POST /sync/:handle`: 404 when no student has the handle (nothing is
      fetched), otherwise the service-level sync; 200 when it succeeds and
      500 with its error when it throws. */
  function ManualSync(store: seq<Student>, handle: string, r: Upstream.Responses, enabled: bool,
                      notices: ServiceSync.Notices, send: ServiceSync.Send, nowMs: int)
    : (out: (seq<Student>, ServiceSync.Notices, SyncReply))
    ensures out.2 == SyncNotFound <==> FindByHandle(store, handle).None?
    ensures out.2 == SyncNotFound ==> out.0 == store && out.1 == notices
    ensures out.2 != SyncNotFound ==>
      var run := ServiceSync.Fetch(store, handle, r, enabled, notices, send, nowMs);
      && out.0 == run.store && out.1 == run.notices
      && (out.2 == SyncDone <==> run.result.Ok?)
      && (out.2.SyncFailed? ==> out.2.error == run.result.error)
    ensures out.2.SyncFailed? ==> out.2.error != ServiceSync.StudentNotFound
  {
    if FindByHandle(store, handle).None? then (store, notices, SyncNotFound)
    else
      var run := ServiceSync.Fetch(store, handle, r, enabled, notices, send, nowMs);
      match run.result
      case Ok(_) => (run.store, run.notices, SyncDone)
      case Err(e) => (run.store, run.notices, SyncFailed(e))
  }

  // ---- POST /schedule ----

  const ScheduleRequired: string := "Schedule is required"
  const ScheduleUpdated: string := "Cron schedule updated successfully"

  /** `POST /schedule`: a missing or empty schedule is a 400 before the
      cron service is asked; a refused one is a 400 with its message; an
      accepted one restarts the job. */
  function UpdateScheduleRoute(cron: CronService.CronState, schedule: Option<string>, valid: string -> bool)
    : (out: (CronService.CronState, Reply<()>))
    ensures !Upstream.TruthyText(schedule) ==> out == (cron, Message(400, ScheduleRequired))
    ensures Upstream.TruthyText(schedule) && !valid(schedule.value) ==>
      out == (cron, Message(400, CronService.InvalidSchedule))
    ensures Upstream.TruthyText(schedule) && valid(schedule.value) ==>
      && out.1 == Message(200, ScheduleUpdated)
      && out.0 == CronService.Start(cron.(schedule := schedule.value))
  {
    if !Upstream.TruthyText(schedule) then (cron, Message(400, ScheduleRequired))
    else match CronService.UpdateSchedule(cron, schedule.value, valid)
      case Err(m) => (cron, Message(400, m))
      case Ok(next) => (next, Message(200, ScheduleUpdated))
  }

  // ---- GET /:handle/contests ----

  /** `cutoff.setDate(getDate() - days)`: `days` days before now. */
  function Cutoff(nowMs: int, d: int): int {
    nowMs - d * Calendar.DayMs
  }

  /** The contests of the last `days` days: `cutoff.setDate(getDate() - days)`
      and `contest.date >= cutoff`. A `days` that does not parse, or one so
      large that the cutoff leaves the range of `Date`, makes the cutoff an
      invalid date, which no comparison satisfies. */
  function SinceDays(history: seq<ContestEntry>, days: Option<int>, nowMs: int): (r: seq<ContestEntry>)
    ensures days.None? ==> r == []
    ensures days.Some? && !Calendar.IsTimeValue(Cutoff(nowMs, days.value)) ==> r == []
    ensures days.Some? && Calendar.IsTimeValue(Cutoff(nowMs, days.value)) ==>
      forall c :: c in r <==> c in history && c.dateMs >= Cutoff(nowMs, days.value)
  {
    match days
    case None => []
    case Some(d) =>
      var cutoff := Cutoff(nowMs, d);
      if !Calendar.IsTimeValue(cutoff) then []
      else Seqs.Filter(history, (c: ContestEntry) => c.dateMs >= cutoff)
  }

  /** `GET /:handle/contests`: 404 for an unknown handle; the whole history
      when `days` is missing or empty; otherwise the entries since the
      cutoff, in stored order. */
  function Contests(store: seq<Student>, handle: string, days: Option<string>, nowMs: int)
    : (r: Reply<seq<ContestEntry>>)
    ensures r.Message? <==> FindByHandle(store, handle).None?
    ensures r.Message? ==> r == Message(404, NotFound)
    ensures r.Payload? && !Upstream.TruthyText(days) ==>
      r.value == store[FindByHandle(store, handle).value].contestHistory
    ensures r.Payload? && Upstream.TruthyText(days) ==>
      r.value == SinceDays(store[FindByHandle(store, handle).value].contestHistory, ParseInt(days.value), nowMs)
  {
    match FindByHandle(store, handle)
    case None => Message(404, NotFound)
    case Some(i) =>
      var history := store[i].contestHistory;
      if !Upstream.TruthyText(days) then Payload(history)
      else Payload(SinceDays(history, ParseInt(days.value), nowMs))
  }

  /** `?days=200000000` reaches back past the start of the `Date` range, so
      nothing is kept, however old the history is. */
  lemma HugeWindowKeepsNothing(history: seq<ContestEntry>, nowMs: int)
    requires Calendar.IsTimeValue(nowMs) && nowMs < Calendar.MaxTimeMs
    ensures SinceDays(history, Some(200000000), nowMs) == []
  {
  }

  /** A longer window keeps every contest a shorter one keeps, as long as
      the longer window's cutoff is still a valid date. */
  lemma SinceDaysMonotone(history: seq<ContestEntry>, d1: int, d2: int, nowMs: int)
    requires d1 <= d2 && Calendar.IsTimeValue(Cutoff(nowMs, d2))
    ensures forall c | c in SinceDays(history, Some(d1), nowMs) :: c in SinceDays(history, Some(d2), nowMs)
  {
  }
}

=== FILE: cf_utils.dfy ===
/** The pure helpers of server/utils/codeforces.js that the cron sync uses:
    `processContestData`, `processSubmissionData` and `getUnsolvedProblems`.
    (The three fetch helpers are I/O; the cron sync takes their answers as
    inputs.) All three read `submission.problem` unguarded, so they are
    defined for lists where every submission has a problem.
 */
module CfUtils {
  import opened Upstream
  import opened StudentSchema
  import Mapping
  import Seqs

  /** A `processSubmissionData` entry; `problemRating` is 0 when unrated. */
  datatype ProcessedSubmission = ProcessedSubmission(
    problemId: string,
    problemName: string,
    problemRating: int,
    verdict: string,
    dateMs: int)

  /** `processContestData`: each rating change as a contest entry, in
      order, fields copied and the date in milliseconds. */
  function ProcessContestData(history: seq<RatingChange>): (r: seq<ContestEntry>)
    ensures |r| == |history|
    ensures forall i | 0 <= i < |r| ::
      && r[i].contestId == history[i].contestId
      && r[i].contestName == history[i].contestName
      && r[i].rank == history[i].rank
      && r[i].oldRating == history[i].oldRating
      && r[i].newRating == history[i].newRating
      && r[i].dateMs == history[i].ratingUpdateTimeSeconds * 1000
  {
    Mapping.ToContestHistory(history)
  }

  /** `processSubmissionData`: one entry per submission, in order, keyed
      `contestId + index` (a number plus a string concatenates). */
  function ProcessSubmissionData(subs: seq<Submission>): (r: seq<ProcessedSubmission>)
    requires AllHaveProblems(subs)
    ensures |r| == |subs|
    ensures forall i | 0 <= i < |r| ::
      && r[i].problemId == SubmissionKey(subs[i])
      && (r[i].problemRating == 0 <==> !Truthy(subs[i].problem.value.rating))
      && (Truthy(subs[i].problem.value.rating) ==> r[i].problemRating == subs[i].problem.value.rating.value)
      && r[i].verdict == subs[i].verdict
      && r[i].dateMs == subs[i].creationTimeSeconds * 1000
  {
    seq(|subs|, i requires 0 <= i < |subs| =>
      var p := subs[i].problem.value;
      ProcessedSubmission(SubmissionKey(subs[i]), p.name, OrZero(p.rating), subs[i].verdict,
                          subs[i].creationTimeSeconds * 1000))
  }

  /** The two collections of `getUnsolvedProblems`: the keys with an `'OK'`
      submission, and the keys of other submissions in first-insertion order
      (a JS `Set` lists its elements that way). */
  datatype Seen = Seen(solved: set<string>, attempted: seq<string>)

  /** The `forEach` pass. */
  function Pass(subs: seq<Submission>): Seen
    requires AllHaveProblems(subs)
    decreases |subs|
  {
    if subs == [] then Seen({}, [])
    else
      var seen := Pass(subs[..|subs| - 1]);
      var last := subs[|subs| - 1];
      var k := SubmissionKey(last);
      if Accepted(last) then seen.(solved := seen.solved + {k})
      else if k in seen.attempted then seen
      else seen.(attempted := seen.attempted + [k])
  }

  /** `Array.from(attemptedProblems).filter(id => !solvedProblems.has(id))`. */
  function GetUnsolvedProblems(subs: seq<Submission>): seq<string>
    requires AllHaveProblems(subs)
  {
    var seen := Pass(subs);
    Seqs.Filter(seen.attempted, k => k !in seen.solved)
  }

  // ---- What the result is meant to be ----

  /** Keys of the submissions whose acceptance is `ok`. */
  ghost function KeysWhere(subs: seq<Submission>, ok: bool): set<string>
    requires AllHaveProblems(subs)
  {
    set i | 0 <= i < |subs| && Accepted(subs[i]) == ok :: SubmissionKey(subs[i])
  }

  /** Keys with an accepted submission. */
  ghost function OkIds(subs: seq<Submission>): set<string>
    requires AllHaveProblems(subs)
  {
    KeysWhere(subs, true)
  }

  /** Keys with a submission that is not accepted. */
  ghost function FailedIds(subs: seq<Submission>): set<string>
    requires AllHaveProblems(subs)
  {
    KeysWhere(subs, false)
  }

  /** The position of the first non-accepted submission of `x`, or `|subs|`
      when there is none. */
  function FirstFail(subs: seq<Submission>, x: string): nat
    requires AllHaveProblems(subs)
    decreases |subs|
  {
    if subs == [] then 0
    else
      var f := FirstFail(subs[..|subs| - 1], x);
      var last := subs[|subs| - 1];
      if f < |subs| - 1 then f
      else if !Accepted(last) && SubmissionKey(last) == x then |subs| - 1
      else |subs|
  }

  /** A key of a list with one more submission is a key of the shorter
      list or the added submission's. */
  lemma KeysWhereFrom(init: seq<Submission>, last: Submission, ok: bool, x: string)
    requires AllHaveProblems(init) && last.problem.Some?
    requires AllHaveProblems(init + [last])
    requires x in KeysWhere(init + [last], ok)
    ensures x in KeysWhere(init, ok) || (Accepted(last) == ok && x == SubmissionKey(last))
  {
    var subs := init + [last];
    var i :| 0 <= i < |subs| && Accepted(subs[i]) == ok && SubmissionKey(subs[i]) == x;
    if i < |init| {
      assert subs[i] == init[i];
    }
  }

  /** A key of the shorter list is a key of the longer one. */
  lemma KeysWherePrefix(init: seq<Submission>, last: Submission, ok: bool, x: string)
    requires AllHaveProblems(init) && last.problem.Some?
    requires AllHaveProblems(init + [last])
    requires x in KeysWhere(init, ok)
    ensures x in KeysWhere(init + [last], ok)
  {
    var i :| 0 <= i < |init| && Accepted(init[i]) == ok && SubmissionKey(init[i]) == x;
    assert (init + [last])[i] == init[i];
  }

  /** Keys of a list with one more submission. */
  lemma KeysWhereSplit(subs: seq<Submission>, ok: bool, x: string)
    requires AllHaveProblems(subs) && subs != []
    ensures AllHaveProblems(subs[..|subs| - 1])
    ensures x in KeysWhere(subs, ok) <==>
      x in KeysWhere(subs[..|subs| - 1], ok) || (Accepted(subs[|subs| - 1]) == ok && x == SubmissionKey(subs[|subs| - 1]))
  {
    var init := subs[..|subs| - 1];
    var last := subs[|subs| - 1];
    assert subs == init + [last];
    if x in KeysWhere(init, ok) {
      KeysWherePrefix(init, last, ok, x);
    }
    if x in KeysWhere(subs, ok) {
      KeysWhereFrom(init, last, ok, x);
    }
    if Accepted(last) == ok && x == SubmissionKey(last) {
      assert subs[|subs| - 1] == last;
    }
  }

  /** `FirstFail` finds a non-accepted submission of `x` exactly when there
      is one, and it finds the first. */
  lemma {:induction false} FirstFailFinds(subs: seq<Submission>, x: string)
    requires AllHaveProblems(subs)
    ensures FirstFail(subs, x) <= |subs|
    ensures FirstFail(subs, x) < |subs| <==> x in FailedIds(subs)
    ensures FirstFail(subs, x) < |subs| ==>
      !Accepted(subs[FirstFail(subs, x)]) && SubmissionKey(subs[FirstFail(subs, x)]) == x
    ensures forall j | 0 <= j < FirstFail(subs, x) && j < |subs| ::
      Accepted(subs[j]) || SubmissionKey(subs[j]) != x
    decreases |subs|
  {
    if subs != [] {
      var init := subs[..|subs| - 1];
      FirstFailFinds(init, x);
      KeysWhereSplit(subs, false, x);
      assert forall j | 0 <= j < |init| :: init[j] == subs[j];
    }
  }

  /** The pass collects the accepted keys, and lists every failed key once,
      ordered by first failure. */
  lemma {:induction false} PassCollects(subs: seq<Submission>)
    requires AllHaveProblems(subs)
    ensures Pass(subs).solved == OkIds(subs)
    ensures forall x :: x in Pass(subs).attempted <==> x in FailedIds(subs)
    ensures forall i, j | 0 <= i < j < |Pass(subs).attempted| ::
      FirstFail(subs, Pass(subs).attempted[i]) < FirstFail(subs, Pass(subs).attempted[j])
    decreases |subs|
  {
    if subs != [] {
      var init := subs[..|subs| - 1];
      var last := subs[|subs| - 1];
      var k := SubmissionKey(last);
      var a := Pass(init).attempted;
      PassCollects(init);
      forall x ensures (x in OkIds(subs) <==> x in OkIds(init) || (Accepted(last) && x == k))
        && (x in FailedIds(subs) <==> x in FailedIds(init) || (!Accepted(last) && x == k))
      {
        KeysWhereSplit(subs, true, x);
        KeysWhereSplit(subs, false, x);
      }
      forall x | x in a ensures FirstFail(subs, x) == FirstFail(init, x) {
        FirstFailFinds(init, x);
      }
      if !Accepted(last) && k !in a {
        FirstFailFinds(init, k);
        assert FirstFail(subs, k) == |init|;
        var r := Pass(subs).attempted;
        assert r == a + [k];
        forall i | 0 <= i < |a| ensures FirstFail(subs, a[i]) < |init| {
          FirstFailFinds(init, a[i]);
        }
      }
    }
  }

  /** `getUnsolvedProblems` returns exactly the keys with a non-accepted
      submission and no accepted one, each once, ordered by first
      non-accepted submission; none of them is a solved key. */
  lemma UnsolvedProblems(subs: seq<Submission>)
    requires AllHaveProblems(subs)
    ensures var r := GetUnsolvedProblems(subs);
      && (forall x :: x in r <==> x in FailedIds(subs) && x !in OkIds(subs))
      && (forall i, j | 0 <= i < j < |r| :: FirstFail(subs, r[i]) < FirstFail(subs, r[j]))
      && (forall i, j | 0 <= i < j < |r| :: r[i] != r[j])
  {
    var seen := Pass(subs);
    PassCollects(subs);
    Seqs.FilterIncreasing(seen.attempted, k => k !in seen.solved, x => FirstFail(subs, x));
  }
}

=== FILE: comparison_fetch.dfy ===
/** `fetchUserData` of client/src/components/StudentComparison.js: three
    calls to the server's proxy routes for one handle, validation of the
    bodies, and the client's own aggregation of the submission list.

    The client variant keys solved problems `contestId``index`, counts a
    tag's `total` over every submission and its `solved` over every accepted
    one, lists the tags in first-touch order sorted by `solved` descending,
    and spreads the solved count over the days since the oldest submission.
    The submission list is read without guards: a submission without a
    problem or without a tag array makes the pass throw a `TypeError`.
 */
module ComparisonFetch {
  import opened Wrappers
  import opened Upstream
  import opened TagTable
  import opened Occurrences
  import Rates
  import Text
  import Sorting
  import Calendar
  import Proxy

  /** What one `axios.get` to the proxy met: no HTTP answer at all (a
      network error, with its message), or the proxy's reply. */
  datatype Answer<T> = NoAnswer(message: string) | Replied(reply: Proxy.Reply<T>)

  /** Why `fetchUserData` threw: an `Error` with a message, or a `TypeError`
      from reading a missing field (its text is the engine's). */
  datatype FetchError = Message(text: string) | TypeError

  /** The last fallback of the rethrown message. */
  function DefaultFailure(handle: string): string {
    "Failed to fetch data for handle: " + handle
  }

  /** The JSON the proxy's body stands for. */
  function BodyData<T>(body: Proxy.Body<T>): (e: Envelope<T>)
    ensures body.Forward? ==> e == body.envelope
    ensures body.Failure? ==> !IsOk(e) && e.comment == Some(body.comment)
  {
    match body
    case Forward(env) => env
    case Failure(c) => Envelope("FAILED", None, Some(c))
  }

  /** The `data` of one call, or what it throws: axios throws on a missing
      answer and on a status outside 2xx, and the `catch` rethrows with the
      body's `comment`, else the error's message, else the default. */
  function CallData<T>(a: Answer<T>, handle: string): (r: Result<Envelope<T>, FetchError>)
    ensures r.Ok? <==> a.Replied? && 200 <= a.reply.code < 300
    ensures r.Ok? ==> r.value == BodyData(a.reply.body)
    ensures r.Err? ==> r.error.Message? && r.error.text != ""
    ensures a.Replied? && r.Err? && TruthyText(BodyData(a.reply.body).comment) ==>
      r.error.text == BodyData(a.reply.body).comment.value
  {
    match a
    case NoAnswer(m) => Err(Message(if m != "" then m else DefaultFailure(handle)))
    case Replied(reply) =>
      var data := BodyData(reply.body);
      if 200 <= reply.code < 300 then Ok(data)
      else Err(Message(TextOr(data.comment, "Request failed with status code " + Text.IntToString(reply.code))))
  }

  // ---- The client's pass over the submissions ----

  /** The pass reads `submission.problem.tags` of every submission. */
  predicate Readable(sub: Submission) {
    sub.problem.Some? && sub.problem.value.tags.Some?
  }

  predicate AllReadable(subs: seq<Submission>) {
    forall i | 0 <= i < |subs| :: Readable(subs[i])
  }

  /** `solvedProblems` and the two tag maps, kept as one table: every tag
      gets its `attempts` bump before any `solved` bump, so the table's
      first-touch order is the order of `tagAttempts`. */
  datatype Pass = Pass(solved: set<string>, tags: Table)

  /** One iteration of `submissionData.forEach`. */
  function Step(acc: Pass, sub: Submission): Pass
    requires Readable(sub)
  {
    var tags := sub.problem.value.tags.value;
    var attempted := BumpAll(acc.tags, tags, Attempted);
    if Accepted(sub) then Pass(acc.solved + {SubmissionKey(sub)}, BumpAll(attempted, tags, Solved))
    else Pass(acc.solved, attempted)
  }

  /** The whole pass, in list order. */
  function Collect(subs: seq<Submission>): Pass
    requires AllReadable(subs)
    decreases |subs|
  {
    if subs == [] then Pass({}, TagTable.Empty)
    else Step(Collect(subs[..|subs| - 1]), subs[|subs| - 1])
  }

  /** The distinct `contestId``index` keys with an accepted submission. */
  ghost function OkKeys(subs: seq<Submission>): set<string>
    requires AllReadable(subs)
  {
    set i | 0 <= i < |subs| && Accepted(subs[i]) :: SubmissionKey(subs[i])
  }

  /** Occurrences of `x` over the accepted submissions. */
  ghost function OkOcc(subs: seq<Submission>, x: string): nat
    decreases |subs|
  {
    if subs == [] then 0
    else OkOcc(subs[..|subs| - 1], x) + (if Accepted(subs[|subs| - 1]) then TagOcc(subs[|subs| - 1], x) else 0)
  }

  lemma OkKeysSnoc(subs: seq<Submission>)
    requires subs != [] && AllReadable(subs)
    ensures var init := subs[..|subs| - 1];
            var last := subs[|subs| - 1];
            OkKeys(subs) == OkKeys(init) + (if Accepted(last) then {SubmissionKey(last)} else {})
  {
    var init := subs[..|subs| - 1];
    assert forall i | 0 <= i < |init| :: init[i] == subs[i];
  }

  /** The solved set holds exactly the distinct keys of accepted submissions. */
  lemma {:induction false} CollectSolved(subs: seq<Submission>)
    requires AllReadable(subs)
    ensures Collect(subs).solved == OkKeys(subs)
    decreases |subs|
  {
    if subs != [] {
      CollectSolved(subs[..|subs| - 1]);
      OkKeysSnoc(subs);
    }
  }

  /** A tag's `solved` counts its occurrences over accepted submissions and
      its `total` over all submissions. */
  lemma {:induction false} CollectTags(subs: seq<Submission>, x: string)
    requires AllReadable(subs)
    ensures Get(Collect(subs).tags, x) == Counts(OkOcc(subs, x), AttemptOcc(subs, x))
    decreases |subs|
  {
    if subs != [] {
      var init := subs[..|subs| - 1];
      var last := subs[|subs| - 1];
      var tags := last.problem.value.tags.value;
      var before := Collect(init).tags;
      CollectTags(init, x);
      BumpAllCounts(before, tags, Attempted, x);
      BumpAllCounts(BumpAll(before, tags, Attempted), tags, Solved, x);
    }
  }

  /** The table lists each tag once, and exactly the tags of the list. */
  lemma {:induction false} CollectTagKeys(subs: seq<Submission>)
    requires AllReadable(subs)
    ensures Valid(Collect(subs).tags)
    ensures Collect(subs).tags.counts.Keys == AllTags(subs)
    decreases |subs|
  {
    if subs != [] {
      CollectTagKeys(subs[..|subs| - 1]);
      AllTagsSnoc(subs);
    }
  }

  lemma {:induction false} OkOccAtMostAttemptOcc(subs: seq<Submission>, x: string)
    ensures OkOcc(subs, x) <= AttemptOcc(subs, x)
    decreases |subs|
  {
    if subs != [] {
      OkOccAtMostAttemptOcc(subs[..|subs| - 1], x);
    }
  }

  // ---- The processed result ----

  /** One processed tag; the rate is `None` for the `NaN` of 0 / 0. */
  datatype TagRow = TagRow(tag: string, solved: nat, total: nat, successRate: Option<Rates.RateText>)

  /** One processed rating change; `day` is the calendar day the date string
      names. */
  datatype HistoryRow = HistoryRow(
    contestId: int,
    contestName: string,
    rank: int,
    ratingChange: int,
    oldRating: int,
    newRating: int,
    day: int)

  /** What `fetchUserData` resolves to. */
  datatype UserData = UserData(
    handle: string,
    rating: int,
    maxRating: int,
    rank: string,
    solvedCount: nat,
    averagePerDay: real,
    tagStats: seq<TagRow>,
    ratingHistory: seq<HistoryRow>)

  function ToTagRow(tag: string, c: Counts): (row: TagRow)
    ensures row.tag == tag && row.solved == c.solved && row.total == c.attempted
    ensures row.successRate.Some? <==> c.attempted > 0
  {
    TagRow(tag, c.solved, c.attempted,
           if c.attempted > 0 then Some(Rates.BareRate(c.solved, c.attempted)) else None)
  }

  /** The sort key of `sort((a, b) => b.solved - a.solved)`. */
  function MostSolved(row: TagRow): int {
    0 - row.solved
  }

  /** `Array.from(tagAttempts.entries()).map(...).sort(...)`. */
  function TagRows(t: Table): (r: seq<TagRow>)
    ensures |r| == |t.order|
  {
    Sorting.SortBy(Unsorted(t), MostSolved)
  }

  function ToHistoryRow(c: RatingChange): (row: HistoryRow)
    ensures row.ratingChange == row.newRating - row.oldRating
    ensures row.oldRating == c.oldRating && row.newRating == c.newRating
  {
    HistoryRow(c.contestId, c.contestName, c.rank, c.newRating - c.oldRating, c.oldRating, c.newRating,
               Calendar.DayOf(c.ratingUpdateTimeSeconds * 1000))
  }

  /** The days `averagePerDay` divides by: from the oldest submission (the
      last one listed, when its time is truthy; "now" otherwise) to now. */
  function DaysSinceFirst(subs: seq<Submission>, nowMs: int): (d: nat)
    ensures d >= 1
  {
    var first := if subs != [] && subs[|subs| - 1].creationTimeSeconds != 0
                 then subs[|subs| - 1].creationTimeSeconds * 1000 else nowMs;
    Calendar.DaysSpanned(nowMs - first)
  }

  /** The body of the `try`, once the three bodies are in hand: for a
      validated user, its submissions and its rating history, the distinct
      solved count, spread over the days since the first submission (zero
      exactly when nothing is solved), the tag rows of the pass, and one
      history row per rating change. */
  function Build(user: UserInfo, subs: seq<Submission>, history: seq<RatingChange>, nowMs: int): (u: UserData)
    requires AllReadable(subs)
    ensures u.handle == user.handle && u.rank == TextOr(user.rank, "unrated")
    ensures u.rating == OrZero(user.rating) && u.maxRating == OrZero(user.maxRating)
    ensures u.solvedCount == |OkKeys(subs)|
    ensures u.averagePerDay == u.solvedCount as real / DaysSinceFirst(subs, nowMs) as real
    ensures u.averagePerDay == 0.0 <==> OkKeys(subs) == {}
    ensures u.tagStats == TagRows(Collect(subs).tags)
    ensures |u.ratingHistory| == |history|
    ensures forall i | 0 <= i < |history| ::
      && u.ratingHistory[i].ratingChange == history[i].newRating - history[i].oldRating
      && u.ratingHistory[i].contestId == history[i].contestId
      && u.ratingHistory[i].day == Calendar.DayOf(history[i].ratingUpdateTimeSeconds * 1000)
  {
    var pass := Collect(subs);
    var days := DaysSinceFirst(subs, nowMs);
    var n := |pass.solved|;
    CollectSolved(subs);
    Calendar.PerDay(n, days);
    assert n == 0 <==> OkKeys(subs) == {};
    var avg := n as real / days as real;
    UserData(
      user.handle, OrZero(user.rating), OrZero(user.maxRating), TextOr(user.rank, "unrated"),
      n, avg,
      TagRows(pass.tags),
      seq(|history|, i requires 0 <= i < |history| => ToHistoryRow(history[i])))
  }

  /** The body of the `try`, once the three bodies are in hand: the three
      status checks in order, then the pass (a missing list or an unreadable
      submission throws). */
  function Process(handle: string, info: Envelope<UserInfo>, rating: Envelope<RatingChange>,
                   status: Envelope<Submission>, nowMs: int): (r: Result<UserData, FetchError>)
    ensures r.Ok? <==>
      && IsOk(info) && info.result.Some? && |info.result.value| > 0
      && IsOk(rating) && rating.result.Some?
      && IsOk(status) && status.result.Some? && AllReadable(status.result.value)
    ensures r.Ok? ==> r.value == Build(info.result.value[0], status.result.value, rating.result.value, nowMs)
    ensures (!IsOk(info) || info.result.None? || |info.result.value| == 0) ==>
      r == Err(Message(TextOr(info.comment, "Invalid user handle")))
  {
    if !IsOk(info) || info.result.None? || |info.result.value| == 0 then
      Err(Message(TextOr(info.comment, "Invalid user handle")))
    else if !IsOk(rating) then Err(Message(TextOr(rating.comment, "Failed to fetch rating history")))
    else if !IsOk(status) then Err(Message(TextOr(status.comment, "Failed to fetch submissions")))
    else if status.result.None? || !AllReadable(status.result.value) || rating.result.None? then Err(TypeError)
    else Ok(Build(info.result.value[0], status.result.value, rating.result.value, nowMs))
  }

  /** `fetchUserData(handle)`: a failed call rejects the whole
      `Promise.all`; otherwise the bodies are processed. `Promise.all`
      rejects with whichever call fails first in time; when several fail,
      the model reports the first in argument order. */
  function FetchUser(handle: string, info: Answer<UserInfo>, rating: Answer<RatingChange>,
                     status: Answer<Submission>, nowMs: int): (r: Result<UserData, FetchError>)
    ensures CallData(info, handle).Err? ==> r == Err(CallData(info, handle).error)
  {
    match CallData(info, handle)
    case Err(e) => Err(e)
    case Ok(i) =>
      match CallData(rating, handle)
      case Err(e) => Err(e)
      case Ok(g) =>
        match CallData(status, handle)
        case Err(e) => Err(e)
        case Ok(s) => Process(handle, i, g, s, nowMs)
  }

  /** A user is accepted exactly when all three calls answered 2xx, `user.info`
      is `'OK'` with a first entry, the other two are `'OK'` with lists, and
      every submission carries a problem with tags. */
  lemma FetchUserAccepts(handle: string, info: Answer<UserInfo>, rating: Answer<RatingChange>,
                         status: Answer<Submission>, nowMs: int)
    ensures FetchUser(handle, info, rating, status, nowMs).Ok? <==>
      && info.Replied? && 200 <= info.reply.code < 300
      && rating.Replied? && 200 <= rating.reply.code < 300
      && status.Replied? && 200 <= status.reply.code < 300
      && var i := BodyData(info.reply.body);
         var g := BodyData(rating.reply.body);
         var s := BodyData(status.reply.body);
         && IsOk(i) && i.result.Some? && |i.result.value| > 0
         && IsOk(g) && g.result.Some?
         && IsOk(s) && s.result.Some? && AllReadable(s.result.value)
  {
  }

  /** A proxy failure envelope on `user.info` never passes validation: when
      the other two calls answered, its comment is the thrown message,
      whatever the reply's status code. */
  lemma ProxyFailureRejected(handle: string, info: Answer<UserInfo>, rating: Answer<RatingChange>,
                             status: Answer<Submission>, nowMs: int)
    requires info.Replied? && info.reply.body.Failure? && info.reply.body.comment != ""
    requires CallData(rating, handle).Ok? && CallData(status, handle).Ok?
    ensures FetchUser(handle, info, rating, status, nowMs) == Err(Message(info.reply.body.comment))
  {
  }

  /** The rows before sorting, in first-touch order. */
  function Unsorted(t: Table): (rows: seq<TagRow>)
    ensures |rows| == |t.order|
    ensures forall k | 0 <= k < |rows| :: rows[k] == ToTagRow(t.order[k], Get(t, t.order[k]))
  {
    var e := Entries(t);
    seq(|e|, i requires 0 <= i < |e| => ToTagRow(e[i].0, e[i].1))
  }

  /** The tag rows come sorted by solved count, highest first. */
  lemma TagRowsSorted(t: Table)
    ensures forall i, j | 0 <= i < j < |TagRows(t)| :: TagRows(t)[i].solved >= TagRows(t)[j].solved
  {
    var rows := Unsorted(t);
    var r := TagRows(t);
    assert r == Sorting.SortBy(rows, MostSolved);
    Sorting.SortBySorted(rows, MostSolved);
    forall i, j | 0 <= i < j < |r| ensures r[i].solved >= r[j].solved {
      assert MostSolved(r[i]) <= MostSolved(r[j]);
    }
  }

  /** Every tag row of an accepted user carries the whole-list counts of its
      tag: attempted at least once, solved at most as often, so its rate is
      defined. */
  lemma {:induction false} FetchedTagCounts(handle: string, info: Envelope<UserInfo>, rating: Envelope<RatingChange>,
                                            status: Envelope<Submission>, nowMs: int, i: nat)
    requires Process(handle, info, rating, status, nowMs).Ok?
    requires i < |Process(handle, info, rating, status, nowMs).value.tagStats|
    ensures var subs := status.result.value;
      var row := Process(handle, info, rating, status, nowMs).value.tagStats[i];
      && row.solved == OkOcc(subs, row.tag)
      && row.total == AttemptOcc(subs, row.tag)
      && 1 <= row.total
      && row.solved <= row.total
      && row.successRate.Some?
  {
    var subs := status.result.value;
    var t := Collect(subs).tags;
    var rows := Unsorted(t);
    var row := TagRows(t)[i];
    CollectTagKeys(subs);
    assert row in multiset(rows);
    var k :| 0 <= k < |rows| && rows[k] == row;
    var x := t.order[k];
    CollectTags(subs, x);
    AttemptOccOfTag(subs, x);
    OkOccAtMostAttemptOcc(subs, x);
  }

  /** Every tag some submission of an accepted user carries has a row. */
  lemma FetchedTagsCover(handle: string, info: Envelope<UserInfo>, rating: Envelope<RatingChange>,
                         status: Envelope<Submission>, nowMs: int, x: string)
    requires Process(handle, info, rating, status, nowMs).Ok?
    requires x in AllTags(status.result.value)
    ensures var rows := Process(handle, info, rating, status, nowMs).value.tagStats;
      exists i | 0 <= i < |rows| :: rows[i].tag == x
  {
    var subs := status.result.value;
    var t := Collect(subs).tags;
    var rows := Unsorted(t);
    var r := TagRows(t);
    CollectTagKeys(subs);
    assert x in t.order;
    var k :| 0 <= k < |t.order| && t.order[k] == x;
    assert rows[k] in multiset(r);
    var i :| 0 <= i < |r| && r[i] == rows[k];
    assert r[i].tag == x;
  }

  /** Every row of an accepted user names a tag some submission carries. */
  lemma FetchedTagsFromList(handle: string, info: Envelope<UserInfo>, rating: Envelope<RatingChange>,
                            status: Envelope<Submission>, nowMs: int, i: nat)
    requires Process(handle, info, rating, status, nowMs).Ok?
    requires i < |Process(handle, info, rating, status, nowMs).value.tagStats|
    ensures Process(handle, info, rating, status, nowMs).value.tagStats[i].tag in AllTags(status.result.value)
  {
    var subs := status.result.value;
    var t := Collect(subs).tags;
    var rows := Unsorted(t);
    var r := TagRows(t);
    CollectTagKeys(subs);
    assert r[i] in multiset(rows);
    var k :| 0 <= k < |rows| && rows[k] == r[i];
    assert t.order[k] in t.counts;
  }
}

=== FILE: comparison_view.dfy ===
/** The comparison view of client/src/components/StudentComparison.js: the
    list of comparison handles, the rows of the comparison table and the
    combined rating history.

    Handles are compared case-insensitively (`toLowerCase`). The outcome of
    the fetch an add triggers is an input.
 */
module ComparisonView {
  import opened Wrappers
  import Text
  import Seqs
  import Sorting
  import ComparisonFetch

  // ---- The handle list ----

  /** The form state: the listed handles, the input field and the error line. */
  datatype Form = Form(handles: seq<string>, newHandle: string, error: string)

  const EnterHandle: string := "Please enter a handle"
  const AlreadyAdded: string := "This handle is already added for comparison"

  /** `h` is, ignoring case, the student's handle or a listed one. */
  predicate Taken(student: Option<string>, handles: seq<string>, h: string) {
    || (student.Some? && Text.SameIgnoringCase(student.value, h))
    || exists i | 0 <= i < |handles| :: Text.SameIgnoringCase(handles[i], h)
  }

  /** `addComparisonHandle`: the trimmed input is refused when empty or
      taken (no fetch happens); otherwise it is fetched, and appended (with
      the input cleared) only when the fetch succeeds. `student` is the
      profile's own handle, when there is a profile. */
  function AddHandle(student: Option<string>, form: Form,
                     fetched: Result<ComparisonFetch.UserData, ComparisonFetch.FetchError>): (r: Form)
    ensures var h := Text.Trim(form.newHandle);
      && (h == "" ==> r == form.(error := EnterHandle))
      && (h != "" && Taken(student, form.handles, h) ==> r == form.(error := AlreadyAdded))
      && (h != "" && !Taken(student, form.handles, h) && fetched.Ok? ==> r == Form(form.handles + [h], "", ""))
      && (h != "" && !Taken(student, form.handles, h) && fetched.Err? ==>
            r.handles == form.handles && r.newHandle == form.newHandle && r.error != "")
  {
    var h := Text.Trim(form.newHandle);
    if h == "" then form.(error := EnterHandle)
    else if Taken(student, form.handles, h) then form.(error := AlreadyAdded)
    else match fetched
      case Ok(_) => Form(form.handles + [h], "", "")
      case Err(e) => form.(error := ErrorText(e))
  }

  /** The message a failed fetch shows; a `TypeError`'s text is the
      engine's, never empty. */
  function ErrorText(e: ComparisonFetch.FetchError): (m: string)
    ensures e.Message? && e.text != "" ==> m == e.text
    ensures m != ""
  {
    match e
    case Message(text) => if text != "" then text else "Error"
    case TypeError => "TypeError"
  }

  /** `removeComparisonHandle`: every handle equal to `h` ignoring case goes,
      the others stay in order. */
  function RemoveHandle(handles: seq<string>, h: string): (r: seq<string>)
    ensures forall x :: x in r <==> x in handles && !Text.SameIgnoringCase(x, h)
    ensures |r| <= |handles|
  {
    Seqs.Filter(handles, (x: string) => !Text.SameIgnoringCase(x, h))
  }

  /** No two listed handles are equal ignoring case, and none is the
      student's own. */
  ghost predicate Distinct(student: Option<string>, handles: seq<string>) {
    && (forall i, j | 0 <= i < j < |handles| :: !Text.SameIgnoringCase(handles[i], handles[j]))
    && (student.Some? ==> forall i | 0 <= i < |handles| :: !Text.SameIgnoringCase(student.value, handles[i]))
  }

  /** Adding keeps the list free of case-insensitive duplicates and of the
      student's own handle. */
  lemma AddKeepsDistinct(student: Option<string>, form: Form,
                         fetched: Result<ComparisonFetch.UserData, ComparisonFetch.FetchError>)
    requires Distinct(student, form.handles)
    ensures Distinct(student, AddHandle(student, form, fetched).handles)
  {
    var h := Text.Trim(form.newHandle);
    var r := AddHandle(student, form, fetched);
    if h != "" && !Taken(student, form.handles, h) && fetched.Ok? {
      assert r.handles == form.handles + [h];
      forall i, j | 0 <= i < j < |r.handles| ensures !Text.SameIgnoringCase(r.handles[i], r.handles[j]) {
        if j == |form.handles| {
          assert r.handles[i] == form.handles[i];
        }
      }
    }
  }

  /** Removing the handle just added gives back the list as it was. */
  lemma {:induction false} RemoveUndoesAdd(student: Option<string>, form: Form,
                                           fetched: Result<ComparisonFetch.UserData, ComparisonFetch.FetchError>)
    requires Text.Trim(form.newHandle) != "" && !Taken(student, form.handles, Text.Trim(form.newHandle)) && fetched.Ok?
    ensures RemoveHandle(AddHandle(student, form, fetched).handles, Text.Trim(form.newHandle)) == form.handles
  {
    var h := Text.Trim(form.newHandle);
    var keep := (x: string) => !Text.SameIgnoringCase(x, h);
    Seqs.FilterAppend(form.handles, [h], keep);
    assert Seqs.Filter([h], keep) == [];
    Seqs.FilterKeepsAll(form.handles, keep);
  }

  // ---- The comparison table ----

  /** One row of the comparison table. */
  datatype Row = Row(
    handle: string,
    rating: int,
    maxRating: int,
    rank: string,
    solvedCount: nat,
    ratingDiff: int,
    problemsDiff: int,
    averagePerDay: real,
    tagStats: seq<ComparisonFetch.TagRow>)

  /** The handles fetched: the student's own first, when the view has a
      student with a non-empty handle. */
  function Handles(student: Option<string>, comparison: seq<string>): (r: seq<string>)
    ensures student.None? || student.value == "" ==> r == comparison
    ensures student.Some? && student.value != "" ==>
      |r| == |comparison| + 1 && r[0] == student.value && r[1..] == comparison
  {
    if student.Some? && student.value != "" then [student.value] + comparison else comparison
  }

  /** The effect's guards: nothing is fetched when the handle list comes
      out empty (in particular with no student and no comparison handle),
      and the rows and history on screen then stay as they were; otherwise
      the list is fetched. */
  function FetchedHandles(student: Option<string>, comparison: seq<string>): (r: Option<seq<string>>)
    ensures r.None? <==> Handles(student, comparison) == []
    ensures r.None? ==> comparison == [] && (student.None? || student.value == "")
    ensures r.Some? ==> r.value == Handles(student, comparison) && |r.value| > 0
  {
    var handles := Handles(student, comparison);
    if handles == [] then None else Some(handles)
  }

  /** Without a student, removing the last comparison handle fetches
      nothing, so the earlier comparison stays on screen. */
  lemma RemovingLastFetchesNothing(h: string)
    ensures FetchedHandles(None, RemoveHandle([h], h)) == None
  {
  }

  /** The rows: with a profile, the differences are taken against the first
      user (the student); without one they are 0. */
  function Rows(hasStudent: bool, users: seq<ComparisonFetch.UserData>): (r: seq<Row>)
    ensures |r| == |users|
    ensures forall i | 0 <= i < |r| :: r[i].handle == users[i].handle && r[i].solvedCount == users[i].solvedCount
    ensures hasStudent && |r| > 0 ==> r[0].ratingDiff == 0 && r[0].problemsDiff == 0
    ensures forall i | 0 <= i < |r| ::
      r[i].ratingDiff == (if hasStudent then users[i].rating - users[0].rating else 0)
  {
    seq(|users|, i requires 0 <= i < |users| =>
      var u := users[i];
      Row(u.handle, u.rating, u.maxRating, u.rank, u.solvedCount,
          if hasStudent then u.rating - users[0].rating else 0,
          if hasStudent then u.solvedCount - users[0].solvedCount else 0,
          u.averagePerDay, u.tagStats))
  }

  // ---- As the profile page mounts the view ----

  /** The `student` prop the view sees on the profile page. The page
      renders `<StudentComparison currentStudent={student} />`, but the view
      reads a prop named `student`, so it never has one there. */
  function MountedStudent(currentStudent: string): Option<string> {
    None
  }

  /** The prop the page evidently means to pass: its student's handle. */
  function IntendedStudent(currentStudent: string): Option<string> {
    Some(currentStudent)
  }

  /** As mounted, the profile plays no part: its handle is not fetched, no
      difference is taken against it, and typing it adds it as a comparison
      handle, which the own-handle check was written to refuse. */
  lemma MountedIgnoresProfile(own: string, form: Form,
                              fetched: Result<ComparisonFetch.UserData, ComparisonFetch.FetchError>,
                              users: seq<ComparisonFetch.UserData>)
    requires own != "" && Text.Trim(form.newHandle) == own
    requires !Taken(None, form.handles, own) && fetched.Ok?
    ensures Handles(MountedStudent(own), form.handles) == form.handles
    ensures forall i | 0 <= i < |users| :: Rows(MountedStudent(own).Some?, users)[i].ratingDiff == 0
    ensures AddHandle(MountedStudent(own), form, fetched).handles == form.handles + [own]
    ensures !Distinct(IntendedStudent(own), AddHandle(MountedStudent(own), form, fetched).handles)
  {
    var added := AddHandle(MountedStudent(own), form, fetched).handles;
    assert added[|form.handles|] == own;
  }

  /** With the prop passed, the profile's handle is fetched first, every
      difference is taken against its user, typing it is refused, and the
      list never comes to hold it. */
  lemma IntendedComparesAgainstProfile(own: string, form: Form,
                                       fetched: Result<ComparisonFetch.UserData, ComparisonFetch.FetchError>,
                                       users: seq<ComparisonFetch.UserData>)
    requires own != ""
    ensures Handles(IntendedStudent(own), form.handles) == [own] + form.handles
    ensures forall i | 0 <= i < |users| ::
      Rows(IntendedStudent(own).Some?, users)[i].ratingDiff == users[i].rating - users[0].rating
    ensures Text.Trim(form.newHandle) == own ==>
      AddHandle(IntendedStudent(own), form, fetched) == form.(error := AlreadyAdded)
    ensures Distinct(IntendedStudent(own), form.handles) ==>
      Distinct(IntendedStudent(own), AddHandle(IntendedStudent(own), form, fetched).handles)
  {
    if Distinct(IntendedStudent(own), form.handles) {
      AddKeepsDistinct(IntendedStudent(own), form, fetched);
    }
  }

  const LoadFailed: string := "Failed to fetch comparison data"

  /** `Promise.all(handles.map(fetchUserData))`: every user, or the view's
      one error message when any fetch failed. */
  function LoadAll(results: seq<Result<ComparisonFetch.UserData, ComparisonFetch.FetchError>>)
    : (r: Result<seq<ComparisonFetch.UserData>, string>)
    ensures r.Ok? <==> forall i | 0 <= i < |results| :: results[i].Ok?
    ensures r.Ok? ==> |r.value| == |results| && forall i | 0 <= i < |results| :: r.value[i] == results[i].value
    ensures r.Err? ==> r.error == LoadFailed
    decreases |results|
  {
    if results == [] then Ok([])
    else
      match LoadAll(results[..|results| - 1])
      case Err(e) => Err(e)
      case Ok(users) =>
        var last := results[|results| - 1];
        if last.Err? then Err(LoadFailed)
        else Ok(users + [last.value])
  }

  // ---- The combined history ----

  /** One point of the combined chart. */
  datatype Point = Point(handle: string, day: int, rating: int, ratingChange: int, contestName: string)

  function ToPoint(handle: string, h: ComparisonFetch.HistoryRow): Point {
    Point(handle, h.day, h.newRating, h.ratingChange, h.contestName)
  }

  /** Every user's history in fetch order, each in its own order. */
  function Flatten(users: seq<ComparisonFetch.UserData>): (r: seq<Point>)
    decreases |users|
  {
    if users == [] then []
    else
      var u := users[|users| - 1];
      Flatten(users[..|users| - 1])
      + seq(|u.ratingHistory|, i requires 0 <= i < |u.ratingHistory| => ToPoint(u.handle, u.ratingHistory[i]))
  }

  function DayKey(p: Point): int {
    p.day
  }

  /** `combinedHistory.sort((a, b) => new Date(a.date) - new Date(b.date))`:
      ascending by day, and in fetch order within a day. */
  function Combined(users: seq<ComparisonFetch.UserData>): (r: seq<Point>)
    ensures multiset(r) == multiset(Flatten(users))
  {
    Sorting.SortBy(Flatten(users), DayKey)
  }

  /** The combined history holds every user's points, ascending by day; the
      points of one day keep the order in which they were collected. */
  lemma CombinedOrdered(users: seq<ComparisonFetch.UserData>, day: int)
    ensures var r := Combined(users);
      && (forall i, j | 0 <= i < j < |r| :: r[i].day <= r[j].day)
      && Sorting.WithKey(r, DayKey, day) == Sorting.WithKey(Flatten(users), DayKey, day)
  {
    Sorting.SortBySorted(Flatten(users), DayKey);
    Sorting.SortByStable(Flatten(users), DayKey, day);
    var r := Combined(users);
    forall i, j | 0 <= i < j < |r| ensures r[i].day <= r[j].day {
      assert DayKey(r[i]) <= DayKey(r[j]);
    }
  }

  /** The collected points are exactly one per history entry of each
      user, tagged with that user's handle. */
  lemma {:induction false} FlattenPoints(users: seq<ComparisonFetch.UserData>)
    ensures |Flatten(users)| == Total(users)
    ensures forall p | p in Flatten(users) ::
      exists k, i | 0 <= k < |users| && 0 <= i < |users[k].ratingHistory| ::
        p == ToPoint(users[k].handle, users[k].ratingHistory[i])
    decreases |users|
  {
    if users != [] {
      var init := users[..|users| - 1];
      var u := users[|users| - 1];
      FlattenPoints(init);
      var tail := seq(|u.ratingHistory|, i requires 0 <= i < |u.ratingHistory| => ToPoint(u.handle, u.ratingHistory[i]));
      forall p | p in Flatten(users)
        ensures exists k, i | 0 <= k < |users| && 0 <= i < |users[k].ratingHistory| ::
          p == ToPoint(users[k].handle, users[k].ratingHistory[i])
      {
        if p in Flatten(init) {
          var k, i :| 0 <= k < |init| && 0 <= i < |init[k].ratingHistory| && p == ToPoint(init[k].handle, init[k].ratingHistory[i]);
          assert users[k] == init[k];
        } else {
          assert p in tail;
          var i :| 0 <= i < |tail| && tail[i] == p;
          assert users[|users| - 1] == u;
        }
      }
    }
  }

  /** The number of history entries over all users. */
  function Total(users: seq<ComparisonFetch.UserData>): nat
    decreases |users|
  {
    if users == [] then 0 else Total(users[..|users| - 1]) + |users[|users| - 1].ratingHistory|
  }
}

=== FILE: cron_service.dfy ===
/** The schedule holder of server/src/services/cronService.js and the job it
    schedules.

    `node-cron` keeps every scheduled task in one registry; `CronState` is
    that registry together with the module's `cronSchedule` variable. Which
    expressions `cron.validate` accepts is a parameter. The job runs
    `fetchCodeforcesData` for every student of a snapshot taken at its
    start, catching each failure, so the store is threaded through the
    service-level sync one student at a time.
 */
module CronService {
  import opened Wrappers
  import opened StudentSchema
  import ServiceSync
  import Upstream

  /** The schedule before any update: 2 AM every day. */
  const DefaultSchedule: string := "0 2 * * *"

  /** The message `updateCronSchedule` throws. */
  const InvalidSchedule: string := "Invalid cron schedule"

  /** One registered task. */
  datatype Task = Task(schedule: string, running: bool)

  /** The current schedule and every task ever registered. */
  datatype CronState = CronState(schedule: string, tasks: seq<Task>)

  /** Module load: the default schedule and no task. */
  function Initial(): (s: CronState)
    ensures s.schedule == DefaultSchedule && s.tasks == []
  {
    CronState(DefaultSchedule, [])
  }

  /** The positions of the running tasks. */
  function Running(s: CronState): set<nat> {
    set i | 0 <= i < |s.tasks| && s.tasks[i].running
  }

  /** `stopCronJob`: every registered task stopped, none removed. */
  function Stop(s: CronState): (r: CronState)
    ensures r.schedule == s.schedule
    ensures |r.tasks| == |s.tasks|
    ensures forall i | 0 <= i < |r.tasks| :: r.tasks[i] == s.tasks[i].(running := false)
    ensures Running(r) == {}
  {
    CronState(s.schedule, seq(|s.tasks|, i requires 0 <= i < |s.tasks| => s.tasks[i].(running := false)))
  }

  /** `startCronJob`: stop everything, then register a running task on the
      current schedule. */
  function Start(s: CronState): (r: CronState)
    ensures r.schedule == s.schedule
    ensures |r.tasks| == |s.tasks| + 1
    ensures forall i | 0 <= i < |s.tasks| :: r.tasks[i] == s.tasks[i].(running := false)
    ensures r.tasks[|s.tasks|] == Task(s.schedule, true)
  {
    var stopped := Stop(s);
    stopped.(tasks := stopped.tasks + [Task(s.schedule, true)])
  }

  /** `updateCronSchedule`: a schedule `cron.validate` refuses throws and
      changes nothing; an accepted one replaces the schedule and restarts. */
  function UpdateSchedule(s: CronState, schedule: string, valid: string -> bool)
    : (r: Result<CronState, string>)
    ensures !valid(schedule) <==> r.Err?
    ensures r.Err? ==> r.error == InvalidSchedule
    ensures r.Ok? ==>
      && r.value.schedule == schedule
      && |r.value.tasks| == |s.tasks| + 1
      && r.value.tasks[|s.tasks|] == Task(schedule, true)
      && forall i | 0 <= i < |s.tasks| :: r.value.tasks[i] == s.tasks[i].(running := false)
  {
    if !valid(schedule) then Err(InvalidSchedule)
    else Ok(Start(s.(schedule := schedule)))
  }

  /** After a start exactly one task runs, the newest one, on the current
      schedule: restarting never leaves two jobs running. */
  lemma StartRunsOne(s: CronState)
    ensures Running(Start(s)) == {|s.tasks|}
    ensures Start(s).tasks[|s.tasks|].schedule == s.schedule
  {
    var r := Start(s);
    assert |s.tasks| in Running(r);
    assert forall i | 0 <= i < |s.tasks| :: !r.tasks[i].running;
  }

  /** Any sequence of schedule updates, valid or not, leaves at most one
      running task, and when one runs it is on the current schedule. */
  lemma {:induction false} UpdatesKeepOneRunning(s: CronState, schedules: seq<string>, valid: string -> bool)
    requires |Running(s)| <= 1
    requires forall i | i in Running(s) :: i < |s.tasks| && s.tasks[i].schedule == s.schedule
    ensures var r := Updates(s, schedules, valid);
      && |Running(r)| <= 1
      && forall i | i in Running(r) :: i < |r.tasks| && r.tasks[i].schedule == r.schedule
    decreases |schedules|
  {
    if schedules != [] {
      var next := UpdateSchedule(s, schedules[0], valid);
      if next.Ok? {
        StartRunsOne(s.(schedule := schedules[0]));
        UpdatesKeepOneRunning(next.value, schedules[1..], valid);
      } else {
        UpdatesKeepOneRunning(s, schedules[1..], valid);
      }
    }
  }

  /** Several `updateCronSchedule` calls in a row, the refused ones leaving
      the state as it was. */
  function Updates(s: CronState, schedules: seq<string>, valid: string -> bool): CronState
    decreases |schedules|
  {
    if schedules == [] then s
    else
      match UpdateSchedule(s, schedules[0], valid)
      case Ok(next) => Updates(next, schedules[1..], valid)
      case Err(_) => Updates(s, schedules[1..], valid)
  }

  /** What the job meets for one student. */
  datatype Visit = Visit(
    responses: Upstream.Responses,
    enabled: bool,
    notices: ServiceSync.Notices,
    send: ServiceSync.Send,
    nowMs: int)

  /** The run of the job's `k`-th student, on the store the earlier ones
      left. */
  function RunAt(snapshot: seq<Student>, visits: seq<Visit>, k: nat): ServiceSync.Run
    requires k < |visits| <= |snapshot|
    decreases k, 1
  {
    var v := visits[k];
    ServiceSync.Fetch(StoreAfter(snapshot, visits[..k]), snapshot[k].codeforcesHandle,
                      v.responses, v.enabled, v.notices, v.send, v.nowMs)
  }

  /** The store after the job has visited the first `|visits|` students of
      the snapshot. */
  function StoreAfter(snapshot: seq<Student>, visits: seq<Visit>): seq<Student>
    requires |visits| <= |snapshot|
    decreases |visits|, 0
  {
    if visits == [] then snapshot
    else
      var k := |visits| - 1;
      assert visits[..k][..k] == visits[..k];
      RunAt(snapshot, visits, k).store
  }

  /** The failure a run logs, if any. */
  function Failure(run: ServiceSync.Run): (e: Option<ServiceSync.ServiceError>)
    ensures e.Some? <==> run.result.Err?
    ensures e.Some? ==> e.value == run.result.error
  {
    if run.result.Err? then Some(run.result.error) else None
  }

  /** The job: every student of the snapshot in order, a failure logged and
      passed over. `errors[i]` is the failure of the i-th student. */
  method RunJob(snapshot: seq<Student>, visits: seq<Visit>)
    returns (store: seq<Student>, errors: seq<Option<ServiceSync.ServiceError>>)
    requires |visits| == |snapshot|
    ensures store == StoreAfter(snapshot, visits)
    ensures |errors| == |snapshot|
    ensures forall i | 0 <= i < |snapshot| ::
      (errors[i].Some? <==> RunAt(snapshot, visits, i).result.Err?)
      && (errors[i].Some? ==> errors[i].value == RunAt(snapshot, visits, i).result.error)
  {
    store := snapshot;
    errors := [];
    var k := 0;
    while k < |snapshot|
      invariant 0 <= k <= |snapshot|
      invariant store == StoreAfter(snapshot, visits[..k])
      invariant |errors| == k
      invariant forall i | 0 <= i < k :: errors[i] == Failure(RunAt(snapshot, visits, i))
    {
      var v := visits[k];
      var run := ServiceSync.Fetch(store, snapshot[k].codeforcesHandle, v.responses, v.enabled,
                                   v.notices, v.send, v.nowMs);
      RunJobStep(snapshot, visits, k);
      store := run.store;
      errors := errors + [Failure(run)];
      k := k + 1;
    }
    assert visits[..k] == visits;
  }

  /** The `k`-th visit runs on the store the earlier ones left, and leaves
      the store of the first `k + 1` visits. */
  lemma RunJobStep(snapshot: seq<Student>, visits: seq<Visit>, k: nat)
    requires k < |visits| <= |snapshot|
    ensures var v := visits[k];
      RunAt(snapshot, visits, k)
        == ServiceSync.Fetch(StoreAfter(snapshot, visits[..k]), snapshot[k].codeforcesHandle,
                             v.responses, v.enabled, v.notices, v.send, v.nowMs)
    ensures StoreAfter(snapshot, visits[..k + 1]) == RunAt(snapshot, visits, k).store
  {
    assert visits[..k + 1][..k] == visits[..k];
    assert visits[..k + 1][k] == visits[k];
  }

  /** The record the service-level sync leaves for one student when it is
      the only one in the store. */
  function Alone(st: Student, v: Visit): (s: Student)
    ensures s.codeforcesHandle == st.codeforcesHandle
    ensures s.id == st.id
  {
    var run := ServiceSync.Fetch([st], st.codeforcesHandle, v.responses, v.enabled,
                                 v.notices, v.send, v.nowMs);
    run.store[0]
  }

  /** With unique handles the lookup by a stored student's handle finds
      that student. */
  lemma FindOwnHandle(store: seq<Student>, k: nat)
    requires k < |store|
    requires forall i, j | 0 <= i < j < |store| :: store[i].codeforcesHandle != store[j].codeforcesHandle
    ensures FindByHandle(store, store[k].codeforcesHandle) == Some(k)
  {
    assert forall i | 0 <= i < |store| && i != k ::
      store[i].codeforcesHandle != store[k].codeforcesHandle;
  }

  /** With unique handles the job syncs every student exactly as if it were
      alone: the i-th record ends as its own sync leaves it, the students
      not yet visited are untouched, and no handle changes. */
  lemma {:induction false} JobSyncsEachAlone(snapshot: seq<Student>, visits: seq<Visit>)
    requires |visits| <= |snapshot|
    requires UniqueKeys(snapshot)
    ensures |StoreAfter(snapshot, visits)| == |snapshot|
    ensures forall j | 0 <= j < |snapshot| ::
      StoreAfter(snapshot, visits)[j].codeforcesHandle == snapshot[j].codeforcesHandle
    ensures forall j | 0 <= j < |visits| :: StoreAfter(snapshot, visits)[j] == Alone(snapshot[j], visits[j])
    ensures forall j | |visits| <= j < |snapshot| :: StoreAfter(snapshot, visits)[j] == snapshot[j]
    decreases |visits|
  {
    if visits != [] {
      var k := |visits| - 1;
      var init := visits[..k];
      JobSyncsEachAlone(snapshot, init);
      StepAlone(snapshot, visits);
      var after := StoreAfter(snapshot, visits);
      forall j | 0 <= j < k ensures after[j] == Alone(snapshot[j], visits[j]) {
        assert init[j] == visits[j];
      }
    }
  }

  /** The job's step for the student at `|visits| - 1`, given the store
      the earlier students left as the lemma above describes it. */
  lemma StepAlone(snapshot: seq<Student>, visits: seq<Visit>)
    requires 0 < |visits| <= |snapshot|
    requires UniqueKeys(snapshot)
    requires var before := StoreAfter(snapshot, visits[..|visits| - 1]);
      && |before| == |snapshot|
      && (forall j | 0 <= j < |snapshot| :: before[j].codeforcesHandle == snapshot[j].codeforcesHandle)
      && before[|visits| - 1] == snapshot[|visits| - 1]
    ensures var k := |visits| - 1;
      StoreAfter(snapshot, visits)
        == StoreAfter(snapshot, visits[..k])[k := Alone(snapshot[k], visits[k])]
  {
    var k := |visits| - 1;
    var before := StoreAfter(snapshot, visits[..k]);
    assert forall i, j | 0 <= i < j < |before| :: before[i].codeforcesHandle != before[j].codeforcesHandle;
    SyncAlone(before, k, visits[k]);
    StoreAfterLast(snapshot, visits);
  }

  /** The store after a visit is what the last student's sync leaves. */
  lemma StoreAfterLast(snapshot: seq<Student>, visits: seq<Visit>)
    requires 0 < |visits| <= |snapshot|
    ensures var k := |visits| - 1;
      var v := visits[k];
      StoreAfter(snapshot, visits)
        == ServiceSync.Fetch(StoreAfter(snapshot, visits[..k]), snapshot[k].codeforcesHandle,
                             v.responses, v.enabled, v.notices, v.send, v.nowMs).store
  {
  }

  /** In a store of unique handles, syncing the record at `k` changes that
      record alone, and to what its own sync would leave. */
  lemma SyncAlone(store: seq<Student>, k: nat, v: Visit)
    requires k < |store|
    requires forall i, j | 0 <= i < j < |store| :: store[i].codeforcesHandle != store[j].codeforcesHandle
    ensures ServiceSync.Fetch(store, store[k].codeforcesHandle, v.responses, v.enabled, v.notices, v.send, v.nowMs).store
         == store[k := Alone(store[k], v)]
  {
    var st := store[k];
    var h := st.codeforcesHandle;
    FindOwnHandle(store, k);
    assert FindByHandle([st], h) == Some(0);
    assert ServiceSync.Blocker(store, h, v.responses) == ServiceSync.Blocker([st], h, v.responses);
  }
}

=== FILE: cron_sync.dfy ===
/** The nightly sync of server/cron/syncData.js: `syncStudentData` and the
    loop `startSyncCron` schedules.

    The three upstream answers, "now" and the answer of
    `sendInactivityReminder` (which reports failure as `false` and never
    throws) are inputs. Every error is caught and logged, so a failed sync
    leaves the stored record as it was. The processed submissions go to
    `student.submissions`, a path the schema does not declare, and are
    dropped on save; the unsolved problems are computed and not used.
 */
module CronSync {
  import opened Wrappers
  import opened Upstream
  import opened StudentSchema
  import Calendar
  import Mapping
  import CfUtils
  import ServiceSync

  /** Seven days in milliseconds (`setDate(getDate() - 7)`). */
  const WeekMs: int := 7 * Calendar.DayMs

  /** Whatever one step of the sync needs and finds missing makes it throw:
      a call that raised, a `user.info` answer with no result or an empty
      one, a rating or submission answer with no result, or a submission
      without a problem. */
  predicate Throws(r: Responses) {
    || r.info.Raised? || r.rating.Raised? || r.status.Raised?
    || r.info.body.result.None? || |r.info.body.result.value| == 0
    || r.rating.body.result.None? || r.status.body.result.None?
    || !AllHaveProblems(r.status.body.result.value)
  }

  /** `student.lastSubmissionDate`: the newest submission's date, `null`
      when there is none. */
  function LastSubmissionDate(subs: seq<Submission>): (d: Option<int>)
    ensures d.None? <==> subs == []
    ensures d.Some? ==> d.value == subs[0].creationTimeSeconds * 1000
  {
    if |subs| > 0 then Some(subs[0].creationTimeSeconds * 1000) else None
  }

  /** The reminder condition: notifications on, a last submission, and that
      submission strictly older than seven days. */
  predicate Due(emailNotifications: bool, last: Option<int>, nowMs: int) {
    emailNotifications && last.Some? && last.value < nowMs - WeekMs
  }

  /** What one sync leaves behind: the stored record, and whether a
      reminder was sent for. */
  datatype Synced = Synced(record: Student, reminded: bool)

  /** `syncStudentData`. */
  function SyncStudent(st: Student, r: Responses, nowMs: int, sent: bool): (out: Synced)
    ensures Throws(r) ==> out == Synced(st, false)
    ensures !Throws(r) ==>
      var u := r.info.body.result.value[0];
      var subs := r.status.body.result.value;
      var history := r.rating.body.result.value;
      var s := out.record;
      && s.currentRating == OrZero(u.rating)
      && s.maxRating == OrZero(u.maxRating)
      && s.contestHistory == CfUtils.ProcessContestData(history)
      && s.lastUpdatedMs == nowMs
      && s.lastSubmissionDateMs == LastSubmissionDate(subs)
      && (out.reminded <==> Due(st.emailNotifications, s.lastSubmissionDateMs, nowMs))
      && s.reminderEmailCount == st.reminderEmailCount + (if out.reminded && sent then 1 else 0)
      && s == st.(currentRating := s.currentRating, maxRating := s.maxRating,
                  contestHistory := s.contestHistory, lastUpdatedMs := nowMs,
                  lastSubmissionDateMs := s.lastSubmissionDateMs,
                  reminderEmailCount := s.reminderEmailCount)
  {
    if Throws(r) then Synced(st, false)
    else
      var u := r.info.body.result.value[0];
      var subs := r.status.body.result.value;
      var history := r.rating.body.result.value;
      var s := st.(currentRating := OrZero(u.rating),
                   maxRating := OrZero(u.maxRating),
                   contestHistory := CfUtils.ProcessContestData(history),
                   lastUpdatedMs := nowMs,
                   lastSubmissionDateMs := LastSubmissionDate(subs));
      if Due(s.emailNotifications, s.lastSubmissionDateMs, nowMs) then
        Synced(s.(reminderEmailCount := s.reminderEmailCount + (if sent then 1 else 0)), true)
      else Synced(s, false)
  }

  /** With notifications off a second sync on the same answers at the same
      moment changes nothing more: the sync is idempotent. */
  lemma SyncIdempotentWithoutReminders(st: Student, r: Responses, nowMs: int, sent: bool)
    requires !st.emailNotifications
    ensures var once := SyncStudent(st, r, nowMs, sent).record;
      SyncStudent(once, r, nowMs, sent).record == once
  {
  }

  /** The nightly sync and the service-level sync store the same ratings,
      the same contest history and the same `lastUpdated` when both succeed;
      only the service-level one also writes the solved count, the
      submissions and the statistics, and only the nightly one writes the
      last submission date and the reminder count. */
  lemma AgreesWithServiceSync(st: Student, r: Responses, nowMs: int, sent: bool)
    requires !Throws(r)
    ensures var cron := SyncStudent(st, r, nowMs, sent).record;
      var svc := ServiceSync.Refreshed(st, r.info.body.result.value[0], r.status.body.result.value,
                                       r.rating.body.result.value, nowMs);
      && cron.currentRating == svc.currentRating
      && cron.maxRating == svc.maxRating
      && cron.contestHistory == svc.contestHistory
      && cron.lastUpdatedMs == svc.lastUpdatedMs
      && cron.problemsSolved == st.problemsSolved
      && cron.recentSubmissions == st.recentSubmissions
      && svc.lastSubmissionDateMs == st.lastSubmissionDateMs
      && svc.reminderEmailCount == st.reminderEmailCount
  {
  }

  /** The reminder count of a record goes up by at most one per sync, and by
      one exactly when a reminder was due and delivered. */
  lemma ReminderCountStep(st: Student, r: Responses, nowMs: int, sent: bool)
    ensures var out := SyncStudent(st, r, nowMs, sent);
      && st.reminderEmailCount <= out.record.reminderEmailCount <= st.reminderEmailCount + 1
      && (out.record.reminderEmailCount == st.reminderEmailCount + 1 <==>
            && !Throws(r) && st.emailNotifications && sent
            && Due(true, LastSubmissionDate(r.status.body.result.value), nowMs))
  {
  }

  /** What the cron job meets for one student: the upstream answers, the
      moment of the sync and the reminder's delivery. */
  datatype Visit = Visit(responses: Responses, nowMs: int, sent: bool)

  /** The job body of `startSyncCron`: every student of the snapshot, in
      order, synced on its own; each saves only its own record, so the store
      afterwards is the snapshot with each record replaced by its sync.
      `reminded` is not a value of the job, which returns nothing: it is a
      tally the model adds so that the contract can count the reminders
      sent. */
  method SyncAll(store: seq<Student>, visits: seq<Visit>) returns (updated: seq<Student>, reminded: nat)
    requires |visits| == |store|
    ensures |updated| == |store|
    ensures forall i | 0 <= i < |store| ::
      updated[i] == SyncStudent(store[i], visits[i].responses, visits[i].nowMs, visits[i].sent).record
    ensures forall i | 0 <= i < |store| :: updated[i].id == store[i].id
    ensures reminded == |set i | 0 <= i < |store| &&
      SyncStudent(store[i], visits[i].responses, visits[i].nowMs, visits[i].sent).reminded|
  {
    updated := [];
    reminded := 0;
    var k := 0;
    while k < |store|
      invariant 0 <= k <= |store|
      invariant |updated| == k
      invariant forall i | 0 <= i < k :: updated[i] == Visited(store, visits, i).record
      invariant reminded == |RemindedAmong(store, visits, k)|
    {
      var v := visits[k];
      var out := SyncStudent(store[k], v.responses, v.nowMs, v.sent);
      RemindedStep(store, visits, k);
      updated := updated + [out.record];
      if out.reminded {
        reminded := reminded + 1;
      }
      k := k + 1;
    }
    RemindedAll(store, visits);
  }

  lemma RemindedAll(store: seq<Student>, visits: seq<Visit>)
    requires |store| == |visits|
    ensures RemindedAmong(store, visits, |store|) == set i | 0 <= i < |store| &&
      SyncStudent(store[i], visits[i].responses, visits[i].nowMs, visits[i].sent).reminded
  {
  }

  /** The sync of the `i`-th student of the snapshot. */
  function Visited(store: seq<Student>, visits: seq<Visit>, i: nat): Synced
    requires i < |store| == |visits|
  {
    SyncStudent(store[i], visits[i].responses, visits[i].nowMs, visits[i].sent)
  }

  /** The positions among the first `k` whose sync sent a reminder. */
  function RemindedAmong(store: seq<Student>, visits: seq<Visit>, k: nat): set<nat>
    requires k <= |store| == |visits|
  {
    set i | 0 <= i < k && Visited(store, visits, i).reminded
  }

  /** The next student adds its position exactly when it is reminded. */
  lemma RemindedStep(store: seq<Student>, visits: seq<Visit>, k: nat)
    requires k < |store| == |visits|
    ensures k !in RemindedAmong(store, visits, k)
    ensures RemindedAmong(store, visits, k + 1)
         == RemindedAmong(store, visits, k) + (if Visited(store, visits, k).reminded then {k} else {})
  {
  }
}

=== FILE: heatmap.dfy ===
/** The submission calendars of the client: the profile's heat map
    (client/src/components/SubmissionHeatMap.js, which counts stored
    submissions per day) and the chart variant
    (client/src/components/charts/SubmissionHeatmap.js, which reads counts
    from a day-keyed object). Both lay out the last 365 days ending today,
    cut into weeks that end on Saturday, and label the months shown.

    Days are UTC day numbers (see `Calendar`); a `YYYY-MM-DD` date key is
    the day number it names.
 */
module Heatmap {
  import opened Wrappers
  import opened StudentSchema
  import Seqs
  import Sorting
  import Calendar
  import Upstream

  /** Days shown. */
  const WindowDays: nat := 365

  /** One square: its day, count, weekday and month. */
  datatype Cell = Cell(day: int, count: int, weekday: int, month: int)

  function CellOf(day: int, count: int -> int): (c: Cell)
    ensures c.day == day && c.count == count(day)
    ensures 0 <= c.weekday < 7 && 0 <= c.month < 12
  {
    Cell(day, count(day), Calendar.Weekday(day), Calendar.MonthOf(day))
  }

  /** The squares in display order: the oldest day first, today last. */
  function Cells(today: int, count: int -> int): (r: seq<Cell>)
    ensures |r| == WindowDays
    ensures forall k | 0 <= k < |r| :: r[k] == CellOf(today - (WindowDays - 1) + k, count)
  {
    Laid(d => CellOf(d, count), today, WindowDays)
  }

  /** The squares of the `n` days up to today, oldest first. */
  function Laid<T>(square: int -> T, today: int, n: nat): (r: seq<T>)
    ensures |r| == n
    ensures forall k | 0 <= k < n :: r[k] == square(today - (n - 1) + k)
  {
    seq(n, k requires 0 <= k < n => square(today - (n - 1) + k))
  }

  /** No month is listed twice. */
  ghost predicate Distinct(ms: seq<int>) {
    forall i, j | 0 <= i < j < |ms| :: ms[i] != ms[j]
  }

  /** `generateHeatmapData` / `renderHeatmap`'s first loop: walk back from
      today, putting each day's square in front (`unshift`) and adding its
      month to the set of months. */
  method Generate(today: int, count: int -> int) returns (days: seq<Cell>, months: seq<int>)
    ensures days == Cells(today, count)
    ensures Distinct(months)
    ensures forall m :: m in months <==> exists k | 0 <= k < |days| :: days[k].month == m
    ensures |months| > 0 && months[0] == Calendar.MonthOf(today)
  {
    days, months := Walk(d => CellOf(d, count), today);
    WalkedBackCells(today, count);
  }

  /** The walk itself, for any way of building a day's square. Its months
      come in the order a `Set` receives them: today's month first, then
      each earlier month as the walk back reaches it. */
  method Walk(square: int -> Cell, today: int) returns (days: seq<Cell>, months: seq<int>)
    ensures days == WalkedBack(square, today, WindowDays)
    ensures Distinct(months)
    ensures forall m :: m in months <==> exists k | 0 <= k < |days| :: days[k].month == m
    ensures |months| > 0 && months[0] == square(today).month
  {
    days := [];
    months := [];
    var i := 0;
    while i < WindowDays
      invariant 0 <= i <= WindowDays
      invariant days == WalkedBack(square, today, i)
      invariant months == MonthSet(days)
    {
      var cell := square(today - i);
      MonthSetStep(cell, days);
      days := [cell] + days;
      if cell.month !in months {
        months := months + [cell.month];
      }
      i := i + 1;
    }
    MonthSetIsMonthsOf(days);
  }

  /** Putting a day in front adds its month to the set when it is new. */
  lemma MonthSetStep(cell: Cell, days: seq<Cell>)
    ensures MonthSet([cell] + days) == if cell.month in MonthSet(days) then MonthSet(days) else MonthSet(days) + [cell.month]
  {
    assert ([cell] + days)[1..] == days;
  }

  /** The months of `days` as the walk back adds them to the set: the
      months of the later days, then this day's month if it is new. */
  function MonthSet(days: seq<Cell>): seq<int>
    decreases |days|
  {
    if days == [] then []
    else
      var rest := MonthSet(days[1..]);
      if days[0].month in rest then rest else rest + [days[0].month]
  }

  /** The set holds each month of the days once, the last day's first. */
  lemma {:induction false} MonthSetIsMonthsOf(days: seq<Cell>)
    ensures MonthsOf(MonthSet(days), days)
    decreases |days|
  {
    if days != [] {
      MonthSetIsMonthsOf(days[1..]);
      AddMonth(days[1..], days[0], MonthSet(days[1..]));
      assert [days[0]] + days[1..] == days;
    }
  }

  /** What `n` steps of the walk back put in front of each other: the
      squares of today and the `n - 1` days before it, oldest first. */
  function WalkedBack<T>(square: int -> T, today: int, n: nat): (r: seq<T>)
    ensures |r| == n
    ensures n > 0 ==> r[n - 1] == square(today)
  {
    if n == 0 then [] else [square(today - (n - 1))] + WalkedBack(square, today, n - 1)
  }

  lemma {:induction false} WalkedBackDay<T>(square: int -> T, today: int, n: nat, k: nat)
    requires k < n
    ensures WalkedBack(square, today, n)[k] == square(today - (n - 1) + k)
  {
    if k > 0 {
      WalkedBackDay(square, today, n - 1, k - 1);
    }
  }

  lemma WalkedBackDays<T>(square: int -> T, today: int, n: nat)
    ensures WalkedBack(square, today, n) == Laid(square, today, n)
  {
    forall k | 0 <= k < n ensures WalkedBack(square, today, n)[k] == square(today - (n - 1) + k) {
      WalkedBackDay(square, today, n, k);
    }
  }

  /** The full walk lays out exactly the calendar's squares. */
  lemma WalkedBackCells(today: int, count: int -> int)
    ensures WalkedBack(d => CellOf(d, count), today, WindowDays) == Cells(today, count)
  {
    WalkedBackDays(d => CellOf(d, count), today, WindowDays);
  }

  /** `months` is the set of months of `days`, in the order the walk back
      (which meets the last day first) adds them. */
  ghost predicate MonthsOf(months: seq<int>, days: seq<Cell>) {
    && Distinct(months)
    && (forall m :: m in months <==> exists k | 0 <= k < |days| :: days[k].month == m)
    && (days != [] ==> months != [] && months[0] == days[|days| - 1].month)
  }

  lemma HeadIn(s: seq<int>)
    ensures s == [] || s[0] in s
  {
  }

  /** Putting a day in front and adding its month to the set keeps the
      set exactly the months of the days. */
  lemma AddMonth(days: seq<Cell>, cell: Cell, months: seq<int>)
    requires MonthsOf(months, days)
    ensures MonthsOf(if cell.month in months then months else months + [cell.month], [cell] + days)
  {
    var after := [cell] + days;
    var next := if cell.month in months then months else months + [cell.month];
    forall m ensures m in next <==> exists k | 0 <= k < |after| :: after[k].month == m {
      if m in next && m != cell.month {
        var k :| 0 <= k < |days| && days[k].month == m;
        assert after[k + 1].month == m;
      }
      if m in next && m == cell.month {
        assert after[0].month == m;
      }
      if exists k | 0 <= k < |after| :: after[k].month == m {
        var k :| 0 <= k < |after| && after[k].month == m;
        if k > 0 {
          assert days[k - 1].month == m;
        }
      }
    }
    forall i, j | 0 <= i < j < |next| ensures next[i] != next[j] {
      if j == |months| {
        assert next[i] == months[i] && months[i] in months;
      }
    }
    if days == [] {
      HeadIn(months);
      assert next == [cell.month];
    } else {
      assert next[0] == months[0];
      assert after[|after| - 1] == days[|days| - 1];
    }
  }

  // ---- Counts ----

  /** `getSubmissionCount`: the stored submissions made on the day. */
  function SubmissionCount(subs: seq<StoredSubmission>, day: int): (n: nat)
    ensures n <= |subs|
    ensures n > 0 <==> exists s | s in subs :: Calendar.DayOf(s.dateMs) == day
  {
    var on := Seqs.Filter(subs, (s: StoredSubmission) => Calendar.DayOf(s.dateMs) == day);
    if on == [] then 0 else assert on[0] in on; |on|
  }

  /** `data[dateStr] || 0`: the count recorded for the day, a missing or
      zero entry counting as none. */
  function DataCount(data: map<int, int>, day: int): (n: int)
    ensures n != 0 <==> day in data && data[day] != 0
    ensures n != 0 ==> n == data[day]
  {
    Upstream.OrZero(if day in data then Some(data[day]) else None)
  }

  /** The profile's calendar of a student's stored submissions. */
  function ProfileCells(st: Student, today: int): (r: seq<Cell>)
    ensures |r| == WindowDays
  {
    Cells(today, (day: int) => SubmissionCount(st.recentSubmissions, day))
  }

  /** Every submission of the last 365 days lights its day's square, and
      a lit square has a submission on its day. */
  lemma ProfileCellsLit(st: Student, today: int, k: nat)
    requires k < WindowDays
    ensures var c := ProfileCells(st, today)[k];
      c.count > 0 <==> exists s | s in st.recentSubmissions :: Calendar.DayOf(s.dateMs) == c.day
  {
  }

  // ---- Colours ----

  /** The intensity band of a count: none, 1-2, 3-4, 5-6, more. */
  function Level(count: int): (l: nat)
    ensures l < 5
    ensures l == 0 <==> count == 0
  {
    if count == 0 then 0
    else if count <= 2 then 1
    else if count <= 4 then 2
    else if count <= 6 then 3
    else 4
  }

  /** The theme colours of the profile's heat map. */
  datatype Shade = Faint(dark: bool) | SuccessLight | SuccessMain | SuccessDark

  /** `getColor` of the profile's heat map: a faint square (lighter on a
      dark theme) for no submissions, then the success palette; five or
      more all share the darkest shade. */
  function ThemeColor(count: int, darkMode: bool): Shade {
    if count == 0 then Faint(darkMode)
    else if count <= 2 then SuccessLight
    else if count <= 4 then SuccessMain
    else if count <= 6 then SuccessDark
    else SuccessDark
  }

  /** `getColor` of the chart variant. */
  function ChartColor(count: int): string {
    if count == 0 then "#ebedf0"
    else if count <= 2 then "#9be9a8"
    else if count <= 4 then "#40c463"
    else if count <= 6 then "#30a14e"
    else "#216e39"
  }

  const ChartPalette: seq<string> := ["#ebedf0", "#9be9a8", "#40c463", "#30a14e", "#216e39"]

  function ThemePalette(darkMode: bool): seq<Shade> {
    [Faint(darkMode), SuccessLight, SuccessMain, SuccessDark, SuccessDark]
  }

  /** Both colourings pick by the same bands; the chart tells the two top
      bands apart and the theme does not. */
  lemma ColorsFollowLevel(count: int, darkMode: bool)
    ensures ChartColor(count) == ChartPalette[Level(count)]
    ensures ThemeColor(count, darkMode) == ThemePalette(darkMode)[Level(count)]
    ensures ThemeColor(5, darkMode) == ThemeColor(7, darkMode) && ChartColor(5) != ChartColor(7)
  {
  }

  /** Squares of equal chart colour have equal theme colour. */
  lemma SameChartColorSameShade(a: int, b: int, darkMode: bool)
    requires ChartColor(a) == ChartColor(b)
    ensures ThemeColor(a, darkMode) == ThemeColor(b, darkMode)
  {
    ColorsFollowLevel(a, darkMode);
    ColorsFollowLevel(b, darkMode);
    assert Level(a) == Level(b);
  }

  // ---- Weeks ----

  /** The "group by weeks" loop from a week already begun: each day joins
      the current week, and a Saturday closes it; a final partial week is
      kept. */
  function Group(cells: seq<Cell>, current: seq<Cell>): (r: seq<seq<Cell>>)
    decreases |cells|
  {
    if cells == [] then (if current == [] then [] else [current])
    else
      var week := current + [cells[0]];
      if cells[0].weekday == 6 then [week] + Group(cells[1..], [])
      else Group(cells[1..], week)
  }

  function Weeks(cells: seq<Cell>): seq<seq<Cell>> {
    Group(cells, [])
  }

  /** The weeks laid end to end. */
  function Concat(weeks: seq<seq<Cell>>): seq<Cell>
    decreases |weeks|
  {
    if weeks == [] then [] else weeks[0] + Concat(weeks[1..])
  }

  /** The weeks hold every day once, in order. */
  lemma {:induction false} GroupConcat(cells: seq<Cell>, current: seq<Cell>)
    ensures Concat(Group(cells, current)) == current + cells
    decreases |cells|
  {
    if cells == [] {
      if current != [] {
        assert Concat([current]) == current + Concat([]);
      }
    } else {
      var week := current + [cells[0]];
      GroupConcat(cells[1..], if cells[0].weekday == 6 then [] else week);
      if cells[0].weekday == 6 {
        var rest := Group(cells[1..], []);
        assert ([week] + rest)[1..] == rest;
      }
      assert current + cells == week + cells[1..];
    }
  }

  /** Consecutive squares have consecutive weekdays. */
  ghost predicate Consecutive(cells: seq<Cell>) {
    && (forall k | 0 <= k < |cells| :: 0 <= cells[k].weekday < 7)
    && (forall k | 0 <= k < |cells| - 1 :: cells[k + 1].weekday == (cells[k].weekday + 1) % 7)
  }

  /** A week in progress: no Saturday yet, and weekdays rising one a day
      from its first square. */
  ghost predicate OpenWeek(week: seq<Cell>) {
    week != [] ==>
      && (forall k | 0 <= k < |week| :: 0 <= week[k].weekday < 6)
      && week[|week| - 1].weekday == week[0].weekday + |week| - 1
  }

  /** The shape of a week: at most seven squares, none empty, a Saturday
      only as its last square. */
  ghost predicate WellFormed(weeks: seq<seq<Cell>>) {
    && (forall i | 0 <= i < |weeks| :: 0 < |weeks[i]| <= 7)
    && (forall i, k | 0 <= i < |weeks| && 0 <= k < |weeks[i]| - 1 :: weeks[i][k].weekday != 6)
    && (forall i | 0 <= i < |weeks| - 1 :: weeks[i][|weeks[i]| - 1].weekday == 6)
  }

  /** Grouping days of consecutive weekdays yields weeks of at most seven
      squares, each but the last closed by a Saturday. */
  lemma {:induction false} GroupWellFormed(cells: seq<Cell>, current: seq<Cell>)
    requires OpenWeek(current)
    requires Consecutive(current + cells)
    ensures WellFormed(Group(cells, current))
    decreases |cells|
  {
    if cells == [] {
      if current != [] {
        LastWeek(current);
      }
    } else {
      var week := current + [cells[0]];
      var rest := cells[1..];
      NextDay(current, cells);
      StepWeek(current, cells[0]);
      if cells[0].weekday == 6 {
        GroupWellFormed(rest, []);
        CloseWeek(week, Group(rest, []));
      } else {
        GroupWellFormed(rest, week);
      }
    }
  }

  /** The first square after the week in progress: its weekday follows the
      week's last, and the squares after it still run in order, whether
      they start a new week or continue this one. */
  lemma NextDay(current: seq<Cell>, cells: seq<Cell>)
    requires cells != [] && Consecutive(current + cells)
    ensures 0 <= cells[0].weekday < 7
    ensures current != [] ==> cells[0].weekday == (current[|current| - 1].weekday + 1) % 7
    ensures Consecutive([] + cells[1..])
    ensures Consecutive((current + [cells[0]]) + cells[1..])
  {
    var all := current + cells;
    assert all[|current|] == cells[0];
    if current != [] {
      assert all[|current| - 1] == current[|current| - 1];
    }
    ConsecutiveSuffix(all, |current| + 1);
    assert all[|current| + 1..] == [] + cells[1..];
    assert (current + [cells[0]]) + cells[1..] == all;
  }

  /** An open week is a well-formed last week. */
  lemma LastWeek(week: seq<Cell>)
    requires week != [] && OpenWeek(week)
    ensures WellFormed([week])
  {
  }

  /** A square whose weekday follows the open week's last extends it: the
      week stays within seven squares with no Saturday before its end, and
      stays open unless the square is a Saturday. */
  lemma StepWeek(current: seq<Cell>, c: Cell)
    requires OpenWeek(current) && 0 <= c.weekday < 7
    requires current != [] ==> c.weekday == (current[|current| - 1].weekday + 1) % 7
    ensures 0 < |current + [c]| <= 7
    ensures forall k | 0 <= k < |current + [c]| - 1 :: (current + [c])[k].weekday != 6
    ensures c.weekday != 6 ==> OpenWeek(current + [c])
  {
    var week := current + [c];
    forall k | 0 <= k < |week| - 1 ensures week[k].weekday != 6 {
      assert week[k] == current[k];
    }
  }

  /** A week closed by a Saturday can go in front of well-formed weeks. */
  lemma CloseWeek(week: seq<Cell>, ws: seq<seq<Cell>>)
    requires 0 < |week| <= 7 && week[|week| - 1].weekday == 6
    requires forall k | 0 <= k < |week| - 1 :: week[k].weekday != 6
    requires WellFormed(ws)
    ensures WellFormed([week] + ws)
  {
    var all := [week] + ws;
    assert forall i | 0 < i < |all| :: all[i] == ws[i - 1];
  }

  lemma ConsecutiveSuffix(s: seq<Cell>, n: nat)
    requires n <= |s| && Consecutive(s)
    ensures Consecutive(s[n..])
  {
    var t := s[n..];
    forall k | 0 <= k < |t| - 1 ensures t[k + 1].weekday == (t[k].weekday + 1) % 7 {
      assert t[k] == s[n + k] && t[k + 1] == s[n + k + 1];
    }
  }

  /** The calendar's squares have consecutive weekdays. */
  lemma CellsConsecutive(today: int, count: int -> int)
    ensures Consecutive(Cells(today, count))
  {
    LaidConsecutive(d => CellOf(d, count), today, WindowDays);
  }

  /** Squares that carry their day's weekday, laid day after day, have
      consecutive weekdays. */
  lemma LaidConsecutive(square: int -> Cell, today: int, n: nat)
    requires forall d :: square(d).weekday == Calendar.Weekday(d)
    ensures Consecutive(Laid(square, today, n))
  {
    var r := Laid(square, today, n);
    forall k | 0 <= k < |r| - 1 ensures r[k + 1].weekday == (r[k].weekday + 1) % 7 {
      var d := today - (n - 1) + k;
      assert r[k] == square(d) && r[k + 1] == square(d + 1);
      Calendar.WeekdayNext(d);
    }
  }

  /** The calendar's weeks: every day once and in order, at most seven to
      a column, each column but the last ending on a Saturday. */
  lemma WeeksOfCalendar(today: int, count: int -> int)
    ensures Concat(Weeks(Cells(today, count))) == Cells(today, count)
    ensures WellFormed(Weeks(Cells(today, count)))
  {
    var cells := Cells(today, count);
    GroupConcat(cells, []);
    assert [] + cells == cells;
    CellsConsecutive(today, count);
    GroupWellFormed(cells, []);
  }

  // ---- Month labels ----

  function MonthKey(m: int): int {
    m
  }

  /** `Array.from(months).sort((a, b) => a - b)`: the profile labels the
      months in calendar order. (The chart variant keeps the set's order,
      today's month first.) */
  function SortedMonths(months: seq<int>): (r: seq<int>)
    ensures multiset(r) == multiset(months)
  {
    Sorting.SortBy(months, MonthKey)
  }

  /** The sorted labels name each month of the window once, in ascending
      order. */
  lemma SortedMonthsAscending(months: seq<int>)
    requires Distinct(months)
    ensures var r := SortedMonths(months);
      && (forall i, j | 0 <= i < j < |r| :: r[i] < r[j])
      && (forall m :: m in r <==> m in months)
  {
    var r := SortedMonths(months);
    Sorting.SortBySorted(months, MonthKey);
    forall x ensures multiset(r)[x] <= 1 {
      DistinctMultiplicity(months, x);
    }
    DistinctFromMultiplicity(r);
    forall i, j | 0 <= i < j < |r| ensures r[i] < r[j] {
      assert MonthKey(r[i]) <= MonthKey(r[j]);
    }
    forall m ensures m in r <==> m in months {
      assert m in r <==> m in multiset(r);
    }
  }

  /** In a list without repeats every value occurs at most once. */
  lemma {:induction false} DistinctMultiplicity(ms: seq<int>, m: int)
    requires Distinct(ms)
    ensures multiset(ms)[m] <= 1
    decreases |ms|
  {
    if ms != [] {
      var init := ms[..|ms| - 1];
      assert ms == init + [ms[|ms| - 1]];
      DistinctMultiplicity(init, m);
      if ms[|ms| - 1] == m {
        forall k | 0 <= k < |init| ensures init[k] != m {
          assert init[k] == ms[k];
        }
        assert multiset(init)[m] == 0;
      }
    }
  }

  /** A list in which every value occurs at most once has no repeats. */
  lemma DistinctFromMultiplicity(r: seq<int>)
    requires forall x :: multiset(r)[x] <= 1
    ensures Distinct(r)
  {
    forall i, j | 0 <= i < j < |r| ensures r[i] != r[j] {
      var x := r[j];
      assert r == r[..j] + r[j..];
      assert r[j..][0] == x;
      assert multiset(r[j..])[x] >= 1;
      assert multiset(r)[x] == multiset(r[..j])[x] + multiset(r[j..])[x];
      assert x !in multiset(r[..j]);
      assert r[..j][i] == r[i];
    }
  }
}

=== FILE: histogram.dfy ===
/** The rating histogram `problemsByRating`: `{rating, count}` rows, one per
    rating, in the order the aggregation first met each rating (a JS `Map`
    lists its entries that way). The route-level sync builds it in a plain
    object instead, whose integer keys list in ascending order; `Ascending`
    gives that order.
 */
module Histogram {
  import opened StudentSchema
  import Sorting

  /** The sort key of a row. */
  function RatingOf(row: RatingCount): int {
    row.rating
  }

  /** The count of the first row for `rating`, 0 when there is none
      (`map.get(rating) || 0`). */
  function Count(rows: seq<RatingCount>, rating: int): nat
    decreases |rows|
  {
    if rows == [] then 0
    else if rows[0].rating == rating then rows[0].count
    else Count(rows[1..], rating)
  }

  /** The sum of the counts. */
  function Total(rows: seq<RatingCount>): nat
    decreases |rows|
  {
    if rows == [] then 0 else rows[0].count + Total(rows[1..])
  }

  /** The ratings that have a row. */
  function Ratings(rows: seq<RatingCount>): (r: set<int>)
    ensures forall i | 0 <= i < |rows| :: rows[i].rating in r
    decreases |rows|
  {
    if rows == [] then {} else {rows[0].rating} + Ratings(rows[1..])
  }

  /** No two rows are for the same rating. */
  ghost predicate Distinct(rows: seq<RatingCount>) {
    forall i, j | 0 <= i < j < |rows| :: rows[i].rating != rows[j].rating
  }

  /** Every row counts at least one problem. */
  ghost predicate Positive(rows: seq<RatingCount>) {
    forall i | 0 <= i < |rows| :: rows[i].count >= 1
  }

  /** `map.set(rating, (map.get(rating) || 0) + 1)`: the row for `rating`
      goes up by one, or a row with count 1 is appended. */
  function Inc(rows: seq<RatingCount>, rating: int): (r: seq<RatingCount>)
    ensures forall x :: Count(r, x) == Count(rows, x) + (if x == rating then 1 else 0)
    ensures Total(r) == Total(rows) + 1
    ensures Ratings(r) == Ratings(rows) + {rating}
    decreases |rows|
  {
    if rows == [] then [RatingCount(rating, 1)]
    else
      var tail := rows[1..];
      if rows[0].rating == rating then
        var r := [rows[0].(count := rows[0].count + 1)] + tail;
        assert r[1..] == tail;
        r
      else
        var rest := Inc(tail, rating);
        var r := [rows[0]] + rest;
        assert r[1..] == rest;
        r
  }

  /** An increment keeps the rows that were there in their places (a new
      rating goes last), keeps one row per rating, and keeps every count
      positive. */
  lemma {:induction false} IncKeepsShape(rows: seq<RatingCount>, rating: int)
    ensures |rows| <= |Inc(rows, rating)|
    ensures forall i | 0 <= i < |rows| :: Inc(rows, rating)[i].rating == rows[i].rating
    ensures |Inc(rows, rating)| == |rows| + (if rating in Ratings(rows) then 0 else 1)
    ensures Distinct(rows) ==> Distinct(Inc(rows, rating))
    ensures Positive(rows) ==> Positive(Inc(rows, rating))
    decreases |rows|
  {
    if rows != [] {
      var tail := rows[1..];
      assert rows == [rows[0]] + tail;
      if rows[0].rating != rating {
        IncKeepsShape(tail, rating);
        assert Inc(rows, rating) == [rows[0]] + Inc(tail, rating);
        ConsKeepsShape(rows[0], tail, Inc(tail, rating), rating);
      } else {
        assert Inc(rows, rating) == [rows[0].(count := rows[0].count + 1)] + tail;
        BumpKeepsShape(rows[0], tail);
      }
    }
  }

  /** The recursive step of `IncKeepsShape`: a row for another rating put in
      front of both sides keeps the relation. */
  lemma ConsKeepsShape(h: RatingCount, tail: seq<RatingCount>, rest: seq<RatingCount>, rating: int)
    requires h.rating != rating
    requires Ratings(rest) == Ratings(tail) + {rating}
    requires |tail| <= |rest|
    requires forall i | 0 <= i < |tail| :: rest[i].rating == tail[i].rating
    requires |rest| == |tail| + (if rating in Ratings(tail) then 0 else 1)
    requires Distinct(tail) ==> Distinct(rest)
    requires Positive(tail) ==> Positive(rest)
    ensures forall i | 0 <= i < |tail| + 1 :: ([h] + rest)[i].rating == ([h] + tail)[i].rating
    ensures |[h] + rest| == |[h] + tail| + (if rating in Ratings([h] + tail) then 0 else 1)
    ensures Distinct([h] + tail) ==> Distinct([h] + rest)
    ensures Positive([h] + tail) ==> Positive([h] + rest)
  {
    RatingsCons(h, tail);
    if Distinct([h] + tail) {
      ConsDistinct(h, tail, rest, rating);
    }
    if Positive([h] + tail) {
      ConsPositive(h, tail, rest);
    }
  }

  lemma RatingsCons(h: RatingCount, tail: seq<RatingCount>)
    ensures Ratings([h] + tail) == {h.rating} + Ratings(tail)
  {
    assert ([h] + tail)[1..] == tail;
  }

  lemma ConsDistinct(h: RatingCount, tail: seq<RatingCount>, rest: seq<RatingCount>, rating: int)
    requires h.rating != rating
    requires Ratings(rest) == Ratings(tail) + {rating}
    requires Distinct([h] + tail)
    requires Distinct(rest)
    ensures Distinct([h] + rest)
  {
    forall i | 0 <= i < |tail| ensures tail[i].rating != h.rating {
      assert tail[i] == ([h] + tail)[i + 1];
    }
    NotInRatings(tail, h.rating);
    forall i | 0 <= i < |rest| ensures rest[i].rating != h.rating {
      assert rest[i].rating in Ratings(rest);
    }
    var r := [h] + rest;
    forall i, j | 0 <= i < j < |r| ensures r[i].rating != r[j].rating {
      assert r[j] == rest[j - 1];
      if i > 0 {
        assert r[i] == rest[i - 1];
      }
    }
  }

  lemma ConsPositive(h: RatingCount, tail: seq<RatingCount>, rest: seq<RatingCount>)
    requires Positive([h] + tail)
    requires Positive(tail) ==> Positive(rest)
    ensures Positive([h] + rest)
  {
    forall i | 0 <= i < |tail| ensures tail[i].count >= 1 {
      assert tail[i] == ([h] + tail)[i + 1];
    }
    assert ([h] + tail)[0] == h;
    var r := [h] + rest;
    forall i | 0 <= i < |r| ensures r[i].count >= 1 {
      if i > 0 {
        assert r[i] == rest[i - 1];
      }
    }
  }

  /** The step of `IncKeepsShape` that finds the row: only its count
      changes. */
  lemma BumpKeepsShape(h: RatingCount, tail: seq<RatingCount>)
    ensures forall i | 0 <= i < |tail| + 1 ::
      ([h.(count := h.count + 1)] + tail)[i].rating == ([h] + tail)[i].rating
    ensures h.rating in Ratings([h] + tail)
    ensures Distinct([h] + tail) ==> Distinct([h.(count := h.count + 1)] + tail)
    ensures Positive([h] + tail) ==> Positive([h.(count := h.count + 1)] + tail)
  {
    assert ([h] + tail)[0] == h;
  }

  /** A rating no row carries is not among the ratings. */
  lemma {:induction false} NotInRatings(rows: seq<RatingCount>, rating: int)
    requires forall i | 0 <= i < |rows| :: rows[i].rating != rating
    ensures rating !in Ratings(rows)
    decreases |rows|
  {
    if rows != [] {
      NotInRatings(rows[1..], rating);
    }
  }

  /** In a histogram with one row per rating, a row's count is the count for
      its rating, and a rating with a non-zero count has that row. */
  lemma {:induction false} CountIsRow(rows: seq<RatingCount>, rating: int)
    requires Distinct(rows)
    ensures forall row | row in rows :: row.count == Count(rows, row.rating)
    ensures Count(rows, rating) > 0 ==> RatingCount(rating, Count(rows, rating)) in rows
    decreases |rows|
  {
    if rows != [] {
      var tail := rows[1..];
      CountIsRow(tail, rating);
      forall row | row in rows ensures row.count == Count(rows, row.rating) {
        if row != rows[0] {
          var i :| 0 <= i < |rows| && rows[i] == row;
          assert i > 0 && tail[i - 1] == row;
          assert rows[0].rating != row.rating;
        }
      }
    }
  }

  /** In a histogram with one row per rating, each row occurs once. */
  lemma {:induction false} DistinctRowsOnce(rows: seq<RatingCount>, row: RatingCount)
    requires Distinct(rows)
    ensures multiset(rows)[row] <= 1
    decreases |rows|
  {
    if rows != [] {
      var tail := rows[1..];
      assert rows == [rows[0]] + tail;
      DistinctRowsOnce(tail, row);
      assert forall i | 0 <= i < |tail| :: tail[i].rating != rows[0].rating by {
        forall i | 0 <= i < |tail| ensures tail[i].rating != rows[0].rating {
          assert tail[i] == rows[i + 1];
        }
      }
      assert rows[0] !in tail;
    }
  }

  /** Rearranging a histogram with one row per rating keeps it so. */
  lemma PermutationDistinct(s: seq<RatingCount>, t: seq<RatingCount>)
    requires multiset(s) == multiset(t)
    requires Distinct(s)
    ensures Distinct(t)
  {
    forall i, j | 0 <= i < j < |t| ensures t[i].rating != t[j].rating {
      assert t == t[..i] + [t[i]] + t[i + 1..j] + [t[j]] + t[j + 1..];
      assert multiset{t[i], t[j]} <= multiset(t);
      DistinctRowsOnce(s, t[i]);
      assert t[i] != t[j];
      assert t[i] in multiset(s) && t[j] in multiset(s);
      var a :| 0 <= a < |s| && s[a] == t[i];
      var b :| 0 <= b < |s| && s[b] == t[j];
      assert a != b;
    }
  }

  /** The rows ordered by rating, as `Object.entries` lists integer keys. */
  function Ascending(rows: seq<RatingCount>): (r: seq<RatingCount>)
    ensures multiset(r) == multiset(rows)
    ensures Sorting.SortedBy(r, RatingOf)
  {
    Sorting.SortBySorted(rows, RatingOf);
    Sorting.SortBy(rows, RatingOf)
  }

  /** Ordering a histogram by rating keeps one row per rating, makes the
      ratings strictly ascending, and changes no count. */
  lemma AscendingKeepsCounts(rows: seq<RatingCount>)
    requires Distinct(rows)
    ensures Distinct(Ascending(rows))
    ensures forall i, j | 0 <= i < j < |Ascending(rows)| ::
      Ascending(rows)[i].rating < Ascending(rows)[j].rating
    ensures forall x :: Count(Ascending(rows), x) == Count(rows, x)
  {
    var t := Ascending(rows);
    PermutationDistinct(rows, t);
    forall x ensures Count(t, x) == Count(rows, x) {
      CountIsRow(rows, x);
      CountIsRow(t, x);
      if Count(rows, x) > 0 {
        assert RatingCount(x, Count(rows, x)) in multiset(t);
      }
      if Count(t, x) > 0 {
        assert RatingCount(x, Count(t, x)) in multiset(rows);
      }
    }
  }
}

=== FILE: list_page.dfy ===
/** The student list page, client/src/components/StudentList.js: its own
    rating colour and title helpers, and the delete dialog.

    Whether the `DELETE` request succeeded is an input.
 */
module ListPage {
  import opened Wrappers
  import opened StudentSchema
  import Upstream
  import Seqs
  import ProfileView

  /** `getRatingColor` of the list page. */
  function RatingColor(rating: Option<int>): (c: string)
    ensures !Upstream.Truthy(rating) ==> c == ProfileView.Grey500
  {
    if !Upstream.Truthy(rating) then ProfileView.Grey500
    else if rating.value < 1200 then "#808080"
    else if rating.value < 1400 then "#008000"
    else if rating.value < 1600 then "#03A89E"
    else if rating.value < 1900 then "#0000FF"
    else if rating.value < 2200 then "#AA00AA"
    else if rating.value < 2400 then "#FF8C00"
    else "#FF0000"
  }

  /** `getRatingLabel` of the list page. */
  function RatingLabel(rating: Option<int>): (l: string)
    ensures !Upstream.Truthy(rating) ==> l == ProfileView.Unrated
  {
    if !Upstream.Truthy(rating) then ProfileView.Unrated
    else if rating.value < 1200 then "Newbie"
    else if rating.value < 1400 then "Pupil"
    else if rating.value < 1600 then "Specialist"
    else if rating.value < 1900 then "Expert"
    else if rating.value < 2200 then "Candidate Master"
    else if rating.value < 2400 then "Master"
    else if rating.value < 2600 then "International Master"
    else if rating.value < 3000 then "Grandmaster"
    else "International Grandmaster"
  }

  /** The list and the profile colour and title every rating alike. */
  lemma SameAsProfile(rating: Option<int>)
    ensures RatingColor(rating) == ProfileView.RatingColor(rating)
    ensures RatingLabel(rating) == ProfileView.RatingLabel(rating)
  {
  }

  /** The page state: the listed students, whether the delete dialog is
      open, and the student it asks about. */
  datatype Page = Page(students: seq<Student>, dialogOpen: bool, toDelete: Option<Student>)

  /** `handleDeleteClick`: remember the student and open the dialog. */
  function DeleteClick(page: Page, st: Student): (r: Page)
    ensures r.students == page.students && r.dialogOpen && r.toDelete == Some(st)
  {
    page.(dialogOpen := true, toDelete := Some(st))
  }

  /** The students other than the one with identifier `id`. */
  function Without(students: seq<Student>, id: string): (r: seq<Student>)
    ensures forall s :: s in r <==> s in students && s.id != id
  {
    Seqs.Filter(students, (s: Student) => s.id != id)
  }

  /** `handleDeleteConfirm`: with no student selected nothing happens (the
      dialog stays as it is); otherwise a successful delete drops every
      listed student with that identifier, and the dialog closes and
      forgets the selection whether or not the delete succeeded. */
  function DeleteConfirm(page: Page, deleted: bool): (r: Page)
    ensures page.toDelete.None? ==> r == page
    ensures page.toDelete.Some? ==> !r.dialogOpen && r.toDelete.None?
    ensures page.toDelete.Some? && !deleted ==> r.students == page.students
    ensures page.toDelete.Some? && deleted ==>
      forall s :: s in r.students <==> s in page.students && s.id != page.toDelete.value.id
  {
    match page.toDelete
    case None => page
    case Some(st) =>
      Page(if deleted then Without(page.students, st.id) else page.students, false, None)
  }

  /** `handleDeleteCancel`: close the dialog and forget the selection. */
  function DeleteCancel(page: Page): (r: Page)
    ensures r.students == page.students && !r.dialogOpen && r.toDelete.None?
  {
    page.(dialogOpen := false, toDelete := None)
  }

  /** Identifiers are unique in the list. */
  ghost predicate UniqueIds(students: seq<Student>) {
    forall i, j | 0 <= i < j < |students| :: students[i].id != students[j].id
  }

  /** Deleting the listed student at position `k` of a list with unique
      identifiers removes exactly that entry and keeps the others in
      order. */
  lemma DeleteRemovesExactlyOne(page: Page, k: nat)
    requires k < |page.students| && UniqueIds(page.students)
    ensures DeleteConfirm(DeleteClick(page, page.students[k]), true).students
         == page.students[..k] + page.students[k + 1..]
  {
    var id := page.students[k].id;
    var p := (s: Student) => s.id != id;
    Seqs.FilterRemovesOne(page.students, p, k);
  }

  /** Cancelling after a click leaves the list and the dialog as they were
      before the click, when no dialog was open. */
  lemma CancelUndoesClick(page: Page, st: Student)
    requires !page.dialogOpen && page.toDelete.None?
    ensures DeleteCancel(DeleteClick(page, st)) == page
  {
  }
}

=== FILE: mapping.dfy ===
/** The conversions from upstream records to stored sub-documents that the
    route-level sync, the service-level sync and the cron sync share: a
    rating change becomes a `contestHistory` entry, a submission with a
    problem becomes a `recentSubmissions` entry.
 */
module Mapping {
  import opened Wrappers
  import opened Upstream
  import opened StudentSchema

  /** `rating || null`: an unrated (absent or 0) problem stores `null`. */
  function RatingOrNull(o: Option<int>): (r: Option<int>)
    ensures r.Some? <==> Truthy(o)
    ensures r.Some? ==> r == o
  {
    if Truthy(o) then o else None
  }

  /** A rating change as a `contestHistory` entry; the update time in seconds
      becomes a `Date`. */
  function ToContestEntry(c: RatingChange): ContestEntry {
    ContestEntry(c.contestId, c.contestName, c.rank, c.oldRating, c.newRating,
                 c.ratingUpdateTimeSeconds * 1000)
  }

  /** The rating change a stored entry was made from, read back. */
  function FromContestEntry(e: ContestEntry): RatingChange {
    RatingChange(e.contestId, e.contestName, e.rank, e.oldRating, e.newRating, e.dateMs / 1000)
  }

  /** Storing a rating change loses nothing: the entry reads back as the
      change it was made from. */
  lemma ContestEntryRoundTrip(c: RatingChange)
    ensures FromContestEntry(ToContestEntry(c)) == c
    ensures ToContestEntry(c).dateMs % 1000 == 0
  {
  }

  /** `history.map(contest => ({..., date: new Date(seconds * 1000)}))`. */
  function ToContestHistory(history: seq<RatingChange>): (r: seq<ContestEntry>)
    ensures |r| == |history|
    ensures forall i | 0 <= i < |r| :: FromContestEntry(r[i]) == history[i]
    ensures forall i | 0 <= i < |r| :: r[i].dateMs == history[i].ratingUpdateTimeSeconds * 1000
  {
    seq(|history|, i requires 0 <= i < |history| => ToContestEntry(history[i]))
  }

  /** A submission's problem as a `recentSubmissions` entry. The `problem`
      sub-document keeps the declared fields; missing tags store as `[]`. */
  function ToStored(p: Problem, verdict: string, creationTimeSeconds: int): StoredSubmission {
    StoredSubmission(
      DashKey(p.contestId, p.index), p.name, RatingOrNull(p.rating), verdict,
      creationTimeSeconds * 1000,
      ProblemRef(p.contestId, p.index, p.name, p.rating, p.tags.GetOr([])))
  }
}

=== FILE: occurrences.dfy ===
/** How often tags occur over a `user.status` submission list. The route
    and service aggregations both read a tag array only when the submission
    has a problem whose `tags` is an array, and both count `attempted` over
    every submission; these are the whole-list counts they are checked
    against.
 */
module Occurrences {
  import opened Upstream

  /** A submission's tag array, empty when it has no problem or no array. */
  function TagsOf(sub: Submission): seq<string> {
    if sub.problem.Some? && sub.problem.value.tags.Some? then sub.problem.value.tags.value else []
  }

  /** How often `x` occurs in a submission's tag array. */
  function TagOcc(sub: Submission, x: string): nat {
    multiset(TagsOf(sub))[x]
  }

  /** Occurrences of `x` over all submissions. */
  ghost function AttemptOcc(subs: seq<Submission>, x: string): nat
    decreases |subs|
  {
    if subs == [] then 0
    else AttemptOcc(subs[..|subs| - 1], x) + TagOcc(subs[|subs| - 1], x)
  }

  /** Every tag any submission's problem carries. */
  ghost function AllTags(subs: seq<Submission>): set<string> {
    set i, x | 0 <= i < |subs| && x in TagsOf(subs[i]) :: x
  }

  /** The tags of a list are those of all but its last submission and
      those of the last. */
  lemma AllTagsSnoc(subs: seq<Submission>)
    requires subs != []
    ensures forall x :: x in AllTags(subs) <==> x in AllTags(subs[..|subs| - 1]) || x in TagsOf(subs[|subs| - 1])
  {
    var init := subs[..|subs| - 1];
    assert forall i | 0 <= i < |init| :: init[i] == subs[i];
    forall x | x in AllTags(subs)
      ensures x in AllTags(init) || x in TagsOf(subs[|subs| - 1])
    {
      var i :| 0 <= i < |subs| && x in TagsOf(subs[i]);
      if i < |init| {
        assert x in TagsOf(init[i]);
      }
    }
    forall x | x in AllTags(init)
      ensures x in AllTags(subs)
    {
      var i :| 0 <= i < |init| && x in TagsOf(init[i]);
      assert x in TagsOf(subs[i]);
    }
  }

  /** A tag some submission carries is attempted at least once. */
  lemma {:induction false} AttemptOccOfTag(subs: seq<Submission>, x: string)
    requires x in AllTags(subs)
    ensures AttemptOcc(subs, x) >= 1
    decreases |subs|
  {
    AllTagsSnoc(subs);
    var init := subs[..|subs| - 1];
    if x in AllTags(init) {
      AttemptOccOfTag(init, x);
    }
  }
}

=== FILE: profile_view.dfy ===
/** The derived values of the student profile page,
    client/src/components/StudentProfile.js: the rating colour and title,
    the top tags, the date-window filters, the average and the hardest
    rating of the solved problems, and the recent-submissions panel.

    "Now" is an input. The profile only renders once a student has loaded,
    so every helper receives a stored student.
 */
module ProfileView {
  import opened Wrappers
  import opened StudentSchema
  import Upstream
  import Seqs
  import Sorting
  import Calendar
  import Bands
  import Recommend
  import Arith

  // ---- Rating colour and title ----

  /** `theme.palette.grey[500]`, the colour of an unrated student. */
  const Grey500: string := "#9e9e9e"

  /** `getRatingColor`: a missing or zero rating is grey; otherwise the
      Codeforces colour of the rating. */
  function RatingColor(rating: Option<int>): (c: string)
    ensures !Upstream.Truthy(rating) ==> c == Grey500
  {
    if !Upstream.Truthy(rating) then Grey500
    else if rating.value < 1200 then "#808080"
    else if rating.value < 1400 then "#008000"
    else if rating.value < 1600 then "#03A89E"
    else if rating.value < 1900 then "#0000FF"
    else if rating.value < 2200 then "#AA00AA"
    else if rating.value < 2400 then "#FF8C00"
    else "#FF0000"
  }

  /** The profile colours a rated student exactly as the server colours a
      recommended problem of that rating. */
  lemma RatingColorAgreesWithServer(rating: Option<int>)
    requires Upstream.Truthy(rating)
    ensures RatingColor(rating) == Recommend.DifficultyColor(rating.value)
  {
  }

  const Unrated: string := "Unrated"

  /** `getRatingLabel`. */
  function RatingLabel(rating: Option<int>): (l: string)
    ensures !Upstream.Truthy(rating) ==> l == Unrated
    ensures Upstream.Truthy(rating) ==> l != Unrated
  {
    if !Upstream.Truthy(rating) then Unrated
    else if rating.value < 1200 then "Newbie"
    else if rating.value < 1400 then "Pupil"
    else if rating.value < 1600 then "Specialist"
    else if rating.value < 1900 then "Expert"
    else if rating.value < 2200 then "Candidate Master"
    else if rating.value < 2400 then "Master"
    else if rating.value < 2600 then "International Master"
    else if rating.value < 3000 then "Grandmaster"
    else "International Grandmaster"
  }

  /** The title boundaries, ascending, and the title of each band. */
  const TitleBounds: seq<int> := [1200, 1400, 1600, 1900, 2200, 2400, 2600, 3000]
  const Titles: seq<string> := ["Newbie", "Pupil", "Specialist", "Expert", "Candidate Master",
                                "Master", "International Master", "Grandmaster",
                                "International Grandmaster"]

  /** A rated student's title is the title of the band the rating
      reaches. */
  lemma RatingLabelIsBand(rating: int)
    requires rating != 0
    ensures RatingLabel(Some(rating)) == Titles[Bands.BandOf(TitleBounds, rating)]
  {
    Bands.StepsAscending(TitleBounds);
    Bands.BandBetween(TitleBounds, rating);
    TitleAt(rating, Bands.BandOf(TitleBounds, rating));
  }

  /** The title chain picks entry `n` for a rating between the `n`-th
      boundary and the next. */
  lemma TitleAt(rating: int, n: nat)
    requires rating != 0 && n < |Titles|
    requires n > 0 ==> TitleBounds[n - 1] <= rating
    requires n < |TitleBounds| ==> rating < TitleBounds[n]
    ensures RatingLabel(Some(rating)) == Titles[n]
  {
  }

  /** A higher rating never earns a lower title. */
  lemma TitlesRise(rating: int, higher: int)
    requires rating <= higher
    ensures Bands.BandOf(TitleBounds, rating) <= Bands.BandOf(TitleBounds, higher)
  {
    Bands.BandMonotone(TitleBounds, rating, higher);
  }

  /** Two students with the same title have the same colour: the colour
      boundaries are among the title boundaries. */
  lemma SameTitleSameColor(a: Option<int>, b: Option<int>)
    requires RatingLabel(a) == RatingLabel(b)
    ensures RatingColor(a) == RatingColor(b)
  {
  }

  // ---- Tags ----

  function MostSolved(t: TagStat): int {
    0 - t.solved
  }

  /** `processTagData`: the eight tags with the most solved problems, most
      first; tags with equal counts keep their stored order. The schema
      gives every student a `tagStats` array, so the "no tags" branch
      yields the same empty list as sorting an empty array. */
  function TopTags(st: Student): (r: seq<TagStat>)
    ensures |r| <= 8
    ensures |r| == if |st.problemSolvingData.tagStats| < 8 then |st.problemSolvingData.tagStats| else 8
    ensures multiset(r) <= multiset(st.problemSolvingData.tagStats)
  {
    Sorting.SortTake(st.problemSolvingData.tagStats, MostSolved, 8);
    Sorting.Take(Sorting.SortBy(st.problemSolvingData.tagStats, MostSolved), 8)
  }

  /** The top tags run from most to fewest solved, and a tag left out has
      solved no more problems than the last tag shown. */
  lemma TopTagsOrdered(st: Student)
    ensures var r := TopTags(st);
      && (forall i, j | 0 <= i < j < |r| :: r[i].solved >= r[j].solved)
      && (|r| > 0 ==> forall t | t in st.problemSolvingData.tagStats && t !in r :: t.solved <= r[|r| - 1].solved)
  {
    var r := TopTags(st);
    Sorting.SortTake(st.problemSolvingData.tagStats, MostSolved, 8);
    forall i, j | 0 <= i < j < |r| ensures r[i].solved >= r[j].solved {
      assert MostSolved(r[i]) <= MostSolved(r[j]);
    }
  }

  // ---- Date windows ----

  /** `new Date(date) >= new Date(Date.now() - days * 24 * 60 * 60 * 1000)`. */
  predicate Within(dateMs: int, nowMs: int, days: int) {
    dateMs >= nowMs - days * Calendar.DayMs
  }

  /** `filteredContests`: the contests of the last `days` days, in stored
      order. */
  function RecentContests(st: Student, nowMs: int, days: int): (r: seq<ContestEntry>)
    ensures forall c :: c in r <==> c in st.contestHistory && Within(c.dateMs, nowMs, days)
  {
    Seqs.Filter(st.contestHistory, (c: ContestEntry) => Within(c.dateMs, nowMs, days))
  }

  /** `filteredSubmissions`: the submissions of the last `days` days, in
      stored order. */
  function RecentSubmissions(st: Student, nowMs: int, days: int): (r: seq<StoredSubmission>)
    ensures forall s :: s in r <==> s in st.recentSubmissions && Within(s.dateMs, nowMs, days)
  {
    Seqs.Filter(st.recentSubmissions, (s: StoredSubmission) => Within(s.dateMs, nowMs, days))
  }

  /** A wider window shows everything a narrower one shows. */
  lemma WiderWindowKeeps(st: Student, nowMs: int, days: int, wider: int)
    requires days <= wider
    ensures forall c | c in RecentContests(st, nowMs, days) :: c in RecentContests(st, nowMs, wider)
    ensures forall s | s in RecentSubmissions(st, nowMs, days) :: s in RecentSubmissions(st, nowMs, wider)
  {
    assert days * Calendar.DayMs <= wider * Calendar.DayMs;
  }

  // ---- Solved-problem statistics ----

  /** `s.verdict === 'OK' && s.problemRating`. */
  predicate SolvedRated(s: StoredSubmission) {
    s.verdict == "OK" && Upstream.Truthy(s.problemRating)
  }

  /** `solvedProblemsWithRating`, in order. */
  function SolvedWithRating(subs: seq<StoredSubmission>): (r: seq<StoredSubmission>)
    ensures forall s :: s in r <==> s in subs && SolvedRated(s)
    ensures forall i | 0 <= i < |r| :: SolvedRated(r[i])
  {
    Seqs.Filter(subs, SolvedRated)
  }

  function RatingOf(s: StoredSubmission): int {
    s.problemRating.GetOr(0)
  }

  /** The sum of the ratings. */
  function Sum(subs: seq<StoredSubmission>): int
    decreases |subs|
  {
    if subs == [] then 0 else Sum(subs[..|subs| - 1]) + RatingOf(subs[|subs| - 1])
  }

  /** `Number.prototype.toFixed(0)` of `total / count`: the integer nearest
      the mean, a tie going away from zero. */
  function RoundedMean(total: int, count: nat): (n: int)
    requires count > 0
    ensures 0 - count <= 2 * (n * count - total) <= count
    ensures 2 * (n * count - total) == count ==> total >= 0
    ensures 2 * (n * count - total) == 0 - count ==> total < 0
  {
    if total >= 0 then
      var q := (2 * total + count) / (2 * count);
      var rem := (2 * total + count) % (2 * count);
      assert 2 * total + count == q * (2 * count) + rem;
      assert 2 * (q * count - total) == count - rem;
      q
    else
      var q := (2 * (0 - total) + count) / (2 * count);
      var rem := (2 * (0 - total) + count) % (2 * count);
      assert 2 * (0 - total) + count == q * (2 * count) + rem;
      assert 2 * ((0 - q) * count - total) == rem - count;
      0 - q
  }

  /** `averageRating`: 'N/A' (here `None`) when no rated problem was
      solved in the window, otherwise the rounded mean rating. */
  function AverageRating(subs: seq<StoredSubmission>): (r: Option<int>)
    ensures r.None? <==> SolvedWithRating(subs) == []
    ensures r.Some? ==> r.value == RoundedMean(Sum(SolvedWithRating(subs)), |SolvedWithRating(subs)|)
    ensures r.Some? ==>
      var total, count := Sum(SolvedWithRating(subs)), |SolvedWithRating(subs)|;
      0 - count <= 2 * (r.value * count - total) <= count
  {
    var solved := SolvedWithRating(subs);
    if solved == [] then None else Some(RoundedMean(Sum(solved), |solved|))
  }

  /** The shown average lies between the lowest and the highest rating of
      the solved problems it averages. */
  lemma AverageRatingBetween(subs: seq<StoredSubmission>, lo: int, hi: int)
    requires forall s | s in SolvedWithRating(subs) :: lo <= RatingOf(s) <= hi
    ensures AverageRating(subs).Some? ==> lo <= AverageRating(subs).value <= hi
  {
    var solved := SolvedWithRating(subs);
    if solved != [] {
      var c := |solved|;
      SumBetween(solved, lo, hi);
      RoundedBetween(Sum(solved), c, lo, hi);
    }
  }

  /** Ratings between `lo` and `hi` sum to between `lo` and `hi` times
      their number. */
  lemma {:induction false} SumBetween(subs: seq<StoredSubmission>, lo: int, hi: int)
    requires forall s | s in subs :: lo <= RatingOf(s) <= hi
    ensures lo * |subs| <= Sum(subs) <= hi * |subs|
    decreases |subs|
  {
    if subs != [] {
      var init := subs[..|subs| - 1];
      assert forall s | s in init :: s in subs;
      SumBetween(init, lo, hi);
      assert subs[|subs| - 1] in subs;
      Arith.MulSucc(lo, |init|);
      Arith.MulSucc(hi, |init|);
    }
  }

  /** Rounding a mean between two integers stays between them. */
  lemma RoundedBetween(total: int, count: nat, lo: int, hi: int)
    requires count > 0 && lo * count <= total <= hi * count
    ensures lo <= RoundedMean(total, count) <= hi
  {
    var n := RoundedMean(total, count);
    if n > hi {
      assert n * count >= (hi + 1) * count by { Arith.MulMono(hi + 1, n, count); }
    }
    if n < lo {
      assert n * count <= (lo - 1) * count by { Arith.MulMono(n, lo - 1, count); }
    }
  }

  /** `mostDifficultProblem`: the first of the solved rated problems with
      the highest rating (the reduction keeps the current maximum unless a
      later one is strictly higher); `None` when there is none. */
  method MostDifficult(subs: seq<StoredSubmission>) returns (r: Option<StoredSubmission>)
    ensures r.None? <==> SolvedWithRating(subs) == []
    ensures r.Some? ==> exists k | 0 <= k < |SolvedWithRating(subs)| ::
      && SolvedWithRating(subs)[k] == r.value
      && (forall i | 0 <= i < k :: RatingOf(SolvedWithRating(subs)[i]) < RatingOf(r.value))
      && (forall i | k <= i < |SolvedWithRating(subs)| :: RatingOf(SolvedWithRating(subs)[i]) <= RatingOf(r.value))
  {
    var solved := SolvedWithRating(subs);
    if solved == [] {
      return None;
    }
    var best := 0;
    var i := 1;
    while i < |solved|
      invariant 0 <= best < i <= |solved|
      invariant forall j | 0 <= j < best :: RatingOf(solved[j]) < RatingOf(solved[best])
      invariant forall j | best <= j < i :: RatingOf(solved[j]) <= RatingOf(solved[best])
    {
      if RatingOf(solved[i]) > RatingOf(solved[best]) {
        best := i;
      }
      i := i + 1;
    }
    r := Some(solved[best]);
  }

  /** The recent-submissions panel: the first ten stored submissions. */
  function RecentPanel(st: Student): (r: seq<StoredSubmission>)
    ensures |r| <= 10 && |r| <= |st.recentSubmissions|
    ensures |r| == 10 || r == st.recentSubmissions
    ensures forall i | 0 <= i < |r| :: r[i] == st.recentSubmissions[i]
  {
    Sorting.Take(st.recentSubmissions, 10)
  }
}

=== FILE: proxy.dfy ===
/** The Codeforces proxy routes `GET /codeforces/{user,rating,submissions}/:handle`
    in their two versions: the lenient one (server/src/routes/api.js, the
    router the server mounts) and the strict one (server/routes/api.js).

    Each route forwards one upstream call and answers either with the body
    the validator returns or with the failure envelope `{status: 'FAILED',
    comment}`. What the call did is an input: it raised (with the upstream
    HTTP response, when there was one) or it returned a body.
 */
module Proxy {
  import opened Wrappers
  import opened Upstream

  /** The three proxied endpoints. */
  datatype Route = UserRoute | RatingRoute | SubmissionsRoute

  /** The HTTP response carried by an axios error: its status (0 standing
      for a missing one) and the `comment` of its body. */
  datatype HttpFailure = HttpFailure(status: int, comment: Option<string>)

  /** What `await axios.get(...)` did: it raised, or it returned `data`
      (`None` for an empty body). */
  datatype Fetched<T> =
    | Threw(message: string, response: Option<HttpFailure>)
    | Got(data: Option<Envelope<T>>)

  /** The JSON a route answers with: the upstream envelope (or one the route
      builds), or `{status: 'FAILED', comment}`. */
  datatype Body<T> = Forward(envelope: Envelope<T>) | Failure(comment: string)

  /** An HTTP answer. */
  datatype Reply<T> = Reply(code: int, body: Body<T>)

  const InvalidResponse: string := "Invalid response from Codeforces API"
  const NoResponse: string := "No response from Codeforces API"
  const NoData: string := "No data found for the given handle"

  /** The last fallback of each route's failure comment. */
  function DefaultMessage(route: Route): (m: string)
    ensures m != ""
  {
    match route
    case UserRoute => "Failed to fetch user info"
    case RatingRoute => "Failed to fetch rating history"
    case SubmissionsRoute => "Failed to fetch submissions"
  }

  /** The lenient `validateCodeforcesResponse`: a body whose status is
      `'OK'`, whatever its result. */
  function ValidateLenient<T>(data: Option<Envelope<T>>): (r: Result<Envelope<T>, string>)
    ensures r.Ok? <==> data.Some? && IsOk(data.value)
    ensures r.Ok? ==> r.value == data.value
    ensures r.Err? && data.Some? ==> r.error == TextOr(data.value.comment, InvalidResponse)
    ensures r.Err? && data.None? ==> r.error == InvalidResponse
  {
    if data.None? || !IsOk(data.value) then
      Err(if data.Some? then TextOr(data.value.comment, InvalidResponse) else InvalidResponse)
    else Ok(data.value)
  }

  /** The strict `validateCodeforcesResponse`: also a present, non-empty
      result. */
  function ValidateStrict<T>(data: Option<Envelope<T>>): (r: Result<Envelope<T>, string>)
    ensures r.Ok? <==>
      data.Some? && IsOk(data.value) && data.value.result.Some? && |data.value.result.value| > 0
    ensures r.Ok? ==> r.value == data.value
    ensures data.None? ==> r == Err(NoResponse)
    ensures data.Some? && !IsOk(data.value) ==> r == Err(TextOr(data.value.comment, InvalidResponse))
    ensures data.Some? && IsOk(data.value) && !r.Ok? ==> r == Err(NoData)
  {
    if data.None? then Err(NoResponse)
    else if !IsOk(data.value) then Err(TextOr(data.value.comment, InvalidResponse))
    else if data.value.result.None? || |data.value.result.value| == 0 then Err(NoData)
    else Ok(data.value)
  }

  /** The `catch` block: the upstream status (500 without one) and the first
      non-empty of the upstream comment, the error's message and the route's
      default. */
  function FailureReply<T>(route: Route, message: string, response: Option<HttpFailure>): (r: Reply<T>)
    ensures r.body.Failure? && r.body.comment != ""
    ensures r.code == (if response.Some? && response.value.status != 0 then response.value.status else 500)
    ensures response.Some? && TruthyText(response.value.comment) ==> r.body.comment == response.value.comment.value
    ensures (response.None? || !TruthyText(response.value.comment)) && message != "" ==>
      r.body.comment == message
    ensures (response.None? || !TruthyText(response.value.comment)) && message == "" ==>
      r.body.comment == DefaultMessage(route)
  {
    var upstreamComment := if response.Some? then response.value.comment else None;
    var comment := TextOr(upstreamComment, if message != "" then message else DefaultMessage(route));
    Reply(if response.Some? && response.value.status != 0 then response.value.status else 500, Failure(comment))
  }

  /** A route of the mounted proxy: an `'OK'` body is passed on untouched,
      anything else becomes the failure envelope. A validator error carries
      no HTTP response, so it answers 500. */
  function Lenient<T>(route: Route, f: Fetched<T>): (r: Reply<T>)
    ensures r.body.Forward? <==> f.Got? && ValidateLenient(f.data).Ok?
    ensures r.body.Forward? ==> r == Reply(200, Forward(f.data.value))
    ensures f.Got? && ValidateLenient(f.data).Err? ==>
      r == Reply(500, Failure(ValidateLenient(f.data).error))
    ensures f.Threw? ==> r == FailureReply(route, f.message, f.response)
  {
    match f
    case Threw(m, resp) => FailureReply(route, m, resp)
    case Got(data) =>
      match ValidateLenient(data)
      case Ok(env) => Reply(200, Forward(env))
      case Err(m) => FailureReply(route, m, None)
  }

  /** A route of the strict proxy, as written: the list routes test for a
      missing or empty result after the validator, which has already thrown
      for both. */
  function Strict<T>(route: Route, f: Fetched<T>): (r: Reply<T>)
    ensures r.body.Forward? <==> f.Got? && ValidateStrict(f.data).Ok?
    ensures r.body.Forward? ==> r == Reply(200, Forward(f.data.value))
    ensures f.Got? && ValidateStrict(f.data).Err? ==> r == Reply(500, Failure(ValidateStrict(f.data).error))
    ensures f.Threw? ==> r == FailureReply(route, f.message, f.response)
  {
    match f
    case Threw(m, resp) => FailureReply(route, m, resp)
    case Got(data) =>
      match ValidateStrict(data)
      case Err(m) => FailureReply(route, m, None)
      case Ok(env) =>
        if route != UserRoute && (env.result.None? || |env.result.value| == 0) then
          Reply(200, Forward(Envelope("OK", Some([]), None)))
        else Reply(200, Forward(env))
  }

  /** The strict list routes, as written, never answer with an empty list:
      an upstream `{status: 'OK', result: []}` (a user with no contests or
      no submissions) is a 500 with "No data found for the given handle",
      although the list routes mean to answer `{status: 'OK', result: []}`. */
  lemma StrictRefusesEmptyList<T>(route: Route, f: Fetched<T>)
    ensures Strict(route, f).body.Forward? ==>
      && Strict(route, f).body.envelope.result.Some?
      && |Strict(route, f).body.envelope.result.value| > 0
    ensures route != UserRoute && f.Got? && f.data.Some? && IsOk(f.data.value) && f.data.value.result == Some([]) ==>
      Strict(route, f) == Reply(500, Failure(NoData))
  {
  }

  /** The strict proxy with the list routes' empty-result branch reachable:
      a list route validates only the presence and status of the body, and
      answers a missing or empty result with `{status: 'OK', result: []}`. */
  function StrictIntended<T>(route: Route, f: Fetched<T>): (r: Reply<T>)
    ensures route == UserRoute ==> r == Strict(route, f)
  {
    match f
    case Threw(m, resp) => FailureReply(route, m, resp)
    case Got(data) =>
      if route == UserRoute then Strict(route, f)
      else if data.None? then FailureReply(route, NoResponse, None)
      else match ValidateLenient(data)
        case Err(m) => FailureReply(route, m, None)
        case Ok(env) =>
          if env.result.None? || |env.result.value| == 0 then Reply(200, Forward(Envelope("OK", Some([]), None)))
          else Reply(200, Forward(env))
  }

  /** With the branch reachable, a list route answers an `'OK'` body with no
      entries by an empty list, and otherwise answers as written. */
  lemma StrictIntendedAnswersEmptyList<T>(route: Route, f: Fetched<T>)
    ensures route != UserRoute && f.Got? && f.data.Some? && IsOk(f.data.value)
            && (f.data.value.result.None? || f.data.value.result == Some([])) ==>
      StrictIntended(route, f) == Reply(200, Forward(Envelope("OK", Some([]), None)))
    ensures !(f.Got? && f.data.Some? && IsOk(f.data.value)
              && (f.data.value.result.None? || f.data.value.result == Some([]))) ==>
      StrictIntended(route, f) == Strict(route, f)
  {
  }

  /** Whatever the strict proxy accepts, the mounted one accepts with the
      same answer: it only refuses less. */
  lemma StrictAcceptsLess<T>(route: Route, f: Fetched<T>)
    ensures Strict(route, f).body.Forward? ==> Lenient(route, f) == Strict(route, f)
    ensures f.Threw? ==> Lenient(route, f) == Strict(route, f)
  {
  }
}

=== FILE: rates.dfy ===
/** Tag success rates: the stored `successRate` string and the weak-tag test
    that reads it back.

    The server writes `((solved / attempted) * 100).toFixed(1)`, with a `'%'`
    suffix in the route-level sync and without one in the service-level
    sync. The rendered value is modelled exactly: `tenths` is the percentage
    in tenths, rounded half up as `toFixed` does on the exact rational.
    The recommendation handlers call a tag weak when `successRate < 50`;
    JavaScript converts the string to a number first, and a string with a
    `'%'` converts to NaN, which is below nothing.
 */
module Rates {
  import opened Wrappers
  import Text
  import Arith

  /** A rendered success rate: `tenths / 10` with one decimal, optionally
      followed by `'%'`. */
  datatype RateText = RateText(tenths: nat, percentSuffix: bool)

  /** `(solved / attempted * 100)` to one decimal, rounded half up. */
  function RoundTenths(solved: nat, attempted: nat): (t: nat)
    requires attempted > 0
    ensures 2 * attempted * t <= 2000 * solved + attempted < 2 * attempted * (t + 1)
  {
    var d := 2 * attempted;
    var x := 2000 * solved + attempted;
    var q := x / d;
    assert x == d * q + x % d;
    q
  }

  /** A ratio of at most one renders as at most 100.0. */
  lemma RoundTenthsAtMostHundred(solved: nat, attempted: nat)
    requires 0 < attempted && solved <= attempted
    ensures RoundTenths(solved, attempted) <= 1000
  {
    var t := RoundTenths(solved, attempted);
    Arith.MulMono(solved, attempted, 2000);
    Arith.MulCancel(t, 1000, 2 * attempted);
  }

  /** The route-level rate: a percentage with `'%'`, and `'0.0%'` when nothing
      was attempted. */
  function PercentRate(solved: nat, attempted: nat): (r: RateText)
    ensures r.percentSuffix
    ensures attempted == 0 ==> r.tenths == 0
    ensures attempted > 0 ==> r.tenths == RoundTenths(solved, attempted)
  {
    if attempted > 0 then RateText(RoundTenths(solved, attempted), true) else RateText(0, true)
  }

  /** The service-level rate: a bare number. */
  function BareRate(solved: nat, attempted: nat): (r: RateText)
    requires attempted > 0
    ensures !r.percentSuffix && r.tenths == RoundTenths(solved, attempted)
  {
    RateText(RoundTenths(solved, attempted), false)
  }

  /** The string a rate is stored as. */
  function Render(r: RateText): string {
    Text.NatToString(r.tenths / 10) + "." + [Text.Digit(r.tenths % 10)]
    + (if r.percentSuffix then "%" else "")
  }

  predicate IsDigit(c: char) {
    '0' <= c <= '9'
  }

  /** A hexadecimal digit, either case. */
  predicate IsHexDigit(c: char) {
    IsDigit(c) || ('a' <= c <= 'f') || ('A' <= c <= 'F')
  }

  predicate AllDigits(s: string) {
    forall i | 0 <= i < |s| :: IsDigit(s[i])
  }

  /** The value of a string of decimal digits. */
  function DigitsValue(s: string): nat
    requires AllDigits(s)
    decreases |s|
  {
    if s == [] then 0
    else DigitsValue(s[..|s| - 1]) * 10 + (s[|s| - 1] as int - '0' as int)
  }

  function Pow10(n: nat): (p: nat)
    ensures p >= 1
  {
    if n == 0 then 1 else 10 * Pow10(n - 1)
  }

  /** The value of `whole.frac`. */
  function DecimalValue(whole: string, frac: string): real
    requires AllDigits(whole) && AllDigits(frac)
  {
    DigitsValue(whole) as real + DigitsValue(frac) as real / Pow10(|frac|) as real
  }

  /** The number a string converts to, for the unsigned decimal forms
      `digits` and `digits.digits`; `None` is NaN. */
  function NumericValue(s: string): Option<real> {
    if |s| > 0 && AllDigits(s) then Some(DigitsValue(s) as real)
    else if '.' in s then
      var i := Text.IndexOf(s, '.');
      var whole := s[..i];
      var frac := s[i + 1..];
      if |whole| > 0 && AllDigits(whole) && AllDigits(frac)
      then Some(DecimalValue(whole, frac))
      else None
    else None
  }

  /** `successRate < 50` on a stored string: false whenever the conversion
      yields NaN. */
  predicate BelowFifty(s: string) {
    NumericValue(s).Some? && NumericValue(s).value < 50.0
  }

  /** The weak-tag predicate on a rate. */
  predicate IsWeak(r: RateText) {
    BelowFifty(Render(r))
  }

  lemma {:induction false} NatToStringValue(n: nat)
    ensures AllDigits(Text.NatToString(n))
    ensures DigitsValue(Text.NatToString(n)) == n
    decreases n
  {
    var s := Text.NatToString(n);
    if n < 10 {
      assert s == [Text.Digit(n)];
      assert s[..0] == [];
    } else {
      NatToStringValue(n / 10);
      assert s == Text.NatToString(n / 10) + [Text.Digit(n % 10)];
      assert s[..|s| - 1] == Text.NatToString(n / 10);
      assert "0123456789"[n % 10] as int - '0' as int == n % 10;
    }
  }

  lemma DigitValue(d: nat)
    requires d < 10
    ensures DigitsValue([Text.Digit(d)]) == d
  {
    assert [Text.Digit(d)][..0] == [];
    assert "0123456789"[d] as int - '0' as int == d;
  }

  lemma DotAfterDigits(w: string, rest: string)
    requires AllDigits(w)
    ensures '.' in w + "." + rest
    ensures Text.IndexOf(w + "." + rest, '.') == |w|
  {
    var s := w + "." + rest;
    assert s[|w|] == '.';
    assert forall k | 0 <= k < |w| :: s[k] == w[k];
    assert s[..|w| + 1][|w|] == '.';
  }

  /** `w.f` with digits on both sides converts to its decimal value. */
  lemma DottedValue(w: string, f: string)
    requires |w| > 0 && AllDigits(w) && AllDigits(f)
    ensures NumericValue(w + "." + f) == Some(DecimalValue(w, f))
  {
    var s := w + "." + f;
    DotAfterDigits(w, f);
    assert !IsDigit(s[|w|]);
    assert !AllDigits(s);
    var i := Text.IndexOf(s, '.');
    assert s[..i] == w;
    assert s[i + 1..] == f;
  }

  /** `w.f` with a non-digit after the dot converts to NaN. */
  lemma DottedNaN(w: string, f: string)
    requires AllDigits(w) && !AllDigits(f)
    ensures NumericValue(w + "." + f) == None
  {
    var s := w + "." + f;
    DotAfterDigits(w, f);
    assert !IsDigit(s[|w|]);
    assert s[|w| + 1..] == f;
  }

  /** A rendered rate reads back as a number exactly when it has no `'%'`,
      and then as `tenths / 10`. */
  lemma RenderValue(r: RateText)
    ensures r.percentSuffix ==> NumericValue(Render(r)) == None
    ensures !r.percentSuffix ==> NumericValue(Render(r)) == Some(r.tenths as real / 10.0)
  {
    if r.percentSuffix {
      RenderPercentNaN(r);
    } else {
      RenderBare(r);
    }
  }

  lemma RenderPercentNaN(r: RateText)
    requires r.percentSuffix
    ensures NumericValue(Render(r)) == None
  {
    var w := Text.NatToString(r.tenths / 10);
    var f := [Text.Digit(r.tenths % 10)] + "%";
    NatToStringValue(r.tenths / 10);
    assert !IsDigit(f[1]);
    DottedNaN(w, f);
    assert Render(r) == w + "." + f;
  }

  lemma RenderBare(r: RateText)
    requires !r.percentSuffix
    ensures NumericValue(Render(r)) == Some(r.tenths as real / 10.0)
  {
    var w := Text.NatToString(r.tenths / 10);
    var d := [Text.Digit(r.tenths % 10)];
    var s := w + "." + d;
    assert Render(r) == s;
    NatToStringValue(r.tenths / 10);
    DigitValue(r.tenths % 10);
    DottedValue(w, d);
    BareValue(r.tenths, w, d);
  }

  lemma BareValue(t: nat, w: string, d: string)
    requires AllDigits(w) && DigitsValue(w) == t / 10
    requires AllDigits(d) && |d| == 1 && DigitsValue(d) == t % 10
    ensures DecimalValue(w, d) == t as real / 10.0
  {
    assert Pow10(1) == 10;
    assert DecimalValue(w, d) == (t / 10) as real + (t % 10) as real / 10.0;
    assert (t / 10) as real + (t % 10) as real / 10.0 == t as real / 10.0;
  }

  /** The weak-tag test holds for a bare rate below 50.0 and never for a rate
      stored with `'%'`. */
  lemma WeakIffBareBelowFifty(r: RateText)
    ensures IsWeak(r) <==> !r.percentSuffix && r.tenths < 500
  {
    RenderValue(r);
  }
}

=== FILE: recommend.dfy ===
/** Problem recommendations: the three buckets the router
    (`GET /:id/recommendations` in server/src/routes/studentRoutes.js) and
    the controller (`getProblemRecommendations` in
    server/src/controllers/studentController.js) build from the catalog,
    and the router's decoration with `getDifficultyColor` and links.

    A problem is recommended only if it has a rating inside the bucket's
    window (an unrated problem fails every comparison) and its
    `contestId``index` key is not among the student's stored submissions.
    Each bucket is the matching problems sorted stably by rating, first
    five.
 */
module Recommend {
  import opened Wrappers
  import opened StudentSchema
  import Upstream
  import Rates
  import Text
  import Seqs
  import Sorting
  import CatalogCache
  import Bands

  /** One bucket of the answer. */
  datatype Bucket<T> = Bucket(title: string, description: string, problems: seq<T>)

  /** The three buckets, in answer order. */
  datatype Kind = Progression | WeakAreas | Practice

  /** The most problems a bucket holds (`slice(0, 5)`). */
  const BucketSize: nat := 5

  function Title(k: Kind): string {
    match k
    case Progression => "Rating Progression"
    case WeakAreas => "Weak Areas"
    case Practice => "Practice Problems"
  }

  function Description(k: Kind): string {
    match k
    case Progression => "Problems to help you progress to the next rating level"
    case WeakAreas => "Problems to improve your weaker topics"
    case Practice => "Problems at your current level to maintain consistency"
  }

  /** The identity of a catalog problem. */
  function Key(p: Upstream.CatalogEntry): string {
    Upstream.ConcatKey(p.contestId, p.index)
  }

  /** The identity of a stored submission's problem. */
  function StoredKey(s: StoredSubmission): string {
    Upstream.ConcatKey(s.problem.contestId, s.problem.index)
  }

  /** `solvedProblems`: keys of the accepted stored submissions. */
  function SolvedKeys(subs: seq<StoredSubmission>): set<string> {
    set s | s in subs && s.verdict == "OK" :: StoredKey(s)
  }

  /** `attemptedProblems`: keys of all stored submissions. */
  function AttemptedKeys(subs: seq<StoredSubmission>): set<string> {
    set s | s in subs :: StoredKey(s)
  }

  /** Every solved key is an attempted key, so excluding the attempted keys
      alone excludes the same problems. */
  lemma SolvedAreAttempted(subs: seq<StoredSubmission>)
    ensures SolvedKeys(subs) <= AttemptedKeys(subs)
  {
  }

  /** `weakTags`: the tags of the stored statistics whose success rate
      compares below 50, in stored order. */
  function WeakTags(stats: seq<TagStat>): (r: seq<string>)
    ensures forall tag :: tag in r <==> exists t | t in stats :: Rates.IsWeak(t.successRate) && t.tag == tag
    decreases |stats|
  {
    if stats == [] then []
    else
      var rest := WeakTags(stats[..|stats| - 1]);
      var last := stats[|stats| - 1];
      assert forall t | t in stats :: t in stats[..|stats| - 1] || t == last;
      assert forall t | t in stats[..|stats| - 1] :: t in stats;
      rest + (if Rates.IsWeak(last.successRate) then [last.tag] else [])
  }

  /** The inclusive rating window of a bucket for current rating `r`. */
  function Window(k: Kind, r: int): (w: (int, int))
    ensures k == Progression ==> w == (if r - 100 > 800 then r - 100 else 800, if r + 200 < 2000 then r + 200 else 2000)
    ensures k == WeakAreas ==> w == (if r - 100 > 800 then r - 100 else 800, r + 100)
    ensures k == Practice ==> w == (r - 100, r + 100)
  {
    var minRating := if r - 100 > 800 then r - 100 else 800;   // Math.max(r - 100, 800)
    var targetRating := if r + 200 < 2000 then r + 200 else 2000; // Math.min(r + 200, 2000)
    match k
    case Progression => (minRating, targetRating)
    case WeakAreas => (minRating, r + 100)
    case Practice => (r - 100, r + 100)
  }

  /** The bucket's filter. */
  predicate Eligible(k: Kind, p: Upstream.CatalogEntry, r: int, weak: seq<string>,
                     solved: set<string>, attempted: set<string>) {
    && p.rating.Some?
    && Window(k, r).0 <= p.rating.value <= Window(k, r).1
    && (k == WeakAreas ==> exists i | 0 <= i < |p.tags| :: p.tags[i] in weak)
    && Key(p) !in solved
    && Key(p) !in attempted
  }

  /** The sort key; every problem that reaches the sort is rated. */
  function RatingOf(p: Upstream.CatalogEntry): int {
    p.rating.GetOr(0)
  }

  /** `filter(...).sort((a, b) => a.rating - b.rating).slice(0, 5)`. */
  function Pick(catalog: seq<Upstream.CatalogEntry>, eligible: Upstream.CatalogEntry -> bool)
    : seq<Upstream.CatalogEntry>
  {
    Sorting.Take(Sorting.SortBy(Seqs.Filter(catalog, eligible), RatingOf), BucketSize)
  }

  /** A catalog problem qualifies for a bucket of a stored student. */
  predicate Qualifies(k: Kind, st: Student, p: Upstream.CatalogEntry) {
    Eligible(k, p, st.currentRating, WeakTags(st.problemSolvingData.tagStats),
             SolvedKeys(st.recentSubmissions), AttemptedKeys(st.recentSubmissions))
  }

  /** The filter of a bucket of a stored student. */
  function Qualifier(k: Kind, st: Student): Upstream.CatalogEntry -> bool {
    p => Qualifies(k, st, p)
  }

  /** The problems of one bucket for a stored student. */
  function BucketProblems(k: Kind, st: Student, catalog: seq<Upstream.CatalogEntry>): seq<Upstream.CatalogEntry> {
    Pick(catalog, Qualifier(k, st))
  }

  /** The buckets in answer order. */
  const Order: seq<Kind> := [Progression, WeakAreas, Practice]

  /** One bucket of a stored student. */
  function MakeBucket(k: Kind, st: Student, catalog: seq<Upstream.CatalogEntry>): Bucket<Upstream.CatalogEntry> {
    Bucket(Title(k), Description(k), BucketProblems(k, st, catalog))
  }

  /** The three buckets, undecorated (the controller's answer). */
  function Buckets(st: Student, catalog: seq<Upstream.CatalogEntry>): (r: seq<Bucket<Upstream.CatalogEntry>>)
    ensures |r| == |Order|
  {
    seq(|Order|, i requires 0 <= i < |Order| => MakeBucket(Order[i], st, catalog))
  }

  /** What a bucket holds: at most five problems, ascending by rating, each
      from the catalog, rated, inside the window, not among the stored
      submissions and (for weak areas) carrying a weak tag; nothing that
      qualifies and was left out is rated below the last one kept; and when
      fewer than five qualify, all of them are there. */
  lemma BucketContents(k: Kind, st: Student, catalog: seq<Upstream.CatalogEntry>)
    ensures var b := BucketProblems(k, st, catalog);
      var weak := WeakTags(st.problemSolvingData.tagStats);
      var (lo, hi) := Window(k, st.currentRating);
      && |b| <= BucketSize
      && Sorting.SortedBy(b, RatingOf)
      && (forall p | p in b ::
            && p in catalog
            && p.rating.Some? && lo <= p.rating.value <= hi
            && Key(p) !in AttemptedKeys(st.recentSubmissions)
            && (k == WeakAreas ==> exists i | 0 <= i < |p.tags| :: p.tags[i] in weak))
      && (|b| > 0 ==> forall p | p in catalog && Qualifies(k, st, p) && RatingOf(p) < RatingOf(b[|b| - 1]) :: p in b)
      && (|b| < BucketSize ==> multiset(b) == multiset(Seqs.Filter(catalog, Qualifier(k, st))))
  {
    var f := Qualifier(k, st);
    var b := Pick(catalog, f);
    PickContents(catalog, f);
    forall p | p in b ensures Qualifies(k, st, p) {
      assert f(p);
    }
    if |b| > 0 {
      forall p | p in catalog && Qualifies(k, st, p) && RatingOf(p) < RatingOf(b[|b| - 1]) ensures p in b {
        assert f(p);
      }
    }
  }

  /** What `Pick` keeps, for any filter. */
  lemma PickContents(catalog: seq<Upstream.CatalogEntry>, eligible: Upstream.CatalogEntry -> bool)
    ensures var b := Pick(catalog, eligible);
      && |b| <= BucketSize
      && Sorting.SortedBy(b, RatingOf)
      && (forall p | p in b :: p in catalog && eligible(p))
      && (|b| > 0 ==> forall p | p in catalog && eligible(p) && RatingOf(p) < RatingOf(b[|b| - 1]) :: p in b)
      && (|b| < BucketSize ==> multiset(b) == multiset(Seqs.Filter(catalog, eligible)))
  {
    var f := Seqs.Filter(catalog, eligible);
    var b := Pick(catalog, eligible);
    Sorting.SortTake(f, RatingOf, BucketSize);
    forall p | p in b ensures p in f {
      assert multiset(b) <= multiset(f);
      assert p in multiset(b);
    }
    if |b| < BucketSize {
      assert b == Sorting.SortBy(f, RatingOf);
    }
  }

  /** The progression window is empty exactly when the current rating is
      below 600 or above 2100; then that bucket is empty whatever the
      catalog. */
  lemma ProgressionEmpty(st: Student, catalog: seq<Upstream.CatalogEntry>)
    ensures var (lo, hi) := Window(Progression, st.currentRating);
      lo > hi <==> st.currentRating < 600 || st.currentRating > 2100
    ensures st.currentRating < 600 || st.currentRating > 2100 ==> BucketProblems(Progression, st, catalog) == []
  {
    var f := Qualifier(Progression, st);
    if st.currentRating < 600 || st.currentRating > 2100 {
      assert forall p | p in catalog :: !f(p);
    }
  }


  // ---- The router's decoration ----

  /** `getDifficultyColor`. */
  function DifficultyColor(rating: int): string {
    if rating < 1200 then "#808080"       // gray
    else if rating < 1400 then "#008000"  // green
    else if rating < 1600 then "#03A89E"  // cyan
    else if rating < 1900 then "#0000FF"  // blue
    else if rating < 2200 then "#AA00AA"  // purple
    else if rating < 2400 then "#FF8C00"  // orange
    else "#FF0000"                        // red
  }

  /** The band boundaries of `getDifficultyColor`, ascending. */
  const ColorBounds: seq<int> := [1200, 1400, 1600, 1900, 2200, 2400]

  /** The band colours, from below the first boundary upwards. */
  const ColorPalette: seq<string> := ["#808080", "#008000", "#03A89E", "#0000FF", "#AA00AA", "#FF8C00", "#FF0000"]

  /** The colour is the palette entry of the band the rating falls in. */
  lemma DifficultyColorIsBand(rating: int)
    ensures DifficultyColor(rating) == ColorPalette[Bands.BandOf(ColorBounds, rating)]
  {
    Bands.StepsAscending(ColorBounds);
    Bands.BandBetween(ColorBounds, rating);
    ColorAt(rating, Bands.BandOf(ColorBounds, rating));
  }

  /** The colour chain picks entry `n` for a rating between the `n`-th
      boundary and the next. */
  lemma ColorAt(rating: int, n: nat)
    requires n < |ColorPalette|
    requires n > 0 ==> ColorBounds[n - 1] <= rating
    requires n < |ColorBounds| ==> rating < ColorBounds[n]
    ensures DifficultyColor(rating) == ColorPalette[n]
  {
  }

  /** A harder problem never falls in an easier colour band. */
  lemma ColorsRise(rating: int, higher: int)
    requires rating <= higher
    ensures Bands.BandOf(ColorBounds, rating) <= Bands.BandOf(ColorBounds, higher)
  {
    Bands.BandMonotone(ColorBounds, rating, higher);
  }

  /** A recommended problem as the router answers it. */
  datatype Decorated = Decorated(
    problem: Upstream.CatalogEntry,
    difficultyColor: string,
    url: string,
    contestUrl: string)

  /** The link to a problem and to its contest. */
  function ProblemUrl(p: Upstream.CatalogEntry): string {
    "https://codeforces.com/problemset/problem/" + Text.IntToString(p.contestId) + "/" + p.index
  }

  function ContestUrl(p: Upstream.CatalogEntry): string {
    "https://codeforces.com/contest/" + Text.IntToString(p.contestId)
  }

  function Decorate(p: Upstream.CatalogEntry): (d: Decorated)
    ensures d.problem == p
    ensures d.difficultyColor == DifficultyColor(RatingOf(p))
  {
    Decorated(p, DifficultyColor(RatingOf(p)), ProblemUrl(p), ContestUrl(p))
  }

  /** The router's buckets: the controller's, each problem decorated. */
  function DecoratedBuckets(st: Student, catalog: seq<Upstream.CatalogEntry>): (r: seq<Bucket<Decorated>>)
    ensures |r| == |Buckets(st, catalog)|
    ensures forall k | 0 <= k < |r| ::
      && r[k].title == Buckets(st, catalog)[k].title
      && |r[k].problems| == |Buckets(st, catalog)[k].problems|
      && forall i | 0 <= i < |r[k].problems| :: r[k].problems[i].problem == Buckets(st, catalog)[k].problems[i]
  {
    DecorateAll(Buckets(st, catalog))
  }

  /** Each bucket with each of its problems decorated. */
  function DecorateAll(plain: seq<Bucket<Upstream.CatalogEntry>>): (r: seq<Bucket<Decorated>>)
    ensures |r| == |plain|
    ensures forall k | 0 <= k < |r| ::
      && r[k].title == plain[k].title
      && |r[k].problems| == |plain[k].problems|
      && forall i | 0 <= i < |r[k].problems| :: r[k].problems[i].problem == plain[k].problems[i]
  {
    seq(|plain|, k requires 0 <= k < |plain| =>
      Bucket(plain[k].title, plain[k].description,
             seq(|plain[k].problems|, i requires 0 <= i < |plain[k].problems| => Decorate(plain[k].problems[i]))))
  }

  // ---- The two handlers ----

  /** The answer of a recommendations request. */
  datatype Reply<T> =
    | NotFound404
    | Failed500(message: string, reason: string)
    | CatalogFailed500(error: CatalogCache.RefreshError)
    | Recommended200(buckets: seq<Bucket<T>>)

  /** `GET /:id/recommendations`: a malformed id is the `catch`'s 500 and an
      unknown one a 404, neither touching the cache; otherwise the 24-hour
      cache, then the decorated buckets. */
  function RouteRecommend(store: seq<Student>, id: string, cache: CatalogCache.Cache<Upstream.CatalogEntry>,
                          nowMs: int, d: CatalogCache.Download<Upstream.CatalogEntry>)
    : (out: (CatalogCache.Cache<Upstream.CatalogEntry>, Reply<Decorated>))
    ensures !IsObjectId(id) ==> out == (cache, Failed500("Error getting recommendations", CastMessage(id)))
    ensures IsObjectId(id) && FindById(store, id).None? ==> out == (cache, NotFound404)
    ensures IsObjectId(id) && FindById(store, id).Some? ==>
      var (c, catalog) := CatalogCache.Lookup(cache, nowMs, CatalogCache.RouteTtlMs, d, ps => ps);
      && out.0 == c
      && (catalog.Err? ==> out.1 == CatalogFailed500(catalog.error))
      && (catalog.Ok? ==> out.1 == Recommended200(DecoratedBuckets(store[FindById(store, id).value], catalog.value)))
  {
    match LookupId(store, id)
    case Err(m) => (cache, Failed500("Error getting recommendations", m))
    case Ok(None) => (cache, NotFound404)
    case Ok(Some(i)) =>
      var (c, catalog) := CatalogCache.Lookup(cache, nowMs, CatalogCache.RouteTtlMs, d, ps => ps);
      match catalog
      case Err(e) => (c, CatalogFailed500(e))
      case Ok(problems) => (c, Recommended200(DecoratedBuckets(store[i], problems)))
  }

  /** `getProblemRecommendations`: the student is whatever an earlier
      middleware put on the request; 404 without one; otherwise the one-hour
      cache, then the plain buckets. */
  function ControllerRecommend(student: Option<Student>, cache: CatalogCache.Cache<Upstream.CatalogEntry>,
                               nowMs: int, d: CatalogCache.Download<Upstream.CatalogEntry>)
    : (out: (CatalogCache.Cache<Upstream.CatalogEntry>, Reply<Upstream.CatalogEntry>))
    ensures student.None? ==> out == (cache, NotFound404)
    ensures student.Some? ==>
      var (c, catalog) := CatalogCache.ControllerLookup(cache, nowMs, d);
      && out.0 == c
      && (catalog.Err? ==> out.1 == CatalogFailed500(catalog.error))
      && (catalog.Ok? ==> out.1 == Recommended200(Buckets(student.value, catalog.value)))
  {
    match student
    case None => (cache, NotFound404)
    case Some(st) =>
      var (c, catalog) := CatalogCache.ControllerLookup(cache, nowMs, d);
      match catalog
      case Err(e) => (c, CatalogFailed500(e))
      case Ok(problems) => (c, Recommended200(Buckets(st, problems)))
  }
}

=== FILE: recommendations_view.dfy ===
/** The recommendations panel, client/src/components/ProblemRecommendations.js:
    difficulty titles and colours, the displayed solve-count and success-rate
    estimates, and the bookmarks.

    `Math.random()` is an input `u` with `0 <= u < 1`; theme colours are
    kept as the names of their palette entries.
 */
module RecommendationsView {
  import opened Wrappers
  import Upstream
  import Recommend

  // ---- Loading ----

  const LoadFailed: string := "Failed to load recommendations"

  /** What the panel shows once the request has settled. */
  datatype View<T> = View(recommendations: seq<T>, loading: bool, error: string)

  /** The panel before any answer. */
  function Initial<T>(): (v: View<T>)
    ensures v.recommendations == [] && v.loading && v.error == ""
  {
    View([], true, "")
  }

  /** `fetchRecommendations`: the answered buckets, or the failure message.
      A student without an identifier never asks, so the panel keeps
      loading. */
  function Settle<T>(hasId: bool, answer: Option<seq<T>>): (v: View<T>)
    ensures !hasId ==> v == Initial()
    ensures hasId && answer.Some? ==> v == View(answer.value, false, "")
    ensures hasId && answer.None? ==> v == View([], false, LoadFailed)
  {
    if !hasId then Initial()
    else match answer
      case Some(buckets) => View(buckets, false, "")
      case None => View([], false, LoadFailed)
  }

  // ---- Difficulty ----

  /** The theme colours the panel uses. */
  datatype Shade = Grey500 | EasyShade | MediumShade | HardShade | ExpertShade

  /** `getDifficultyColor`. */
  function DifficultyColor(rating: Option<int>): (c: Shade)
    ensures !Upstream.Truthy(rating) <==> c == Grey500
  {
    if !Upstream.Truthy(rating) then Grey500
    else if rating.value < 1200 then EasyShade
    else if rating.value < 1600 then MediumShade
    else if rating.value < 2000 then HardShade
    else ExpertShade
  }

  /** `getDifficultyLabel`. */
  function DifficultyLabel(rating: Option<int>): (l: string)
    ensures !Upstream.Truthy(rating) <==> l == "Unrated"
  {
    if !Upstream.Truthy(rating) then "Unrated"
    else if rating.value < 1200 then "Easy"
    else if rating.value < 1600 then "Medium"
    else if rating.value < 2000 then "Hard"
    else "Expert"
  }

  /** The shade that goes with each title. */
  function ShadeOf(title: string): Shade {
    match title
    case "Easy" => EasyShade
    case "Medium" => MediumShade
    case "Hard" => HardShade
    case "Expert" => ExpertShade
    case _ => Grey500
  }

  /** The colour is the title's shade, and the title can be read back from
      the colour: the two helpers split ratings at the same places. */
  lemma ColorMatchesLabel(a: Option<int>, b: Option<int>)
    ensures DifficultyColor(a) == ShadeOf(DifficultyLabel(a))
    ensures DifficultyColor(a) == DifficultyColor(b) <==> DifficultyLabel(a) == DifficultyLabel(b)
  {
  }

  // ---- Estimates ----

  /** `Math.floor(Math.random() * width) + low`. */
  function Draw(u: real, low: int, width: nat): (n: int)
    requires 0.0 <= u < 1.0 && width > 0
    ensures low <= n < low + width
  {
    var k := (u * width as real).Floor;
    assert 0.0 <= u * width as real < width as real by {
      assert u * width as real <= u * width as real + (1.0 - u) * width as real;
    }
    low + k
  }

  /** `rating < bound` for a rating that may be missing: `undefined < n` is
      false. */
  predicate Below(rating: Option<int>, bound: int) {
    rating.Some? && rating.value < bound
  }

  /** `getEstimatedSolveCount`: a random count in the range of the rating's
      band; a missing rating falls through to the last band. */
  function EstimatedSolveCount(rating: Option<int>, u: real): (n: int)
    requires 0.0 <= u < 1.0
    ensures Below(rating, 1200) ==> 5000 <= n < 10000
    ensures !Below(rating, 1200) && Below(rating, 1400) ==> 2000 <= n < 5000
    ensures !Below(rating, 1400) && Below(rating, 1600) ==> 1000 <= n < 3000
    ensures !Below(rating, 1600) && Below(rating, 1800) ==> 500 <= n < 1500
    ensures !Below(rating, 1800) && Below(rating, 2000) ==> 200 <= n < 700
    ensures !Below(rating, 2000) ==> 50 <= n < 250
  {
    if Below(rating, 1200) then Draw(u, 5000, 5000)
    else if Below(rating, 1400) then Draw(u, 2000, 3000)
    else if Below(rating, 1600) then Draw(u, 1000, 2000)
    else if Below(rating, 1800) then Draw(u, 500, 1000)
    else if Below(rating, 2000) then Draw(u, 200, 500)
    else Draw(u, 50, 200)
  }

  /** `getEstimatedSuccessRate`: a random percentage twenty points wide,
      ten points lower per band. */
  function EstimatedSuccessRate(rating: Option<int>, u: real): (n: int)
    requires 0.0 <= u < 1.0
    ensures Below(rating, 1200) ==> 60 <= n < 80
    ensures !Below(rating, 1200) && Below(rating, 1400) ==> 50 <= n < 70
    ensures !Below(rating, 1400) && Below(rating, 1600) ==> 40 <= n < 60
    ensures !Below(rating, 1600) && Below(rating, 1800) ==> 30 <= n < 50
    ensures !Below(rating, 1800) && Below(rating, 2000) ==> 20 <= n < 40
    ensures !Below(rating, 2000) ==> 10 <= n < 30
  {
    if Below(rating, 1200) then Draw(u, 60, 20)
    else if Below(rating, 1400) then Draw(u, 50, 20)
    else if Below(rating, 1600) then Draw(u, 40, 20)
    else if Below(rating, 1800) then Draw(u, 30, 20)
    else if Below(rating, 2000) then Draw(u, 20, 20)
    else Draw(u, 10, 20)
  }

  /** For the same draw, a problem of a higher band is shown as solved by
      fewer people and at a lower success rate. */
  lemma EstimatesFallWithRating(rating: int, higher: int, u: real)
    requires 0.0 <= u < 1.0 && rating <= higher
    ensures EstimatedSolveCount(Some(higher), u) <= EstimatedSolveCount(Some(rating), u)
    ensures EstimatedSuccessRate(Some(higher), u) <= EstimatedSuccessRate(Some(rating), u)
  {
    FloorMono(u, 200.0, 500.0);
    FloorMono(u, 500.0, 1000.0);
    FloorMono(u, 1000.0, 2000.0);
    FloorMono(u, 2000.0, 3000.0);
    FloorMono(u, 3000.0, 5000.0);
  }

  /** A wider range never draws a smaller offset. */
  lemma FloorMono(u: real, w: real, wider: real)
    requires 0.0 <= u && w <= wider
    ensures (u * w).Floor <= (u * wider).Floor
  {
    assert u * w <= u * wider by {
      assert u * wider - u * w == u * (wider - w);
    }
  }

  // ---- Bookmarks ----

  /** `` `${problem.contestId}${problem.index}` ``: a bookmark names a
      problem exactly as the server's exclusion check does. */
  function BookmarkKey(p: Upstream.CatalogEntry): (k: string)
    ensures k == Recommend.Key(p)
  {
    Upstream.ConcatKey(p.contestId, p.index)
  }

  /** `bookmarked[id]` read as a Boolean: an absent key is not bookmarked. */
  predicate Marked(marks: map<string, bool>, id: string) {
    id in marks && marks[id]
  }

  /** `toggleBookmark`: `{...prev, [id]: !prev[id]}`. */
  function Toggle(marks: map<string, bool>, id: string): (r: map<string, bool>)
    ensures id in r && (Marked(r, id) <==> !Marked(marks, id))
    ensures forall k | k != id :: (k in r <==> k in marks) && (k in marks ==> r[k] == marks[k])
  {
    marks[id := !Marked(marks, id)]
  }

  /** Toggling twice restores every problem's bookmark state (the map may
      now hold an explicit `false` it did not hold before). */
  lemma ToggleTwice(marks: map<string, bool>, id: string, other: string)
    ensures Marked(Toggle(Toggle(marks, id), id), other) <==> Marked(marks, other)
  {
  }

  /** Toggles of different problems commute. */
  lemma ToggleCommutes(marks: map<string, bool>, a: string, b: string)
    requires a != b
    ensures Toggle(Toggle(marks, a), b) == Toggle(Toggle(marks, b), a)
  {
    var ma, mb := !Marked(marks, a), !Marked(marks, b);
    assert Marked(marks[a := ma], b) == Marked(marks, b);
    assert Marked(marks[b := mb], a) == Marked(marks, a);
    var left, right := marks[a := ma][b := mb], marks[b := mb][a := ma];
    assert left.Keys == right.Keys;
    assert forall k | k in left :: left[k] == right[k];
  }
}

=== FILE: route_aggregate.dfy ===
/** The submission aggregation of the route-level sync
    (`syncCodeforcesData` and the profile view in
    server/src/routes/studentRoutes.js): one pass over the `user.status`
    list that collects the solved set, per-tag counters, the rating
    histogram, the first ten entries and the time span.

    In this variant an accepted submission counts toward its tags' `solved`
    and its rating's histogram bucket every time, not once per problem; the
    solved set (and so the solved count) is per distinct problem, keyed
    `contestId-index`.
 */
module RouteAggregate {
  import opened Wrappers
  import opened Upstream
  import opened StudentSchema
  import opened Rates
  import opened TagTable
  import opened Occurrences
  import Histogram
  import Seqs
  import Sorting
  import Calendar
  import Mapping

  /** What the pass has collected so far; times are in milliseconds. */
  datatype Stats = Stats(
    solved: set<string>,
    tags: Table,
    ratings: seq<RatingCount>,
    recent: seq<StoredSubmission>,
    earliest: Option<int>,
    latest: Option<int>)

  const Start: Stats := Stats({}, TagTable.Empty, [], [], None, None)

  /** `sub.verdict === 'OK' && sub.problem`. */
  predicate CountsAsSolved(sub: Submission) {
    Accepted(sub) && sub.problem.Some?
  }

  /** A submission's time is used when it is truthy (non-zero). */
  predicate HasTime(sub: Submission) {
    sub.creationTimeSeconds != 0
  }

  /** The identity the solved set uses. */
  function SolvedKey(p: Problem): string {
    DashKey(p.contestId, p.index)
  }

  /** The entry the first ten submissions contribute, when they have a problem. */
  function StoredOpt(sub: Submission): Option<StoredSubmission> {
    if sub.problem.Some? then Some(Mapping.ToStored(sub.problem.value, sub.verdict, sub.creationTimeSeconds))
    else None
  }

  /** The solved set after one submission. */
  function StepSolved(solved: set<string>, sub: Submission): set<string> {
    if CountsAsSolved(sub) then solved + {SolvedKey(sub.problem.value)} else solved
  }

  /** The tag table after one submission: an accepted one bumps `solved` of
      each of its tags, then every submission with a tag array bumps
      `attempted` of each. */
  function StepTags(t: Table, sub: Submission): Table {
    var afterSolved :=
      if CountsAsSolved(sub) && sub.problem.value.tags.Some?
      then BumpAll(t, sub.problem.value.tags.value, Solved) else t;
    if sub.problem.Some? && sub.problem.value.tags.Some?
    then BumpAll(afterSolved, sub.problem.value.tags.value, Attempted)
    else afterSolved
  }

  /** The histogram after one submission. */
  function StepRatings(ratings: seq<RatingCount>, sub: Submission): seq<RatingCount> {
    if CountsAsSolved(sub) && Truthy(sub.problem.value.rating)
    then Histogram.Inc(ratings, sub.problem.value.rating.value)
    else ratings
  }

  /** The window after the submission at position `idx`. */
  function StepRecent(recent: seq<StoredSubmission>, sub: Submission, idx: nat): seq<StoredSubmission> {
    if idx < 10 && sub.problem.Some? then recent + [StoredOpt(sub).value] else recent
  }

  /** The earliest time after one submission. */
  function StepEarliest(e: Option<int>, sub: Submission): Option<int> {
    var ms := sub.creationTimeSeconds * 1000;
    if HasTime(sub) && (e.None? || ms < e.value) then Some(ms) else e
  }

  /** The latest time after one submission. */
  function StepLatest(l: Option<int>, sub: Submission): Option<int> {
    var ms := sub.creationTimeSeconds * 1000;
    if HasTime(sub) && (l.None? || ms > l.value) then Some(ms) else l
  }

  /** One iteration of `submissions.forEach((sub, idx) => ...)`; each
      collected value depends only on its own previous value. */
  function Step(acc: Stats, sub: Submission, idx: nat): Stats {
    Stats(StepSolved(acc.solved, sub), StepTags(acc.tags, sub), StepRatings(acc.ratings, sub),
          StepRecent(acc.recent, sub, idx), StepEarliest(acc.earliest, sub), StepLatest(acc.latest, sub))
  }

  /** The whole pass, over the submissions in list order. */
  function Aggregate(subs: seq<Submission>): Stats
    decreases |subs|
  {
    if subs == [] then Start
    else Step(Aggregate(subs[..|subs| - 1]), subs[|subs| - 1], |subs| - 1)
  }

  // ---- What the pass is meant to compute, stated over the whole list ----

  /** The distinct `contestId-index` keys with an accepted submission. */
  ghost function SolvedKeys(subs: seq<Submission>): set<string> {
    set i | 0 <= i < |subs| && CountsAsSolved(subs[i]) :: SolvedKey(subs[i].problem.value)
  }

  /** Occurrences of `x` over the accepted submissions. */
  ghost function SolvedOcc(subs: seq<Submission>, x: string): nat
    decreases |subs|
  {
    if subs == [] then 0
    else SolvedOcc(subs[..|subs| - 1], x) + (if CountsAsSolved(subs[|subs| - 1]) then TagOcc(subs[|subs| - 1], x) else 0)
  }

  /** Accepted submissions of a problem rated `r` (a truthy rating). */
  ghost function RatingOcc(subs: seq<Submission>, r: int): nat
    decreases |subs|
  {
    if subs == [] then 0
    else
      var s := subs[|subs| - 1];
      RatingOcc(subs[..|subs| - 1], r)
      + (if CountsAsSolved(s) && Truthy(s.problem.value.rating) && s.problem.value.rating.value == r then 1 else 0)
  }

  /** No submission has a truthy time. */
  ghost predicate NoTimes(subs: seq<Submission>) {
    forall i | 0 <= i < |subs| :: !HasTime(subs[i])
  }

  /** `e` is the smallest truthy submission time (in ms), absent when none. */
  ghost predicate IsEarliest(subs: seq<Submission>, e: Option<int>) {
    && (e.None? <==> NoTimes(subs))
    && (e.Some? ==> exists i | 0 <= i < |subs| :: HasTime(subs[i]) && subs[i].creationTimeSeconds * 1000 == e.value)
    && (e.Some? ==> forall i | 0 <= i < |subs| && HasTime(subs[i]) :: e.value <= subs[i].creationTimeSeconds * 1000)
  }

  /** `l` is the largest truthy submission time (in ms), absent when none. */
  ghost predicate IsLatest(subs: seq<Submission>, l: Option<int>) {
    && (l.None? <==> NoTimes(subs))
    && (l.Some? ==> exists i | 0 <= i < |subs| :: HasTime(subs[i]) && subs[i].creationTimeSeconds * 1000 == l.value)
    && (l.Some? ==> forall i | 0 <= i < |subs| && HasTime(subs[i]) :: subs[i].creationTimeSeconds * 1000 <= l.value)
  }

  // ---- The pass computes them ----

  lemma SolvedKeysSnoc(subs: seq<Submission>)
    requires subs != []
    ensures var init := subs[..|subs| - 1];
            var last := subs[|subs| - 1];
            SolvedKeys(subs) == SolvedKeys(init) + (if CountsAsSolved(last) then {SolvedKey(last.problem.value)} else {})
  {
    var init := subs[..|subs| - 1];
    assert forall i | 0 <= i < |init| :: init[i] == subs[i];
  }

  /** The solved set holds exactly the distinct keys of accepted submissions:
      a repeated acceptance adds nothing. */
  lemma {:induction false} AggregateSolved(subs: seq<Submission>)
    ensures Aggregate(subs).solved == SolvedKeys(subs)
    decreases |subs|
  {
    if subs != [] {
      AggregateSolved(subs[..|subs| - 1]);
      SolvedKeysSnoc(subs);
    }
  }

  /** A tag's `solved` counts its occurrences over accepted submissions and
      its `attempted` over all submissions: both rise once per submission,
      not per distinct problem. */
  lemma {:induction false} AggregateTags(subs: seq<Submission>, x: string)
    ensures Get(Aggregate(subs).tags, x) == Counts(SolvedOcc(subs, x), AttemptOcc(subs, x))
    decreases |subs|
  {
    if subs != [] {
      var init := subs[..|subs| - 1];
      AggregateTags(init, x);
      StepTagsCounts(Aggregate(init).tags, subs[|subs| - 1], x);
    }
  }

  /** One step raises `solved` by the tag's occurrences in an accepted
      submission and `attempted` by its occurrences in any submission. */
  lemma StepTagsCounts(t: Table, sub: Submission, x: string)
    ensures Get(StepTags(t, sub), x)
         == Counts(Get(t, x).solved + (if CountsAsSolved(sub) then TagOcc(sub, x) else 0),
                   Get(t, x).attempted + TagOcc(sub, x))
  {
    if CountsAsSolved(sub) && sub.problem.value.tags.Some? {
      var tags := sub.problem.value.tags.value;
      BumpAllCounts(t, tags, Solved, x);
      BumpAllCounts(BumpAll(t, tags, Solved), tags, Attempted, x);
    } else if sub.problem.Some? && sub.problem.value.tags.Some? {
      BumpAllCounts(t, sub.problem.value.tags.value, Attempted, x);
    }
  }

  /** The table lists each tag once, and exactly the tags some submission's
      problem carries. */
  lemma {:induction false} AggregateTagKeys(subs: seq<Submission>)
    ensures Valid(Aggregate(subs).tags)
    ensures Aggregate(subs).tags.counts.Keys == AllTags(subs)
    decreases |subs|
  {
    if subs != [] {
      var init := subs[..|subs| - 1];
      var sub := subs[|subs| - 1];
      AggregateTagKeys(init);
      AllTagsSnoc(subs);
    }
  }

  /** The histogram counts accepted submissions per truthy rating, once per
      submission. */
  lemma {:induction false} AggregateRatings(subs: seq<Submission>, r: int)
    ensures Histogram.Count(Aggregate(subs).ratings, r) == RatingOcc(subs, r)
    decreases |subs|
  {
    if subs != [] {
      AggregateRatings(subs[..|subs| - 1], r);
    }
  }

  /** The histogram has one row per rating, and no empty row. */
  lemma {:induction false} AggregateRatingRows(subs: seq<Submission>)
    ensures Histogram.Distinct(Aggregate(subs).ratings)
    ensures Histogram.Positive(Aggregate(subs).ratings)
    decreases |subs|
  {
    if subs != [] {
      var init := subs[..|subs| - 1];
      var sub := subs[|subs| - 1];
      AggregateRatingRows(init);
      if CountsAsSolved(sub) && Truthy(sub.problem.value.rating) {
        Histogram.IncKeepsShape(Aggregate(init).ratings, sub.problem.value.rating.value);
      }
    }
  }

  /** The stored window is the first ten submissions that have a problem
      kept, whatever their verdict, in list order. */
  lemma {:induction false} AggregateRecent(subs: seq<Submission>)
    ensures Aggregate(subs).recent == Seqs.FilterMap(Sorting.Take(subs, 10), StoredOpt)
    ensures |Aggregate(subs).recent| <= 10
    decreases |subs|
  {
    if subs != [] {
      var init, last := subs[..|subs| - 1], subs[|subs| - 1];
      AggregateRecent(init);
      assert Aggregate(subs).recent == StepRecent(Aggregate(init).recent, last, |init|);
      if |subs| <= 10 {
        assert Sorting.Take(subs, 10) == subs;
        assert Sorting.Take(init, 10) == init;
        assert Seqs.FilterMap(subs, StoredOpt)
            == Seqs.FilterMap(init, StoredOpt) + (if last.problem.Some? then [StoredOpt(last).value] else []);
      } else {
        assert Sorting.Take(subs, 10) == Sorting.Take(init, 10);
      }
    }
  }

  /** The pass tracks the earliest truthy submission time. */
  lemma {:induction false} AggregateEarliest(subs: seq<Submission>)
    ensures IsEarliest(subs, Aggregate(subs).earliest)
    decreases |subs|
  {
    if subs != [] {
      var init := subs[..|subs| - 1];
      AggregateEarliest(init);
      assert forall i | 0 <= i < |init| :: init[i] == subs[i];
      var e := Aggregate(init).earliest;
      if e.Some? && e == Aggregate(subs).earliest {
        var j :| 0 <= j < |init| && HasTime(init[j]) && init[j].creationTimeSeconds * 1000 == e.value;
        assert HasTime(subs[j]) && subs[j].creationTimeSeconds * 1000 == e.value;
      }
    }
  }

  /** The pass tracks the latest truthy submission time. */
  lemma {:induction false} AggregateLatest(subs: seq<Submission>)
    ensures IsLatest(subs, Aggregate(subs).latest)
    decreases |subs|
  {
    if subs != [] {
      var init := subs[..|subs| - 1];
      AggregateLatest(init);
      assert forall i | 0 <= i < |init| :: init[i] == subs[i];
      var l := Aggregate(init).latest;
      if l.Some? && l == Aggregate(subs).latest {
        var j :| 0 <= j < |init| && HasTime(init[j]) && init[j].creationTimeSeconds * 1000 == l.value;
        assert HasTime(subs[j]) && subs[j].creationTimeSeconds * 1000 == l.value;
      }
    }
  }

  // ---- Derived facts about the stored statistics ----

  lemma {:induction false} SolvedOccAtMostAttemptOcc(subs: seq<Submission>, x: string)
    ensures SolvedOcc(subs, x) <= AttemptOcc(subs, x)
    decreases |subs|
  {
    if subs != [] {
      SolvedOccAtMostAttemptOcc(subs[..|subs| - 1], x);
    }
  }

  /** A tag statistic as stored: the route appends `'%'`, and writes
      `'0.0%'` when nothing was attempted. */
  function ToTagStat(tag: string, c: Counts): TagStat {
    TagStat(tag, c.solved, c.attempted, PercentRate(c.solved, c.attempted))
  }

  /** `Object.entries(tagMap).map(...)`, in first-touch order. */
  function TagStats(t: Table): (r: seq<TagStat>)
    ensures |r| == |t.order|
    ensures forall i | 0 <= i < |r| :: r[i].tag == t.order[i]
  {
    var e := Entries(t);
    seq(|e|, i requires 0 <= i < |e| => ToTagStat(e[i].0, e[i].1))
  }

  /** The stored `problemSolvingData` of a pass. */
  function SolvingDataOf(s: Stats): SolvingData {
    SolvingData(|s.solved|, Histogram.Ascending(s.ratings), TagStats(s.tags))
  }

  /** The stored histogram lists each rating once, in strictly ascending
      order, with the number of accepted submissions of problems of that
      rating; a rating with such a submission has a row. */
  lemma StoredHistogram(subs: seq<Submission>)
    ensures var rows := SolvingDataOf(Aggregate(subs)).problemsByRating;
      && (forall i, j | 0 <= i < j < |rows| :: rows[i].rating < rows[j].rating)
      && (forall i | 0 <= i < |rows| :: 1 <= rows[i].count == RatingOcc(subs, rows[i].rating))
      && (forall r | RatingOcc(subs, r) > 0 :: RatingCount(r, RatingOcc(subs, r)) in rows)
  {
    var h := Aggregate(subs).ratings;
    var rows := SolvingDataOf(Aggregate(subs)).problemsByRating;
    AggregateRatingRows(subs);
    Histogram.AscendingKeepsCounts(h);
    forall i | 0 <= i < |rows| ensures 1 <= rows[i].count == RatingOcc(subs, rows[i].rating) {
      Histogram.CountIsRow(rows, rows[i].rating);
      AggregateRatings(subs, rows[i].rating);
      assert rows[i] in multiset(h);
    }
    forall r | RatingOcc(subs, r) > 0 ensures RatingCount(r, RatingOcc(subs, r)) in rows {
      AggregateRatings(subs, r);
      Histogram.CountIsRow(rows, r);
    }
  }

  /** Every stored tag statistic has been attempted at least once and solved
      at most as often as attempted, carries the counts the whole list gives
      it, and so never takes the `'0.0%'` branch. */
  lemma TagStatsWellFormed(subs: seq<Submission>)
    ensures var rows := SolvingDataOf(Aggregate(subs)).tagStats;
      forall i | 0 <= i < |rows| ::
        && rows[i].solved == SolvedOcc(subs, rows[i].tag)
        && rows[i].attempted == AttemptOcc(subs, rows[i].tag)
        && 1 <= rows[i].attempted
        && rows[i].solved <= rows[i].attempted
        && rows[i].successRate == RateText(RoundTenths(rows[i].solved, rows[i].attempted), true)
  {
    var t := Aggregate(subs).tags;
    var rows := SolvingDataOf(Aggregate(subs)).tagStats;
    AggregateTagKeys(subs);
    forall i | 0 <= i < |rows|
      ensures && rows[i].solved == SolvedOcc(subs, rows[i].tag)
              && rows[i].attempted == AttemptOcc(subs, rows[i].tag)
              && 1 <= rows[i].attempted
              && rows[i].solved <= rows[i].attempted
              && rows[i].successRate == RateText(RoundTenths(rows[i].solved, rows[i].attempted), true)
    {
      var x := t.order[i];
      AggregateTags(subs, x);
      AttemptOccOfTag(subs, x);
      SolvedOccAtMostAttemptOcc(subs, x);
    }
  }

  /** The stored tag list names each tag some submission carries exactly once. */
  lemma TagStatsCoverTags(subs: seq<Submission>)
    ensures var rows := SolvingDataOf(Aggregate(subs)).tagStats;
      && (forall i, j | 0 <= i < j < |rows| :: rows[i].tag != rows[j].tag)
      && (forall x :: x in AllTags(subs) <==> exists i | 0 <= i < |rows| :: rows[i].tag == x)
  {
    AggregateTagKeys(subs);
    var t := Aggregate(subs).tags;
    var rows := SolvingDataOf(Aggregate(subs)).tagStats;
    forall x | x in AllTags(subs)
      ensures exists i | 0 <= i < |rows| :: rows[i].tag == x
    {
      assert x in t.order;
      var i :| 0 <= i < |t.order| && t.order[i] == x;
      assert rows[i].tag == x;
    }
  }

  /** `problemsSolved` and `totalSolved` are the number of distinct solved
      keys. */
  lemma TotalSolvedIsDistinct(subs: seq<Submission>)
    ensures SolvingDataOf(Aggregate(subs)).totalSolved == |SolvedKeys(subs)|
  {
    AggregateSolved(subs);
  }

  /** The average solved per day over the span of submission times (only
      computed, see the module note on `averagePerDay`): zero without a solved
      problem or a timestamp, else the solved count over the days covered. */
  function AveragePerDay(s: Stats): (avg: real)
    ensures avg >= 0.0
    ensures avg == 0.0 <==> |s.solved| == 0 || s.earliest.None? || s.latest.None?
    ensures avg > 0.0 ==>
      avg * Calendar.DaysSpanned(s.latest.value - s.earliest.value) as real == |s.solved| as real
  {
    if s.earliest.Some? && s.latest.Some? && |s.solved| > 0
    then
      Calendar.PerDay(|s.solved|, Calendar.DaysSpanned(s.latest.value - s.earliest.value));
      |s.solved| as real / Calendar.DaysSpanned(s.latest.value - s.earliest.value) as real
    else 0.0
  }

  lemma AggregateHasSpan(subs: seq<Submission>)
    ensures Aggregate(subs).earliest.None? == NoTimes(subs)
    ensures Aggregate(subs).latest.None? == NoTimes(subs)
  {
    AggregateEarliest(subs);
    AggregateLatest(subs);
  }

  /** Over a whole list, the average is zero exactly when nothing is solved
      or no submission has a time. */
  lemma AveragePerDayZero(subs: seq<Submission>)
    ensures AveragePerDay(Aggregate(subs)) == 0.0 <==> SolvedKeys(subs) == {} || NoTimes(subs)
  {
    AggregateSolved(subs);
    AggregateHasSpan(subs);
  }

  /** Otherwise it is the distinct solved count divided by the days between
      the earliest and latest truthy submission times. */
  lemma AveragePerDayValue(subs: seq<Submission>)
    ensures AveragePerDay(Aggregate(subs)) > 0.0 ==>
      AveragePerDay(Aggregate(subs))
        * Calendar.DaysSpanned(Aggregate(subs).latest.value - Aggregate(subs).earliest.value) as real
      == |SolvedKeys(subs)| as real
  {
    AggregateSolved(subs);
  }
}

=== FILE: route_sync.dfy ===
/** The student routes that pull from Codeforces
    (server/src/routes/studentRoutes.js): `syncCodeforcesData`, the profile
    view that repeats it inline, create-then-sync, sync by id, sync by
    handle, and the sync-all loop.

    The three upstream answers are inputs. A call that raises stops the
    handler before `save`, so the stored record is left as it was; the
    record a handler answers with is the one read back after the save.
 */
module RouteSync {
  import opened Wrappers
  import opened Upstream
  import opened StudentSchema
  import RouteAggregate
  import Mapping

  /** The message thrown for a handle `user.info` does not accept. */
  const InvalidHandle: string := "Invalid Codeforces handle"

  /** `status === 'OK' && result && result.length > 0`. */
  predicate InfoUsable(e: Envelope<UserInfo>) {
    IsOk(e) && e.result.Some? && |e.result.value| > 0
  }

  /** `status === 'OK' && Array.isArray(result)`. */
  predicate ListUsable<T>(e: Envelope<T>) {
    IsOk(e) && e.result.Some?
  }

  /** The fields no sync stage writes are equal. */
  predicate SameIdentity(a: Student, b: Student) {
    && a.id == b.id && a.name == b.name && a.email == b.email
    && a.codeforcesHandle == b.codeforcesHandle && a.lastUpdatedMs == b.lastUpdatedMs
    && a.emailNotifications == b.emailNotifications
    && a.reminderEmailCount == b.reminderEmailCount
    && a.lastSubmissionDateMs == b.lastSubmissionDateMs
  }

  /** Stage 1: ratings from the first `user.info` entry (`rank` is not a
      declared path and is dropped). */
  function ApplyInfo(st: Student, u: UserInfo): Student {
    st.(currentRating := OrZero(u.rating), maxRating := OrZero(u.maxRating))
  }

  /** Stage 2: the aggregation of the submission list. */
  function ApplyStatus(st: Student, subs: seq<Submission>): Student {
    var a := RouteAggregate.Aggregate(subs);
    st.(problemsSolved := |a.solved|,
        problemSolvingData := RouteAggregate.SolvingDataOf(a),
        recentSubmissions := a.recent)
  }

  /** Stage 3: the contest history, replaced wholesale. */
  function ApplyRating(st: Student, history: seq<RatingChange>): Student {
    st.(contestHistory := Mapping.ToContestHistory(history))
  }

  /** Stage 2 when its answer is usable, else nothing. */
  function MaybeStatus(st: Student, e: Envelope<Submission>): Student {
    if ListUsable(e) then ApplyStatus(st, e.result.value) else st
  }

  /** Stage 3 when its answer is usable, else nothing. */
  function MaybeRating(st: Student, e: Envelope<RatingChange>): Student {
    if ListUsable(e) then ApplyRating(st, e.result.value) else st
  }

  /** `syncCodeforcesData`: the record to save, or the message thrown. A
      rejected handle throws before any field changes; after that each
      stage overwrites its own fields only when its answer is OK with an
      array, and leaves them otherwise. */
  function Sync(st: Student, r: Responses): (res: Result<Student, string>)
    ensures r.info.Raised? ==> res == Err(r.info.message)
    ensures r.info.Answered? && !InfoUsable(r.info.body) ==> res == Err(InvalidHandle)
    ensures r.info.Answered? && InfoUsable(r.info.body) ==>
      (res.Err? <==> r.status.Raised? || r.rating.Raised?)
    ensures res.Ok? ==>
      && r.info.Answered? && InfoUsable(r.info.body)
      && var s := res.value;
      && var u := r.info.body.result.value[0];
      && SameIdentity(s, st)
      && s.currentRating == OrZero(u.rating) && s.maxRating == OrZero(u.maxRating)
      && (ListUsable(r.status.body) ==>
            && var a := RouteAggregate.Aggregate(r.status.body.result.value);
            && s.problemSolvingData == RouteAggregate.SolvingDataOf(a)
            && s.problemsSolved == |a.solved|
            && s.problemsSolved == s.problemSolvingData.totalSolved
            && s.recentSubmissions == a.recent)
      && (!ListUsable(r.status.body) ==>
            && s.problemsSolved == st.problemsSolved
            && s.problemSolvingData == st.problemSolvingData
            && s.recentSubmissions == st.recentSubmissions)
      && (ListUsable(r.rating.body) ==> s.contestHistory == Mapping.ToContestHistory(r.rating.body.result.value))
      && (!ListUsable(r.rating.body) ==> s.contestHistory == st.contestHistory)
  {
    match r.info
    case Raised(m) => Err(m)
    case Answered(info) =>
      if !InfoUsable(info) then Err(InvalidHandle)
      else
        var s1 := ApplyInfo(st, info.result.value[0]);
        match r.status
        case Raised(m) => Err(m)
        case Answered(status) =>
          var s2 := MaybeStatus(s1, status);
          match r.rating
          case Raised(m) => Err(m)
          case Answered(rating) => Ok(MaybeRating(s2, rating))
  }

  /** The profile view's inline copy: the same stages, but a rejected
      `user.info` only skips stage 1, and any raised call is swallowed, in
      which case nothing is saved. */
  function ProfileRefresh(st: Student, r: Responses): (v: Student)
    ensures r.info.Raised? || r.status.Raised? || r.rating.Raised? ==> v == st
    ensures SameIdentity(v, st)
  {
    if r.info.Raised? || r.status.Raised? || r.rating.Raised? then st
    else
      var s1 := if InfoUsable(r.info.body) then ApplyInfo(st, r.info.body.result.value[0]) else st;
      MaybeRating(MaybeStatus(s1, r.status.body), r.rating.body)
  }

  /** The profile view never fails, and whenever the sync succeeds it stores
      exactly what the sync stores; when the sync rejects the handle the
      view still applies the submission and rating stages. */
  lemma ProfileRefreshAgreesWithSync(st: Student, r: Responses)
    ensures Sync(st, r).Ok? ==> ProfileRefresh(st, r) == Sync(st, r).value
    ensures Sync(st, r) == Err(InvalidHandle) && r.info.Answered? && !r.status.Raised? && !r.rating.Raised? ==>
      ProfileRefresh(st, r) == MaybeRating(MaybeStatus(st, r.status.body), r.rating.body)
  {
  }

  // ---- The store and the handlers around the sync ----

  /** A handler's answer. */
  datatype Reply =
    | Ok200(student: Student)
    | Created201(student: Student, warning: Option<string>)
    | NotFound404
    | Failed500(message: string, error: string)
    | CreateFailed500(errors: set<CreateError>)

  /** Sync the student at a known position and answer as the sync routes do. */
  function SyncAt(store: seq<Student>, i: nat, r: Responses, failure: string): (out: (seq<Student>, Reply))
    requires i < |store|
    ensures Sync(store[i], r).Ok? ==>
      out.0 == store[i := Sync(store[i], r).value] && out.1 == Ok200(Sync(store[i], r).value)
    ensures Sync(store[i], r).Err? ==>
      out.0 == store && out.1 == Failed500(failure, Sync(store[i], r).error)
  {
    match Sync(store[i], r)
    case Ok(s) => (store[i := s], Ok200(s))
    case Err(m) => (store, Failed500(failure, m))
  }

  /** `POST /:id/sync`: a malformed id is the `catch`'s 500, an unknown
      one a 404. */
  function SyncById(store: seq<Student>, id: string, r: Responses): (out: (seq<Student>, Reply))
    ensures !IsObjectId(id) ==> out == (store, Failed500("Error syncing student", CastMessage(id)))
    ensures out.1 == NotFound404 <==> IsObjectId(id) && forall i | 0 <= i < |store| :: store[i].id != id
    ensures out.1 == NotFound404 ==> out.0 == store
    ensures |out.0| == |store|
    ensures forall i | 0 <= i < |store| && store[i].id != id :: out.0[i] == store[i]
    ensures IsObjectId(id) && FindById(store, id).Some? ==>
      out == SyncAt(store, FindById(store, id).value, r, "Error syncing student")
  {
    match LookupId(store, id)
    case Err(m) => (store, Failed500("Error syncing student", m))
    case Ok(None) => (store, NotFound404)
    case Ok(Some(i)) => SyncAt(store, i, r, "Error syncing student")
  }

  /** `POST /sync/handle/:handle`. */
  function SyncByHandle(store: seq<Student>, handle: string, r: Responses): (out: (seq<Student>, Reply))
    ensures out.1 == NotFound404 <==> forall i | 0 <= i < |store| :: store[i].codeforcesHandle != handle
    ensures out.1 == NotFound404 ==> out.0 == store
    ensures |out.0| == |store|
    ensures forall i | 0 <= i < |store| && store[i].codeforcesHandle != handle :: out.0[i] == store[i]
    ensures FindByHandle(store, handle).Some? ==>
      out == SyncAt(store, FindByHandle(store, handle).value, r, "Error syncing student by handle")
  {
    match FindByHandle(store, handle)
    case None => (store, NotFound404)
    case Some(i) => SyncAt(store, i, r, "Error syncing student by handle")
  }

  /** `GET /:id`: a malformed id is the `catch`'s 500, an unknown one a
      404, and otherwise the refreshed record. */
  function ViewProfile(store: seq<Student>, id: string, r: Responses): (out: (seq<Student>, Reply))
    ensures !IsObjectId(id) ==> out == (store, Failed500("Error fetching student", CastMessage(id)))
    ensures out.1 == NotFound404 <==> IsObjectId(id) && forall i | 0 <= i < |store| :: store[i].id != id
    ensures IsObjectId(id) && out.1 != NotFound404 ==> out.1.Ok200?
    ensures |out.0| == |store|
    ensures IsObjectId(id) && FindById(store, id).Some? ==>
      var i := FindById(store, id).value;
      out == (store[i := ProfileRefresh(store[i], r)], Ok200(ProfileRefresh(store[i], r)))
  {
    match LookupId(store, id)
    case Err(m) => (store, Failed500("Error fetching student", m))
    case Ok(None) => (store, NotFound404)
    case Ok(Some(i)) =>
      var v := ProfileRefresh(store[i], r);
      (store[i := v], Ok200(v))
  }

  /** The warning a failed first sync leaves on a created student. */
  function SyncWarning(message: string): string {
    if message == "" then "Failed to fetch Codeforces data" else message
  }

  /** `POST /`: create the student, then try one sync. A failed sync does
      not undo the creation: the new record is answered with a warning. */
  function CreateAndSync(store: seq<Student>, id: string, form: NewStudent, extra: Overrides, nowMs: int, r: Responses)
    : (out: (seq<Student>, Reply))
    ensures Create(store, id, form, extra, nowMs).Err? ==>
      out == (store, CreateFailed500(Create(store, id, form, extra, nowMs).error))
    ensures Create(store, id, form, extra, nowMs).Ok? ==>
      && |out.0| == |store| + 1 && out.0[..|store|] == store
      && out.1.Created201?
      && out.1.student == out.0[|store|]
      && (out.1.warning.Some? <==> Sync(Create(store, id, form, extra, nowMs).value[|store|], r).Err?)
      && (out.1.warning.Some? ==> out.0 == Create(store, id, form, extra, nowMs).value)
      && var made := Create(store, id, form, extra, nowMs).value[|store|];
      && (out.1.warning.None? ==> out.0[|store|] == Sync(made, r).value)
      && (out.1.warning.Some? ==> out.1.warning.value == SyncWarning(Sync(made, r).error))
  {
    match Create(store, id, form, extra, nowMs)
    case Err(e) => (store, CreateFailed500(e))
    case Ok(created) =>
      var made := created[|store|];
      match Sync(made, r)
      case Ok(s) => (created[|store| := s], Created201(s, None))
      case Err(m) => (created, Created201(made, Some(SyncWarning(m))))
  }

  /** One entry of the sync-all answer; `error` is set when the sync threw. */
  datatype Outcome = Outcome(id: string, handle: string, name: string, error: Option<string>)

  /** `POST /syncAll`: every student in store order, each synced on its own;
      a failure is recorded and the loop goes on. */
  method SyncAll(store: seq<Student>, fetch: string -> Responses)
    returns (updated: seq<Student>, outcomes: seq<Outcome>)
    ensures |updated| == |store| && |outcomes| == |store|
    ensures forall i | 0 <= i < |store| ::
      && outcomes[i].id == store[i].id
      && outcomes[i].handle == store[i].codeforcesHandle
      && outcomes[i].name == store[i].name
      && (outcomes[i].error.Some? <==> Sync(store[i], fetch(store[i].codeforcesHandle)).Err?)
      && (outcomes[i].error.Some? ==>
            && outcomes[i].error.value == Sync(store[i], fetch(store[i].codeforcesHandle)).error
            && updated[i] == store[i])
      && (outcomes[i].error.None? ==> updated[i] == Sync(store[i], fetch(store[i].codeforcesHandle)).value)
  {
    updated := [];
    outcomes := [];
    var k := 0;
    while k < |store|
      invariant 0 <= k <= |store|
      invariant |updated| == k && |outcomes| == k
      invariant forall i | 0 <= i < k ::
        && outcomes[i].id == store[i].id
        && outcomes[i].handle == store[i].codeforcesHandle
        && outcomes[i].name == store[i].name
        && (outcomes[i].error.Some? <==> Sync(store[i], fetch(store[i].codeforcesHandle)).Err?)
        && (outcomes[i].error.Some? ==>
              && outcomes[i].error.value == Sync(store[i], fetch(store[i].codeforcesHandle)).error
              && updated[i] == store[i])
        && (outcomes[i].error.None? ==> updated[i] == Sync(store[i], fetch(store[i].codeforcesHandle)).value)
    {
      var st := store[k];
      var res := Sync(st, fetch(st.codeforcesHandle));
      match res {
        case Ok(s) =>
          updated := updated + [s];
          outcomes := outcomes + [Outcome(st.id, st.codeforcesHandle, st.name, None)];
        case Err(m) =>
          updated := updated + [st];
          outcomes := outcomes + [Outcome(st.id, st.codeforcesHandle, st.name, Some(m))];
      }
      k := k + 1;
    }
  }
}

=== FILE: seqs.dfy ===
/** Order-preserving selection over sequences (`filter`, and a `filter`
    followed by a `map`).
 */
module Seqs {
  import opened Wrappers

  /** `s.filter(p)`: the elements that pass, in order. */
  function Filter<T>(s: seq<T>, p: T -> bool): (r: seq<T>)
    ensures |r| <= |s|
    ensures forall x | x in r :: x in s && p(x)
    ensures forall x | x in s && p(x) :: x in r
    ensures (forall x | x in s :: !p(x)) ==> r == []
  {
    KeepMembers(s, p);
    Keep(s, p)
  }

  /** The filter's recursion: the kept prefix, then the last element if it
      passes. */
  function Keep<T>(s: seq<T>, p: T -> bool): seq<T>
    decreases |s|
  {
    if s == [] then []
    else Keep(s[..|s| - 1], p) + (if p(s[|s| - 1]) then [s[|s| - 1]] else [])
  }

  lemma {:induction false} KeepMembers<T>(s: seq<T>, p: T -> bool)
    ensures |Keep(s, p)| <= |s|
    ensures forall x | x in Keep(s, p) :: x in s && p(x)
    ensures forall x | x in s && p(x) :: x in Keep(s, p)
    ensures (forall x | x in s :: !p(x)) ==> Keep(s, p) == []
    decreases |s|
  {
    if s != [] {
      var init, last := s[..|s| - 1], s[|s| - 1];
      KeepMembers(init, p);
      assert s == init + [last];
    }
  }

  /** Filtering one more element at the end. */
  lemma KeepSnoc<T>(s: seq<T>, x: T, p: T -> bool)
    ensures Keep(s + [x], p) == Keep(s, p) + (if p(x) then [x] else [])
  {
    var t := s + [x];
    assert t[..|t| - 1] == s && t[|t| - 1] == x;
  }

  /** The values `f` gives for the elements of `s` that it maps to `Some`,
      in order. */
  function FilterMap<T, U>(s: seq<T>, f: T -> Option<U>): (r: seq<U>)
    ensures |r| <= |s|
    decreases |s|
  {
    if s == [] then []
    else FilterMap(s[..|s| - 1], f) + (if f(s[|s| - 1]).Some? then [f(s[|s| - 1]).value] else [])
  }

  lemma FilterAppend<T>(a: seq<T>, b: seq<T>, p: T -> bool)
    ensures Filter(a + b, p) == Filter(a, p) + Filter(b, p)
  {
    KeepAppend(a, b, p);
  }

  lemma {:induction false} KeepAppend<T>(a: seq<T>, b: seq<T>, p: T -> bool)
    ensures Keep(a + b, p) == Keep(a, p) + Keep(b, p)
    decreases |b|
  {
    if b == [] {
      assert a + b == a;
    } else {
      var init, last := b[..|b| - 1], b[|b| - 1];
      KeepAppend(a, init, p);
      assert a + b == (a + init) + [last] && b == init + [last];
      KeepSnoc(a + init, last, p);
      KeepSnoc(init, last, p);
    }
  }

  /** Filtering keeps a sequence strictly increasing under `f`: the kept
      elements stay in their relative order. */
  lemma {:induction false} FilterIncreasing<T>(s: seq<T>, p: T -> bool, f: T -> int)
    requires forall i, j | 0 <= i < j < |s| :: f(s[i]) < f(s[j])
    ensures forall i, j | 0 <= i < j < |Filter(s, p)| :: f(Filter(s, p)[i]) < f(Filter(s, p)[j])
    decreases |s|
  {
    if s != [] {
      var init := s[..|s| - 1];
      var last := s[|s| - 1];
      FilterIncreasing(init, p, f);
      var r := Filter(s, p);
      var a := Filter(init, p);
      forall i, j | 0 <= i < j < |r| ensures f(r[i]) < f(r[j]) {
        if j >= |a| {
          assert r[i] == a[i] && a[i] in init;
          var k :| 0 <= k < |init| && init[k] == a[i];
          assert s[k] == a[i] && r[j] == last;
        }
      }
    }
  }

  /** A filter every element passes is the identity. */
  lemma FilterKeepsAll<T>(s: seq<T>, p: T -> bool)
    requires forall i | 0 <= i < |s| :: p(s[i])
    ensures Filter(s, p) == s
  {
    KeepsAll(s, p);
  }

  lemma {:induction false} KeepsAll<T>(s: seq<T>, p: T -> bool)
    requires forall i | 0 <= i < |s| :: p(s[i])
    ensures Keep(s, p) == s
    decreases |s|
  {
    if s != [] {
      var init, last := s[..|s| - 1], s[|s| - 1];
      assert forall i | 0 <= i < |init| :: p(init[i]) by {
        forall i | 0 <= i < |init| ensures p(init[i]) {
          assert init[i] == s[i];
        }
      }
      KeepsAll(init, p);
      assert init + [last] == s;
      KeepSnoc(init, last, p);
    }
  }

  /** A filter that only the element at `k` fails removes exactly that
      element. */
  lemma FilterRemovesOne<T>(s: seq<T>, p: T -> bool, k: nat)
    requires k < |s| && !p(s[k])
    requires forall i | 0 <= i < |s| && i != k :: p(s[i])
    ensures Filter(s, p) == s[..k] + s[k + 1..]
  {
    var a, b := s[..k], s[k + 1..];
    assert s == a + [s[k]] + b;
    assert forall i | 0 <= i < |b| :: p(b[i]) by {
      forall i | 0 <= i < |b| ensures p(b[i]) {
        assert b[i] == s[k + 1 + i];
      }
    }
    FilterRemovesMiddle(a, s[k], b, p);
  }

  lemma FilterRemovesMiddle<T>(a: seq<T>, x: T, b: seq<T>, p: T -> bool)
    requires !p(x)
    requires forall i | 0 <= i < |a| :: p(a[i])
    requires forall i | 0 <= i < |b| :: p(b[i])
    ensures Filter(a + [x] + b, p) == a + b
  {
    KeepRemovesMiddle(a, x, b, p);
  }

  lemma KeepRemovesMiddle<T>(a: seq<T>, x: T, b: seq<T>, p: T -> bool)
    requires !p(x)
    requires forall i | 0 <= i < |a| :: p(a[i])
    requires forall i | 0 <= i < |b| :: p(b[i])
    ensures Keep(a + [x] + b, p) == a + b
  {
    var ax := a + [x];
    KeepSnoc(a, x, p);
    KeepsAll(a, p);
    assert Keep(ax, p) == a;
    KeepsAll(b, p);
    KeepAppend(ax, b, p);
  }
}

=== FILE: service_aggregate.dfy ===
/** The submission aggregation of the service-level sync
    (`fetchCodeforcesData` in server/src/services/codeforcesService.js).

    Unlike the route-level pass, only the first accepted submission of each
    problem counts: it adds the problem's `contestId``index` key to the solved
    set, its truthy rating to the histogram and one `solved` to each of its
    tags. Every submission adds one `attempted` to each of its tags. The pass
    reads `submission.problem` unguarded, so it is only defined when every
    submission has a problem; the sync turns the other case into an error.
 */
module ServiceAggregate {
  import opened Upstream
  import opened StudentSchema
  import opened Rates
  import opened TagTable
  import opened Occurrences
  import Histogram

  /** What the pass has collected so far. */
  datatype Stats = Stats(solved: set<string>, ratings: seq<RatingCount>, tags: Table)

  const Start: Stats := Stats({}, [], TagTable.Empty)

  /** An accepted submission of a problem not yet in the solved set. */
  predicate FirstTime(solved: set<string>, sub: Submission)
    requires sub.problem.Some?
  {
    Accepted(sub) && SubmissionKey(sub) !in solved
  }

  /** The solved set after one submission. */
  function StepSolved(solved: set<string>, sub: Submission): set<string>
    requires sub.problem.Some?
  {
    if FirstTime(solved, sub) then solved + {SubmissionKey(sub)} else solved
  }

  /** The histogram after one submission, given the solved set before it. */
  function StepRatings(ratings: seq<RatingCount>, solved: set<string>, sub: Submission): seq<RatingCount>
    requires sub.problem.Some?
  {
    if FirstTime(solved, sub) && Truthy(sub.problem.value.rating)
    then Histogram.Inc(ratings, sub.problem.value.rating.value)
    else ratings
  }

  /** The tag table after one submission, given the solved set before it:
      a first acceptance bumps `solved` of each tag, then every submission
      bumps `attempted` of each. */
  function StepTags(t: Table, solved: set<string>, sub: Submission): Table
    requires sub.problem.Some?
  {
    var afterSolved :=
      if FirstTime(solved, sub) && sub.problem.value.tags.Some?
      then BumpAll(t, sub.problem.value.tags.value, Solved) else t;
    if sub.problem.value.tags.Some?
    then BumpAll(afterSolved, sub.problem.value.tags.value, Attempted)
    else afterSolved
  }

  /** One iteration of `submissions.forEach(submission => ...)`. */
  function Step(acc: Stats, sub: Submission): Stats
    requires sub.problem.Some?
  {
    Stats(StepSolved(acc.solved, sub), StepRatings(acc.ratings, acc.solved, sub),
          StepTags(acc.tags, acc.solved, sub))
  }

  /** The whole pass, over the submissions in list order. */
  function Aggregate(subs: seq<Submission>): Stats
    requires AllHaveProblems(subs)
    decreases |subs|
  {
    if subs == [] then Start
    else Step(Aggregate(subs[..|subs| - 1]), subs[|subs| - 1])
  }

  // ---- What the pass is meant to compute, stated over the whole list ----

  /** The submission at `i` is accepted and no earlier submission is an
      accepted one of the same problem. */
  ghost predicate IsFirstAcceptance(subs: seq<Submission>, i: int)
    requires AllHaveProblems(subs)
    requires 0 <= i < |subs|
  {
    && Accepted(subs[i])
    && forall j | 0 <= j < i :: !(Accepted(subs[j]) && SubmissionKey(subs[j]) == SubmissionKey(subs[i]))
  }

  /** The distinct keys with an accepted submission. */
  ghost function SolvedKeys(subs: seq<Submission>): set<string>
    requires AllHaveProblems(subs)
  {
    set i | 0 <= i < |subs| && Accepted(subs[i]) :: SubmissionKey(subs[i])
  }

  /** Occurrences of `x` over the first acceptances. */
  ghost function FirstSolvedOcc(subs: seq<Submission>, x: string): nat
    requires AllHaveProblems(subs)
    decreases |subs|
  {
    if subs == [] then 0
    else
      FirstSolvedOcc(subs[..|subs| - 1], x)
      + (if IsFirstAcceptance(subs, |subs| - 1) then TagOcc(subs[|subs| - 1], x) else 0)
  }

  /** First acceptances of a problem rated `r` (a truthy rating). */
  ghost function FirstRatingOcc(subs: seq<Submission>, r: int): nat
    requires AllHaveProblems(subs)
    decreases |subs|
  {
    if subs == [] then 0
    else
      var p := subs[|subs| - 1].problem.value;
      FirstRatingOcc(subs[..|subs| - 1], r)
      + (if IsFirstAcceptance(subs, |subs| - 1) && Truthy(p.rating) && p.rating.value == r then 1 else 0)
  }

  /** The keys of solved problems whose first acceptance carries tag `x`. */
  ghost function SolvedWithTag(subs: seq<Submission>, x: string): set<string>
    requires AllHaveProblems(subs)
  {
    set i | 0 <= i < |subs| && IsFirstAcceptance(subs, i) && x in TagsOf(subs[i]) :: SubmissionKey(subs[i])
  }

  /** No tag array lists a tag twice. */
  ghost predicate NoRepeatedTags(subs: seq<Submission>) {
    forall i | 0 <= i < |subs| :: forall x :: TagOcc(subs[i], x) <= 1
  }

  // ---- The pass computes them ----

  /** Whether an earlier submission is a first acceptance does not depend
      on what follows it. */
  lemma PrefixFirst(subs: seq<Submission>, i: int)
    requires AllHaveProblems(subs)
    requires 0 <= i < |subs| - 1
    ensures AllHaveProblems(subs[..|subs| - 1])
    ensures IsFirstAcceptance(subs, i) == IsFirstAcceptance(subs[..|subs| - 1], i)
  {
    var init := subs[..|subs| - 1];
    assert forall j | 0 <= j < |init| :: init[j] == subs[j];
  }

  /** The last submission is a first acceptance exactly when it is accepted
      and its key is not among the keys solved before it. */
  lemma LastFirst(subs: seq<Submission>)
    requires AllHaveProblems(subs)
    requires subs != []
    ensures AllHaveProblems(subs[..|subs| - 1])
    ensures IsFirstAcceptance(subs, |subs| - 1)
        <==> FirstTime(SolvedKeys(subs[..|subs| - 1]), subs[|subs| - 1])
  {
    var init := subs[..|subs| - 1];
    var last := subs[|subs| - 1];
    assert forall j | 0 <= j < |init| :: init[j] == subs[j];
    if Accepted(last) && SubmissionKey(last) in SolvedKeys(init) {
      var j :| 0 <= j < |init| && Accepted(init[j]) && SubmissionKey(init[j]) == SubmissionKey(last);
      assert Accepted(subs[j]) && SubmissionKey(subs[j]) == SubmissionKey(last);
    }
  }

  lemma SolvedKeysSnoc(subs: seq<Submission>)
    requires AllHaveProblems(subs)
    requires subs != []
    ensures AllHaveProblems(subs[..|subs| - 1])
    ensures SolvedKeys(subs)
         == SolvedKeys(subs[..|subs| - 1]) + (if Accepted(subs[|subs| - 1]) then {SubmissionKey(subs[|subs| - 1])} else {})
  {
    var init := subs[..|subs| - 1];
    assert forall i | 0 <= i < |init| :: init[i] == subs[i];
  }

  /** The solved set holds exactly the distinct keys of accepted
      submissions. */
  lemma {:induction false} AggregateSolved(subs: seq<Submission>)
    requires AllHaveProblems(subs)
    ensures Aggregate(subs).solved == SolvedKeys(subs)
    decreases |subs|
  {
    if subs != [] {
      AggregateSolved(subs[..|subs| - 1]);
      SolvedKeysSnoc(subs);
    }
  }

  /** One step raises `solved` by the tag's occurrences in a first
      acceptance and `attempted` by its occurrences in any submission. */
  lemma StepTagsCounts(t: Table, solved: set<string>, sub: Submission, x: string)
    requires sub.problem.Some?
    ensures Get(StepTags(t, solved, sub), x)
         == Counts(Get(t, x).solved + (if FirstTime(solved, sub) then TagOcc(sub, x) else 0),
                   Get(t, x).attempted + TagOcc(sub, x))
  {
    if FirstTime(solved, sub) && sub.problem.value.tags.Some? {
      var tags := sub.problem.value.tags.value;
      BumpAllCounts(t, tags, Solved, x);
      BumpAllCounts(BumpAll(t, tags, Solved), tags, Attempted, x);
    } else if sub.problem.value.tags.Some? {
      BumpAllCounts(t, sub.problem.value.tags.value, Attempted, x);
    }
  }

  /** A tag's `solved` counts its occurrences over first acceptances only,
      its `attempted` over every submission. */
  lemma {:induction false} AggregateTags(subs: seq<Submission>, x: string)
    requires AllHaveProblems(subs)
    ensures Get(Aggregate(subs).tags, x) == Counts(FirstSolvedOcc(subs, x), AttemptOcc(subs, x))
    decreases |subs|
  {
    if subs != [] {
      var init := subs[..|subs| - 1];
      assert AllHaveProblems(init);
      AggregateTags(init, x);
      AggregateSolved(init);
      LastFirst(subs);
      StepTagsCounts(Aggregate(init).tags, Aggregate(init).solved, subs[|subs| - 1], x);
    }
  }

  /** The table lists each tag once, and exactly the tags some submission's
      problem carries. */
  lemma {:induction false} AggregateTagKeys(subs: seq<Submission>)
    requires AllHaveProblems(subs)
    ensures Valid(Aggregate(subs).tags)
    ensures Aggregate(subs).tags.counts.Keys == AllTags(subs)
    decreases |subs|
  {
    if subs != [] {
      var init := subs[..|subs| - 1];
      assert AllHaveProblems(init);
      AggregateTagKeys(init);
      AllTagsSnoc(subs);
    }
  }

  /** The histogram counts first acceptances per truthy rating. */
  lemma {:induction false} AggregateRatings(subs: seq<Submission>, r: int)
    requires AllHaveProblems(subs)
    ensures Histogram.Count(Aggregate(subs).ratings, r) == FirstRatingOcc(subs, r)
    decreases |subs|
  {
    if subs != [] {
      var init := subs[..|subs| - 1];
      assert AllHaveProblems(init);
      AggregateRatings(init, r);
      AggregateSolved(init);
      LastFirst(subs);
    }
  }

  /** The histogram has one row per rating and no empty row, and its total is
      at most the number of distinct solved problems: a problem enters it at
      most once, on its first acceptance, and only when rated. */
  lemma {:induction false} AggregateRatingRows(subs: seq<Submission>)
    requires AllHaveProblems(subs)
    ensures Histogram.Distinct(Aggregate(subs).ratings)
    ensures Histogram.Positive(Aggregate(subs).ratings)
    ensures Histogram.Total(Aggregate(subs).ratings) <= |Aggregate(subs).solved|
    decreases |subs|
  {
    if subs != [] {
      var init := subs[..|subs| - 1];
      var sub := subs[|subs| - 1];
      assert AllHaveProblems(init);
      AggregateRatingRows(init);
      var a := Aggregate(init);
      if FirstTime(a.solved, sub) {
        assert |a.solved + {SubmissionKey(sub)}| == |a.solved| + 1;
        if Truthy(sub.problem.value.rating) {
          Histogram.IncKeepsShape(a.ratings, sub.problem.value.rating.value);
        }
      }
    }
  }

  /** A tag is solved at most as often as it is attempted. */
  lemma {:induction false} FirstSolvedAtMostAttempted(subs: seq<Submission>, x: string)
    requires AllHaveProblems(subs)
    ensures FirstSolvedOcc(subs, x) <= AttemptOcc(subs, x)
    decreases |subs|
  {
    if subs != [] {
      var init := subs[..|subs| - 1];
      assert AllHaveProblems(init);
      FirstSolvedAtMostAttempted(init, x);
    }
  }

  lemma SolvedWithTagSnoc(subs: seq<Submission>, x: string)
    requires AllHaveProblems(subs)
    requires subs != []
    ensures AllHaveProblems(subs[..|subs| - 1])
    ensures SolvedWithTag(subs, x)
         == SolvedWithTag(subs[..|subs| - 1], x)
            + (if IsFirstAcceptance(subs, |subs| - 1) && x in TagsOf(subs[|subs| - 1])
               then {SubmissionKey(subs[|subs| - 1])} else {})
  {
    var init := subs[..|subs| - 1];
    assert forall i | 0 <= i < |init| :: init[i] == subs[i];
    forall i | 0 <= i < |init| ensures IsFirstAcceptance(subs, i) == IsFirstAcceptance(init, i) {
      PrefixFirst(subs, i);
    }
  }

  lemma {:induction false} SolvedWithTagIsSolved(subs: seq<Submission>, x: string)
    requires AllHaveProblems(subs)
    ensures SolvedWithTag(subs, x) <= SolvedKeys(subs)
  {
  }

  /** When no tag array repeats a tag, a tag's `solved` is the number of
      distinct solved problems carrying it, so at most the solved count. */
  lemma {:induction false} FirstSolvedIsDistinct(subs: seq<Submission>, x: string)
    requires AllHaveProblems(subs)
    requires NoRepeatedTags(subs)
    ensures FirstSolvedOcc(subs, x) == |SolvedWithTag(subs, x)|
    ensures FirstSolvedOcc(subs, x) <= |SolvedKeys(subs)|
    decreases |subs|
  {
    if subs != [] {
      var init := subs[..|subs| - 1];
      var last := subs[|subs| - 1];
      assert AllHaveProblems(init);
      assert NoRepeatedTags(init) by {
        assert forall i | 0 <= i < |init| :: init[i] == subs[i];
      }
      FirstSolvedIsDistinct(init, x);
      SolvedWithTagSnoc(subs, x);
      SolvedWithTagIsSolved(init, x);
      LastFirst(subs);
      assert TagOcc(last, x) <= 1;
      assert TagOcc(last, x) == 1 <==> x in TagsOf(last);
    }
    SolvedWithTagIsSolved(subs, x);
    assert |SolvedWithTag(subs, x)| <= |SolvedKeys(subs)| by {
      SubsetCard(SolvedWithTag(subs, x), SolvedKeys(subs));
    }
  }

  lemma SubsetCard<T>(a: set<T>, b: set<T>)
    requires a <= b
    ensures |a| <= |b|
  {
    assert b == a + (b - a);
  }

  // ---- Stored output ----

  /** A tag statistic as stored: a bare rate, with no guard on the
      division. */
  function ToTagStat(tag: string, c: Counts): TagStat
    requires c.attempted > 0
  {
    TagStat(tag, c.solved, c.attempted, BareRate(c.solved, c.attempted))
  }

  /** Every listed tag has been attempted, so no rate divides by zero. */
  ghost predicate AllAttempted(t: Table) {
    forall i | 0 <= i < |t.order| :: Get(t, t.order[i]).attempted > 0
  }

  /** `Array.from(tagStats.entries()).map(...)`, in first-touch order. */
  function TagStats(t: Table): (r: seq<TagStat>)
    requires AllAttempted(t)
    ensures |r| == |t.order|
    ensures forall i | 0 <= i < |r| :: r[i].tag == t.order[i]
  {
    var e := Entries(t);
    seq(|e|, i requires 0 <= i < |e| => ToTagStat(e[i].0, e[i].1))
  }

  /** The pass always leaves every listed tag attempted. */
  lemma AggregateAllAttempted(subs: seq<Submission>)
    requires AllHaveProblems(subs)
    ensures AllAttempted(Aggregate(subs).tags)
  {
    var t := Aggregate(subs).tags;
    AggregateTagKeys(subs);
    forall i | 0 <= i < |t.order| ensures Get(t, t.order[i]).attempted > 0 {
      AggregateTags(subs, t.order[i]);
      AttemptOccOfTag(subs, t.order[i]);
    }
  }

  /** The stored `problemSolvingData` of a pass over a whole list. */
  function SolvingDataOf(subs: seq<Submission>): SolvingData
    requires AllHaveProblems(subs)
  {
    var a := Aggregate(subs);
    AggregateAllAttempted(subs);
    SolvingData(|a.solved|, a.ratings, TagStats(a.tags))
  }

  /** The stored statistics: the solved count is the number of distinct
      keys; the histogram lists each rating once with its first-acceptance
      count and totals at most the solved count; every tag row has
      1 <= attempted, solved <= attempted, the counts the list gives it, and
      a bare rate. */
  lemma StoredSolvingData(subs: seq<Submission>)
    requires AllHaveProblems(subs)
    ensures var d := SolvingDataOf(subs);
      && d.totalSolved == |SolvedKeys(subs)|
      && Histogram.Distinct(d.problemsByRating)
      && (forall r :: Histogram.Count(d.problemsByRating, r) == FirstRatingOcc(subs, r))
      && Histogram.Total(d.problemsByRating) <= d.totalSolved
      && forall i | 0 <= i < |d.tagStats| ::
           && d.tagStats[i].solved == FirstSolvedOcc(subs, d.tagStats[i].tag)
           && d.tagStats[i].attempted == AttemptOcc(subs, d.tagStats[i].tag)
           && 1 <= d.tagStats[i].attempted
           && d.tagStats[i].solved <= d.tagStats[i].attempted
           && d.tagStats[i].successRate
              == RateText(RoundTenths(d.tagStats[i].solved, d.tagStats[i].attempted), false)
  {
    var d := SolvingDataOf(subs);
    var t := Aggregate(subs).tags;
    AggregateSolved(subs);
    AggregateRatingRows(subs);
    forall r ensures Histogram.Count(d.problemsByRating, r) == FirstRatingOcc(subs, r) {
      AggregateRatings(subs, r);
    }
    forall i | 0 <= i < |d.tagStats|
      ensures && d.tagStats[i].solved == FirstSolvedOcc(subs, d.tagStats[i].tag)
              && d.tagStats[i].attempted == AttemptOcc(subs, d.tagStats[i].tag)
              && 1 <= d.tagStats[i].attempted
              && d.tagStats[i].solved <= d.tagStats[i].attempted
              && d.tagStats[i].successRate
                 == RateText(RoundTenths(d.tagStats[i].solved, d.tagStats[i].attempted), false)
    {
      var x := t.order[i];
      AggregateTags(subs, x);
      FirstSolvedAtMostAttempted(subs, x);
      AggregateAllAttempted(subs);
    }
  }
}

=== FILE: service_sync.dfy ===
/** `fetchCodeforcesData(handle)` (server/src/services/codeforcesService.js):
    the service-level sync of one student by handle, followed by the
    inactivity check.

    The three upstream answers, the stored records, "now", the notification
    flag and the outcome of sending the reminder are inputs. The service
    checks no `status`: it reads `result` wherever it is, and a missing
    `result`, a missing user entry or a submission without a problem is a
    `TypeError` at the point the code first touches it. Every error is
    rethrown; only the reminder can fail after the record has been saved.

    The code reads the flag as `emailNotifications.enabled`, but the schema
    declares `emailNotifications` as a Boolean, whose `enabled` is
    `undefined`; the flag is therefore a parameter here, and under the
    declared schema it is false. The reminder bookkeeping (`lastSent`,
    `sentCount`) names no declared path either; it is kept as its own small
    record, `Notices`.
 */
module ServiceSync {
  import opened Wrappers
  import opened Upstream
  import opened StudentSchema
  import Mapping
  import Calendar
  import ServiceAggregate

  /** Why the sync failed. */
  datatype ServiceError =
    | CallFailed(message: string)     // an upstream call raised
    | NoUserList                      // `userResponse.data.result[0]` on a missing result
    | StudentNotFound                 // 'Student not found'
    | NoSubmissionList                // `submissions.forEach` on a missing result
    | SubmissionWithoutProblem        // `problem.contestId` / `submission.problem.tags` on a missing problem
    | NoUserEntry                     // `userData.rating` on an empty user list
    | NoRatingList                    // `ratingResponse.data.result.map` on a missing result
    | ReminderFailed(message: string) // `sendInactivityEmail` rejected

  /** The reminder bookkeeping: when the last reminder went out and how many
      have. */
  datatype Notices = Notices(lastSentMs: Option<int>, sentCount: nat)

  /** How sending the reminder ends. */
  datatype Send = Delivered | SendFailed(message: string)

  /** The stored records, the bookkeeping and the result after a sync. */
  datatype Run = Run(store: seq<Student>, notices: Notices, result: Result<Student, ServiceError>)

  /** Seven days in milliseconds: the inactivity threshold. */
  const InactiveMs: int := 7 * Calendar.DayMs

  /** Every submission mapped in order, tags defaulting to `[]`. */
  function StoredAll(subs: seq<Submission>): (r: seq<StoredSubmission>)
    requires AllHaveProblems(subs)
    ensures |r| == |subs|
    ensures forall i | 0 <= i < |r| ::
      && r[i].problemId == DashKey(subs[i].problem.value.contestId, subs[i].problem.value.index)
      && r[i].verdict == subs[i].verdict
      && r[i].dateMs == subs[i].creationTimeSeconds * 1000
      && r[i].problem.tags == subs[i].problem.value.tags.GetOr([])
      && (r[i].problemRating.Some? <==> Truthy(subs[i].problem.value.rating))
  {
    seq(|subs|, i requires 0 <= i < |subs| =>
      Mapping.ToStored(subs[i].problem.value, subs[i].verdict, subs[i].creationTimeSeconds))
  }

  /** The record as saved: ratings from the user entry (0 when missing or
      0), the solved count, `lastUpdated` now, the contest history and every
      submission, and the aggregated statistics. */
  function Refreshed(st: Student, u: UserInfo, subs: seq<Submission>, history: seq<RatingChange>, nowMs: int)
    : Student
    requires AllHaveProblems(subs)
  {
    var data := ServiceAggregate.SolvingDataOf(subs);
    st.(currentRating := OrZero(u.rating),
        maxRating := OrZero(u.maxRating),
        problemsSolved := data.totalSolved,
        lastUpdatedMs := nowMs,
        contestHistory := Mapping.ToContestHistory(history),
        recentSubmissions := StoredAll(subs),
        problemSolvingData := data)
  }

  /** The newest submission is at least seven days old (`submissions[0]`
      exists and `(now - its date) / 1 day >= 7`). */
  predicate Inactive(subs: seq<Submission>, nowMs: int) {
    subs != [] && nowMs - subs[0].creationTimeSeconds * 1000 >= InactiveMs
  }

  /** The first check the sync fails, in the order the code meets them, or
      `None` when the record gets saved. */
  function Blocker(store: seq<Student>, handle: string, r: Responses): (e: Option<ServiceError>)
    ensures r.info.Raised? ==> e == Some(CallFailed(r.info.message))
    ensures r.info.Answered? && r.info.body.result.None? ==> e == Some(NoUserList)
    ensures e.None? ==>
      && r.info.Answered? && r.info.body.result.Some? && |r.info.body.result.value| > 0
      && r.rating.Answered? && r.rating.body.result.Some?
      && r.status.Answered? && r.status.body.result.Some?
      && AllHaveProblems(r.status.body.result.value)
      && FindByHandle(store, handle).Some?
    ensures r.info.Answered? && r.info.body.result.Some? && r.rating.Raised? ==>
      e == Some(CallFailed(r.rating.message))
    ensures r.info.Answered? && r.info.body.result.Some? && r.rating.Answered? && r.status.Raised? ==>
      e == Some(CallFailed(r.status.message))
    ensures e == Some(StudentNotFound) <==>
      && r.info.Answered? && r.info.body.result.Some? && !r.rating.Raised? && !r.status.Raised?
      && FindByHandle(store, handle).None?
  {
    if r.info.Raised? then Some(CallFailed(r.info.message))
    else if r.info.body.result.None? then Some(NoUserList)
    else if r.rating.Raised? then Some(CallFailed(r.rating.message))
    else if r.status.Raised? then Some(CallFailed(r.status.message))
    else if FindByHandle(store, handle).None? then Some(StudentNotFound)
    else if r.status.body.result.None? then Some(NoSubmissionList)
    else if !AllHaveProblems(r.status.body.result.value) then Some(SubmissionWithoutProblem)
    else if |r.info.body.result.value| == 0 then Some(NoUserEntry)
    else if r.rating.body.result.None? then Some(NoRatingList)
    else None
  }

  /** `fetchCodeforcesData`: an error before the save leaves everything as
      it was; otherwise the record is saved, and then, when the newest
      submission is a week old and notifications are on, the reminder is
      sent. Only a delivered reminder advances the bookkeeping; a failed one
      makes the call fail although the record is already saved. */
  function Fetch(store: seq<Student>, handle: string, r: Responses, enabled: bool,
                 notices: Notices, send: Send, nowMs: int): (run: Run)
    ensures Blocker(store, handle, r).Some? ==>
      run == Run(store, notices, Err(Blocker(store, handle, r).value))
    ensures Blocker(store, handle, r).None? ==>
      var i := FindByHandle(store, handle).value;
      var subs := r.status.body.result.value;
      var saved := Refreshed(store[i], r.info.body.result.value[0], subs, r.rating.body.result.value, nowMs);
      && run.store == store[i := saved]
      && (run.notices != notices <==> Inactive(subs, nowMs) && enabled && send.Delivered?)
      && (run.notices != notices ==> run.notices == Notices(Some(nowMs), notices.sentCount + 1))
      && (run.result.Err? <==> Inactive(subs, nowMs) && enabled && send.SendFailed?)
      && (run.result.Err? ==> run.result.error == ReminderFailed(send.message))
      && (run.result.Ok? ==> run.result.value == saved)
  {
    match Blocker(store, handle, r)
    case Some(e) => Run(store, notices, Err(e))
    case None =>
      var i := FindByHandle(store, handle).value;
      var subs := r.status.body.result.value;
      var saved := Refreshed(store[i], r.info.body.result.value[0], subs, r.rating.body.result.value, nowMs);
      var store' := store[i := saved];
      if Inactive(subs, nowMs) && enabled then
        match send
        case Delivered => Run(store', Notices(Some(nowMs), notices.sentCount + 1), Ok(saved))
        case SendFailed(m) => Run(store', notices, Err(ReminderFailed(m)))
      else Run(store', notices, Ok(saved))
  }

  /** Under the declared schema `emailNotifications.enabled` is
      `undefined`, so the reminder never goes out and the sync can only fail
      before the save. */
  lemma NoReminderUnderSchema(store: seq<Student>, handle: string, r: Responses,
                              notices: Notices, send: Send, nowMs: int)
    ensures Fetch(store, handle, r, false, notices, send, nowMs).notices == notices
    ensures Fetch(store, handle, r, false, notices, send, nowMs).result.Err? <==>
      Blocker(store, handle, r).Some?
  {
  }

  /** What a successful sync saves: ratings default to 0, `problemsSolved`
      equals `totalSolved` and both count distinct solved keys, the contest
      history is the rating list mapped one-to-one, every submission is kept
      in order, and no other field changes. */
  lemma RefreshedRecord(st: Student, u: UserInfo, subs: seq<Submission>, history: seq<RatingChange>, nowMs: int)
    requires AllHaveProblems(subs)
    ensures var s := Refreshed(st, u, subs, history, nowMs);
      && s.currentRating == OrZero(u.rating) && s.maxRating == OrZero(u.maxRating)
      && s.problemsSolved == s.problemSolvingData.totalSolved == |ServiceAggregate.SolvedKeys(subs)|
      && s.lastUpdatedMs == nowMs
      && |s.contestHistory| == |history|
      && (forall k | 0 <= k < |history| :: Mapping.FromContestEntry(s.contestHistory[k]) == history[k])
      && |s.recentSubmissions| == |subs|
      && s.id == st.id && s.name == st.name && s.email == st.email
      && s.codeforcesHandle == st.codeforcesHandle
      && s.emailNotifications == st.emailNotifications
      && s.reminderEmailCount == st.reminderEmailCount
      && s.lastSubmissionDateMs == st.lastSubmissionDateMs
  {
    ServiceAggregate.StoredSolvingData(subs);
  }
}

=== FILE: sorting.dfy ===
/** The stable sort of `Array.prototype.sort` with a numeric comparator
    `(a, b) => key(a) - key(b)`, and `slice(0, n)`.

    Every ordering in the core is of this shape: catalog entries ascending
    by rating, tag statistics descending by solved count (key `-solved`),
    comparison history ascending by date. The sort is insertion sort; it is
    specified by the three facts that pin a stable sort down: the result is
    ordered by the key, is a permutation of the input, and keeps the input
    order among elements with equal keys.
 */
module Sorting {

  /** `s` is ascending by `key`. */
  ghost predicate SortedBy<T>(s: seq<T>, key: T -> int) {
    forall i, j | 0 <= i < j < |s| :: key(s[i]) <= key(s[j])
  }

  /** The elements of `s` whose key is `k`, in order. */
  function WithKey<T>(s: seq<T>, key: T -> int, k: int): (r: seq<T>)
    ensures |r| <= |s|
    decreases |s|
  {
    if s == [] then []
    else WithKey(s[..|s| - 1], key, k) + (if key(s[|s| - 1]) == k then [s[|s| - 1]] else [])
  }

  lemma {:induction false} WithKeyAppend<T>(a: seq<T>, b: seq<T>, key: T -> int, k: int)
    ensures WithKey(a + b, key, k) == WithKey(a, key, k) + WithKey(b, key, k)
    decreases |b|
  {
    if b == [] {
      assert a + b == a;
    } else {
      var b' := b[..|b| - 1];
      assert (a + b)[..|a + b| - 1] == a + b';
      WithKeyAppend(a, b', key, k);
    }
  }

  lemma WithKeyNone<T>(s: seq<T>, key: T -> int, k: int)
    requires forall i | 0 <= i < |s| :: key(s[i]) != k
    ensures WithKey(s, key, k) == []
    decreases |s|
  {
    if s != [] {
      WithKeyNone(s[..|s| - 1], key, k);
    }
  }

  /** Inserts `x` into the ascending `s` after every element whose key is
      not greater than `key(x)`. */
  function Insert<T>(x: T, s: seq<T>, key: T -> int): (r: seq<T>)
    ensures |r| == |s| + 1
    ensures multiset(r) == multiset(s) + multiset{x}
    decreases |s|
  {
    if s == [] then [x]
    else
      assert s == [s[0]] + s[1..];
      if key(s[0]) <= key(x) then [s[0]] + Insert(x, s[1..], key) else [x] + s
  }

  /** Stable insertion sort ascending by `key`. */
  function SortBy<T>(s: seq<T>, key: T -> int): (r: seq<T>)
    ensures |r| == |s|
    ensures multiset(r) == multiset(s)
    decreases |s|
  {
    if s == [] then []
    else
      assert s == s[..|s| - 1] + [s[|s| - 1]];
      Insert(s[|s| - 1], SortBy(s[..|s| - 1], key), key)
  }

  lemma {:induction false} InsertSorted<T>(x: T, s: seq<T>, key: T -> int)
    requires SortedBy(s, key)
    ensures SortedBy(Insert(x, s, key), key)
    decreases |s|
  {
    if s != [] && key(s[0]) <= key(x) {
      InsertSorted(x, s[1..], key);
      var r := Insert(x, s[1..], key);
      assert multiset(r) == multiset(s[1..]) + multiset{x};
      forall j | 0 <= j < |r|
        ensures key(s[0]) <= key(r[j])
      {
        assert r[j] in multiset(r);
        if r[j] != x {
          assert r[j] in multiset(s[1..]);
          var m :| 0 <= m < |s[1..]| && s[1..][m] == r[j];
          assert s[1..][m] == s[m + 1];
        }
      }
    }
  }

  lemma WithKeyCons<T>(y: T, s: seq<T>, key: T -> int, k: int)
    ensures WithKey([y] + s, key, k) == (if key(y) == k then [y] else []) + WithKey(s, key, k)
  {
    WithKeyAppend([y], s, key, k);
    assert WithKey([y], key, k) == WithKey([y][..0], key, k) + (if key(y) == k then [y] else []);
  }

  lemma InsertWithKeyBehind<T>(x: T, s: seq<T>, key: T -> int, k: int)
    requires s != [] && key(s[0]) <= key(x)
    requires WithKey(Insert(x, s[1..], key), key, k)
          == WithKey(s[1..], key, k) + (if key(x) == k then [x] else [])
    ensures WithKey(Insert(x, s, key), key, k)
         == WithKey(s, key, k) + (if key(x) == k then [x] else [])
  {
    assert Insert(x, s, key) == [s[0]] + Insert(x, s[1..], key);
    assert s == [s[0]] + s[1..];
    ConsKeepsTail(s[0], s[1..], Insert(x, s[1..], key), key, k, if key(x) == k then [x] else []);
  }

  /** Putting the same element in front of two sequences keeps a relation
      between their `k`-keyed elements that only appends at the back. */
  lemma ConsKeepsTail<T>(y: T, t: seq<T>, rest: seq<T>, key: T -> int, k: int, tail: seq<T>)
    requires WithKey(rest, key, k) == WithKey(t, key, k) + tail
    ensures WithKey([y] + rest, key, k) == WithKey([y] + t, key, k) + tail
  {
    WithKeyCons(y, rest, key, k);
    WithKeyCons(y, t, key, k);
    Regroup(if key(y) == k then [y] else [], WithKey(t, key, k), tail);
  }

  lemma Regroup<T>(a: seq<T>, b: seq<T>, c: seq<T>)
    ensures a + (b + c) == (a + b) + c
  {
  }

  lemma InsertWithKeyFront<T>(x: T, s: seq<T>, key: T -> int, k: int)
    requires s != [] && key(x) < key(s[0])
    requires forall i | 0 <= i < |s| :: key(s[0]) <= key(s[i])
    ensures WithKey(Insert(x, s, key), key, k)
         == WithKey(s, key, k) + (if key(x) == k then [x] else [])
  {
    assert Insert(x, s, key) == [x] + s;
    WithKeyCons(x, s, key, k);
    if key(x) == k {
      WithKeyNone(s, key, k);
    }
  }

  lemma {:induction false} InsertWithKey<T>(x: T, s: seq<T>, key: T -> int, k: int)
    requires SortedBy(s, key)
    ensures WithKey(Insert(x, s, key), key, k)
         == WithKey(s, key, k) + (if key(x) == k then [x] else [])
    decreases |s|
  {
    if s == [] {
      WithKeyCons(x, [], key, k);
      assert Insert(x, s, key) == [x] + [];
    } else if key(s[0]) <= key(x) {
      assert SortedBy(s[1..], key);
      InsertWithKey(x, s[1..], key, k);
      InsertWithKeyBehind(x, s, key, k);
    } else {
      InsertWithKeyFront(x, s, key, k);
    }
  }

  /** The sort orders its input ascending by key. */
  lemma {:induction false} SortBySorted<T>(s: seq<T>, key: T -> int)
    ensures SortedBy(SortBy(s, key), key)
    decreases |s|
  {
    if s != [] {
      SortBySorted(s[..|s| - 1], key);
      InsertSorted(s[|s| - 1], SortBy(s[..|s| - 1], key), key);
    }
  }

  /** The sort is stable: the elements sharing any one key appear in the
      result in exactly their input order. */
  lemma {:induction false} SortByStable<T>(s: seq<T>, key: T -> int, k: int)
    ensures WithKey(SortBy(s, key), key, k) == WithKey(s, key, k)
    decreases |s|
  {
    if s != [] {
      SortByStable(s[..|s| - 1], key, k);
      SortBySorted(s[..|s| - 1], key);
      InsertWithKey(s[|s| - 1], SortBy(s[..|s| - 1], key), key, k);
    }
  }

  /** `s.slice(0, n)`. */
  function Take<T>(s: seq<T>, n: nat): (r: seq<T>)
    ensures |r| == if |s| < n then |s| else n
    ensures forall i | 0 <= i < |r| :: r[i] == s[i]
  {
    if |s| < n then s else s[..n]
  }

  lemma SortedPrefixCovers<T>(t: seq<T>, key: T -> int, n: nat)
    requires SortedBy(t, key)
    requires 0 < n <= |t|
    ensures SortedBy(t[..n], key)
    ensures forall x | x in t && key(x) < key(t[n - 1]) :: x in t[..n]
  {
    forall x | x in t && key(x) < key(t[n - 1])
      ensures x in t[..n]
    {
      var m :| 0 <= m < |t| && t[m] == x;
      assert m < n;
      assert t[..n][m] == x;
    }
  }

  /** Sorting then keeping the first `n` elements yields an ascending prefix of
      at most `n` elements drawn from the input, and nothing left out has a
      smaller key than the last element kept. */
  lemma SortTake<T>(s: seq<T>, key: T -> int, n: nat)
    ensures var r := Take(SortBy(s, key), n);
      && |r| <= n
      && SortedBy(r, key)
      && multiset(r) <= multiset(s)
      && (|r| > 0 ==> forall x | x in s && key(x) < key(r[|r| - 1]) :: x in r)
  {
    var t := SortBy(s, key);
    var r := Take(t, n);
    assert r == t[..|r|];
    assert t == r + t[|r|..];
    assert multiset(t) == multiset(r) + multiset(t[|r|..]);
    if |r| > 0 {
      SortBySorted(s, key);
      SortedPrefixCovers(t, key, |r|);
      forall x | x in s
        ensures x in t
      {
        assert x in multiset(s);
      }
    }
  }
}

=== FILE: student_controller.dfy ===
/** `getAllStudents` of server/src/controllers/studentController.js: every
    stored student, highest current rating first, with the selected fields
    and a derived problems-per-day average. (`getProblemRecommendations` of
    the same file is `Recommend.ControllerRecommend`.)

    The average is kept as an exact rational; `toFixed(2)` is not modelled,
    so "0.00" is the average 0.
 */
module StudentController {
  import opened StudentSchema
  import Sorting
  import Calendar

  /** A listed student: the fields `select` keeps, and the solving data with
      `averageProblemsPerDay` added. */
  datatype Listed = Listed(
    id: string,
    name: string,
    codeforcesHandle: string,
    currentRating: int,
    maxRating: int,
    problemsSolved: nat,
    problemSolvingData: SolvingData,
    averageProblemsPerDay: real,
    recentSubmissions: seq<StoredSubmission>)

  /** `problemsSolved / max(1, ceil((newest - oldest) / day))`, where the
      newest is the first stored recent submission and the oldest the last;
      0 without recent submissions. */
  function AverageProblemsPerDay(st: Student): (avg: real)
    ensures avg >= 0.0
    ensures avg == 0.0 <==> st.recentSubmissions == [] || st.problemsSolved == 0
    ensures st.recentSubmissions != [] ==>
      var recent := st.recentSubmissions;
      avg * Calendar.DaysSpanned(recent[0].dateMs - recent[|recent| - 1].dateMs) as real == st.problemsSolved as real
    ensures avg <= st.problemsSolved as real
  {
    var recent := st.recentSubmissions;
    if recent == [] then 0.0
    else
      var days := Calendar.DaysSpanned(recent[0].dateMs - recent[|recent| - 1].dateMs);
      Calendar.PerDay(st.problemsSolved, days);
      st.problemsSolved as real / days as real
  }

  /** One student as listed. The schema gives every record a `tagStats`
      array, so the "missing `tagStats` becomes `[]`" step leaves it as it
      is. */
  function ListOne(st: Student): (l: Listed)
    ensures l.id == st.id && l.name == st.name && l.codeforcesHandle == st.codeforcesHandle
    ensures l.currentRating == st.currentRating && l.maxRating == st.maxRating
    ensures l.problemsSolved == st.problemsSolved && l.recentSubmissions == st.recentSubmissions
    ensures l.problemSolvingData == st.problemSolvingData
    ensures l.averageProblemsPerDay == AverageProblemsPerDay(st)
  {
    Listed(st.id, st.name, st.codeforcesHandle, st.currentRating, st.maxRating, st.problemsSolved,
           st.problemSolvingData, AverageProblemsPerDay(st), st.recentSubmissions)
  }

  /** The sort key of `sort({currentRating: -1})`. */
  function Descending(st: Student): int {
    0 - st.currentRating
  }

  /** The order the query returns: highest current rating first; students
      of equal rating keep their store order. */
  function ByRating(store: seq<Student>): (r: seq<Student>)
    ensures |r| == |store|
    ensures multiset(r) == multiset(store)
  {
    Sorting.SortBy(store, Descending)
  }

  /** `getAllStudents`. */
  function ListStudents(store: seq<Student>): (r: seq<Listed>)
    ensures |r| == |store|
  {
    var sorted := ByRating(store);
    seq(|sorted|, i requires 0 <= i < |sorted| => ListOne(sorted[i]))
  }

  /** Current ratings never rise down the list. */
  lemma ListingOrdered(store: seq<Student>)
    ensures var r := ListStudents(store);
      forall i, j | 0 <= i < j < |r| :: r[i].currentRating >= r[j].currentRating
  {
    var sorted := ByRating(store);
    var r := ListStudents(store);
    Sorting.SortBySorted(store, Descending);
    forall i, j | 0 <= i < j < |r| ensures r[i].currentRating >= r[j].currentRating {
      assert Descending(sorted[i]) <= Descending(sorted[j]);
    }
  }

  /** Every entry of the listing lists a stored student. */
  lemma ListedIsStored(store: seq<Student>, i: nat)
    requires i < |store|
    ensures exists k | 0 <= k < |store| :: ListStudents(store)[i] == ListOne(store[k])
  {
    var sorted := ByRating(store);
    assert sorted[i] in multiset(store);
    var k :| 0 <= k < |store| && store[k] == sorted[i];
    assert ListStudents(store)[i] == ListOne(store[k]);
  }

  /** Every stored student is listed. */
  lemma StoredIsListed(store: seq<Student>, k: nat)
    requires k < |store|
    ensures exists i | 0 <= i < |store| :: ListStudents(store)[i] == ListOne(store[k])
  {
    var sorted := ByRating(store);
    assert store[k] in multiset(sorted);
    var i :| 0 <= i < |sorted| && sorted[i] == store[k];
    assert ListStudents(store)[i] == ListOne(store[k]);
  }
}

=== FILE: student_schema.dfy ===
/** The stored student record (the Mongoose `Student` schema) and the
    insertion rules the schema enforces: required fields, the e-mail
    pattern, unique e-mail and handle, and field defaults.

    Mongoose runs in strict mode, so assignments to paths the schema does not
    declare (`rank`, `averagePerDay`, `submissions`, `lastSent`, `sentCount`)
    are dropped on save; the record below has exactly the declared paths.
 */
module StudentSchema {
  import opened Wrappers
  import opened Rates
  import Text

  /** One `contestHistory` entry; `dateMs` is a `Date` in milliseconds. */
  datatype ContestEntry = ContestEntry(
    contestId: int,
    contestName: string,
    rank: int,
    oldRating: int,
    newRating: int,
    dateMs: int)

  /** The `problem` sub-document of a stored submission; an unset array path
      reads back as `[]`. */
  datatype ProblemRef = ProblemRef(
    contestId: int,
    index: string,
    name: string,
    rating: Option<int>,
    tags: seq<string>)

  /** One `recentSubmissions` entry; `problemRating` is `null` when unrated. */
  datatype StoredSubmission = StoredSubmission(
    problemId: string,
    problemName: string,
    problemRating: Option<int>,
    verdict: string,
    dateMs: int,
    problem: ProblemRef)

  /** One `tagStats` entry; the `successRate` string is kept as the rate it
      renders. */
  datatype TagStat = TagStat(
    tag: string,
    solved: nat,
    attempted: nat,
    successRate: RateText)

  /** One `problemsByRating` row. */
  datatype RatingCount = RatingCount(rating: int, count: nat)

  /** `problemSolvingData`: the only declared paths are `totalSolved`,
      `problemsByRating` and `tagStats`. */
  datatype SolvingData = SolvingData(
    totalSolved: nat,
    problemsByRating: seq<RatingCount>,
    tagStats: seq<TagStat>)

  /** A stored student. `emailNotifications` is a Boolean path. */
  datatype Student = Student(
    id: string,
    name: string,
    email: string,
    codeforcesHandle: string,
    currentRating: int,
    maxRating: int,
    problemsSolved: nat,
    lastUpdatedMs: int,
    emailNotifications: bool,
    reminderEmailCount: nat,
    lastSubmissionDateMs: Option<int>,
    contestHistory: seq<ContestEntry>,
    recentSubmissions: seq<StoredSubmission>,
    problemSolvingData: SolvingData)

  /** The fields a create request supplies. */
  datatype NewStudent = NewStudent(name: string, email: string, codeforcesHandle: string)

  /** The reasons an insertion is refused: the schema validators (all
      reported together) and the unique indexes. */
  datatype CreateError =
    | NameRequired
    | EmailRequired
    | EmailInvalid
    | HandleRequired
    | DuplicateKey

  /** `\w`: an ASCII letter, digit or underscore. */
  predicate IsWordChar(c: char) {
    ('a' <= c <= 'z') || ('A' <= c <= 'Z') || ('0' <= c <= '9') || c == '_'
  }

  /** The separators `[\.-]` of the schema pattern. */
  predicate IsSeparator(c: char) {
    c == '.' || c == '-'
  }

  /** The language of `\w+([\.-]?\w+)*`: word characters and single
      separators, starting and ending with a word character. */
  predicate DottedWord(s: string) {
    && |s| >= 1
    && IsWordChar(s[0])
    && IsWordChar(s[|s| - 1])
    && (forall i | 0 <= i < |s| :: IsWordChar(s[i]) || IsSeparator(s[i]))
    && (forall i | 0 <= i < |s| - 1 :: IsSeparator(s[i]) ==> IsWordChar(s[i + 1]))
  }

  /** The language of `\w+([\.-]?\w+)*(\.\w{2,3})+`: a dotted word followed
      by a final `.` and two or three word characters (earlier groups of the
      repetition are absorbed by the dotted word). */
  predicate DomainPart(d: string) {
    exists j | 0 < j < |d| ::
      && d[j] == '.'
      && DottedWord(d[..j])
      && 2 <= |d| - j - 1 <= 3
      && (forall k | j < k < |d| :: IsWordChar(d[k]))
  }

  /** The schema's e-mail pattern
      `^\w+([\.-]?\w+)*@\w+([\.-]?\w+)*(\.\w{2,3})+$`. */
  predicate EmailMatches(s: string) {
    exists i | 0 <= i < |s| ::
      && s[i] == '@'
      && DottedWord(s[..i])
      && DomainPart(s[i + 1..])
  }

  /** `findById`: the position of the student with this `_id`. */
  function FindById(store: seq<Student>, id: string): (r: Option<nat>)
    ensures r.Some? ==> r.value < |store| && store[r.value].id == id
    ensures r.None? ==> forall i | 0 <= i < |store| :: store[i].id != id
    decreases |store|
  {
    if store == [] then None
    else if store[0].id == id then Some(0)
    else match FindById(store[1..], id)
      case None => None
      case Some(i) => Some(i + 1)
  }

  /** A string Mongoose can cast to an ObjectId: 24 hexadecimal digits. */
  predicate IsObjectId(id: string) {
    |id| == 24 && forall i | 0 <= i < |id| :: IsHexDigit(id[i])
  }

  /** The message of the `CastError` a malformed `_id` raises. */
  function CastMessage(id: string): string {
    "Cast to ObjectId failed for value \"" + id + "\" (type string) at path \"_id\" for model \"Student\""
  }

  /** `findById` on a request's `:id`: the query first casts the id, and a
      string that is not an ObjectId throws a `CastError`; a well-formed id
      finds the student with that `_id`, or no one. */
  function LookupId(store: seq<Student>, id: string): (r: Result<Option<nat>, string>)
    ensures r.Err? <==> !IsObjectId(id)
    ensures r.Err? ==> r.error == CastMessage(id)
    ensures r.Ok? && r.value.Some? ==> r.value.value < |store| && store[r.value.value].id == id
    ensures r.Ok? && r.value.None? ==> forall i | 0 <= i < |store| :: store[i].id != id
  {
    if !IsObjectId(id) then Err(CastMessage(id)) else Ok(FindById(store, id))
  }

  /** `findOne({codeforcesHandle})`: the position of the student with this
      handle. */
  function FindByHandle(store: seq<Student>, handle: string): (r: Option<nat>)
    ensures r.Some? ==> r.value < |store| && store[r.value].codeforcesHandle == handle
    ensures r.None? ==> forall i | 0 <= i < |store| :: store[i].codeforcesHandle != handle
    decreases |store|
  {
    if store == [] then None
    else if store[0].codeforcesHandle == handle then Some(0)
    else match FindByHandle(store[1..], handle)
      case None => None
      case Some(i) => Some(i + 1)
  }

  /** No two stored students share an e-mail or a handle. */
  ghost predicate UniqueKeys(store: seq<Student>) {
    forall i, j | 0 <= i < j < |store| ::
      && store[i].email != store[j].email
      && store[i].codeforcesHandle != store[j].codeforcesHandle
  }

  /** Some stored student already has this e-mail or handle. */
  predicate Collides(store: seq<Student>, email: string, handle: string) {
    exists i | 0 <= i < |store| :: store[i].email == email || store[i].codeforcesHandle == handle
  }

  /** The validator failures of a create request. The `trim` setter runs
      before `required`; an empty e-mail fails `required` and skips `match`. */
  function ValidationErrors(form: NewStudent): set<CreateError> {
    (if Text.Trim(form.name) == "" then {NameRequired} else {})
    + (if form.email == "" then {EmailRequired}
       else if !EmailMatches(form.email) then {EmailInvalid} else {})
    + (if form.codeforcesHandle == "" then {HandleRequired} else {})
  }

  /** The optional scalar paths a create body may also carry; `None` is a
      path the body leaves out, which then takes its schema default. */
  datatype Overrides = Overrides(
    currentRating: Option<int>,
    maxRating: Option<int>,
    problemsSolved: Option<nat>,
    lastUpdatedMs: Option<int>,
    emailNotifications: Option<bool>,
    reminderEmailCount: Option<nat>,
    lastSubmissionDateMs: Option<int>)

  /** A body with only the three form fields. */
  const NoOverrides := Overrides(None, None, None, None, None, None, None)

  /** A freshly created student: the body's values where given, the declared
      defaults elsewhere (`lastUpdated` defaults to the creation time). */
  function Fresh(id: string, name: string, form: NewStudent, extra: Overrides, nowMs: int): Student {
    Student(id, name, form.email, form.codeforcesHandle,
            extra.currentRating.GetOr(0), extra.maxRating.GetOr(0),
            extra.problemsSolved.GetOr(0), extra.lastUpdatedMs.GetOr(nowMs),
            extra.emailNotifications.GetOr(true), extra.reminderEmailCount.GetOr(0),
            extra.lastSubmissionDateMs,
            [], [], SolvingData(0, [], []))
  }

  /** `Student.create`: validation, then insertion under the two unique
      indexes. The new record takes each optional path from the body when
      present and its schema default otherwise, and is appended to the store. */
  function Create(store: seq<Student>, id: string, form: NewStudent, extra: Overrides, nowMs: int)
    : (r: Result<seq<Student>, set<CreateError>>)
    ensures r.Err? <==>
      ValidationErrors(form) != {} || Collides(store, form.email, form.codeforcesHandle)
    ensures r.Ok? ==>
      && |r.value| == |store| + 1
      && r.value[..|store|] == store
      && var s := r.value[|store|];
      && s.id == id
      && s.name == Text.Trim(form.name) && s.name != "" && EmailMatches(s.email)
      && s.codeforcesHandle == form.codeforcesHandle && s.codeforcesHandle != ""
      && (extra.currentRating.Some? ==> s.currentRating == extra.currentRating.value)
      && (extra.currentRating.None? ==> s.currentRating == 0)
      && (extra.maxRating.Some? ==> s.maxRating == extra.maxRating.value)
      && (extra.maxRating.None? ==> s.maxRating == 0)
      && (extra.problemsSolved.Some? ==> s.problemsSolved == extra.problemsSolved.value)
      && (extra.problemsSolved.None? ==> s.problemsSolved == 0)
      && (extra.lastUpdatedMs.Some? ==> s.lastUpdatedMs == extra.lastUpdatedMs.value)
      && (extra.lastUpdatedMs.None? ==> s.lastUpdatedMs == nowMs)
      && (extra.emailNotifications.Some? ==> s.emailNotifications == extra.emailNotifications.value)
      && (extra.emailNotifications.None? ==> s.emailNotifications)
      && (extra.reminderEmailCount.Some? ==> s.reminderEmailCount == extra.reminderEmailCount.value)
      && (extra.reminderEmailCount.None? ==> s.reminderEmailCount == 0)
      && s.lastSubmissionDateMs == extra.lastSubmissionDateMs
      && s.contestHistory == [] && s.recentSubmissions == []
      && s.problemSolvingData.totalSolved == 0
    ensures r.Err? && ValidationErrors(form) != {} ==>
      r.error == ValidationErrors(form)
  {
    var errors := ValidationErrors(form);
    if errors != {} then Err(errors)
    else if Collides(store, form.email, form.codeforcesHandle) then Err({DuplicateKey})
    else Ok(store + [Fresh(id, Text.Trim(form.name), form, extra, nowMs)])
  }

  /** A body with only the form fields gets every schema default: ratings,
      solved and reminder counts 0, notifications on, the creation time as
      `lastUpdated`, no last submission and empty histories. */
  lemma CreateDefaults(store: seq<Student>, id: string, form: NewStudent, nowMs: int)
    requires Create(store, id, form, NoOverrides, nowMs).Ok?
    ensures var s := Create(store, id, form, NoOverrides, nowMs).value[|store|];
      && s.currentRating == 0 && s.maxRating == 0 && s.problemsSolved == 0
      && s.reminderEmailCount == 0 && s.emailNotifications && s.lastUpdatedMs == nowMs
      && s.lastSubmissionDateMs == None
      && s.contestHistory == [] && s.recentSubmissions == []
      && s.problemSolvingData == SolvingData(0, [], [])
  {
  }

  /** Insertion keeps e-mails and handles unique. */
  lemma CreateKeepsUnique(store: seq<Student>, id: string, form: NewStudent, extra: Overrides, nowMs: int)
    requires UniqueKeys(store)
    requires Create(store, id, form, extra, nowMs).Ok?
    ensures UniqueKeys(Create(store, id, form, extra, nowMs).value)
  {
    var r := Create(store, id, form, extra, nowMs).value;
    assert !Collides(store, form.email, form.codeforcesHandle);
    forall i, j | 0 <= i < j < |r|
      ensures r[i].email != r[j].email && r[i].codeforcesHandle != r[j].codeforcesHandle
    {
      if j == |store| {
        assert r[i] == store[i];
        assert !(store[i].email == form.email || store[i].codeforcesHandle == form.codeforcesHandle);
      } else {
        assert r[i] == store[i] && r[j] == store[j];
      }
    }
  }
}

=== FILE: student_table.dfy ===
/** The data-grid student page, client/src/components/student/StudentList.js:
    the add-student dialog's form, its submit and delete flows, and the CSV
    export.

    The outcome of each request (and of the browser's confirmation prompt)
    is an input; the download itself is not modelled.
 */
module StudentTable {
  import opened StudentSchema
  import Text

  // ---- The add-student dialog ----

  /** `formData`. */
  datatype Form = Form(name: string, email: string, phoneNumber: string, codeforcesHandle: string)

  /** The inputs of the dialog, by their `name` attribute. */
  datatype Field = NameField | EmailField | PhoneField | HandleField

  const EmptyForm: Form := Form("", "", "", "")

  function Get(form: Form, f: Field): string {
    match f
    case NameField => form.name
    case EmailField => form.email
    case PhoneField => form.phoneNumber
    case HandleField => form.codeforcesHandle
  }

  /** `handleInputChange`: `{...formData, [e.target.name]: e.target.value}`. */
  function Change(form: Form, f: Field, value: string): (r: Form)
    ensures Get(r, f) == value
    ensures forall g | g != f :: Get(r, g) == Get(form, g)
  {
    match f
    case NameField => form.(name := value)
    case EmailField => form.(email := value)
    case PhoneField => form.(phoneNumber := value)
    case HandleField => form.(codeforcesHandle := value)
  }

  /** The dialog and the page's error line. */
  datatype Dialog = Dialog(open: bool, form: Form, error: string)

  /** `handleClose`: the dialog closes and every field is cleared. */
  function Close(d: Dialog): (r: Dialog)
    ensures !r.open && r.error == d.error
    ensures forall f :: Get(r.form, f) == ""
  {
    Dialog(false, EmptyForm, d.error)
  }

  /** Editing a field and closing leaves the same dialog as closing alone. */
  lemma CloseForgetsEdits(d: Dialog, f: Field, value: string)
    ensures Close(d.(form := Change(d.form, f, value))) == Close(d)
  {
  }

  const AddFailed: string := "Failed to add student. Please try again."
  const DeleteFailed: string := "Failed to delete student. Please try again."

  /** `handleSubmit`: the form is posted; when a handle was typed, a sync
      of that handle follows. Either request failing shows the add error
      and keeps the dialog (even when only the sync failed, after the
      student was created). Otherwise the dialog closes and the list is
      fetched again (the second component of the answer). */
  function Submit(d: Dialog, posted: bool, synced: bool): (r: (Dialog, bool))
    ensures r.1 <==> posted && (d.form.codeforcesHandle == "" || synced)
    ensures r.1 ==> r.0 == Close(d)
    ensures !r.1 ==> r.0 == d.(error := AddFailed)
  {
    if !posted then (d.(error := AddFailed), false)
    else if d.form.codeforcesHandle != "" && !synced then (d.(error := AddFailed), false)
    else (Close(d), true)
  }

  /** `handleDelete`: nothing happens unless the prompt is confirmed; then a
      successful delete fetches the list again and a failed one shows the
      delete error. Answers the error line and whether the list is
      fetched again. */
  function Delete(error: string, confirmed: bool, deleted: bool): (r: (string, bool))
    ensures !confirmed ==> r == (error, false)
    ensures confirmed && deleted ==> r == (error, true)
    ensures confirmed && !deleted ==> r == (DeleteFailed, false)
  {
    if !confirmed then (error, false)
    else if deleted then (error, true)
    else (DeleteFailed, false)
  }

  // ---- CSV export ----

  const Headers: seq<string> := ["Name", "Email", "Phone", "CF Handle", "Current Rating", "Max Rating"]

  /** The cells of one student, in header order. The stored record has no
      `phoneNumber` path (the schema is strict), so `student.phoneNumber`
      is `undefined`, which `join` writes as nothing. */
  function Cells(st: Student): (r: seq<string>)
    ensures |r| == |Headers|
    ensures r[2] == ""
  {
    [st.name, st.email, "", st.codeforcesHandle,
     Text.IntToString(st.currentRating), Text.IntToString(st.maxRating)]
  }

  /** `row.join(',')`. */
  function RowLine(st: Student): string {
    Text.Join(Cells(st), ",")
  }

  function HeaderLine(): string {
    Text.Join(Headers, ",")
  }

  /** The lines of the export: the header line, then one line per listed
      student in list order. */
  function Lines(students: seq<Student>): (r: seq<string>)
    ensures |r| == |students| + 1 && r[0] == HeaderLine()
    ensures forall i | 0 <= i < |students| :: r[i + 1] == RowLine(students[i])
  {
    [HeaderLine()] + seq(|students|, i requires 0 <= i < |students| => RowLine(students[i]))
  }

  /** `handleExportCSV`'s content: the lines joined by newlines. No field is
      quoted. */
  function Csv(students: seq<Student>): string {
    Text.Join(Lines(students), "\n")
  }

  /** The text fields of a student avoid `c`. */
  predicate TextAvoids(st: Student, c: char) {
    c !in st.name && c !in st.email && c !in st.codeforcesHandle
  }

  /** Rendered ratings are digits and a sign, so a cell holds `c` only if
      a text field does. */
  lemma CellsAvoid(st: Student, c: char)
    requires TextAvoids(st, c) && c != '-' && !('0' <= c <= '9')
    ensures forall k | 0 <= k < |Cells(st)| :: c !in Cells(st)[k]
  {
    var r := Cells(st);
    forall k | 0 <= k < |r| ensures c !in r[k] {
      if k == 4 || k == 5 {
        if c in r[k] {
          var i :| 0 <= i < |r[k]| && r[k][i] == c;
        }
      }
    }
  }

  /** Splitting a line of the export at commas gives back the student's
      six cells, provided no text field holds a comma. */
  lemma RowRoundTrip(st: Student)
    requires TextAvoids(st, ',')
    ensures Text.Split(RowLine(st), ',') == Cells(st)
  {
    CellsAvoid(st, ',');
    Text.SplitJoin(Cells(st), ',');
  }

  /** Splitting the export at newlines gives back the header line and one
      line per student in order, provided no text field holds a newline. */
  lemma CsvRoundTrip(students: seq<Student>)
    requires forall i | 0 <= i < |students| :: TextAvoids(students[i], '\n')
    ensures var lines := Text.Split(Csv(students), '\n');
      && |lines| == |students| + 1
      && lines[0] == HeaderLine()
      && forall i | 0 <= i < |students| :: lines[i + 1] == RowLine(students[i])
  {
    LinesAvoid(students);
    Text.SplitJoin(Lines(students), '\n');
  }

  /** No line of the export holds a newline when no text field does. */
  lemma LinesAvoid(students: seq<Student>)
    requires forall i | 0 <= i < |students| :: TextAvoids(students[i], '\n')
    ensures forall k | 0 <= k < |Lines(students)| :: '\n' !in Lines(students)[k]
  {
    var lines := Lines(students);
    forall k | 0 <= k < |lines| ensures '\n' !in lines[k] {
      if k == 0 {
        Text.JoinAvoids(Headers, ",", '\n');
      } else {
        RowAvoids(students[k - 1]);
      }
    }
  }

  /** A student's line holds a newline only if a text field does. */
  lemma RowAvoids(st: Student)
    requires TextAvoids(st, '\n')
    ensures '\n' !in RowLine(st)
  {
    CellsAvoid(st, '\n');
    Text.JoinAvoids(Cells(st), ",", '\n');
  }
}

=== FILE: tag_table.dfy ===
/** The per-tag counter object the aggregations build (`tagMap[tag]` in the
    route, `tagStats.get(tag)` in the service, `tagStats[tag]` in the
    client): a tag is created with both counts 0 on first touch, and keeps
    the position of that first touch when the entries are listed.
 */
module TagTable {

  /** The two counters of one tag. */
  datatype Counts = Counts(solved: nat, attempted: nat)

  /** Tags in first-touch order, and their counters. */
  datatype Table = Table(order: seq<string>, counts: map<string, Counts>)

  /** Which counter a pass over a tag list increments. */
  datatype Counter = Solved | Attempted

  /** The table with no tags. */
  const Empty: Table := Table([], map[])

  /** Every listed tag is listed once, and exactly the listed tags have
      counters. */
  ghost predicate Valid(t: Table) {
    && (forall i, j | 0 <= i < j < |t.order| :: t.order[i] != t.order[j])
    && (forall k :: k in t.counts <==> k in t.order)
  }

  /** The counters of `tag`, zero when the tag was never touched. */
  function Get(t: Table, tag: string): Counts {
    if tag in t.counts then t.counts[tag] else Counts(0, 0)
  }

  /** Increments one counter of `tag`, creating the tag at the end of the
      order when new. */
  function Bump(t: Table, tag: string, which: Counter): (r: Table)
    ensures which == Solved ==> Get(r, tag) == Get(t, tag).(solved := Get(t, tag).solved + 1)
    ensures which == Attempted ==> Get(r, tag) == Get(t, tag).(attempted := Get(t, tag).attempted + 1)
    ensures forall x | x != tag :: Get(r, x) == Get(t, x)
    ensures r.counts.Keys == t.counts.Keys + {tag}
    ensures |t.order| <= |r.order| && r.order[..|t.order|] == t.order
    ensures Valid(t) ==> Valid(r)
    ensures Valid(t) ==> r.order == t.order + (if tag in t.order then [] else [tag])
  {
    var c := Get(t, tag);
    var bumped := if which == Solved then c.(solved := c.solved + 1) else c.(attempted := c.attempted + 1);
    var counts := t.counts[tag := bumped];
    if tag in t.counts then Table(t.order, counts)
    else Table(t.order + [tag], counts)
  }

  /** `tags.forEach(tag => bump(tag))`. */
  function BumpAll(t: Table, tags: seq<string>, which: Counter): (r: Table)
    ensures r.counts.Keys == t.counts.Keys + set x | x in tags
    ensures |t.order| <= |r.order| && r.order[..|t.order|] == t.order
    ensures Valid(t) ==> Valid(r)
    decreases |tags|
  {
    if tags == [] then t
    else
      var init := tags[..|tags| - 1];
      var last := tags[|tags| - 1];
      assert tags == init + [last];
      Bump(BumpAll(t, init, which), last, which)
  }

  /** After a pass over a tag list, the chosen counter of each tag has risen
      by the number of times the list holds the tag, and the other counter is
      unchanged. */
  lemma {:induction false} BumpAllCounts(t: Table, tags: seq<string>, which: Counter, x: string)
    ensures Get(BumpAll(t, tags, which), x).solved
         == Get(t, x).solved + (if which == Solved then multiset(tags)[x] else 0)
    ensures Get(BumpAll(t, tags, which), x).attempted
         == Get(t, x).attempted + (if which == Attempted then multiset(tags)[x] else 0)
    decreases |tags|
  {
    if tags != [] {
      var init := tags[..|tags| - 1];
      var last := tags[|tags| - 1];
      assert tags == init + [last];
      assert multiset(tags) == multiset(init) + multiset{last};
      BumpAllCounts(t, init, which, x);
    }
  }

  /** `Array.from(table.entries())`: the table's entries in listing order;
      of a valid table, every counted tag once, with its own counters. */
  function Entries(t: Table): (r: seq<(string, Counts)>)
    ensures |r| == |t.order|
    ensures forall i | 0 <= i < |r| :: r[i].0 == t.order[i] && r[i].1 == Get(t, r[i].0)
    ensures Valid(t) ==> forall i, j | 0 <= i < j < |r| :: r[i].0 != r[j].0
    ensures Valid(t) ==> forall x :: x in t.counts <==> exists i | 0 <= i < |r| :: r[i].0 == x
    ensures Valid(t) ==> forall i | 0 <= i < |r| :: r[i].1 == t.counts[r[i].0]
  {
    seq(|t.order|, i requires 0 <= i < |t.order| => (t.order[i], Get(t, t.order[i])))
  }

  /** The tags of `tags` that `seen` does not hold, each once, in the order
      of their first occurrence. */
  function FirstTouches(seen: seq<string>, tags: seq<string>): (r: seq<string>)
    decreases |tags|
  {
    if tags == [] then []
    else if tags[0] in seen then FirstTouches(seen, tags[1..])
    else [tags[0]] + FirstTouches(seen + [tags[0]], tags[1..])
  }

  /** Extending the tag list by one tag adds that tag at the end exactly
      when it is neither seen nor among the earlier first touches. */
  lemma {:induction false} FirstTouchesSnoc(seen: seq<string>, init: seq<string>, last: string)
    ensures FirstTouches(seen, init + [last])
         == FirstTouches(seen, init) + (if last in seen + FirstTouches(seen, init) then [] else [last])
    decreases |init|
  {
    if init == [] {
      assert init + [last] == [last];
    } else {
      var a := init[0];
      assert (init + [last])[0] == a && (init + [last])[1..] == init[1..] + [last];
      if a in seen {
        FirstTouchesSnoc(seen, init[1..], last);
      } else {
        FirstTouchesSnoc(seen + [a], init[1..], last);
        assert seen + FirstTouches(seen, init) == (seen + [a]) + FirstTouches(seen + [a], init[1..]);
      }
    }
  }

  /** A pass over a tag list keeps the earlier tags in their places and
      lists the new ones after them in the order of their first
      occurrence. */
  lemma {:induction false} BumpAllOrder(t: Table, tags: seq<string>, which: Counter)
    requires Valid(t)
    ensures BumpAll(t, tags, which).order == t.order + FirstTouches(t.order, tags)
    decreases |tags|
  {
    if tags == [] {
      assert t.order + [] == t.order;
    } else {
      var init := tags[..|tags| - 1];
      var last := tags[|tags| - 1];
      assert tags == init + [last];
      var m := BumpAll(t, init, which);
      assert BumpAll(t, tags, which) == Bump(m, last, which);
      BumpAllOrder(t, init, which);
      var extra := if last in m.order then [] else [last];
      assert Bump(m, last, which).order == m.order + extra;
      FirstTouchesSnoc(t.order, init, last);
      assert FirstTouches(t.order, tags) == FirstTouches(t.order, init) + extra;
      AppendAssoc(t.order, FirstTouches(t.order, init), extra);
    }
  }

  lemma AppendAssoc(a: seq<string>, b: seq<string>, c: seq<string>)
    ensures (a + b) + c == a + (b + c)
  {
  }

  /** The entries after a pass: the earlier tags first, then the new tags
      in the order of their first occurrence. */
  lemma EntriesAfterBumpAll(t: Table, tags: seq<string>, which: Counter)
    requires Valid(t)
    ensures var order := t.order + FirstTouches(t.order, tags);
      var r := Entries(BumpAll(t, tags, which));
      |r| == |order| && forall i | 0 <= i < |r| :: r[i].0 == order[i]
  {
    BumpAllOrder(t, tags, which);
  }

  /** Each entry after a pass carries its tag's chosen counter raised by
      the number of times the list holds the tag. */
  lemma EntryCountsAfterBumpAll(t: Table, tags: seq<string>, which: Counter, i: nat)
    requires i < |BumpAll(t, tags, which).order|
    ensures var e := Entries(BumpAll(t, tags, which))[i];
      && e.1.solved == Get(t, e.0).solved + (if which == Solved then multiset(tags)[e.0] else 0)
      && e.1.attempted == Get(t, e.0).attempted + (if which == Attempted then multiset(tags)[e.0] else 0)
  {
    BumpAllCounts(t, tags, which, BumpAll(t, tags, which).order[i]);
  }
}

=== FILE: text.dfy ===
/** String helpers standing in for the JavaScript built-ins the core uses:
    decimal rendering of numbers (template literals), `trim`,
    `toLowerCase`, `Array.prototype.join` and `String.prototype.split`.
 */
module Text {

  /** The decimal digit for `d`. */
  function Digit(d: nat): (c: char)
    requires d < 10
    ensures '0' <= c <= '9'
  {
    "0123456789"[d]
  }

  /** Decimal rendering of a non-negative integer, as `String(n)` prints it. */
  function NatToString(n: nat): (s: string)
    ensures |s| >= 1
    ensures forall i | 0 <= i < |s| :: '0' <= s[i] <= '9'
    decreases n
  {
    if n < 10 then [Digit(n)] else NatToString(n / 10) + [Digit(n % 10)]
  }

  /** Decimal rendering of any integer, with a leading minus sign when negative. */
  function IntToString(n: int): (s: string)
    ensures |s| >= 1
    ensures forall i | 0 <= i < |s| :: s[i] == '-' || '0' <= s[i] <= '9'
  {
    if n < 0 then "-" + NatToString(-n) else NatToString(n)
  }

  /** The characters matched by `\s` and removed by `trim` in JavaScript:
      WhiteSpace and LineTerminator of ECMA-262. */
  predicate IsSpace(c: char) {
    c == ' ' || c == '\t' || c == '\n' || c == '\r' || c == '\U{B}' || c == '\U{C}'
    || c == '\U{A0}' || c == '\U{1680}' || ('\U{2000}' <= c <= '\U{200A}')
    || c == '\U{2028}' || c == '\U{2029}' || c == '\U{202F}' || c == '\U{205F}'
    || c == '\U{3000}' || c == '\U{FEFF}'
  }

  /** No character of `s` is white space. */
  predicate NoSpace(s: string) {
    forall i | 0 <= i < |s| :: !IsSpace(s[i])
  }

  /** `s` without its leading white space. */
  function TrimStart(s: string): (r: string)
    ensures |r| <= |s| && r == s[|s| - |r|..]
    ensures forall i | 0 <= i < |s| - |r| :: IsSpace(s[i])
    ensures r == [] || !IsSpace(r[0])
    decreases |s|
  {
    if s != [] && IsSpace(s[0]) then TrimStart(s[1..]) else s
  }

  /** `s` without its trailing white space. */
  function TrimEnd(s: string): (r: string)
    ensures |r| <= |s| && r == s[..|r|]
    ensures forall i | |r| <= i < |s| :: IsSpace(s[i])
    ensures r == [] || !IsSpace(r[|r| - 1])
    decreases |s|
  {
    if s != [] && IsSpace(s[|s| - 1]) then TrimEnd(s[..|s| - 1]) else s
  }

  /** `String.prototype.trim`: the longest middle slice of `s` that neither
      starts nor ends with white space; everything cut off is white space. */
  function Trim(s: string): (r: string)
    ensures exists i, j | 0 <= i <= j <= |s| ::
              && r == s[i..j]
              && (forall k | 0 <= k < i :: IsSpace(s[k]))
              && (forall k | j <= k < |s| :: IsSpace(s[k]))
    ensures r == [] || (!IsSpace(r[0]) && !IsSpace(r[|r| - 1]))
  {
    var a := TrimStart(s);
    var r := TrimEnd(a);
    var i := |s| - |a|;
    assert r == s[i..i + |r|];
    r
  }

  /** `toLowerCase` on one character; only the ASCII letters are mapped. */
  function LowerChar(c: char): (d: char)
    ensures !('A' <= d <= 'Z')
  {
    if 'A' <= c <= 'Z' then (c as int - 'A' as int + 'a' as int) as char else c
  }

  /** `toLowerCase` on a string, character by character. */
  function Lower(s: string): (r: string)
    ensures |r| == |s|
    ensures forall i | 0 <= i < |s| :: r[i] == LowerChar(s[i])
  {
    seq(|s|, i requires 0 <= i < |s| => LowerChar(s[i]))
  }

  /** Case-insensitive equality as `a.toLowerCase() === b.toLowerCase()`. */
  predicate SameIgnoringCase(a: string, b: string) {
    Lower(a) == Lower(b)
  }

  /** `parts.join(sep)`. */
  function Join(parts: seq<string>, sep: string): string
    decreases |parts|
  {
    if |parts| == 0 then ""
    else if |parts| == 1 then parts[0]
    else parts[0] + sep + Join(parts[1..], sep)
  }

  /** Position of the first `c` in `s`. */
  function IndexOf(s: string, c: char): (i: nat)
    requires c in s
    ensures i < |s| && s[i] == c && c !in s[..i]
  {
    if s[0] == c then 0 else 1 + IndexOf(s[1..], c)
  }

  /** `s.split(c)` for a one-character separator. */
  function Split(s: string, c: char): (r: seq<string>)
    ensures |r| >= 1
    decreases |s|
  {
    if c !in s then [s]
    else
      var i := IndexOf(s, c);
      [s[..i]] + Split(s[i + 1..], c)
  }

  lemma SplitAfterField(p: string, c: char, rest: string)
    requires c !in p
    ensures Split(p + [c] + rest, c) == [p] + Split(rest, c)
  {
    var s := p + [c] + rest;
    assert s[|p|] == c;
    assert c in s;
    var i := IndexOf(s, c);
    assert i == |p|;
    assert s[..i] == p;
    assert s[i + 1..] == rest;
  }

  /** Splitting a joined line recovers the fields exactly when no field
      contains the separator: the join has no escaping of its own. */
  lemma {:induction false} SplitJoin(parts: seq<string>, c: char)
    requires |parts| >= 1
    requires forall k | 0 <= k < |parts| :: c !in parts[k]
    ensures Split(Join(parts, [c]), c) == parts
    decreases |parts|
  {
    if |parts| == 1 {
      assert Join(parts, [c]) == parts[0];
    } else {
      SplitJoin(parts[1..], c);
      assert Join(parts, [c]) == parts[0] + [c] + Join(parts[1..], [c]);
      SplitAfterField(parts[0], c, Join(parts[1..], [c]));
      assert parts == [parts[0]] + parts[1..];
    }
  }

  /** A join of parts free of `c`, with a separator free of `c`, is free of
      `c`. */
  lemma {:induction false} JoinAvoids(parts: seq<string>, sep: string, c: char)
    requires forall k | 0 <= k < |parts| :: c !in parts[k]
    requires c !in sep
    ensures c !in Join(parts, sep)
    decreases |parts|
  {
    if |parts| > 1 {
      JoinAvoids(parts[1..], sep, c);
    }
  }
}

=== FILE: upstream.dfy ===
/** The records the Codeforces API sends back, as the server and client
    read them, and the two problem-identity strings the code builds.

    Fields the code tests for truthiness are `Option`s (`None` for an absent
    field); an integer field is "truthy" only when present and non-zero.
    Every endpoint the core calls returns an array in `result`, so an
    envelope's result is an optional sequence: `Some` is an array.
 */
module Upstream {
  import opened Wrappers
  import Text

  /** A problem reference: the `problem` of a submission. */
  datatype Problem = Problem(
    contestId: int,
    index: string,
    name: string,
    rating: Option<int>,
    tags: Option<seq<string>>)

  /** One entry of `user.status`. */
  datatype Submission = Submission(
    problem: Option<Problem>,
    verdict: string,
    creationTimeSeconds: int)

  /** One entry of `user.rating`. */
  datatype RatingChange = RatingChange(
    contestId: int,
    contestName: string,
    rank: int,
    oldRating: int,
    newRating: int,
    ratingUpdateTimeSeconds: int)

  /** One entry of `user.info`. */
  datatype UserInfo = UserInfo(
    handle: string,
    rating: Option<int>,
    maxRating: Option<int>,
    rank: Option<string>)

  /** One entry of `problemset.problems`; this endpoint always sends tags. */
  datatype CatalogEntry = CatalogEntry(
    contestId: int,
    index: string,
    name: string,
    rating: Option<int>,
    tags: seq<string>)

  /** The response envelope `{status, result, comment}`. */
  datatype Envelope<T> = Envelope(
    status: string,
    result: Option<seq<T>>,
    comment: Option<string>)

  /** The outcome of one HTTP call as `await axios.get(...)` sees it: the call
      raised (network failure, timeout, non-2xx status) or a body came back. */
  datatype Call<T> = Raised(message: string) | Answered(body: Envelope<T>)

  /** The answers to the three per-user calls: `user.info`, `user.status`
      and `user.rating`. */
  datatype Responses = Responses(
    info: Call<UserInfo>,
    status: Call<Submission>,
    rating: Call<RatingChange>)

  /** Every submission has a problem: code that reads `submission.problem`
      unguarded needs this. */
  predicate AllHaveProblems(subs: seq<Submission>) {
    forall i | 0 <= i < |subs| :: subs[i].problem.Some?
  }

  /** The verdict of an accepted submission. */
  predicate Accepted(s: Submission) {
    s.verdict == "OK"
  }

  /** JavaScript truthiness of an optional number. */
  predicate Truthy(o: Option<int>) {
    o.Some? && o.value != 0
  }

  /** `x || 0`. */
  function OrZero(o: Option<int>): (r: int)
    ensures r != 0 <==> Truthy(o)
    ensures Truthy(o) ==> r == o.value
  {
    if Truthy(o) then o.value else 0
  }

  /** JavaScript truthiness of an optional string (the empty string is falsy). */
  predicate TruthyText(o: Option<string>) {
    o.Some? && o.value != ""
  }

  /** `s || fallback` for an optional string: either the string or the
      fallback, and empty only when both are. */
  function TextOr(o: Option<string>, fallback: string): (r: string)
    ensures TruthyText(o) ==> r == o.value
    ensures !TruthyText(o) ==> r == fallback
    ensures r == fallback || (o.Some? && r == o.value)
    ensures r == "" <==> fallback == "" && !TruthyText(o)
    ensures fallback != "" ==> r != ""
  {
    if TruthyText(o) then o.value else fallback
  }

  /** The envelope reports success. */
  predicate IsOk<T>(e: Envelope<T>) {
    e.status == "OK"
  }

  /** `` `${contestId}-${index}` ``: the problem identity of the route-level sync. */
  function DashKey(contestId: int, index: string): string {
    Text.IntToString(contestId) + "-" + index
  }

  /** `` `${contestId}${index}` ``: the problem identity of recommendation
      exclusion, of the service-level sync and of the client. */
  function ConcatKey(contestId: int, index: string): string {
    Text.IntToString(contestId) + index
  }

  /** The `contestId``index` key of a submission's problem. */
  function SubmissionKey(sub: Submission): string
    requires sub.problem.Some?
  {
    ConcatKey(sub.problem.value.contestId, sub.problem.value.index)
  }
}

=== FILE: wrappers.dfy ===
/** Failure-compatible wrappers shared by every module of the model.

    `Option` stands for a JavaScript value that may be `undefined`/`null`;
    `Result` stands for an operation that either returns or throws.
 */
module Wrappers {

  /** A value that may be absent. */
  datatype Option<+T> = None | Some(value: T) {

    /** The wrapped value, or `default` when absent (JavaScript's `x ?? d`). */
    function GetOr(default: T): T {
      match this
      case Some(v) => v
      case None => default
    }
  }

  /** Either a returned value or a thrown error. */
  datatype Result<+R, +E> = Ok(value: R) | Err(error: E) {

    predicate IsFailure() {
      Err?
    }

    function PropagateFailure<U>(): Result<U, E>
      requires Err?
    {
      Err(error)
    }

    function Extract(): R
      requires Ok?
    {
      value
    }
  }
}
